=== FILE: README.md ===
# IKuYo, modelled in Dafny

IKuYo collects anime releases from the Mikan Project site (mikanani.me):
crawler spiders read the season listings and each anime's release table,
pipelines deduplicate and store what they find, a FastAPI service serves the
library, and a Vue front end shows it. Crawls run as tasks: the API or a
scheduler writes a pending task row, and the API route also pushes the
task's id onto a Redis queue. On the worker side, a consumer pops those
messages and a dispatcher polls the pending rows; either one marks the task
running and submits it to a process pool, where the crawl runs, and the
crawl's progress flows back over Redis to the API's websockets.

This project models that core and proves what it promises:

- **Task orchestration.** The task row and its status life cycle (`TaskModel`),
  the dispatcher and its idle-worker check (`TaskDispatcher`), the Redis queue
  consumer (`RedisConsumer`), the process pool (`ProcessPool`), the progress
  reporter and the relay that forwards progress to websockets
  (`ProgressReporting`, `ProgressConsumer`), the spider runner, crawler task,
  task factory and executor (`SpiderRunner`, `CrawlerTasks`, `TaskFactory`,
  `TaskExecution`), the worker entry points (`WorkerMain`, `LegacyWorker`,
  `CrawlerRunners`) and the cron-driven schedulers (`CronTable`, `Schedulers`).
- **Crawl data.** The release-title parser (`TextParser`), the dynamic
  parser (`DynamicParser`), the Mikan spiders (`IkuyoSpider`, `SrcSpider`,
  `IkuyoScrapySpider`, and the shared row logic of `MikanRows`, `MikanScan`,
  `MikanScript`, `MikanSpiderScript`), the item pipelines and items (`IkuyoPipelines`, `SrcIkuyoPipelines`,
  `ScrapyItems`) and
  the deduplication service (`Deduplication`).
- **Service.** The anime and resource API routes (`AnimeRoutes`,
  `ResourceRoutes`), the Bangumi cache (`CacheService`), the API analyser
  (`ApiAnalyzer`), configuration loading (`Config`, `SrcConfig`, `SrcIkuyoConfig`) and the SQL the
  repositories build (`Database`).
- **Front end.** The Pinia stores for tasks, resources, anime details and
  search (`TaskStore`, `ResourceStore`, `AnimeDetailStore`, `SearchStore`)
  and the task formatting helpers (`TaskUtils`).

Shared modules: `Wrappers` (Option and Result), `PyValue` (JSON-like values
with Python truthiness and dictionary access), `Js` (JavaScript truthiness
and property access), and `Strings` (the string operations the code uses:
search, split, strip, join, integer parsing and printing).

Code that updates state in place is modelled as classes whose fields the
methods reassign: the repository is a class holding its rows as a map, the
services and stores are classes, and loops are `while` or `for` loops with
invariants. Pure logic (parsing, SQL text, routing results) is functions
with lemmas. Blocking calls, the clock, the network, randomness and library
calls the code makes (JSON, hashing, locale rendering) are parameters of
the operations that use them.

## Model

| member | source | states |
|---|---|---|
| TaskModel.NewRecord | ikuyo/core/models/crawler_task.py:7-27 | a new task row has only its type, status and creation time set; every other column, progress included, is empty |
| TaskModel.UpdateProgress | ikuyo/core/models/crawler_task.py:29-47 | each progress column with a given argument is overwritten (the floats rounded to two places), every other column keeps its value |
| TaskModel.UpdateProgressIdempotent | ikuyo/core/models/crawler_task.py:29-47 | repeating the same progress update changes nothing further, given that rounding is idempotent |
| TaskModel.PendingIds | ikuyo/core/repositories/crawler_task_repository.py:43-52 | exactly the keys of the rows whose status is "pending" |
| TaskModel.Store | ikuyo/core/repositories/crawler_task_repository.py:31-35 | writing a row back replaces the row under its own key and leaves every other row as it was; a table whose rows carry their keys keeps that property |
| TaskModel.TaskDb.constructor | ikuyo/core/repositories/crawler_task_repository.py:9-11 | the table starts empty |
| TaskModel.TaskDb.Get | ikuyo/core/repositories/crawler_task_repository.py:19-20 | finds the row exactly when its key is present, and then it is that row |
| TaskModel.TaskDb.Create | ikuyo/core/repositories/crawler_task_repository.py:13-17 | inserts the row under a key not used before, and the returned row carries that key |
| TaskModel.TaskDb.Update | ikuyo/core/repositories/crawler_task_repository.py:31-35 | the row is replaced under its key; the table stays well keyed |
| TaskModel.WithStatus | ikuyo/core/crawler/progress_reporter.py:75-80 | the status is written whatever it was; the error message is replaced only by a non-empty one; `completed_at` is stamped exactly for completed, failed and cancelled; no other column changes |
| TaskModel.Payload | ikuyo/core/worker/redis_consumer.py:191-208 | the worker payload has exactly the keys task_id, task_type, parameters and created_at, with the row's id and the decoded parameters |
| TaskDispatcher.PrepareTaskData | ikuyo/core/worker/task_dispatcher.py:181-204 | a payload exists exactly when the parameters are present, decode, and decode to a truthy value; it has the four payload keys, the row's id and truthy parameters |
| TaskDispatcher.EmptyParametersNotPrepared | ikuyo/core/worker/task_dispatcher.py:186-191 | missing parameters, and parameters that decode to nothing, `{}` or `null`, are never handed to a worker |
| TaskDispatcher.Claimed | ikuyo/core/worker/task_dispatcher.py:116-118 | a claimed row is running, started now, under the same id |
| TaskDispatcher.RolledBack | ikuyo/core/worker/task_dispatcher.py:128-130 | a refused submission leaves the row pending with no start time, under the same id |
| TaskDispatcher.Cycle | ikuyo/core/worker/task_dispatcher.py:99-132 | one pass over the fetched batch never removes a row |
| TaskDispatcher.CycleRows | ikuyo/core/worker/task_dispatcher.py:99-132 | rows outside the batch are untouched; each fetched task ends with the outcome of its own step if the loop reaches it, and untouched otherwise |
| TaskDispatcher.CycleSubmitted | ikuyo/core/worker/task_dispatcher.py:110-127 | at most one payload per fetched task is submitted, and every submitted payload names a fetched task whose row is now running since `now` |
| TaskDispatcher.NoClaimAfterIdleZero | ikuyo/core/worker/task_dispatcher.py:103-105 | once the pool reports no idle worker, that task and every later task of the batch keep their rows |
| TaskDispatcher.UnpreparedTaskUntouched | ikuyo/core/worker/task_dispatcher.py:110-113 | a task whose data cannot be prepared is skipped with its row unchanged, `started_at` included |
| TaskDispatcher.RefusedTaskRolledBack | ikuyo/core/worker/task_dispatcher.py:125-131 | a reached task whose submission is refused is pending again with no start time |
| TaskDispatcher.ApplyResult | ikuyo/core/worker/task_dispatcher.py:206-252 | a result touches at most the row it names; the table keeps its keys |
| TaskDispatcher.ResultWrites | ikuyo/core/worker/task_dispatcher.py:226-245 | "completed" stamps the completion time and the summary (JSON text for a dict, `str` otherwise); "failed" stamps it and the error the result carries, "未知错误" when it carries none; any other status changes nothing; no earlier status, not even "cancelled", prevents either write, and no other field of the row changes |
| TaskDispatcher.ResultIgnored | ikuyo/core/worker/task_dispatcher.py:211-223 | a result with no usable task id, for a missing task, or whose session fails changes nothing |
| TaskDispatcher.Dispatcher.constructor | ikuyo/core/worker/task_dispatcher.py:24-30 | a new dispatcher is stopped, with no thread launched and the given poll interval |
| TaskDispatcher.Dispatcher.Start | ikuyo/core/worker/task_dispatcher.py:32-56 | start always answers true and leaves the dispatcher running; it launches the two threads only when it was not already running |
| TaskDispatcher.Dispatcher.Stop | ikuyo/core/worker/task_dispatcher.py:58-74 | stop answers true and clears the running flag |
| TaskDispatcher.Dispatcher.DispatchCycle | ikuyo/core/worker/task_dispatcher.py:80-143 | with no idle worker, or when the pending query fails, nothing is written or submitted; otherwise the table and the submissions are exactly those of `Cycle` over the fetched batch |
| TaskDispatcher.Dispatcher.DrainResults | ikuyo/core/worker/task_dispatcher.py:149-178 | the results are applied one after another in arrival order, and the table ends as their fold says |
| TaskDispatcher.ErrorText | ikuyo/core/worker/task_dispatcher.py:240 | a null `error` clears the column and a text error is stored as it is; the process pool only ever sends text or nothing |
| TaskDispatcher.ApplyAll | ikuyo/core/worker/task_dispatcher.py:153-158 | applying the results in arrival order never adds or drops a row, and leaves every row that no result names as it was |
| RedisConsumer.PrepareTaskData | ikuyo/core/worker/redis_consumer.py:191-208 | only a decode failure gives no payload; absent parameters are passed on as `None`; a payload has the four payload keys |
| RedisConsumer.EmptyParametersDiffer | ikuyo/core/worker/redis_consumer.py:195-204 | the consumer prepares a task whose parameters are `{}`, which the dispatcher's preparation skips |
| RedisConsumer.ProcessTask | ikuyo/core/worker/redis_consumer.py:135-189 | only the named row can change; a missing or non-pending task, or one that cannot be prepared, is left alone; for a pending, preparable task a payload is submitted exactly when the claim and the submission both succeed, and it is that task's with the row claimed as running since now; a failed claim changes nothing; a refused submission rolls the row back to pending with no start time, or leaves it claimed when the rollback fails |
| RedisConsumer.MessageTaskId | ikuyo/core/worker/redis_consumer.py:101-115 | the task id taken from a message is always truthy |
| RedisConsumer.MalformedMessagesDropped | ikuyo/core/worker/redis_consumer.py:95-115 | nothing popped, a message that is not a pair, or a decoded message without a truthy `task_id` names no task |
| RedisConsumer.Consumer.constructor | ikuyo/core/worker/redis_consumer.py:26-34 | a new consumer is stopped with no thread launched |
| RedisConsumer.Consumer.Start | ikuyo/core/worker/redis_consumer.py:36-64 | true at once when running; a failed ping answers false and stays stopped; otherwise it runs with its consuming thread launched |
| RedisConsumer.Consumer.Stop | ikuyo/core/worker/redis_consumer.py:66-78 | stop answers true and clears the running flag |
| RedisConsumer.Consumer.ConsumeOnce | ikuyo/core/worker/redis_consumer.py:85-117 | a message is popped exactly when a worker is idle; a dropped message or a non-integer id writes nothing; an integer id is handled exactly as `ProcessTask` says |
| ProcessPool.FreshSlot | ikuyo/core/worker/process_pool.py:137-139 | a freshly spawned worker's slot is idle, started now, with no task and no heartbeat |
| ProcessPool.SlotsWith | ikuyo/core/worker/process_pool.py:97-103 | exactly the worker ids whose slot has the given status |
| ProcessPool.IdleBusyBound | ikuyo/core/worker/process_pool.py:97-103 | the idle and the busy counts together never exceed the number of slots |
| ProcessPool.AllIdleCounts | ikuyo/core/worker/process_pool.py:97-103 | when every slot is idle, all of them count as idle and none as busy |
| ProcessPool.Monitored | ikuyo/core/worker/process_pool.py:121-127 | a live slot is kept as it is; a dead one is replaced by a fresh idle slot under the same id, or removed when the respawn fails; no id is added |
| ProcessPool.MonitorStep | ikuyo/core/worker/process_pool.py:124-127 | visiting one more id restarts that id if it is dead and changes nothing else |
| ProcessPool.Pool.constructor | ikuyo/core/worker/process_pool.py:38-45 | a new pool is stopped, with no slots and empty queues |
| ProcessPool.Pool.StartWorker | ikuyo/core/worker/process_pool.py:129-143 | a successful spawn records a fresh idle slot under the id; a failed spawn leaves the table unchanged |
| ProcessPool.Pool.Start | ikuyo/core/worker/process_pool.py:47-57 | the pool runs and answers true even when some spawns fail; ids 0 to max_workers-1 that spawned hold fresh slots, every other entry is unchanged |
| ProcessPool.Pool.Stop | ikuyo/core/worker/process_pool.py:59-79 | the pool stops, one stop message per configured worker is appended to the control queue after the earlier messages, and the slot table is emptied |
| ProcessPool.Pool.SubmitTask | ikuyo/core/worker/process_pool.py:81-95 | a payload is accepted exactly when the pool runs and the queue is not full, and only then is it queued, at the end |
| ProcessPool.Pool.GetPoolStatus | ikuyo/core/worker/process_pool.py:105-119 | the reported counts agree with the slot table; since no slot is ever marked busy, every worker is reported idle |
| ProcessPool.Pool.RestartWorker | ikuyo/core/worker/process_pool.py:145-154 | the old slot is dropped and a new worker spawned under the same id, or the id is gone when the spawn fails |
| ProcessPool.Pool.MonitorProcesses | ikuyo/core/worker/process_pool.py:121-127 | the table ends as `Monitored` says, whatever order the ids are visited in |
| ProcessPool.WorkerResult | ikuyo/core/worker/process_pool.py:180-204 | the result carries the worker id, the payload's task id, the runner's status ("failed" by default), result and error; a raising runner gives "failed" with its error text |
| ProcessPool.WorkerTurn | ikuyo/core/worker/process_pool.py:163-206 | a stop message ends the loop; a task produces exactly the result `WorkerResult` builds for it |
| ProgressConsumer.ChannelTaskId | ikuyo/core/worker/progress_consumer.py:40 | a channel without a colon names no task |
| ProgressConsumer.ChannelTaskIdRoundTrip | ikuyo/core/worker/progress_consumer.py:40 | a channel built as `<name>:<id>` is read back as task `id` |
| ProgressConsumer.HandlerFor | ikuyo/core/worker/progress_consumer.py:39-47 | the progress handler exactly for the progress prefix, the status handler for the status prefix when not progress, the result handler for the result prefix when neither |
| ProgressConsumer.PrefixesDisjoint | ikuyo/core/worker/progress_consumer.py:29 | no channel starts with two of the three subscribed prefixes, so at most one handler applies |
| ProgressConsumer.ProgressArgsOf | ikuyo/core/worker/progress_consumer.py:61-67 | every absent key is forwarded as `None`; the two counts are forwarded as given |
| ProgressConsumer.RoundArg | ikuyo/core/models/crawler_task.py:38-47 | `round` accepts exactly numbers and booleans; `None` is skipped, and a number is kept as its value before rounding |
| ProgressConsumer.CountArg | ikuyo/core/models/crawler_task.py:40-43 | a count is accepted exactly for an integer, a boolean or `None`, which is skipped; an integer is kept as given |
| ProgressConsumer.Relay | ikuyo/core/worker/progress_consumer.py:32-49 | a message can change only the row its channel names, and the table keeps its keys; a refused commit, a message that is not a pattern message or not JSON, and a message whose handler raises (a missing `status` or `result_summary` key, a null status, a progress argument `round` or the count column refuses) leave the table unchanged |
| ProgressConsumer.RelayedRow | ikuyo/core/worker/progress_consumer.py:76-113 | the handler's new row keeps the task's key; no handler and non-dictionary data leave the row as it was; the progress handler raises exactly when an argument is refused, the status handler exactly when `status` is missing or null, and the result handler exactly when `result_summary` is missing |
| ProgressConsumer.SummaryOf | ikuyo/core/worker/progress_consumer.py:107 | a JSON null is stored as NULL; a string is stored as itself |
| ProgressConsumer.NullStatusUnchanged | ikuyo/core/worker/progress_consumer.py:85-95 | a JSON null status is refused by the NOT NULL `status` column at the commit, so the table stays as it was |
| ProgressConsumer.StatusRelayWrites | ikuyo/core/worker/progress_consumer.py:76-95 | whatever status is sent is stored with no transition check; `completed_at` is stamped exactly for the terminal statuses; the old error survives unless a truthy one is sent |
| ProgressConsumer.ResultRelayWrites | ikuyo/core/worker/progress_consumer.py:98-113 | the result relay overwrites `result_summary` and nothing else: a JSON null clears it to NULL, any other value is stored as its text |
| ProgressConsumer.ProgressRelayWrites | ikuyo/core/worker/progress_consumer.py:52-73 | the progress relay applies exactly the model's progress update with the five forwarded fields |
| ProgressConsumer.UnknownTaskUnchanged | ikuyo/core/worker/progress_consumer.py:60-71 | a message for a task that is not in the table changes nothing |
| ProgressConsumer.ListenStep | ikuyo/core/worker/progress_consumer.py:32-49 | the table ends as `Relay` says; non-pattern messages are ignored, and undecodable data ends the listener, since `json.loads` sits outside the try |
| ProgressReporting.ProgressReporter.constructor | ikuyo/core/crawler/progress_reporter.py:20-22 | a reporter is bound to its task id |
| ProgressReporting.ProgressReporter.ReportProgress | ikuyo/core/crawler/progress_reporter.py:24-53 | always false: assigning the undeclared `progress` field raises inside the handler, and a missing task answers false too; no row changes |
| ProgressReporting.ProgressReporter.ReportStatus | ikuyo/core/crawler/progress_reporter.py:55-89 | answers true exactly for an existing task and a committing session, and then commits the shared status write; otherwise nothing changes |
| ProgressReporting.ProgressReporter.ReportResult | ikuyo/core/crawler/progress_reporter.py:91-118 | on success only `result_summary` of the task changes; otherwise nothing changes |
| ProgressReporting.CurrentReporter.constructor | ikuyo/core/crawler/progress_reporter.py:128 | no task is current at first |
| ProgressReporting.CurrentReporter.SetCurrentTask | ikuyo/core/crawler/progress_reporter.py:131-134 | a new reporter for the task replaces the old one |
| ProgressReporting.CurrentReporter.ReportProgress | ikuyo/core/crawler/progress_reporter.py:137-141 | false while no task is current, and the current reporter's answer, also false, otherwise |
| ProgressReporting.CurrentReporter.ReportStatus | ikuyo/core/crawler/progress_reporter.py:144-148 | false with no change while no task is current; otherwise the current reporter's status write and answer |
| ProgressReporting.CurrentReporter.ReportResult | ikuyo/core/crawler/progress_reporter.py:151-155 | false with no change while no task is current; otherwise only the current task's summary changes |
| ProgressReporting.StatusReportIdempotent | ikuyo/core/crawler/progress_reporter.py:75-80 | reporting the same status twice at the same instant leaves the row as one report does |
| ProgressReporting.StatusReportStamp | ikuyo/core/crawler/progress_reporter.py:79-80 | `completed_at` changes only for a terminal status, and a terminal status always stamps it |
| SpiderRunner.ParseConfig | ikuyo/core/crawler/spider_runner.py:91-100 | parsing succeeds exactly for dictionary parameters, otherwise it raises the AttributeError of `get`; `mode` defaults to "homepage", `log_level` to "INFO", the other fields to `None`; every given field is taken over |
| SpiderRunner.Kwargs | ikuyo/core/crawler/spider_runner.py:131-140 | `config` and `mode` are always passed; `year`, `season` and `start_url` exactly when truthy; `limit` exactly when not `None`; no other key, and each value is the parsed one |
| SpiderRunner.BuildSpiderKwargs | ikuyo/core/crawler/spider_runner.py:131-140 | the conditional inserts build exactly `Kwargs` |
| SpiderRunner.ZeroLimitKept | ikuyo/core/crawler/spider_runner.py:133-140 | a limit of 0 reaches the spider while a year of 0 does not |
| SpiderRunner.Run | ikuyo/core/crawler/spider_runner.py:70-89 | the answer always has a boolean `success`; success carries exactly the success text, and failure exactly an error text |
| SpiderRunner.RunSucceedsIff | ikuyo/core/crawler/spider_runner.py:70-89 | `run` succeeds exactly when the parameters are a dictionary, the log level is a string and the crawl raises nothing |
| SpiderRunner.ExecuteInProcess | ikuyo/core/crawler/spider_runner.py:37-68 | the answer has the four keys and the payload's task id; the status is "completed" exactly when there is no error; a missing task id gives the fixed failure; otherwise status, result and error follow `run` |
| SpiderRunner.NonDictParametersFail | ikuyo/core/crawler/spider_runner.py:51-58 | parameters that are not a dictionary, `None` included, fail with the AttributeError of `get`, whatever the crawl would do |
| SpiderRunner.AbsentParametersCrawlHomepage | ikuyo/core/crawler/spider_runner.py:51 | absent parameters become an empty dictionary, which runs a "homepage" crawl |
| SpiderRunner.SuccessText | ikuyo/core/crawler/spider_runner.py:148 | the success text is the task id's text between the fixed prefix "爬虫任务 " and suffix " 执行成功", so the id can be read back from it |
| SpiderRunner.RunFailure | ikuyo/core/crawler/spider_runner.py:89 | a failure of `run` has exactly the keys `success` (false) and `error` (the message), with no traceback |
| CrawlerTasks.OptInt | ikuyo/core/tasks/crawler_task.py:10-13 | under lax validation an integer field is `None` exactly for an absent or null value, keeps an integer, accepts a string exactly when it reads as an integer and then takes that integer, accepts a float exactly without a fractional part, and refuses lists and dictionaries |
| CrawlerTasks.OptStr | ikuyo/core/tasks/crawler_task.py:11-12 | an optional string field is `None` for an absent or null value, keeps a string, and refuses every other value, since lax mode turns nothing else into text |
| CrawlerTasks.ParamsOf | ikuyo/core/tasks/crawler_task.py:8-13 | validation succeeds exactly when `mode` is a string, the string fields are strings or null and the integer fields pass lax coercion; the fields are the coerced values, absent exactly when null or missing (`mode`, `year`, `season`, `start_url` and `limit` alike), and any failure is the validation error |
| CrawlerTasks.ParamsRoundTrip | ikuyo/core/tasks/crawler_task.py:8-13 | validating the dictionary of any parameters object gives that object back |
| CrawlerTasks.YearTextCoerced | ikuyo/core/tasks/crawler_task.py:8-13 | a year given as decimal text, such as "2024", validates as that integer |
| CrawlerTasks.ExtraKeysIgnored | ikuyo/core/tasks/crawler_task.py:8-13 | keys other than the five fields never change the outcome of validation |
| CrawlerTasks.Validate | ikuyo/core/tasks/crawler_task.py:28-38 | empty or absent text is refused as empty, and only it; non-empty text that decodes to a dictionary gets exactly `ParamsOf`'s outcome, and non-empty text that does not decode, or decodes to anything but a dictionary, fails validation |
| CrawlerTasks.CrawlerTask.constructor | ikuyo/core/tasks/crawler_task.py:22-26 | the task keeps its repository and record and starts with no parameters and no task id |
| CrawlerTasks.CrawlerTask.ValidateParams | ikuyo/core/tasks/crawler_task.py:28-38 | the outcome is `Validate`'s; on success the parameters are set, on failure they keep their value |
| CrawlerTasks.CrawlerTask.Execute | ikuyo/core/tasks/crawler_task.py:40-43 | the record is set back to "pending" and written under its key |
| CrawlerTasks.CrawlerTask.Cancel | ikuyo/core/tasks/crawler_task.py:45-50 | only with a non-empty task id is the record cancelled, stamped and written; otherwise nothing changes |
| CrawlerTasks.CrawlerTask.OnProgress | ikuyo/core/tasks/crawler_task.py:52-59 | nothing is written: assigning the undeclared `progress` field raises before the write-back, and the error is swallowed |
| CrawlerTasks.CancelFreshTaskIsNoOp | ikuyo/core/tasks/crawler_task.py:26 | a freshly constructed task has no task id, so cancelling it changes nothing |
| TaskFactory.CreateTask | ikuyo/core/tasks/task_factory.py:10-22 | an unknown type raises its ValueError; a crawler request without a repository raises the other ValueError; a crawler request with one raises the TypeError of the four-argument constructor call |
| TaskFactory.CreateTaskNeverSucceeds | ikuyo/core/tasks/task_factory.py:17-22 | as written, no input at all yields a task |
| TaskFactory.CreateTaskIntended | ikuyo/core/tasks/task_factory.py:17-22 | the corrected factory yields a task exactly for a crawler request with a repository, built from the repository and the record; the two ValueErrors stay as they are |
| TaskFactory.IntendedDiffersOnlyOnArity | ikuyo/core/tasks/task_factory.py:20 | the written and the corrected factory agree on every input except a crawler request with a repository, where the written one raises and the corrected one builds the task |
| TaskExecution.TaskData | ikuyo/core/tasks/task_executor.py:61 | the payload has exactly the keys task_id, task_type and parameters, with the given values |
| TaskExecution.ErrorArg | ikuyo/core/tasks/task_executor.py:104 | the reported error is absent when the runner gave none, and the runner's text when it gave one |
| TaskExecution.ReportOutcome | ikuyo/core/tasks/task_executor.py:98-104 | only the task's row can change; a completed run is reported "completed" and stamped; any other run is reported "failed" with the runner's error; a missing task or a failing session leaves that report unwritten |
| TaskExecution.TaskExecutorClass.constructor | ikuyo/core/tasks/task_executor.py:20-21 | the class starts with no instance and no pool |
| TaskExecution.TaskExecutorClass.GetInstance | ikuyo/core/tasks/task_executor.py:27-31 | the first call creates the instance and every later call returns that same instance |
| TaskExecution.TaskExecutorClass.SetProcessPool | ikuyo/core/tasks/task_executor.py:34-36 | the pool is set at class level, shared by every instance |
| TaskExecution.GetInstanceTwice | ikuyo/core/tasks/task_executor.py:27-31 | two calls give the same object |
| TaskExecution.TaskExecutor.constructor | ikuyo/core/tasks/task_executor.py:23-24 | an instance refers to the class state |
| TaskExecution.TaskExecutor.ExecuteInCurrentProcess | ikuyo/core/tasks/task_executor.py:76-121 | only "crawler" tasks run; the answer is whether the run completed, and the table ends as `ReportOutcome` says; any other type answers false and writes nothing |
| TaskExecution.TaskExecutor.ExecuteTask | ikuyo/core/tasks/task_executor.py:38-74 | without a running pool the task runs in this process; with no idle worker the answer is false and nothing is queued; otherwise the answer is the pool's acceptance |
| TaskExecution.TaskExecutor.GetExecutionStatus | ikuyo/core/tasks/task_executor.py:123-135 | the pool is reported available and its status included exactly when a pool is set, and running exactly when it runs |
| TaskFactory.UnknownType | ikuyo/core/tasks/task_factory.py:22 | the unknown-type message is the fixed prefix followed by the requested type verbatim |
| WorkerMain.WorkerManager.constructor | ikuyo/core/worker/main.py:22-31 | a new manager is stopped, with no pool and no consumer |
| WorkerMain.WorkerManager.Start | ikuyo/core/worker/main.py:33-72 | when already running it answers true and creates nothing; otherwise it starts a new pool and a new consumer, answers true and runs exactly when Redis answers the ping, and stops the pool again when it does not |
| WorkerMain.WorkerManager.Stop | ikuyo/core/worker/main.py:74-100 | always answers true and leaves the manager stopped; when it was running, the consumer and the pool are stopped and the slot table emptied; otherwise nothing changes |
| WorkerMain.WorkerManager.Tick | ikuyo/core/worker/main.py:110-114 | one turn of the main loop restarts the pool's dead workers as the pool's monitor does |
| WorkerMain.WorkerManager.GetStatus | ikuyo/core/worker/main.py:130-140 | the pool's status appears exactly when a pool exists, with its slot count and running flag |
| LegacyWorker.ArgsOf | ikuyo/worker.py:41-61 | the `Args` attributes are the parameters' values (None for absent keys), log level "INFO" and no output file, and nothing else |
| LegacyWorker.WorkerSpiderArguments | ikuyo/worker.py:53-61 | with every attribute set, the spider gets the parameters' `mode` (None when absent, never the runner's "homepage" default), `limit` exactly when the parameters hold one, and the settings change only in their log level |
| LegacyWorker.FailureText | ikuyo/worker.py:78 | the stored error starts with the exception's text |
| LegacyWorker.FateOf | ikuyo/worker.py:32-80 | absent parameters and parameters that decode to a falsy value (`null`, `[]`, `0`, `""`, `false`, `{}`) leave the task running; a truthy value that is not a dictionary fails it with the AttributeError of `get`; undecodable text fails it with the decoding error; it completes exactly when the parameters decode to a non-empty dictionary and nothing before the crawl raises, whatever the crawl does and whatever another writer committed meanwhile, because the re-read at line 67 returns the worker's own object; a dictionary fails only with the error raised before the crawl |
| LegacyWorker.CrawlErrorStillCompletes | ikuyo/worker.py:62-74 | a crawl that raises still leaves the task completed and stamped when nothing before the crawl raised, since the runner catches the crawl's exception |
| LegacyWorker.Settle | ikuyo/worker.py:29-80 | the row keeps its id and parameters and is never pending afterwards; it stays running, is completed and stamped, or fails with the exception text, according to its fate |
| LegacyWorker.CancelDuringCrawlOverwritten | ikuyo/worker.py:66-74 | a cancellation another writer commits during the crawl is overwritten: the task ends completed and stamped |
| LegacyWorker.FateOfIntended | ikuyo/worker.py:66-70 | with a re-read that sees the database, a task that would complete is kept cancelled exactly when another writer cancelled it; every other fate is unchanged |
| LegacyWorker.SettleIntended | ikuyo/worker.py:66-74 | with that re-read, a kept cancellation leaves the row "cancelled" and does not stamp `completed_at` itself, the stamp being the canceller's business (`CrawlerTask.cancel` sets it); the model carries over the row's `completed_at` as the worker read it; otherwise the row is settled as written |
| LegacyWorker.IntendedKeepsCancellation | ikuyo/worker.py:66-70 | with that re-read, a cancellation made during the crawl survives |
| LegacyWorker.EmptyParametersLeftRunning | ikuyo/worker.py:37-39 | a task whose parameters decode to an empty dictionary stays running for good |
| LegacyWorker.MarkRunning | ikuyo/worker.py:29-30 | the task is marked running and written under its key |
| LegacyWorker.RunCrawler | ikuyo/worker.py:62-65 | `run_crawler` raises nothing for the crawl and hands the spider the arguments built from the task's parameters |
| LegacyWorker.RunTask | ikuyo/worker.py:26-80 | the task's row ends as `Settle` says and no other row changes |
| LegacyWorker.PollOnce | ikuyo/worker.py:22-80 | the batch is `list_by_status`'s at most 100 pending rows; each fetched row is settled, every other row, pending ones included, is as it was, and when the backlog fits the limit no row is pending afterwards |
| CronTable.CronOf | ikuyo/core/scheduler/unified_scheduler.py:61-66 | an expression is accepted exactly when it splits into five blank-separated fields, which become minute, hour, day, month and day of week in that order |
| CronTable.CronRoundTrip | ikuyo/core/scheduler/unified_scheduler.py:61-70 | five non-empty fields without blanks, written out with single spaces, are split back into the same trigger |
| CronTable.FillKeeps | ikuyo/core/scheduler/unified_scheduler.py:58-76 | a job id that no registration adds keeps its trigger, or stays absent |
| CronTable.FillKeys | ikuyo/core/scheduler/unified_scheduler.py:58-76 | without an exception, the ids afterwards are the old ones and those of the registered jobs |
| CronTable.FillLastWins | ikuyo/core/scheduler/unified_scheduler.py:67-76 | with `replace_existing=True`, the last registration of an id decides its trigger, provided no exception comes first |
| CronTable.FillSkip | ikuyo/core/scheduler/unified_scheduler.py:59-65 | a skipped job has no effect on the other jobs: leaving it out changes nothing |
| CronTable.FillAbort | src/core/scheduler.py:59-94 | an exception ends the loop: the registrations before it take effect and none after it |
| Schedulers.ListJobs | ikuyo/core/repositories/scheduled_job_repository.py:26-28 | the listing skips `offset` rows and then returns at most `limit` rows of the table, each the table's row at its position; without a limit it is the rest of the table |
| Schedulers.DefaultListingIsEmpty | ikuyo/core/repositories/scheduled_job_repository.py:26-28 | the listing as written (`limit=0`) selects no row whatever the table holds, so loading registers nothing and raises nothing |
| Schedulers.UnlimitedListingIsTable | ikuyo/core/repositories/scheduled_job_repository.py:26-28 | without a limit, the listing is the whole table in order |
| Schedulers.DbStep | ikuyo/core/scheduler/unified_scheduler.py:58-77 | a disabled row or one whose expression does not have five fields is skipped; an enabled five-field row raises exactly when `CronTrigger` refuses its fields or `add_job` its empty name, and is otherwise registered under its `job_id` and name with the five fields in order |
| Schedulers.DbSteps | ikuyo/core/scheduler/unified_scheduler.py:58 | one registration step per listed row, in order |
| Schedulers.FirstRefused | ikuyo/core/scheduler/unified_scheduler.py:58-77 | the position of the first row whose registration raises: no row before it is refused, and the row there is |
| Schedulers.DbLoadedKeys | ikuyo/core/scheduler/unified_scheduler.py:50-77 | loading raises exactly when some row is refused; afterwards a job id has a trigger exactly when it had one before or an eligible row before the first refused one carries it |
| Schedulers.DbStopsAtRefused | ikuyo/core/scheduler/unified_scheduler.py:50-77 | loading raises exactly when some row is refused, and the table afterwards is what the rows before the first refused one made it |
| Schedulers.DbHeadKeys | ikuyo/core/scheduler/unified_scheduler.py:50-77 | the rows before the first refused one leave the old job ids and exactly the ids of the eligible rows among them |
| Schedulers.DbLastRowWins | ikuyo/core/scheduler/unified_scheduler.py:67-76 | among eligible rows sharing a `job_id` before the first refused row, the last one decides the trigger and its name |
| Schedulers.Scheduler.constructor | ikuyo/core/scheduler/unified_scheduler.py:34-38 | a new scheduler has no instance, is not running and has no triggers |
| Schedulers.Scheduler.InitScheduler | ikuyo/core/scheduler/unified_scheduler.py:39-48 | answers whether the instance could be created; a created instance is empty; a failure changes nothing |
| Schedulers.Scheduler.LoadJobsFromDb | ikuyo/core/scheduler/unified_scheduler.py:50-77 | nothing happens without an instance; otherwise the rows of the listing (with whichever limit is given) are registered in order until one raises, which ends the loading |
| Schedulers.Scheduler.StartFromDb | ikuyo/core/scheduler/unified_scheduler.py:79-95 | a failed lazy initialisation answers false and changes nothing; otherwise the jobs are loaded, and the answer is true exactly when loading raises nothing and `scheduler.start()` succeeds (not on a running instance); with the listing as written no trigger is added |
| Schedulers.Scheduler.Launch | ikuyo/core/scheduler/unified_scheduler.py:89-90 | the scheduler runs afterwards exactly when it ran before or the start succeeded |
| Schedulers.Scheduler.Stop | ikuyo/core/scheduler/unified_scheduler.py:97-108 | only a running scheduler is shut down; every other call reports success; a failed shutdown answers false and leaves it running |
| Schedulers.Scheduler.ReloadJobs | ikuyo/core/scheduler/unified_scheduler.py:110-117 | every trigger is removed and the table is loaded afresh, an exception propagating; with the listing as written the table ends empty; nothing happens without an instance |
| Schedulers.Scheduler.GetJobs | ikuyo/core/scheduler/unified_scheduler.py:145-157 | one entry per registered trigger with its id, name and fields, and nothing else; none without an instance |
| Schedulers.Scheduler.AddCrawlerJob | src/core/scheduler.py:53-94 | nothing happens without an instance; otherwise the configured jobs are registered in order until one raises, and the exception is caught |
| Schedulers.Scheduler.AddJobs | src/core/scheduler.py:62-89 | each job's registration step is applied in turn until one raises |
| Schedulers.Scheduler.StartFromConfig | src/core/scheduler.py:96-116 | a failed lazy initialisation answers false and changes nothing; otherwise the configured jobs are registered, and the answer is true exactly when `scheduler.start()` succeeds |
| Schedulers.TimeZone | src/core/scheduler.py:32 | the configured time zone, "Asia/Shanghai" when unset |
| Schedulers.ConfigStep | src/core/scheduler.py:62-89 | a job that does not answer `get` raises; a disabled job is skipped |
| Schedulers.ConfigStepAdds | src/core/scheduler.py:63-89 | a configured job gets a trigger exactly when it is an enabled mapping with a text `id`, a name `add_job` accepts and a five-field text `cron` that `CronTrigger` accepts; the trigger carries that id, that name and those fields |
| Schedulers.ConfigStepRaises | src/core/scheduler.py:77-89 | an enabled job with all three keys and a five-field text `cron` raises exactly when `CronTrigger` refuses the fields, the `id` is not text or the name is refused |
| Schedulers.JobName | src/core/scheduler.py:80-87 | `add_job` names a job with a null name after its callable, keeps a non-empty text name and refuses any other name |
| Schedulers.EnabledByDefault | src/core/scheduler.py:63 | a job without an `enabled` key is registered |
| Schedulers.ListSteps | src/core/scheduler.py:62 | one registration step per configured job, in order |
| Schedulers.ConfigSteps | src/core/scheduler.py:60-62 | a configuration without `get` raises; without `jobs` nothing is registered; a list of jobs yields its steps in order |
| Schedulers.ConfigFailureStopsLoading | src/core/scheduler.py:59-94 | a job that raises ends the loop: the jobs before it keep their triggers and none after it is registered |
| Schedulers.ListStepsAppend | src/core/scheduler.py:62 | the steps of two lists in a row are the steps of each |
| Schedulers.ConfigSkipIsolated | src/core/scheduler.py:63-75 | a job skipped for being disabled or for its expression changes nothing for the other jobs |
| Schedulers.MainGate | src/core/scheduler.py:188-193 | the scheduler starts only when the configuration's `enabled` (false by default) is truthy; a configuration without `get` raises |
| Schedulers.RunCrawler | src/core/scheduler.py:146-167 | the job fails exactly when the crawl raises, with the crawl's error |
| Schedulers.UnifiedWrite | ikuyo/core/scheduler/unified_scheduler.py:119-136 | every firing fails and the error is only logged: with the undecodable-parameter error when `json.loads` refuses non-empty parameters, otherwise with the TypeError of the factory's call to the task class |
| Schedulers.UnifiedWriteIntended | ikuyo/core/scheduler/unified_scheduler.py:119-136 | with the corrected factory every firing still fails: with the decode error for undecodable parameters, otherwise on the missing `write_to_db` |
| Schedulers.LegacyWrite | ikuyo/core/scheduler.py:113-133 | every firing of the older scheduler fails with the TypeError for the unexpected `spider_runner` keyword |
| Schedulers.ScheduledWritesNeverSucceed | ikuyo/core/scheduler/unified_scheduler.py:119-136 | no firing of either database-driven scheduler writes a task: the older one fails on the factory's keywords, the newer one on undecodable parameters or else on the factory's call to the task class; with the factory corrected, on the missing `write_to_db` |
| CrawlerRunners.ArgsConfig | ikuyo/core/crawler_runner.py:15-28 | the options read from `args` fall back to mode "homepage", log level "INFO" and no limit when absent |
| CrawlerRunners.RunnerSettings | ikuyo/core/crawler_runner.py:14-18 | `LOG_LEVEL` is always set from the arguments (default "INFO"); the JSON feed and its URI are set only for a truthy `output`; every other project setting is kept and none is added |
| CrawlerRunners.ApplySettings | src/core/crawler_runner.py:9-13 | the settings after the assignments are the project settings with the runner's changes |
| CrawlerRunners.Prepare | src/core/crawler_runner.py:9-23 | the settings and the spider's keyword arguments both runners build |
| CrawlerRunners.RunCrawlerIkuyo | ikuyo/core/crawler_runner.py:7-38 | the runner never lets an exception out, and it starts the crawl with the prepared settings and arguments |
| CrawlerRunners.RunCrawlerSrc | src/core/crawler_runner.py:7-25 | the crawl's exception propagates unchanged, with the same settings and arguments |
| CrawlerRunners.RunnerKwargsShape | src/core/crawler_runner.py:15-23 | the spider gets `mode` (default "homepage"), `year` only when truthy and `limit` whenever it is not None, even 0; the feed URI is set exactly when `output` is truthy or the project already sets it |
| CrawlerRunners.SingleMode | scripts/run_single_spider.py:42 | the mode is `crawler_mode`, else `mode`, else "homepage" |
| CrawlerRunners.SingleKwargs | scripts/run_single_spider.py:40-53 | the arguments hold the task id, the project configuration and the mode; `year`, `season` and `start_url` exactly when truthy and `limit` exactly when not None, each copied from the parameters, and nothing else |
| CrawlerRunners.KwargsOfRun | scripts/run_single_spider.py:40-53 | the keyword arguments hold only the seven names the script inserts |
| CrawlerRunners.KwargsOfRunIs | scripts/run_single_spider.py:40-53 | any dictionary built by those inserts equals the specification value: the inserts determine the arguments |
| CrawlerRunners.KwargsOfRunEntries | scripts/run_single_spider.py:40-53 | the specification value holds the three fixed entries and each optional entry exactly under the condition the script tests |
| CrawlerRunners.RunSpider | scripts/run_single_spider.py:25-67 | the result reports success exactly when the parameters are a dictionary and the crawl does not raise; a success carries the completion message; a failure carries the error and the traceback and nothing more |
| CrawlerRunners.Cli | scripts/run_single_spider.py:69-86 | too few arguments, a non-numeric task id or parameters that are not JSON exit with status 1 and print nothing; otherwise the result of `run_spider` is printed: status 0 with the completion message exactly when the parameters are a dictionary and the crawl with their keyword arguments does not raise, else status 1 with the error and traceback |
| CrawlerRunners.Failure | scripts/run_single_spider.py:67 | a failure dictionary has exactly the keys `success` (false), `error` (the message) and `traceback` |
| Config.Lookup | config.py:37-55 | the lookup succeeds exactly for a known section and, when a key is given, a key of that section; an unknown section and an unknown key fail with their ValueError messages; no key gives the whole section |
| Config.SectionThenKey | config.py:37-55 | asking for a section and then for one of its keys agrees with asking for the key directly, and fails exactly for keys the section lacks |
| Config.GetConfig | config.py:37-55 | only the four sections of config.py can be looked up, and each of them is found |
| Config.IsTestMode | config.py:58-60 | test mode is on |
| Config.GetTestLimit | config.py:63-65 | the test limit is three items |
| SrcConfig.GetConfig | src/config.py:104-124 | only the six sections of src/config.py, crawl mode and scheduler included, can be looked up, and each is found |
| SrcConfig.IsTestMode | src/config.py:127-129 | test mode is on |
| SrcConfig.GetTestLimit | src/config.py:132-134 | the test limit is three items |
| SrcConfig.GetCrawlMode | src/config.py:137-139 | the crawl mode is "season" |
| SrcConfig.GetCrawlYear | src/config.py:142-144 | the crawl year is 2024 |
| SrcConfig.GetCrawlSeason | src/config.py:147-149 | the crawl season is summer |
| SrcConfig.GetYearRange | src/config.py:152-154 | the year range runs from 2013 to 2025 |
| SrcConfig.GetSeasons | src/config.py:157-159 | the four seasons in calendar order |
| SrcConfig.CrawlModeConsistent | src/config.py:33-45 | the configured season is one of the configured seasons and the configured year lies in the configured range |
| SrcIkuyoConfig.GetConfig | src/ikuyo/config.py:71-90 | only the five sections of src/ikuyo/config.py can be looked up, and each is found |
| SrcIkuyoConfig.IsTestMode | src/ikuyo/config.py:93-95 | test mode is on |
| SrcIkuyoConfig.GetTestLimit | src/ikuyo/config.py:98-100 | the test limit is three items |
| SrcIkuyoConfig.NoCrawlModeSection | src/ikuyo/config.py:73-79 | asking for the crawl mode raises here while src/config.py answers it, and the crawler's download delay is one second |
| Database.GetAnimeById | ikuyo/core/database.py:98-101 | the query looks an anime up by `mikan_id` through one placeholder, and the id is its one parameter |
| Database.GetAllAnimes | ikuyo/core/database.py:103-108 | nothing is bound; LIMIT and OFFSET are written into the text exactly when the limit is truthy |
| Database.SearchAnimesByTitle | ikuyo/core/database.py:110-113 | the title, wrapped in `%` for a substring match, is the one parameter of the one placeholder |
| Database.GetAnimeResources | ikuyo/core/database.py:115-125 | the anime id is the one parameter of the one placeholder |
| Database.Condition | ikuyo/core/database.py:145-153 | each condition holds exactly one placeholder |
| Database.Filters | ikuyo/core/database.py:141-154 | one filter per truthy argument (0 and "" ignored), the anime id first and the episode last, and a resolution filter exactly when a resolution is given |
| Database.WhereClause | ikuyo/core/database.py:156 | the WHERE clause holds one placeholder per filter, and none for "1=1" |
| Database.CollectFilters | ikuyo/core/database.py:141-154 | the conditions collected by the loop are the filters, with their parameters in the same order |
| Database.GetResourcesByFilters | ikuyo/core/database.py:133-170 | the parameters are the filters' values in order, the query is the select, the WHERE clause and the order with the limit written in, and the text has one placeholder per parameter |
| Database.NoFilterSelectsAll | ikuyo/core/database.py:156-168 | with no truthy filter the WHERE clause is "1=1", so every row is selected |
| Deduplication.KeyData | src/crawler/pipelines/deduplication.py:66-84 | an anime is keyed by id and title, else a subtitle group by id and name, else a resource by anime id, group id and magnet link (an absent id reads as None), else by the whole item's sorted JSON |
| Deduplication.SameAnimeSameKey | src/crawler/pipelines/deduplication.py:69-71 | two anime entries that agree on id and title share a key, whatever else differs |
| Deduplication.DeduplicationPipeline.constructor | src/crawler/pipelines/deduplication.py:20-23 | no hash seen and both counters at zero |
| Deduplication.Annotated | src/crawler/pipelines/deduplication.py:60-62 | the deduplication stage adds exactly the hash and processing-time fields and keeps every other field |
| Deduplication.DeduplicationPipeline.ProcessItem | src/crawler/pipelines/deduplication.py:44-64 | every call counts; an item whose hash was seen is dropped and counted as a duplicate; any other item's hash is remembered and the item passes annotated with the hash and the processing time; the total always equals the duplicates plus the distinct hashes seen |
| Deduplication.ItemTime | src/crawler/pipelines/deduplication.py:167-176 | the time found is a truthy value of one of the time fields, and there is none exactly when no time field holds a truthy value |
| Deduplication.FirstTruthy | src/crawler/pipelines/deduplication.py:171-176 | the first truthy field among those listed, and none exactly when no listed field is truthy |
| Deduplication.IsNewItem | src/crawler/pipelines/deduplication.py:147-165 | an item is new without a last crawl time or without a time field; when both times parse, it is new exactly when its time is later |
| Deduplication.IncrementalUpdatePipeline.constructor | src/crawler/pipelines/deduplication.py:90-93 | no last crawl time and both counters at zero |
| Deduplication.IncrementalUpdatePipeline.SpiderOpened | src/crawler/pipelines/deduplication.py:102-113 | the last crawl time is read from the incremental settings; the counters are kept |
| Deduplication.Tagged | src/crawler/pipelines/deduplication.py:132-143 | the incremental stage adds exactly the update type ("new" or "updated"), the processed flag and both crawl times, and keeps every other field |
| Deduplication.IncrementalUpdatePipeline.ProcessItem | src/crawler/pipelines/deduplication.py:124-145 | outside the incremental mode the item passes unchanged; in it, the item is tagged "new" or "updated" and exactly the matching counter goes up by one |
| Deduplication.NeedsMerge | src/crawler/pipelines/deduplication.py:209-216 | no item needs merging |
| Deduplication.DataMergePipeline.constructor | src/crawler/pipelines/deduplication.py:182-183 | the merge count starts at zero |
| Deduplication.DataMergePipeline.ProcessItem | src/crawler/pipelines/deduplication.py:200-207 | every item passes unchanged and the merge count stays where it was |
| Deduplication.RecordOf | src/crawler/pipelines/deduplication.py:276-281 | the record's id is the anime id if truthy, else the group id, else "unknown"; its title the title, else the group name, else "unknown" |
| Deduplication.CrawlHistoryPipeline.constructor | src/crawler/pipelines/deduplication.py:234-235 | the history starts empty |
| Deduplication.CrawlHistoryPipeline.ProcessItem | src/crawler/pipelines/deduplication.py:274-286 | the item passes unchanged and exactly one record, its own, is appended |
| Deduplication.CrawlHistoryPipeline.SpiderClosed | src/crawler/pipelines/deduplication.py:244-269 | the closing record has status "completed" and counts every recorded item |
| Deduplication.ComprehensiveDataPipeline.constructor | src/crawler/pipelines/deduplication.py:301-305 | four fresh stages, the deduplication stage empty and using the given hashing |
| Deduplication.ComprehensiveDataPipeline.ProcessItem | src/crawler/pipelines/deduplication.py:328-345 | a duplicate comes back as it arrived and no later stage sees it; any other item comes back annotated with its hash and time and then, in the incremental mode, tagged on that annotated item, and the history gains exactly one record, made from that returned item; the incremental counters grow by one exactly in the incremental mode, the last crawl time and the merge count never change |
| Deduplication.ItemHash | src/crawler/pipelines/deduplication.py:66-84 | the hash of an anime entry is the md5 of its id and title joined by "_", and that of a subtitle group the md5 of its id and name, whatever other fields they carry |
| DynamicParser.ShouldUseDynamicParser | src/crawler/middlewares/dynamic_parser.py:122-133 | the browser is used only in the year, season and full modes, and there exactly for a detail-page url that names a year or whose spider has a truthy year |
| DynamicParser.GivenOnly | src/crawler/middlewares/dynamic_parser.py:200-209 | only non-empty texts are kept, none is invented, and the result is empty exactly when no text is given |
| DynamicParser.JoinKept | src/crawler/middlewares/dynamic_parser.py:173-178 | the joined text is non-empty, and there is none exactly when no part is given |
| DynamicParser.ParseBySeason | src/crawler/middlewares/dynamic_parser.py:180-215 | there is a text exactly when the season link is clicked; it is the non-empty page sources joined by newlines |
| DynamicParser.SeasonContents | src/crawler/middlewares/dynamic_parser.py:163-171 | the four seasons' texts, in order |
| DynamicParser.ParseByYear | src/crawler/middlewares/dynamic_parser.py:159-178 | there is a text exactly when some season gives a non-empty one, and it is then non-empty |
| DynamicParser.YearsFrom | src/crawler/middlewares/dynamic_parser.py:227 | the consecutive years from the first to the last, both included |
| DynamicParser.ParseFullRange | src/crawler/middlewares/dynamic_parser.py:217-235 | a text is non-empty; without a range of its own the spider covers 2013 to 2025 |
| DynamicParser.YearContents | src/crawler/middlewares/dynamic_parser.py:227-233 | each year's text, in order |
| DynamicParser.ParseDynamicPage | src/crawler/middlewares/dynamic_parser.py:135-157 | the year, season and full modes dispatch to their parsers; any other mode gives nothing |
| DynamicParser.DynamicParserMiddleware.constructor | src/crawler/middlewares/dynamic_parser.py:15-18 | the middleware keeps the configured switch and starts without a browser |
| DynamicParser.DynamicParserMiddleware.SpiderOpened | src/crawler/middlewares/dynamic_parser.py:30-34 | the browser is started only when the middleware is enabled and the spider runs a browser mode; otherwise nothing changes |
| DynamicParser.DynamicParserMiddleware.SpiderClosed | src/crawler/middlewares/dynamic_parser.py:36-40 | no browser afterwards |
| DynamicParser.DynamicParserMiddleware.ProcessRequest | src/crawler/middlewares/dynamic_parser.py:95-120 | a page is served exactly when the browser should be used, exists and gives a non-empty text; the page carries the request's url and that text |
| DynamicParser.EmptySeasonNotServed | src/crawler/middlewares/dynamic_parser.py:107-120 | a season whose pages all came back empty serves nothing, though its text is present |
| DynamicParser.DynamicParserDownloaderMiddleware.constructor | src/crawler/middlewares/dynamic_parser.py:328-331 | a fresh parser with the configured switch and no browser |
| DynamicParser.DynamicParserDownloaderMiddleware.ProcessResponse | src/crawler/middlewares/dynamic_parser.py:340-353 | a status-200 answer passes as it is; any other is replaced exactly when the parser serves a page, by that page |
| DynamicParser.DynamicParserDownloaderMiddleware.ProcessException | src/crawler/middlewares/dynamic_parser.py:355-367 | the parser's page, if any, else nothing so the failure propagates; never a page outside the browser modes |
| IkuyoSpider.SubtitleTypeOf | ikuyo/crawler/spiders/mikan.py:729-732 | a stored subtitle type is always one of the normalised types, and an empty title has none |
| IkuyoSpider.Enrich | ikuyo/crawler/spiders/mikan.py:725-755 | the enriched resource keeps the parsed row and the anime id; an episode lies between 1 and 9999; a subtitle type is a normalised one; a row without a date has no release time |
| IkuyoSpider.EnrichAll | ikuyo/crawler/spiders/mikan.py:677-684 | one enriched resource per parsed row |
| IkuyoSpider.ExtractPageResources | ikuyo/crawler/spiders/mikan.py:653-687 | with the corrected row parser, the resources are the enriched rows of every group block, in page order |
| IkuyoSpider.Absorb | ikuyo/crawler/spiders/mikan.py:461-483 | folding a resource into its group's entry raises the count by one, from 0 for a new entry |
| IkuyoSpider.GroupIds | ikuyo/crawler/spiders/mikan.py:461 | one group id per resource |
| IkuyoSpider.Aggregate | ikuyo/crawler/spiders/mikan.py:424-483 | the table has an entry exactly for the group ids of the resources |
| IkuyoSpider.GroupOrder | ikuyo/crawler/spiders/mikan.py:486 | the groups in the order the dictionary first saw them: each once, and exactly the groups of the table |
| IkuyoSpider.CountOf | ikuyo/crawler/spiders/mikan.py:483 | a group's number of resources is at most the number of resources |
| IkuyoSpider.Releases | ikuyo/crawler/spiders/mikan.py:470 | a group has at most one stamped release time per resource |
| IkuyoSpider.MinOf | ikuyo/crawler/spiders/mikan.py:470-476 | the least element, present exactly when there is one |
| IkuyoSpider.MaxOf | ikuyo/crawler/spiders/mikan.py:478-483 | the greatest element, present exactly when there is one |
| IkuyoSpider.AggregateCounts | ikuyo/crawler/spiders/mikan.py:461-483 | each group's `resource_count` is its number of resources, at least one |
| IkuyoSpider.NotSeenNotCounted | ikuyo/crawler/spiders/mikan.py:461-468 | a group without an entry has no resources and no release times |
| IkuyoSpider.AggregateDates | ikuyo/crawler/spiders/mikan.py:462-481 | with no zero time stamp, a group's first and last dates are the least and the greatest release time of its resources, none when none has one |
| IkuyoSpider.Bump | ikuyo/crawler/spiders/mikan.py:469-483 | the statement-by-statement update of an entry agrees with folding the resource in |
| IkuyoSpider.AggregateGroups | ikuyo/crawler/spiders/mikan.py:421-483 | the loop builds exactly the group table and the first-seen order |
| IkuyoSpider.LinkItems | ikuyo/crawler/spiders/mikan.py:486-496 | one active link item per group in first-seen order, with the group's count and the page's anime id |
| IkuyoSpider.OneItemPerGroup | ikuyo/crawler/spiders/mikan.py:421-496 | no two link items share a group, and every group of the page has one whose count is its number of resources |
| IkuyoSpider.PageItems | ikuyo/crawler/spiders/mikan.py:486-496 | one link item per group of the page |
| IkuyoSpider.DetailItems | ikuyo/crawler/spiders/mikan.py:417-496 | with the corrected row parser, the resources are the enriched rows of the page and the link items are those of the resources |
| IkuyoSpider.Spider.constructor | ikuyo/crawler/spiders/mikan.py:28-80 | the mode defaults to "homepage", every counter starts at zero, the log is "running" for that mode, and a progress reporter exists exactly when a task id is given |
| IkuyoSpider.Spider.InitialReports | ikuyo/crawler/spiders/mikan.py:790-803 | with a reporter, status "running" and then progress at zero of the total; without one, nothing |
| IkuyoSpider.Spider.ReportInitialProgress | ikuyo/crawler/spiders/mikan.py:790-803 | the initial reports are appended and nothing else changes |
| IkuyoSpider.Spider.Parse | ikuyo/crawler/spiders/mikan.py:93-135 | a detail-page start url is followed directly; "homepage" sets the total to the kept links, reports it and requests at most that many detail pages; "year", "season" and "full" request season pages; any other mode falls back to the homepage parse without a total or a report |
| IkuyoSpider.Spider.ParseSeasonResponse | ikuyo/crawler/spiders/mikan.py:189-232 | an HTML page is handled like the homepage; anything else records the error "API返回非HTML响应" and requests nothing |
| IkuyoSpider.Spider.ParseAnimeDetail | ikuyo/crawler/spiders/mikan.py:383-501 | with the corrected row parser, a page that raises counts one failure and records its error, emitting nothing; otherwise its resources and link items are emitted, the log counts the resources, and the success and processed counters grow by one |
| IkuyoSpider.Spider.RecordFailure | ikuyo/crawler/spiders/mikan.py:498-501 | one more failure and the error recorded, nothing else changed |
| IkuyoSpider.Spider.RecordPage | ikuyo/crawler/spiders/mikan.py:488-496 | one more success and processed page, the log's count raised by the page's resources, nothing else changed |
| IkuyoSpider.Spider.Closed | ikuyo/crawler/spiders/mikan.py:773-785 | the log is "completed" exactly for the reason "finished", else "failed"; its count becomes the number of successful pages and it takes the error message |
| MikanRows.OrElse | ikuyo/crawler/spiders/mikan.py:697 | the first text when it is non-empty, else the second |
| MikanRows.StripGiven | ikuyo/crawler/spiders/mikan.py:744-745 | a stripped text exactly when one is given |
| MikanRows.JoinGiven | ikuyo/crawler/spiders/mikan.py:718-723 | an absolute link exactly when a link is given |
| MikanRows.RowWith | ikuyo/crawler/spiders/mikan.py:694-755 | a row gives a resource exactly when it has a title and a magnet link; the resource carries the stripped title, the magnet link and its lower-cased hash, the stripped size and date, the torrent and play links and the block's group |
| MikanRows.ParseResourceRowAsWritten | ikuyo/crawler/spiders/mikan.py:689-759 | a four-cell row always gives nothing, because reading the fifth cell raises and the handler swallows it; wider rows are parsed normally |
| MikanRows.ParseResourceRow | ikuyo/crawler/spiders/mikan.py:689-759 | with a missing fifth cell read as no play link, a row gives a resource exactly when it has a title and a magnet link; a four-cell row has no play link; a hash is always forty hex digits |
| MikanRows.LowerHashIsInfohash | ikuyo/crawler/spiders/mikan.py:709-715 | a lower-cased hash found in a magnet link is still forty hex digits |
| MikanRows.WideRowsAgree | ikuyo/crawler/spiders/mikan.py:721-723 | the two parsers agree on every row of five or more cells |
| MikanRows.FourCellRowDropped | ikuyo/crawler/spiders/mikan.py:679-680 | a four-cell row with a title and a magnet link passes the guard, is lost by the code as written and is kept by the intended parser |
| MikanRows.RowsOf | ikuyo/crawler/spiders/mikan.py:675-684 | with the corrected row parser, at most one resource per row, each in the table's group, with a magnet link and a well-formed hash |
| MikanRows.BlockRows | ikuyo/crawler/spiders/mikan.py:661-684 | with the corrected row parser, a block without an id, a name or a table gives nothing; every resource of a block carries its id |
| MikanRows.BlockIds | ikuyo/crawler/spiders/mikan.py:661 | at most one id per block |
| MikanRows.BlocksRows | ikuyo/crawler/spiders/mikan.py:653-687 | with the corrected row parser, every resource carries a magnet link and the id of a block it came from |
| MikanRows.CollectRows | ikuyo/crawler/spiders/mikan.py:675-684 | with the corrected row parser, the inner loop collects exactly the resources of the table's rows |
| MikanRows.ExtractResources | ikuyo/crawler/spiders/mikan.py:653-687 | with the corrected row parser, the loops collect exactly the resources of every complete block, block by block |
| MikanRows.FullRowsAllKept | ikuyo/crawler/spiders/mikan.py:677-684 | with the corrected row parser (not the code as written, which drops every such row), a table whose rows all have four cells, a title and a magnet link yields one resource per row |
| MikanRows.LinkRequest | ikuyo/crawler/spiders/mikan.py:149-163 | a link gives a detail request only with a non-zero id found after `/Home/Bangumi/`, carrying that id and the link's title |
| MikanRows.LinkRequests | ikuyo/crawler/spiders/mikan.py:149-163 | at most one detail request per link, each for a non-zero id |
| MikanRows.IdLinksAllRequested | ikuyo/crawler/spiders/mikan.py:149-163 | links that all carry a non-zero id give one request each |
| MikanRows.IdMeansPath | ikuyo/crawler/spiders/mikan.py:503-506 | an id is only found where `/Home/Bangumi/` occurs |
| MikanRows.StartRequests | ikuyo/crawler/spiders/mikan.py:97-106 | a detail-page start url gives one request, titled "指定动画", exactly when its id is found and non-zero |
| MikanRows.ParseHomepage | ikuyo/crawler/spiders/mikan.py:137-163 | the loop requests exactly the detail pages of the links kept by the limit, at most one per kept link |
| MikanRows.YearRequests | ikuyo/crawler/spiders/mikan.py:165-187 | one season request per configured season, in order |
| MikanRows.RangeRequests | ikuyo/crawler/spiders/mikan.py:233-245 | one season request for each season of each year of the range, both ends included: the count is years times seasons, every pair is requested, and nothing outside the range is |
| MikanScan.FirstHashFrom | mikan.py:307 | the position found is the leftmost match at or after the start, and there is none exactly when no match follows |
| MikanScan.HashSearch | mikan.py:307-308 | a hash is forty hex digits that follow a match of the marker in the text, and there is none exactly when the text has no match |
| MikanScan.MagnetHash | mikan.py:303-308 | a missing or empty link has no hash; otherwise the first forty hex digits after `btih:`, case kept |
| MikanScan.MagnetHashLower | ikuyo/crawler/spiders/mikan.py:709-715 | only a link starting `magnet:?` has a hash: the first forty hex digits after `xt=urn:btih:`, lower-cased, so without capitals |
| MikanScan.MagnetHashOfUri | mikan.py:303-308 | a BitTorrent magnet URI (BEP 9) whose first parameter is the exact topic gives back its infohash, as found and lower-cased |
| MikanScan.NonMagnetHasNoLowerHash | ikuyo/crawler/spiders/mikan.py:710 | a link that is not a magnet URI gets no lower-cased hash, whatever it contains |
| MikanScan.FirstIdFrom | ikuyo/crawler/spiders/mikan.py:505 | the leftmost id match at or after the start, none exactly when no match follows |
| MikanScan.MikanId | ikuyo/crawler/spiders/mikan.py:503-506 | there is an id exactly when the link has a match, and it is the number spelt by the digits after a match |
| MikanScan.AllIdsFrom | ikuyo/crawler/spiders/mikan.py:360 | every id found is a digit run; none exactly when there is no match; the first is the run of the leftmost match |
| MikanScan.FirstFoundIsMikanId | ikuyo/crawler/spiders/mikan.py:360 | the first id of the scan of a whole text is the one `_extract_mikan_id` reads, and the scan is empty exactly when it reads none |
| MikanScan.IdAtLink | ikuyo/crawler/spiders/mikan.py:505 | in a detail-page link the match sits right after the prefix and its digit run is the id |
| MikanScan.FirstIdAfterPrefix | ikuyo/crawler/spiders/mikan.py:505 | the leftmost match in a link is the first one after a prefix without `/Home` |
| MikanScan.MikanIdOfLink | ikuyo/crawler/spiders/mikan.py:503-506 | writing an id into a detail-page link and reading it back gives that id |
| MikanScan.NoPathNoId | ikuyo/crawler/spiders/mikan.py:503-506 | a link without `/Home/Bangumi/` has no id |
| MikanScan.FirstDigitFrom | mikan.py:406 | the position found is the first digit at or after the start, and there is none exactly when no digit follows |
| MikanScan.FirstNumber | mikan.py:406-408 | there is a number exactly when the title has a digit |
| MikanScan.EpisodeOrOne | mikan.py:402-408 | the episode is the first number of the title, and 1 for a title without digits |
| MikanScan.EpisodeOfLeadingNumber | mikan.py:406-408 | a title that starts with a number gives that number |
| MikanScan.CleanPageTitle | ikuyo/crawler/spiders/mikan.py:508-514 | a title starting with "Mikan Project - " loses every occurrence of that text; any other title, or none, is kept |
| MikanScan.PrefixRemoved | ikuyo/crawler/spiders/mikan.py:512-513 | the site prefix is removed from a page title that carries it once, leaving the anime's name |
| MikanScan.PyTake | ikuyo/crawler/spiders/mikan.py:111 | a slice by a limit is a prefix: all of the list without a limit, at most `limit` elements for a non-negative one, and that many fewer from the end for a negative one |
| MikanScan.LimitIfSet | ikuyo/crawler/spiders/mikan.py:111 | a zero or missing limit keeps every element; any other limit slices |
| MikanScript.IsValidSubtitleGroup | mikan.py:206-210 | a name is valid exactly when it has more than one character and is not an excluded label |
| MikanScript.SpaceRun | mikan.py:215 | the run found is whitespace inside the text |
| MikanScript.DateLen | mikan.py:215 | a date found starts with a digit and lies inside the text |
| MikanScript.FirstCutFrom | mikan.py:215 | a cut found is the leftmost position at or after the start where whitespace and a date begin |
| MikanScript.FirstCutNone | mikan.py:215 | without a cut found, the pattern matches nowhere from the start on |
| MikanScript.LineEnd | mikan.py:215 | `.*` stops at the first line break, or at the end of the text |
| MikanScript.DropDates | mikan.py:215 | removing the matches never lengthens the text |
| MikanScript.CleanSubtitleGroupName | mikan.py:212-216 | a name without a date is kept; cleaning never lengthens it; a one-line name is cut at the first whitespace-then-date |
| MikanScript.DropDatesOneLine | mikan.py:215 | on a one-line name the first match removes the rest of the text |
| MikanScript.CleanCutsAtFirstDate | mikan.py:212-216 | on a one-line name with a date, cleaning keeps exactly the text before the leftmost whitespace-then-date, which starts at or before that date |
| MikanScript.CutBeforeDate | mikan.py:215 | a date puts the first cut at or before it |
| MikanScript.CleanExample | mikan.py:212-216 | "ANi 2024/7/5 更新" is cleaned to "ANi" |
| MikanScript.DigitRunSpan | mikan.py:215 | the digit run at a position is as long as the digits standing there |
| MikanScript.DateLenAt | mikan.py:215 | three digit runs separated by single '/' are matched whole as a date |
| MikanScript.ValidThenCleanedToEmpty | mikan.py:199-201 | validation runs before cleaning, so a name that is only a date, "1/2/3", is accepted and then emptied |
| MikanScript.SubgroupId | mikan.py:179-190 | the id is that of the first class starting "subgroup-" whose remainder parses as an integer, earlier unparsable classes being skipped; without such a class there is none |
| MikanScript.SubgroupIdExample | mikan.py:184-190 | `subgroup-382` gives 382 after the class `subgroup-name`, which does not parse and is skipped |
| MikanScript.GroupOf | mikan.py:175-205 | a list item gives a group exactly when its subgroup link has a non-zero id and a valid name; the name is then cleaned |
| MikanScript.GroupsOf | mikan.py:172-205 | at most one group per list item |
| MikanScript.CollectGroups | mikan.py:172-205 | the loop collects exactly the groups of the list items, in order |
| MikanScript.ExtractSubtitleGroups | mikan.py:166-204 | a page that nowhere mentions "字幕组列表" gives no group; otherwise every list item is examined once |
| MikanScript.Truthy | mikan.py:277-279 | an attribute's text exactly when it is non-empty |
| MikanScript.TorrentUrl | mikan.py:282-291 | a torrent link exactly when the first link's target contains "Download" |
| MikanScript.RowResource | mikan.py:259-268 | a resource takes the first cell's title and magnet link, the second and third cells' size and date, the fourth cell's torrent link (kept only when it points at a Download path), the fifth cell's play link and the group it was searched under |
| MikanScript.RowsResources | mikan.py:252-269 | at most one resource per row after the header, each of the group searched for |
| MikanScript.TablesResources | mikan.py:242-269 | every resource collected belongs to the group searched for |
| MikanScript.ExtractGroupResources | mikan.py:235-270 | the loop over the tables collects exactly the rows of the tables whose parent mentions the group |
| MikanScript.ExtractRowResources | mikan.py:252-269 | the loop over one table collects exactly its rows after the header with five cells or more |
| MikanScript.ShortRowsSkipped | mikan.py:257-258 | rows of four cells or fewer never become resources |
| MikanScript.ResourcesByGroup | mikan.py:218-233 | only groups with resources are listed, under a name of one of the groups |
| MikanScript.ExtractResources | mikan.py:218-233 | the loop builds exactly the resources by group name, a later group of the same name replacing an earlier one |
| MikanScript.ListedUnderOwnGroup | mikan.py:226-231 | every listed resource belongs to the group it is listed under |
| MikanScript.ListEntries | mikan.py:61-71 | at most one entry per link |
| MikanScript.ParseBangumiListPage | mikan.py:56-72 | the loop keeps exactly the links to a detail page, even when their id cannot be read |
| MikanScript.Crawled | mikan.py:320-328 | at most one detail per entry |
| MikanScript.CrawlBangumiList | mikan.py:310-335 | a failing list page gives no result; otherwise the details of the listed entries kept by the limit whose fetch succeeds, in order |
| MikanScript.CrawlBounded | mikan.py:320 | with a non-negative limit at most that many anime are crawled, and never more than are listed |
| MikanScript.ToStored | mikan.py:400-420 | a stored resource takes the first number of its title as its episode (1 without one), the magnet link as its download link and the link's hash |
| MikanScript.StoredExample | mikan.py:400-420 | a resource with a proper magnet URI stores its infohash, and a title starting "12 " gets episode 12 |
| MikanScript.Description | mikan.py:159-164 | the description is the first page string longer than 50 characters (every earlier string is at most 50 long), and there is none exactly when no string is that long |
| MikanSpiderScript.NamesOf | mikan_spider.py:161-165 | at most one name per list item |
| MikanSpiderScript.NamesFromValidTexts | mikan_spider.py:161-165 | every name is the cleaned form of a valid list-item text, so an excluded navigation label never contributes |
| MikanSpiderScript.ExtractSubtitleGroups | mikan_spider.py:154-168 | a page that nowhere mentions "字幕组列表" gives no name; otherwise the valid list-item texts, each cleaned of its date, in order |
| MikanSpiderScript.RowResource | mikan_spider.py:218-224 | a resource takes the title, size and date of the first three cells, the fourth cell's link and the group it was searched under |
| MikanSpiderScript.RowsResources | mikan_spider.py:212-225 | at most one resource per row after the header, each of the group searched for |
| MikanSpiderScript.WideRowsAllKept | mikan_spider.py:216-225 | rows of four cells or more are all kept, one resource each |
| MikanSpiderScript.TablesResources | mikan_spider.py:202-225 | every resource collected belongs to the group searched for |
| MikanSpiderScript.ExtractGroupResources | mikan_spider.py:197-227 | the loop collects exactly the rows after the header of the tables whose parent mentions the group |
| MikanSpiderScript.ExtractRowResources | mikan_spider.py:212-225 | the loop over one table collects exactly its resources |
| MikanSpiderScript.ByGroup | mikan_spider.py:184-195 | only listed names with resources appear, each with the resources of its tables |
| MikanSpiderScript.ByGroupComplete | mikan_spider.py:190-193 | a listed name appears exactly when it has resources |
| MikanSpiderScript.ExtractResources | mikan_spider.py:182-195 | the loop builds exactly the resources by group name |
| ScrapyItems.Get | ikuyo/crawler/pipelines.py:382 | a field that is not set reads as None; a set field reads as its value |
| IkuyoPipelines.Validate | ikuyo/crawler/pipelines.py:15-32 | an item is dropped exactly when it is an anime, resource, subtitle group or link item lacking one of its required fields; every other item passes unchanged |
| IkuyoPipelines.OtherKindsPass | ikuyo/crawler/pipelines.py:18-32 | crawl-log items and items of other classes are never validated away |
| IkuyoPipelines.Record | ikuyo/crawler/pipelines.py:380-408 | recording an item only adds to the seen sets |
| IkuyoPipelines.DuplicateRecordsNothing | ikuyo/crawler/pipelines.py:380-408 | a repeat changes no seen set |
| IkuyoPipelines.SecondCopyDropped | ikuyo/crawler/pipelines.py:380-406 | once an anime, subtitle group, link pair or hashed resource has passed, the same key is dropped from then on |
| IkuyoPipelines.UnhashedResourceKept | ikuyo/crawler/pipelines.py:401-406 | a resource without a truthy hash is never dropped and never recorded |
| IkuyoPipelines.DuplicatesPipeline.constructor | ikuyo/crawler/pipelines.py:374-378 | all four seen sets start empty |
| IkuyoPipelines.DuplicatesPipeline.ProcessItem | ikuyo/crawler/pipelines.py:380-408 | a repeat is dropped and anything else passes unchanged; the seen sets take the item's key |
| SrcIkuyoPipelines.PassThrough | src/ikuyo/crawler/pipelines.py:19-21 | every item is handed on unchanged |
| SrcIkuyoPipelines.DataValidation | src/ikuyo/crawler/pipelines.py:49-62 | missing fields are only logged: the item is never dropped or changed |
| SrcIkuyoPipelines.Validate | src/ikuyo/crawler/pipelines.py:65-79 | an item is dropped exactly when it is an anime, resource or subtitle group lacking a required field; every other item passes unchanged |
| SrcIkuyoPipelines.LinkItemsUnchecked | src/ikuyo/crawler/pipelines.py:68-79 | a link item passes even without its ids, which the ikuyo pipeline would drop |
| SrcIkuyoPipelines.Record | src/ikuyo/crawler/pipelines.py:306-326 | recording an item only adds to the seen sets |
| SrcIkuyoPipelines.SecondCopyDropped | src/ikuyo/crawler/pipelines.py:306-324 | once an anime, subtitle group or hashed resource has passed, the same key is dropped from then on |
| SrcIkuyoPipelines.DuplicatesPipeline.constructor | src/ikuyo/crawler/pipelines.py:301-304 | all three seen sets start empty |
| SrcIkuyoPipelines.DuplicatesPipeline.ProcessItem | src/ikuyo/crawler/pipelines.py:306-326 | a repeat is dropped and anything else passes unchanged; the seen sets take the item's key |
| SrcIkuyoPipelines.Dumped | src/ikuyo/crawler/pipelines.py:43 | one dump per item, in order |
| SrcIkuyoPipelines.JsonWriterPipeline.constructor | src/ikuyo/crawler/pipelines.py:27-34 | the file holds the opening bracket and no item has been written |
| SrcIkuyoPipelines.JsonWriterPipeline.ProcessItem | src/ikuyo/crawler/pipelines.py:40-46 | a separator before every item but the first, then the item's dump; the item passes unchanged; the text stays the opening bracket and the written dumps joined by separators |
| SrcIkuyoPipelines.JsonWriterPipeline.CloseSpider | src/ikuyo/crawler/pipelines.py:36-38 | the closing bracket completes the array of every written item's dump |
| SrcIkuyoPipelines.EmptyRunFramed | src/ikuyo/crawler/pipelines.py:33-37 | a run with no items writes an empty array |
| ResourceRoutes.Rank | ikuyo/api/routes/resources.py:30-46 | a listed name gets its 1-based position, the first one if listed twice; any other name gets 99 |
| ResourceRoutes.SubtitleTypePriority | ikuyo/api/routes/resources.py:28-46 | the eleven subtitle types get 1 to 11 in the table's order; None and any other type get 99 |
| ResourceRoutes.ResolutionPriority | ikuyo/api/routes/resources.py:49-58 | the five resolutions get 1 to 5 in the table's order; None and any other resolution get 99 |
| ResourceRoutes.RankInjective | ikuyo/api/routes/resources.py:30-58 | distinct listed names get distinct priorities, so the order among them is strict |
| ResourceRoutes.BilingualFirst | ikuyo/api/routes/resources.py:32 | the bilingual Chinese-Japanese type sorts before every other type |
| ResourceRoutes.HigherResolutionFirst | ikuyo/api/routes/resources.py:51-57 | among listed resolutions, one sorts before another exactly when it has more lines |
| ResourceRoutes.LinesDecreasing | ikuyo/api/routes/resources.py:51-57 | the table lists resolutions from the most lines to the fewest |
| ResourceRoutes.UnlistedResolutionsLast | ikuyo/api/routes/resources.py:58 | 1440p, 4K, 240p and a missing resolution all sort after every listed one |
| ResourceRoutes.Shown | ikuyo/api/routes/resources.py:140-153 | a shown resource has a release date exactly when its timestamp is set and non-zero |
| ResourceRoutes.Occurring | ikuyo/api/routes/resources.py:130 | exactly the group ids some resource carries |
| ResourceRoutes.AddResourceOk | ikuyo/api/routes/resources.py:129-155 | one iteration of the grouping loop keeps the groups in step with the resources seen so far |
| ResourceRoutes.GroupedFacts | ikuyo/api/routes/resources.py:128-155 | every resource is filed exactly once: group ids are distinct and are exactly those that occur; each group holds its resources in order, is named from the repository ("未知字幕组" when unknown) and counts its own resources; the counts add up to the number of resources |
| ResourceRoutes.GroupedInFirstAppearanceOrder | ikuyo/api/routes/resources.py:128-155 | the grouping dictionary lists the groups in the order in which their ids first occur among the resources |
| ResourceRoutes.EpisodeNumberAsWritten | ikuyo/api/routes/resources.py:160-163 | a title lacking "第" or "集" is keyed 999; otherwise by `int()` of the text between the last "第" and the next "集", which may raise |
| ResourceRoutes.BatchTitleRaises | ikuyo/api/routes/resources.py:160-163 | a batch title "第01-12集" has no integer between the markers, so the sort raises and the request answers 500 |
| ResourceRoutes.MarkedEpisode | ikuyo/api/routes/resources.py:161 | a title "第<n>集" is keyed by `int(n)` |
| ResourceRoutes.EpisodeKey | ikuyo/api/routes/resources.py:160-163 | with the intended fallback, a title whose marked text is not an integer is keyed 999 like an unnumbered one; every other title keeps its key |
| ResourceRoutes.BatchTitleSortsLast | ikuyo/api/routes/resources.py:160-163 | with the fallback, the batch title gets key 999 instead of failing the request |
| ResourceRoutes.Insert | ikuyo/api/routes/resources.py:159-167 | insertion adds exactly the one element |
| ResourceRoutes.InsertSorted | ikuyo/api/routes/resources.py:159-167 | inserting into a sorted list keeps it sorted |
| ResourceRoutes.InsertWithKey | ikuyo/api/routes/resources.py:159-167 | insertion puts the new element ahead of the elements with its own key and leaves the order among every key unchanged otherwise |
| ResourceRoutes.SortBy | ikuyo/api/routes/resources.py:159-167 | the sorted list is in key order, a permutation of the input, and stable: the elements of any one key keep their input order, as `list.sort` guarantees |
| ResourceRoutes.SortGroup | ikuyo/api/routes/resources.py:158-167 | with the corrected episode key, sorting a group keeps its id, name and count and puts a permutation of its resources in key order, resources of equal key staying in arrival order |
| ResourceRoutes.GroupResources | ikuyo/api/routes/resources.py:128-155 | the loop builds exactly the grouping of the resources |
| ResourceRoutes.GetAnimeResources | ikuyo/api/routes/resources.py:66-187 | with the corrected episode key, which cannot raise, an unknown anime gives 404 with its message; no resources is still a success with no groups and the episode-specific or general message; otherwise "获取资源成功" with the total equal to the number of resources, the group counts adding up to it, distinct group ids that are exactly those that occur, listed in the order in which each id first occurs, each group being the sorted grouping of its own resources (key order, equal keys in arrival order) |
| ResourceRoutes.SortedGroupsOk | ikuyo/api/routes/resources.py:157-173 | with the corrected episode key, sorting inside the groups keeps the total, the distinct ids and each group's members, name and count, and puts each group in key order |
| ResourceRoutes.SortedGroupsKeepOrder | ikuyo/api/routes/resources.py:157-173 | with the corrected episode key, sorting inside the groups keeps the groups' first-appearance order, and within each group the resources of one key stay in arrival order |
| ResourceRoutes.SortGroups | ikuyo/api/routes/resources.py:158-167 | with the corrected episode key, the loop sorts every group and nothing else |
| ResourceRoutes.CeilDiv | ikuyo/api/routes/resources.py:264 | the page count is the least number of pages that holds every result, 0 for none |
| ResourceRoutes.SearchOffset | ikuyo/api/routes/resources.py:253 | a page skips the rows of the pages before it |
| ResourceRoutes.TruthyIds | ikuyo/api/routes/resources.py:257-261 | only truthy bangumi ids of the results, and every truthy id among them |
| ResourceRoutes.SearchAnimeLibrary | ikuyo/api/routes/resources.py:241-276 | the truthy ids of the page, the page and per-page as asked, the total, the least page count that holds it, a next page exactly before the last page and a previous page exactly after the first |
| ResourceRoutes.ResultOnItsPage | ikuyo/api/routes/resources.py:253-264 | every result lies on exactly one page, within the page count, among the rows that page covers |
| AnimeRoutes.PageSlice | ikuyo/api/routes/animes.py:60 | the slice holds at most one page of rows, each the row at its offset, and is shorter only where the list runs out |
| AnimeRoutes.PageCount | ikuyo/api/routes/animes.py:57 | at least one page; for a non-empty list, the least number of pages that holds every row |
| AnimeRoutes.RowOnItsPage | ikuyo/api/routes/animes.py:42-60 | every row appears on a page within the page count, at its place in that page |
| AnimeRoutes.WithStatus | ikuyo/api/routes/animes.py:52-53 | exactly the animes whose status equals the one asked for |
| AnimeRoutes.GetAnimes | ikuyo/api/routes/animes.py:29-70 | the page, per-page, total and page count of the kept animes (the title search when a query is given, else all, then those with the asked status), and the asked page of them: at most per-page animes, all drawn from the source list and, when asked, of that status |
| AnimeRoutes.DetailGroupsFacts | ikuyo/api/routes/animes.py:91-99 | the detail view's subtitle groups have distinct ids, each named by the first row with an id and a name for it, and every such row's id has a group |
| AnimeRoutes.CollectSubtitleGroups | ikuyo/api/routes/animes.py:91-99 | the loop builds exactly the deduplicated groups |
| AnimeRoutes.GetAnimeDetail | ikuyo/api/routes/animes.py:75-110 | not found exactly when the anime is missing or empty; otherwise the anime, all its resources and the deduplicated groups |
| AnimeRoutes.GetAnimeResources | ikuyo/api/routes/animes.py:117-148 | not found exactly when the anime is missing or empty; otherwise the total, the page count and the asked page of its resources |
| AnimeRoutes.SearchAnimes | ikuyo/api/routes/animes.py:155-174 | a prefix of the matches, of the limit's length or all of them when fewer |
| ApiAnalyzer.ShallowImpliesDeep | src/utils/api_analyzer.py:99-122 | whatever the src spider's one-level anime-data check accepts, the recursive check accepts too |
| ApiAnalyzer.DeepFindsNested | src/utils/api_analyzer.py:110-114 | the recursive check finds an anime field one dictionary down, where the one-level check does not |
| ApiAnalyzer.ListInListIgnored | src/utils/api_analyzer.py:116-120 | a list directly inside a list is not searched, only dictionaries in it |
| ApiAnalyzer.ValidResponseCases | src/utils/api_analyzer.py:75-97 | a non-200 answer is invalid; a JSON answer is valid exactly when it parses and holds anime data; otherwise an HTML answer is valid exactly when it contains "/Home/Bangumi/"; any other content type is invalid |
| ApiAnalyzer.ExtractBangumiLinksFromHtml | src/utils/api_analyzer.py:140-155 | the count is the number of id matches with repeats; the ids are exactly the matched ids, no more of them than the count; the titles are a prefix cut to the count |
| ApiAnalyzer.ParseResponseData | src/utils/api_analyzer.py:124-138 | JSON content gives its parsed data, or nothing when it does not parse; HTML content gives the link summary; any other type gives nothing |
| ApiAnalyzer.FirstSuccess | src/utils/api_analyzer.py:52-68 | the first candidate whose answer is valid, with every earlier one invalid; none exactly when no candidate is valid |
| ApiAnalyzer.Analysis | src/utils/api_analyzer.py:24-73 | without a valid candidate every candidate is recorded and nothing is found; otherwise the candidates up to and including the first valid one are recorded once each, in order, and that url and its parsed data are the result |
| ApiAnalyzer.AnalyzeUpdateBangumiFlow | src/utils/api_analyzer.py:24-73 | the loop yields exactly that analysis |
| ApiAnalyzer.AttemptsFollowCandidates | src/utils/api_analyzer.py:52-71 | between one and four attempts are recorded, each naming the candidate tried at its position |
| ApiAnalyzer.WorkingApi | src/utils/api_analyzer.py:207-216 | a found endpoint is one some season's analysis found; none exactly when no season's analysis finds one |
| ApiAnalyzer.WorkingApiFrom | src/utils/api_analyzer.py:211-214 | the search stops at a season with a found endpoint and otherwise goes on with the next |
| ApiAnalyzer.FindWorkingApi | src/utils/api_analyzer.py:207-216 | the loop over the four seasons yields exactly the first found endpoint |
| ApiAnalyzer.TestAllSeasons | src/utils/api_analyzer.py:197-205 | one entry per season, each that season's analysis |
| CacheService.Ttl | ikuyo/core/cache_service.py:29-45 | a known type reads with its own time-to-live; any other with the default 1800 seconds |
| CacheService.ExpiryByRequestedType | ikuyo/core/cache_service.py:40-47 | expiry follows the type a record is read as: a "subject" record is live after 1801 seconds read as "subject" but expired read as "default" |
| CacheService.ReadFile | ikuyo/core/cache_service.py:63-85 | with no file the read misses and changes nothing; a hit comes only from a stored file record, which is then loaded into memory |
| CacheService.Read | ikuyo/core/cache_service.py:49-85 | a live memory record answers at once and changes nothing (a record without data raises); an expired one is dropped from memory and the file is tried; without a memory record the file is tried |
| CacheService.Write | ikuyo/core/cache_service.py:87-103 | memory holds the new record stamped now; the key has a file, and every other key's file is unchanged |
| CacheService.SetThenGet | ikuyo/core/cache_service.py:49-103 | a value just set reads back unchanged until the time-to-live of the type it is read as has passed |
| CacheService.SetIsolated | ikuyo/core/cache_service.py:87-103 | setting one key leaves every other key's read unchanged |
| CacheService.ExpiredLeavesMemory | ikuyo/core/cache_service.py:55-85 | an expired memory record without a readable file misses and leaves neither a record nor a file for the key |
| CacheService.Clear | ikuyo/core/cache_service.py:105-130 | a non-empty key removes exactly that key's record and file; no key or the empty key empties both layers |
| CacheService.CacheManager.constructor | ikuyo/core/cache_service.py:21-34 | an empty memory layer over the files already in the directory |
| CacheService.CacheManager.Get | ikuyo/core/cache_service.py:49-85 | the answer and the new contents are those of the read |
| CacheService.CacheManager.Set | ikuyo/core/cache_service.py:87-103 | the new contents are those of the write |
| CacheService.CacheManager.ClearCache | ikuyo/core/cache_service.py:105-130 | the new contents are those of the clear |
| CacheService.CacheManager.GetCacheInfo | ikuyo/core/cache_service.py:132-146 | the number of memory records, the number of cache files and the time-to-live table |
| IkuyoScrapySpider.LimitOf | ikuyo_scrapy/ikuyo_scrapy/spiders/mikan.py:17-21 | an absent or empty limit argument gives 3; a text `int()` accepts gives its value; any other text raises |
| IkuyoScrapySpider.HomepageRequests | ikuyo_scrapy/ikuyo_scrapy/spiders/mikan.py:28-49 | only the first `limit` homepage links are followed, each as a detail request with a non-zero id, never more requests than links |
| IkuyoScrapySpider.ExternalLinks | ikuyo_scrapy/ikuyo_scrapy/spiders/mikan.py:168-176 | exactly the page's links that are http(s) and name neither mikanani.me nor bgm.tv |
| IkuyoScrapySpider.FindExternalLinks | ikuyo_scrapy/ikuyo_scrapy/spiders/mikan.py:166-179 | a link exactly when the page has one external link, and then it is that link |
| IkuyoScrapySpider.TwoExternalLinksNoGuess | ikuyo_scrapy/ikuyo_scrapy/spiders/mikan.py:179 | two different external links make the guess give up |
| IkuyoScrapySpider.OfficialWebsite | ikuyo_scrapy/ikuyo_scrapy/spiders/mikan.py:128-143 | the first non-empty result of the link-text search, the section search, the single-external-link guess and the known-domain search, in that order |
| IkuyoScrapySpider.GroupOf | ikuyo_scrapy/ikuyo_scrapy/spiders/mikan.py:234-256 | a link whose first parsable "subgroup-" class is a non-zero id raises (the AttributeError of `.strip()` on no text) exactly when it has no text node, and gives a group exactly when its stripped text is longer than one character; the group has that id and name; any other link is skipped before its text is read |
| IkuyoScrapySpider.GroupsOf | ikuyo_scrapy/ikuyo_scrapy/spiders/mikan.py:227-258 | the extraction raises exactly when some link raises; otherwise at most one group per link, each with a non-zero id and a name of two or more characters |
| IkuyoScrapySpider.ExtractSubtitleGroups | ikuyo_scrapy/ikuyo_scrapy/spiders/mikan.py:227-258 | the loop stops at the first link that raises, and otherwise collects exactly the groups of the links, in order |
| IkuyoScrapySpider.NameOrder | ikuyo_scrapy/ikuyo_scrapy/spiders/mikan.py:265 | the dictionary's keys are exactly the group names, each once |
| IkuyoScrapySpider.NameToId | ikuyo_scrapy/ikuyo_scrapy/spiders/mikan.py:265 | the dictionary has exactly the group names as keys |
| IkuyoScrapySpider.NameToIdLast | ikuyo_scrapy/ikuyo_scrapy/spiders/mikan.py:265 | the last group carrying a name gives that name its id |
| IkuyoScrapySpider.TableGroup | ikuyo_scrapy/ikuyo_scrapy/spiders/mikan.py:276-282 | the first name in dictionary order that occurs in the table's parent text; none exactly when no name occurs |
| IkuyoScrapySpider.TableGroupId | ikuyo_scrapy/ikuyo_scrapy/spiders/mikan.py:276-285 | a table gets an id exactly when some group name occurs in its parent text, and then it is the id of a group whose name occurs there |
| IkuyoScrapySpider.TorrentOf | ikuyo_scrapy/ikuyo_scrapy/spiders/mikan.py:311-315 | a torrent url exactly when the fourth cell's link mentions "Download" |
| IkuyoScrapySpider.ParseRow | ikuyo_scrapy/ikuyo_scrapy/spiders/mikan.py:298-353 | a row fails exactly when its size or date cell has no text; otherwise the resource carries the anime and group ids, the stripped title, its first number or 1 as the episode, the magnet link and its case-kept hash, the torrent and play links, and the stripped size and date |
| IkuyoScrapySpider.RowsOf | ikuyo_scrapy/ikuyo_scrapy/spiders/mikan.py:288-294 | at most one resource per row, each filed under the table's anime and group |
| IkuyoScrapySpider.NarrowRowsSkipped | ikuyo_scrapy/ikuyo_scrapy/spiders/mikan.py:291 | rows of fewer than five cells never give a resource |
| IkuyoScrapySpider.CollectRows | ikuyo_scrapy/ikuyo_scrapy/spiders/mikan.py:288-294 | the loop collects exactly the rows' resources, in order |
| IkuyoScrapySpider.ExtractResources | ikuyo_scrapy/ikuyo_scrapy/spiders/mikan.py:260-296 | the loop files each table's rows under the first matching group name's id and skips tables matching none |
| IkuyoScrapySpider.Spider.constructor | ikuyo_scrapy/ikuyo_scrapy/spiders/mikan.py:19-26 | the spider keeps its limit and starts a "running" log with no items |
| IkuyoScrapySpider.Spider.ParseAnimeDetail | ikuyo_scrapy/ikuyo_scrapy/spiders/mikan.py:51-85 | when a subgroup link raises, nothing after the AnimeItem is emitted and the log is untouched; otherwise the page's groups and resources are emitted and the log's item count grows by the number of resources, recording the anime |
| IkuyoScrapySpider.Spider.Closed | ikuyo_scrapy/ikuyo_scrapy/spiders/mikan.py:355-358 | the log's status is "success" exactly for the reason "finished", else "error" |
| SrcSpider.AnyDictWithField | src/crawler/spiders/mikan.py:238-241 | the list loop finds a match exactly when some element is a dictionary with one of the five anime keys |
| SrcSpider.ContainsBangumiData | src/crawler/spiders/mikan.py:231-242 | a dictionary matches exactly when it has one of the five keys; a list exactly when one of its dictionary elements has one; nothing else matches |
| SrcSpider.NestedDataMissed | src/crawler/spiders/mikan.py:233-237 | anime data one dictionary down is not recognised |
| SrcSpider.ExtractBangumiFromHtml | src/crawler/spiders/mikan.py:267-291 | one request per `/Home/Bangumi/<digits>` match, duplicates kept and cut to a set limit; each names its digits and their detail url and takes the title at its position, or the season's fallback title when titles run out |
| SrcSpider.Requests | src/crawler/spiders/mikan.py:283-291 | one request per id, in order, with the title at the same position or else the fallback |
| SrcSpider.Spider.constructor | src/crawler/spiders/mikan.py:13-49 | an argument wins over the configuration: the limit falls back only when absent, the mode, year and season whenever falsy, the mode trying `crawl_mode` before `mode`; the log starts "running" with no items and the mode |
| SrcSpider.Spider.Requests | src/crawler/spiders/mikan.py:56-180 | a start url naming a detail page gives just that page; the "year", "season" and "full" modes give only season pages, none when the API is disabled; "season" mode gives a request exactly when the API is enabled and a season is set, since `quote(None)` raises; "homepage", "incremental", any other mode and no mode give the homepage's detail requests, cut to a set limit |
| SrcSpider.Spider.ParseAnimeDetail | src/crawler/spiders/mikan.py:293-342 | with the corrected row parser (the same fifth-cell read at src/crawler/spiders/mikan.py:517-558), the page's resources are emitted and the log's item count grows by their number, recording the anime |
| SrcSpider.Spider.Closed | src/crawler/spiders/mikan.py:580-584 | the status is "completed" exactly for the reason "finished", else "failed", and the reason is recorded |
| TextParser.FirstValid | ikuyo/utils/text_parser.py:64-70 | a number taken from the hits lies in 1..9999 and is not a year between 2000 and 2030 |
| TextParser.FirstValidIndexOk | ikuyo/utils/text_parser.py:64-70 | at the position of the first accepted hit the returned number is that hit's value, and no earlier hit is accepted; with no accepted hit nothing is returned |
| TextParser.FirstValidIsFirst | ikuyo/utils/text_parser.py:64-70 | the number returned is that of the first hit in 1..9999 that passes `_is_valid_episode_number`, every earlier hit failing; there is none exactly when no hit passes |
| TextParser.FirstPattern | ikuyo/utils/text_parser.py:61-72 | whichever pattern decides, its number lies in 1..9999 and is not such a year |
| TextParser.ExtractEpisodeNumber | ikuyo/utils/text_parser.py:13-72 | an empty title has no episode; any episode found lies in 1..9999 and is not a year between 2000 and 2030 |
| TextParser.EarliestPatternWins | ikuyo/utils/text_parser.py:39-72 | when every earlier pattern yields no valid hit and pattern k yields n, the extraction of a non-empty title returns n |
| TextParser.NoPatternNoEpisode | ikuyo/utils/text_parser.py:61-72 | when no pattern yields a valid hit the extraction returns none |
| TextParser.DocumentedEp05 | ikuyo/utils/text_parser.py:28-29 | the documented "EP05" gives episode 5 |
| TextParser.DocumentedDashVersion | ikuyo/utils/text_parser.py:30-31 | the documented "- 02v2" gives episode 2, the version suffix not being part of the number |
| TextParser.DocumentedBracketVersion | ikuyo/utils/text_parser.py:32-33 | the documented "[07v2]" gives episode 7 |
| TextParser.DocumentedBracketed | ikuyo/utils/text_parser.py:24-25 | the documented "[06]" tag gives episode 6, found by the bracket pattern tried last |
| TextParser.InvalidHitSkipped | ikuyo/utils/text_parser.py:64-69 | a hit that is a year, lies inside a hash or ends a range is passed over for the next one |
| TextParser.ChapterMarkerEpisode | ikuyo/utils/text_parser.py:41 | a title "第N话" with one to four digits is episode N whenever N is a valid episode |
| TextParser.ByHeight | ikuyo/utils/text_parser.py:193-204 | the height thresholds always give one of the six standard resolutions |
| TextParser.FromDimensions | ikuyo/utils/text_parser.py:163-207 | a width and height always give one of the six standard resolutions |
| TextParser.DimensionsByHeightOnly | ikuyo/utils/text_parser.py:178-204 | every entry of the exact table agrees with the height thresholds, so the result depends on the height alone |
| TextParser.Search | ikuyo/utils/text_parser.py:153 | the leftmost position where the form matches; none exactly when it matches nowhere |
| TextParser.FirstForm | ikuyo/utils/text_parser.py:152-157 | every converter gives a non-empty text, so the first form found anywhere decides; none exactly when no form is found |
| TextParser.FirstFormIndexOk | ikuyo/utils/text_parser.py:152-157 | at the position of the first form that is found, the resolution returned is that form's conversion, and no earlier form is found |
| TextParser.FirstFormIsFirst | ikuyo/utils/text_parser.py:152-157 | the resolution returned is the conversion of the first form, in list order, that is found; every earlier form is found nowhere |
| TextParser.ExtractResolution | ikuyo/utils/text_parser.py:112-160 | an empty title has none; otherwise the first of the four forms found decides, a `NNNp` tag winning at its first place; when no form is found the source-and-codec inference decides |
| TextParser.BracketedProgressive | ikuyo/utils/text_parser.py:140 | a tag "[NNNP]" of three or four digits reads as the lower-case "NNNp" |
| TextParser.DimensionsReadByHeight | ikuyo/utils/text_parser.py:142-145 | a `W x H` size gives one of the six standard resolutions |
| TextParser.DimensionTag | ikuyo/utils/text_parser.py:142-157 | a four-by-four-digit `W x H` tag, with no other digits in the title, reads as the standard resolution of W and H |
| TextParser.CrDimensions | ikuyo/utils/text_parser.py:127-128 | the documented "(CR 1920x1080 AVC AAC MKV)" gives 1080p |
| TextParser.HdtvX264 | ikuyo/utils/text_parser.py:129-130 | the documented "[HDTV][x264 AAC]" gives 720p: no form matches, HDTV is the first source and there is no HEVC |
| TextParser.WebRipHevc | ikuyo/utils/text_parser.py:131-132 | the documented "[WebRip][HEVC_AAC]" gives 1080p: WEBRIP is the first source |
| TextParser.FirstSource | ikuyo/utils/text_parser.py:448-455 | the resolution of the first listed source named in the upper-cased title, every earlier source being absent; none exactly when no source is named |
| TextParser.FirstSourceAt | ikuyo/utils/text_parser.py:448-455 | conversely, the source at position k decides when it is named and no earlier one is |
| TextParser.InferResolution | ikuyo/utils/text_parser.py:416-463 | the result is 1080p, 720p, 480p or none; a 720p source with HEVC or H.265 gives 1080p, any other source found gives its own resolution; without a source HEVC gives 1080p, else H.264, X264 or AVC gives 720p, else none |
| TextParser.FirstKeyword | ikuyo/utils/text_parser.py:297-299 | the keyword found occurs in the title and is the earliest listed one that does; none exactly when no listed keyword occurs |
| TextParser.ExtractSubtitleType | ikuyo/utils/text_parser.py:210-301 | none exactly for an empty title; otherwise the earliest listed keyword occurring in the title, and "其他" exactly when the title is non-empty and contains none |
| TextParser.ShortHidesLonger | ikuyo/utils/text_parser.py:250-272 | a keyword containing one of the short pairs 简日, 繁日, 简英, 繁英, 简繁 (and itself neither a pair nor a combined keyword) is never the one found |
| TextParser.JapanesePairShadows | ikuyo/utils/text_parser.py:250-259 | as written, 简日内封, 繁日内封, 简日内嵌 and 繁日内嵌 are never returned |
| TextParser.TraditionalPairShadows | ikuyo/utils/text_parser.py:254-272 | as written, 简繁内封, 简繁内挂, 简繁内嵌 and 简繁外挂 are never returned |
| TextParser.DocumentedExampleFails | ikuyo/utils/text_parser.py:225-226 | the documented example "[简繁内挂]" does not give "简繁内挂" |
| TextParser.ExtractSubtitleTypeIntended | ikuyo/utils/text_parser.py:210-301 | with the track keywords tried before the short pairs: none exactly for an empty title; otherwise the earliest listed keyword occurring in the title, and "其他" exactly when the title is non-empty and contains none |
| TextParser.IntendedFindsLongKeyword | ikuyo/utils/text_parser.py:225-226 | with the intended order the title "简繁内挂" gives "简繁内挂", as documented |
| TextParser.IntendedAgreesWithoutShortKeywords | ikuyo/utils/text_parser.py:232-299 | the correction changes nothing for a title containing none of the five short pairs |
| TextParser.NormalizeSubtitleType | ikuyo/utils/text_parser.py:466-544 | none exactly for an empty text; otherwise one of the normalised types, "其他" exactly for a text the map does not list |
| TextParser.KeyListed | ikuyo/utils/text_parser.py:488-544 | a key of the map never normalises to "其他" |
| TextParser.ListedKeywords | ikuyo/utils/text_parser.py:232-294 | each combined keyword, short pair, track keyword from 简体内封 on, and language keyword of the extraction list has a map entry |
| TextParser.ExtractedTypesAreListed | ikuyo/utils/text_parser.py:210-301 | every type the extraction as written returns, other than "其他", has a map entry |
| TextParser.IntendedTrackKeywordUnlisted | ikuyo/utils/text_parser.py:488-544 | "简繁内挂" has no map entry, so even once reachable it normalises to "其他" |
| AnimeDetailStore.MainEpisodes | frontend/src/stores/animeDetailStore.ts:15 | exactly the episodes of type 0, never more than there are episodes |
| AnimeDetailStore.MainEpisodesAppend | frontend/src/stores/animeDetailStore.ts:15 | the filter keeps the episodes' order: filtering a concatenation concatenates the filtered parts |
| AnimeDetailStore.MainEpisodesIdempotent | frontend/src/stores/animeDetailStore.ts:15 | filtering the main episodes again changes nothing |
| AnimeDetailStore.HasResourceCases | frontend/src/stores/animeDetailStore.ts:17-20 | no availability, or none listed, shows no resource; one available episode shows one; all unavailable shows none |
| AnimeDetailStore.Message | frontend/src/stores/animeDetailStore.ts:63 | the error's own message when it has one, else the default |
| AnimeDetailStore.AnimeDetailStore.constructor | frontend/src/stores/animeDetailStore.ts:7-12 | every field starts at its initial value |
| AnimeDetailStore.AnimeDetailStore.Clear | frontend/src/stores/animeDetailStore.ts:23-30 | every field goes back to its initial value |
| AnimeDetailStore.AnimeDetailStore.FetchAll | frontend/src/stores/animeDetailStore.ts:33-68 | data already loaded for the same id is kept as it is; otherwise the store is cleared for the id, the subject and episodes are taken together with the availability (null when its fetch fails, without an error), or on failure the store stays cleared with the error message; loading ends off |
| AnimeDetailStore.AnimeDetailStore.FetchSubject | frontend/src/stores/animeDetailStore.ts:71-78 | the subject is replaced, or the error is set; nothing else changes |
| AnimeDetailStore.AnimeDetailStore.FetchEpisodes | frontend/src/stores/animeDetailStore.ts:79-87 | the episodes are replaced, or the error is set; nothing else changes |
| AnimeDetailStore.AnimeDetailStore.FetchAvailability | frontend/src/stores/animeDetailStore.ts:88-95 | the availability is replaced, or the error is set; nothing else changes |
| TaskStore.FindIndex | frontend/src/stores/taskStore.ts:39 | the position of the first task with that id, or -1 exactly when no task has it |
| TaskStore.Merge | frontend/src/stores/taskStore.ts:126 | the merged task has the keys of both; the message's fields override the task's and the task keeps the rest |
| TaskStore.Serials | frontend/src/stores/taskStore.ts:158-160 | the connection of every listed key's socket, and only connections of sockets in the map |
| TaskStore.Without | frontend/src/stores/taskStore.ts:153 | exactly the keys other than the removed one |
| TaskStore.WithoutDistinct | frontend/src/stores/taskStore.ts:153 | removing a key keeps the keys distinct |
| TaskStore.TaskStore.constructor | frontend/src/stores/taskStore.ts:11-16 | no tasks and no sockets |
| TaskStore.TaskStore.FetchTasks | frontend/src/stores/taskStore.ts:20-25 | the list becomes the fetched one; a failed fetch changes nothing; the sockets are untouched |
| TaskStore.TaskStore.CancelTask | frontend/src/stores/taskStore.ts:36-44 | the answer replaces the first listed task with that id in place; no task is added or removed; with no such task or a failed call the list is unchanged |
| TaskStore.TaskStore.StartTaskProgressWs | frontend/src/stores/taskStore.ts:114-147 | a task with a socket gets no second one; otherwise one new connection is recorded for it; each socket stays that of its own task, open and unshared |
| TaskStore.TaskStore.StopTaskProgressWs | frontend/src/stores/taskStore.ts:149-155 | only that task's socket is closed and forgotten |
| TaskStore.TaskStore.StopAllTaskProgressWs | frontend/src/stores/taskStore.ts:157-162 | every socket in the map is closed, in the order opened, and the map is empty |
| TaskStore.TaskStore.OnMessage | frontend/src/stores/taskStore.ts:121-134 | a parsed message is merged into the listed task with that id only, and a completed, failed or cancelled status closes its stream; an unparsable message or an unlisted id changes nothing |
| TaskStore.TaskStore.OnError | frontend/src/stores/taskStore.ts:135-140 | the task's socket is closed and the task list is fetched again |
| TaskStore.TaskStore.OnClose | frontend/src/stores/taskStore.ts:141-145 | the task's socket is forgotten and the task list is unchanged |
| ResourceStore.QueryKey | frontend/src/stores/resourceStore.ts:14-22 | the id, the resolution and subtitle type ('' when absent), the limit (100 when absent or 0) and the offset (0 when absent), joined with '-' |
| ResourceStore.DefaultsShareKey | frontend/src/stores/resourceStore.ts:17-19 | no limit, limit 0 and limit 100 share a key, as do an absent and an empty resolution |
| ResourceStore.JoinInjective | frontend/src/stores/resourceStore.ts:15-21 | a '-'-join of parts without '-' determines its parts |
| ResourceStore.KeyDeterminesQuery | frontend/src/stores/resourceStore.ts:14-22 | two queries with non-negative numbers and filters without '-' share a key only when they agree on the id and on every field as the key reads it, so the caches never mix up two different queries |
| ResourceStore.FailureMessage | frontend/src/stores/resourceStore.ts:56 | a non-empty message: the error's own when it has one |
| ResourceStore.ResourceStore.constructor | frontend/src/stores/resourceStore.ts:26-31 | three empty caches and no current query |
| ResourceStore.ResourceStore.ResourcesData | frontend/src/stores/resourceStore.ts:34-37 | the current key's cached data exactly when it is present and truthy |
| ResourceStore.ResourceStore.Loading | frontend/src/stores/resourceStore.ts:34-38 | true exactly when the current key's flag is set |
| ResourceStore.ResourceStore.Error | frontend/src/stores/resourceStore.ts:34-39 | the current key's message exactly when it is present and non-empty |
| ResourceStore.ResourceStore.FetchResources | frontend/src/stores/resourceStore.ts:42-61 | the query becomes current; its key holds the data and no error, or no data and the failure message; its loading flag ends off; every other key keeps its entries |
| ResourceStore.ResourceStore.RefreshResources | frontend/src/stores/resourceStore.ts:64-68 | without a current query nothing changes; otherwise the current query is fetched again |
| ResourceStore.ResourceStore.Clear | frontend/src/stores/resourceStore.ts:71-76 | all three caches are empty and there is no current query, so nothing is shown as data, loading or error |
| TaskUtils.Interpolate | frontend/src/utils/taskUtils.ts:8 | a string is spelt as itself and an integer in decimal |
| TaskUtils.GetParameter | frontend/src/utils/taskUtils.ts:3-15 | always a truthy value; '-' for missing or empty parameters, unparsable text or parsed null; for the key 'mode' a truthy `bangumi_id` gives "bangumi_id: X"; any other result is the stored value of the key |
| TaskUtils.BangumiIdShadowsMode | frontend/src/utils/taskUtils.ts:7-9 | for 'mode' a non-zero `bangumi_id` is shown whatever the mode is |
| TaskUtils.FormatDateTime | frontend/src/utils/taskUtils.ts:17-21 | '-' for a missing or empty text, else the locale rendering of the date |
| TaskUtils.MinutesSeconds | frontend/src/utils/taskUtils.ts:25-26 | the seconds part is below 60 and sixty times the minutes plus the seconds is the duration's whole seconds |
| TaskUtils.FormatTime | frontend/src/utils/taskUtils.ts:23-28 | '-' exactly for an undefined or negative duration; `null` shows "0m 0s"; otherwise "<minutes>m <seconds>s" |
| TaskUtils.FormatTimeWhole | frontend/src/utils/taskUtils.ts:25-27 | for whole seconds s the text is "<s div 60>m <s mod 60>s" |
| SearchStore.Window | frontend/src/stores/searchStore.ts:186-187 | the ascending page numbers from max(1, current - 2) to min(total, current + 2), none when that range is empty |
| SearchStore.WindowFacts | frontend/src/stores/searchStore.ts:180-194 | at most five pages, each between 1 and the page count, strictly increasing, including the current page whenever it exists, and none when there are no pages |
| SearchStore.SearchStore.constructor | frontend/src/stores/searchStore.ts:20-33 | an empty query and result list, flags off, page 1 of 12 per page with zero totals, over the session storage's entry |
| SearchStore.SearchStore.ClearSearchState | frontend/src/stores/searchStore.ts:47-69 | the query, results, flags and pagination go back to their initial values and the saved entry is removed |
| SearchStore.SearchStore.SaveToStorage | frontend/src/stores/searchStore.ts:72-86 | the saved entry becomes the current query, results, pagination and search flag; nothing else changes |
| SearchStore.SearchStore.RestoreFromStorage | frontend/src/stores/searchStore.ts:89-123 | the state is restored exactly when a readable snapshot with a non-empty query is saved and the user returns from a detail page; in every other case it is cleared |
| SearchStore.SearchStore.SetSearchQuery | frontend/src/stores/searchStore.ts:166-169 | the query changes and nothing else |
| SearchStore.SearchStore.PerformSearch | frontend/src/stores/searchStore.ts:126-163 | a blank query changes nothing; otherwise the search is marked made and loading ends off; a failed search sets the error and keeps the results; a found one takes its pagination, and its cards (none for no ids) become the results and are saved, unless the subject fetch fails, which sets the error |
| SearchStore.SearchStore.GoToPage | frontend/src/stores/searchStore.ts:172-177 | a search runs exactly for a page between 1 and the page count, otherwise nothing changes; a search that runs has every effect of `performSearch` (marked made, loading off, results, error, pagination and saving per the answer), and the current page becomes the requested one whenever the answer reports it |
| SearchStore.SearchStore.GetVisiblePages | frontend/src/stores/searchStore.ts:180-194 | the loop yields exactly the page window around the current page |

## Left out

- Threads, `multiprocessing` processes and queues, the blocking Redis pop, pub/sub listening, `time.sleep`, `join`/`terminate` and signal handlers are not modelled. Each loop becomes one step method. What the environment decides (idle counts, submission outcomes, process liveness, popped messages, crawl outcomes) is a parameter of that step.
- SQL execution, sessions and commits are not modelled. The task table is a map from primary key to row, and `Database` builds only the query text and its parameters. A write that raises is an oracle flag.
- Library calls the code makes are parameters: `json.dumps`/`json.loads` (JSON as in RFC 8259), `hashlib.md5`, `str()` of arbitrary values, `urljoin`, `datetime.now()`/`isoformat`/`fromisoformat`, `time.time()` (a whole-second clock), the browser's locale rendering and `JSON.parse`.
- Python regular expressions are written out as leftmost-match scanners. The model's `\d` matches ASCII digits only, while Python's matches every Unicode decimal digit. Case-insensitive matching and `.upper()` fold ASCII letters only, while Python folds every cased letter.
- Scrapy, BeautifulSoup and Selenium selectors are inputs: link lists, text nodes and table cells. Page-title, description and broadcast-date extraction read only those inputs.
- Floating point is not modelled. This covers the rounding in `CrawlerTask.update_progress` (a rounding parameter), the processing speed and the confidence score of `validate_parsed_data`.
- `parse_datetime_to_timestamp`, `timestamp_to_datetime`, `get_current_timestamp` and `validate_parsed_data` of ikuyo/utils/text_parser.py are not modelled. They are date conversions through the local time zone and a floating-point score.
- APScheduler's computation of fire times is outside the model. Only the trigger table it holds is modelled.
- Logging, debug files and front-end toasts are not modelled.
- The `get_episodes_availability` route (ikuyo/api/routes/resources.py:190-234) is not modelled. It is a repository lookup with no logic of its own.
- The HTTP 500 paths of ikuyo/api/routes/animes.py are not modelled. They are a catch-all around the repository calls.
- `generate_api_template` and `analyze_mikan_api` of src/utils/api_analyzer.py are not modelled. They are a constant dictionary and a driver that prints.
- The API path of the src spider is not modelled: `_call_api_or_fallback`, `_parse_api_response`, `_extract_bangumi_from_api` and `_api_error_callback`. These are HTTP calls. A season page is treated as one page request.
- `createTask`, the scheduled-job actions and `connectTaskProgressWs` of frontend/src/stores/taskStore.ts are not modelled. They are API calls without local bookkeeping.
- The debounce of the search store's saving is not modelled; saving is immediate. The store's watcher that auto-saves and the page argument of `performSearch` are also left out. A search's outcome is an input.
- The cache's file paths and the `.json` filtering of its directory listing are not modelled. The directory is a map from key to file content.
- The directories that src/config.py and src/ikuyo/config.py create on import are not modelled.
- MikanScript.FirstCutFrom: its ensures cover only the case where a cut is found. The case where none is found is stated by `MikanScript.FirstCutNone`.
- IkuyoScrapySpider.NameToId: its ensures state only the keys of the map. Its values (the last id given for each name) are stated by `IkuyoScrapySpider.NameToIdLast`.
- AnimeRoutes.WithStatus: its ensures state which animes are kept, not their order or multiplicity.

- Schedulers.DbStep: a falsy `job_id` makes APScheduler draw a random job id; the model files an empty id under the empty key.
- Schedulers.ConfigStep: a falsy `id` (null, empty text, 0, false, an empty collection) makes APScheduler draw a random job id. The model files an empty text id under the empty key and treats the other falsy ids like any non-text id, which raises.
- MikanRows.RowsOf: composes the corrected row parser `MikanRows.ParseResourceRow`, which keeps a four-cell row with a title and a magnet link. The code as written loses such a row (`MikanRows.ParseResourceRowAsWritten`, `MikanRows.FourCellRowDropped`); on rows of five or more cells the two agree (`MikanRows.WideRowsAgree`).
- MikanRows.BlockRows: composes the corrected row parser, as `MikanRows.RowsOf` does.
- MikanRows.BlocksRows: composes the corrected row parser, as `MikanRows.RowsOf` does.
- MikanRows.CollectRows: collects the rows of the corrected row parser, as `MikanRows.RowsOf` does.
- MikanRows.ExtractResources: collects the rows of the corrected row parser, as `MikanRows.RowsOf` does.
- MikanRows.FullRowsAllKept: holds of the corrected row parser only. As written, a table of four-cell rows yields no resource at all.
- IkuyoSpider.ExtractPageResources: enriches the rows of the corrected row parser, as `MikanRows.RowsOf` does.
- IkuyoSpider.DetailItems: enriches the rows of the corrected row parser, as `MikanRows.RowsOf` does.
- IkuyoSpider.Spider.ParseAnimeDetail: emits the rows of the corrected row parser, as `MikanRows.RowsOf` does.
- SrcSpider.Spider.ParseAnimeDetail: emits the rows of the corrected row parser. The src spider reads the fifth cell after the same four-cell guard (src/crawler/spiders/mikan.py:517, 558), so as written it loses four-cell rows too.
- ResourceRoutes.SortGroup: sorts by the corrected episode key `ResourceRoutes.EpisodeKey`. As written (`ResourceRoutes.EpisodeNumberAsWritten`), a title such as "第01-12集" makes the sort raise.
- ResourceRoutes.SortGroups: sorts by the corrected episode key, as `ResourceRoutes.SortGroup` does.
- ResourceRoutes.SortedGroupsOk: holds of the corrected episode key, as `ResourceRoutes.SortGroup` does.
- ResourceRoutes.GetAnimeResources: sorts by the corrected episode key, so it never answers 500 for a batch title. As written that request fails (`ResourceRoutes.BatchTitleRaises`).
- ResourceRoutes.EpisodeNumberAsWritten: `int()` is modelled by `Strings.PyInt`, which accepts ASCII digits only. Python's `int()` also accepts other Unicode decimal digits (full-width "０１", say), which the model reads as not a number.
- IkuyoScrapySpider.LimitOf: `int()` of a text limit is `Strings.PyInt`, ASCII digits only, as for `ResourceRoutes.EpisodeNumberAsWritten`.
- ProgressConsumer.Relay: a status or error that is neither a string nor null is stored as its `str()`; the database driver's own conversion of such values (an integer or boolean bound to a text column, a list or dict that fails to bind) is not modelled.
- ProgressConsumer.CountArg: a float or text count, which `update_progress` assigns unrounded and the source hands to the database, is treated as a failed update, because the model's count columns hold integers.
- CrawlerTasks.OptInt: a string is coerced to an integer when `int()` would read it (`PyInt`); the model does not separate Pydantic's own integer-string grammar from `int()`'s, and it leaves out Pydantic's other lax inputs (bytes, decimals).
- The front-end stores' async actions run to completion as one step. Interleavings at their `await`s (two searches racing, a websocket message arriving during a fetch) are not modelled.
- TaskStore.Merge: `{...data}` of a message whose `data` is a string or an array spreads its characters or elements under index keys in JavaScript. The model spreads only objects and treats every other value as spreading nothing.
- The availability checks of frontend/src/stores/animeDetailStore.ts read `ep.available` on each episode entry. A `null` entry makes JavaScript throw a TypeError there; the model reads it as unavailable.
- Python's equality across numeric kinds (`1 == 1.0 == True`) is not modelled. Values of different kinds are distinct, in membership tests and as dictionary keys.
- The `AnimeItem` that `parse_anime_detail` of ikuyo_scrapy/ikuyo_scrapy/spiders/mikan.py yields first (title, bangumi id, broadcast day and start, site links, description, timestamps) is not modelled. It is emitted before the subtitle groups are read, so also when that reading raises. The official-site guess it uses is modelled on its own.

## Findings

| source | as written | input that shows it | evidently intended | confidence | as-written member | corrected member |
|---|---|---|---|---|---|---|
| ikuyo/core/tasks/task_factory.py:20 | the crawler branch calls `CrawlerTask(repository, task_record, parameters, task_type_db)`, but the constructor at ikuyo/core/tasks/crawler_task.py:22 takes three arguments | `create_task("crawler", repository=r)` raises TypeError | build the crawler task from the repository and the record | not executed | TaskFactory.CreateTask, TaskFactory.CreateTaskNeverSucceeds | TaskFactory.CreateTaskIntended |
| ikuyo/worker.py:66-70 | the cancellation check re-reads the task with `repo.get_by_id`, which is `session.get`; inside the same session, with SQLModel's default session settings (`get_session` is not part of this model), that returns the identity-mapped object `update` has just refreshed, still "running" | another writer cancels a task while its crawl runs; the worker then writes "completed" over the cancellation | keep a cancellation committed during the crawl (re-read from the database) | not executed | LegacyWorker.CancelDuringCrawlOverwritten | LegacyWorker.SettleIntended, LegacyWorker.IntendedKeepsCancellation |
| ikuyo/core/repositories/scheduled_job_repository.py:26-28 | `list()` defaults to `limit=0`, and `.limit(0)` selects no rows | the scheduler's `load_jobs_from_db` on any job table loads no job | list the whole table when no limit is given | not executed | Schedulers.DefaultListingIsEmpty | Schedulers.UnlimitedListingIsTable |
| ikuyo/utils/text_parser.py:250-272 | "简日", "繁日" and "简繁" are searched before the longer keywords that contain them, so eight keywords can never be returned | "[简繁内挂]" gives "简繁", although the docstring at lines 225-226 promises "简繁内挂" | search the longer keywords first | not executed | TextParser.JapanesePairShadows, TextParser.TraditionalPairShadows, TextParser.DocumentedExampleFails | TextParser.ExtractSubtitleTypeIntended, TextParser.IntendedFindsLongKeyword |
| ikuyo/crawler/spiders/mikan.py:679-722 | rows of at least four cells pass the guard, but the play link reads `cols[4]`; the IndexError is caught, so the row is dropped; the src spider has the same guard and read (src/crawler/spiders/mikan.py:517, 558) | a four-cell row with a title and a magnet link | read a missing fifth cell as no play link | not executed | MikanRows.ParseResourceRowAsWritten, MikanRows.FourCellRowDropped | MikanRows.ParseResourceRow |
| ikuyo/api/routes/resources.py:161 | the sort key takes `int()` of the text between the last "第" and the next "集" | a resource titled "第01-12集" makes `int("01-12")` raise, and the request answers 500 | sort such a title with the unnumbered ones, at 999 | not executed | ResourceRoutes.EpisodeNumberAsWritten, ResourceRoutes.BatchTitleRaises | ResourceRoutes.EpisodeKey, ResourceRoutes.BatchTitleSortsLast |

=== FILE: anime_detail_store.dfy ===
/** The anime detail store of frontend/src/stores/animeDetailStore.ts: one
    anime's subject, episodes and resource availability, with the derived
    main-episode list and resource flag. API results are inputs: the value,
    or the failure's message. The error toasts are not modelled. */
module AnimeDetailStore {
  import opened Wrappers
  import opened Strings
  import opened PyValue
  import opened Js

  /** `ep.type === 0`: a main episode (0 and 0.0 are the same JavaScript number). */
  predicate IsMain(ep: Value) {
    Prop(ep, "type") == Int(0) || Prop(ep, "type") == Real(0.0)
  }

  /** `episodes.filter(ep => ep.type === 0)`. */
  function MainEpisodes(eps: seq<Value>): (r: seq<Value>)
    ensures |r| <= |eps|
    ensures forall e :: e in r <==> e in eps && IsMain(e)
  {
    if |eps| == 0 then []
    else
      var rest := MainEpisodes(eps[1..]);
      assert forall e :: e in eps <==> e == eps[0] || e in eps[1..];
      if IsMain(eps[0]) then [eps[0]] + rest else rest
  }

  /** The filter keeps the episodes' order: filtering a concatenation
      concatenates the filtered parts. */
  lemma {:induction false} MainEpisodesAppend(a: seq<Value>, b: seq<Value>)
    ensures MainEpisodes(a + b) == MainEpisodes(a) + MainEpisodes(b)
    decreases |a|
  {
    if |a| == 0 {
      assert a + b == b;
    } else {
      assert (a + b)[0] == a[0] && (a + b)[1..] == a[1..] + b;
      MainEpisodesAppend(a[1..], b);
    }
  }

  /** Filtering twice is filtering once. */
  lemma {:induction false} MainEpisodesIdempotent(eps: seq<Value>)
    ensures MainEpisodes(MainEpisodes(eps)) == MainEpisodes(eps)
    decreases |eps|
  {
    if |eps| > 0 {
      MainEpisodesIdempotent(eps[1..]);
      var rest := MainEpisodes(eps[1..]);
      if IsMain(eps[0]) {
        assert ([eps[0]] + rest)[0] == eps[0] && ([eps[0]] + rest)[1..] == rest;
      }
    }
  }

  /** Whether an episode entry has `available` set. */
  predicate Available(ep: Value) {
    JsTruthy(Prop(ep, "available"))
  }

  /** `hasResource`: false without availability or without its `episodes`;
      otherwise whether some value of `episodes` (an array's elements or an
      object's values) is available. */
  predicate HasResource(availability: Value) {
    if !JsTruthy(availability) || !JsTruthy(Prop(availability, "episodes")) then false
    else match Prop(availability, "episodes")
      case List(xs) => exists i :: 0 <= i < |xs| && Available(xs[i])
      case Dict(m) => exists k :: k in m && Available(m[k])
      case _ => false
  }

  /** An availability object whose episodes are all unavailable, or that
      has none listed, shows no resource; one available episode suffices. */
  lemma HasResourceCases(eps: map<string, Value>, k: string)
    ensures !HasResource(Dict(map["episodes" := Dict(map[])]))
    ensures !HasResource(Null)
    ensures k in eps && Available(eps[k]) ==> HasResource(Dict(map["episodes" := Dict(eps)]))
    ensures (forall j :: j in eps ==> !Available(eps[j])) ==> !HasResource(Dict(map["episodes" := Dict(eps)]))
  {
  }

  /** The message of a failed request: the error's, or the default. */
  function Message(message: Option<string>, default: string): (m: string)
    ensures Given(message) ==> m == message.value
    ensures !Given(message) ==> m == default
  {
    if Given(message) then message.value else default
  }

  class AnimeDetailStore {
    var bangumiId: Option<int>
    var subject: Value
    var episodes: seq<Value>
    var availability: Value
    var loading: bool
    var error: Option<string>

    /** Every field at its initial value. */
    predicate Initial()
      reads this
    {
      bangumiId.None? && subject == Null && episodes == [] && availability == Null && !loading && error.None?
    }

    constructor()
      ensures Initial()
    {
      bangumiId := None;
      subject := Null;
      episodes := [];
      availability := Null;
      loading := false;
      error := None;
    }

    /** `clear`: every field back to its initial value. */
    method Clear()
      modifies this
      ensures Initial()
    {
      bangumiId := None;
      subject := Null;
      episodes := [];
      availability := Null;
      loading := false;
      error := None;
    }

    /** Whether `fetchAll(id)` reuses what is loaded: the same id, with a
        subject, some episodes and availability present. */
    predicate Loaded(id: int)
      reads this
    {
      bangumiId == Some(id) && JsTruthy(subject) && |episodes| > 0 && JsTruthy(availability)
    }

    /** `fetchAll(id)`: reuses loaded data for the same id. Otherwise the
        store is cleared for `id`; the subject and the episodes are fetched
        together, and only when both arrive is availability fetched, whose
        failure leaves it `null` without an error. When the first two fail
        the error is set and the store stays cleared. Loading ends off. */
    method FetchAll(id: int, main: Result<(Value, seq<Value>), Option<string>>, avail: Option<Value>)
      modifies this
      ensures old(Loaded(id)) ==>
        bangumiId == old(bangumiId) && subject == old(subject) && episodes == old(episodes)
        && availability == old(availability) && loading == old(loading) && error == old(error)
      ensures !old(Loaded(id)) ==> bangumiId == Some(id) && !loading
      ensures !old(Loaded(id)) && main.Ok? ==>
        subject == main.value.0 && episodes == main.value.1 && availability == avail.GetOr(Null) && error.None?
      ensures !old(Loaded(id)) && main.Err? ==>
        subject == Null && episodes == [] && availability == Null
        && error == Some(Message(main.error, "加载番剧详情失败"))
    {
      if Loaded(id) {
        return;
      }
      Clear();
      bangumiId := Some(id);
      loading := true;
      error := None;
      match main {
        case Ok(data) =>
          subject := data.0;
          episodes := data.1;
          availability := if avail.Some? then avail.value else Null;
        case Err(message) =>
          error := Some(Message(message, "加载番剧详情失败"));
      }
      loading := false;
    }

    /** `fetchSubject`: the subject, or the error. */
    method FetchSubject(id: int, result: Result<Value, Option<string>>)
      modifies this
      ensures result.Ok? ==> subject == result.value && error == old(error)
      ensures result.Err? ==> subject == old(subject) && error == Some(Message(result.error, "加载番剧详情失败"))
      ensures bangumiId == old(bangumiId) && episodes == old(episodes) && availability == old(availability)
      ensures loading == old(loading)
    {
      match result {
        case Ok(s) => subject := s;
        case Err(message) => error := Some(Message(message, "加载番剧详情失败"));
      }
    }

    /** `fetchEpisodes`: the episodes, or the error. */
    method FetchEpisodes(id: int, result: Result<seq<Value>, Option<string>>)
      modifies this
      ensures result.Ok? ==> episodes == result.value && error == old(error)
      ensures result.Err? ==> episodes == old(episodes) && error == Some(Message(result.error, "加载集数失败"))
      ensures bangumiId == old(bangumiId) && subject == old(subject) && availability == old(availability)
      ensures loading == old(loading)
    {
      match result {
        case Ok(eps) => episodes := eps;
        case Err(message) => error := Some(Message(message, "加载集数失败"));
      }
    }

    /** `fetchAvailability`: the availability, or the error (unlike in
        `fetchAll`, a failure here sets the error). */
    method FetchAvailability(id: int, result: Result<Value, Option<string>>)
      modifies this
      ensures result.Ok? ==> availability == result.value && error == old(error)
      ensures result.Err? ==> availability == old(availability)
                              && error == Some(Message(result.error, "加载资源可用性失败"))
      ensures bangumiId == old(bangumiId) && subject == old(subject) && episodes == old(episodes)
      ensures loading == old(loading)
    {
      match result {
        case Ok(a) => availability := a;
        case Err(message) => error := Some(Message(message, "加载资源可用性失败"));
      }
    }
  }
}

=== FILE: anime_routes.dfy ===
/** The anime routes of ikuyo/api/routes/animes.py: the paged listing with
    its status filter, the detail view's subtitle groups, the paged
    resource list of one anime and the truncated title search. Rows are the
    repository's dictionaries; the repository calls are inputs. */
module AnimeRoutes {
  import opened Wrappers
  import opened PyValue
  import ResourceRoutes
  import Strings

  /** A row as the repository returns it. */
  type Row = map<string, Value>

  /** `xs[offset : offset + size]`, clamped to the sequence as Python slices are. */
  function PageSlice<T>(xs: seq<T>, offset: nat, size: nat): (r: seq<T>)
    ensures |r| <= size
    ensures |r| == if offset >= |xs| then 0 else if offset + size <= |xs| then size else |xs| - offset
    ensures forall j :: 0 <= j < |r| ==> offset + j < |xs| && r[j] == xs[offset + j]
  {
    if offset >= |xs| then [] else if offset + size <= |xs| then xs[offset..offset + size] else xs[offset..]
  }

  /** `math.ceil(total / per_page) if total > 0 else 1`: never below one page. */
  function PageCount(total: nat, perPage: nat): (pages: nat)
    requires perPage >= 1
    ensures pages >= 1
    ensures total > 0 ==> pages * perPage >= total && (pages - 1) * perPage < total
    ensures total == 0 ==> pages == 1
  {
    if total > 0 then ResourceRoutes.CeilDiv(total, perPage) else 1
  }

  /** Every row lies on a page within the count, at its place in that page. */
  lemma RowOnItsPage<T>(xs: seq<T>, perPage: nat, i: nat)
    requires perPage >= 1 && i < |xs|
    ensures var page := i / perPage + 1;
      page <= PageCount(|xs|, perPage)
      && i % perPage < |PageSlice(xs, (page - 1) * perPage, perPage)|
      && PageSlice(xs, (page - 1) * perPage, perPage)[i % perPage] == xs[i]
  {
    var page := i / perPage + 1;
    assert (page - 1) * perPage + i % perPage == i;
    ResourceRoutes.ResultOnItsPage(i, perPage, |xs|);
  }

  /** `[a for a in xs if a.get("status") == status]`. */
  function WithStatus(xs: seq<Row>, status: string): (r: seq<Row>)
    ensures |r| <= |xs|
    ensures forall a :: a in r <==> a in xs && DictGet(a, "status", Null) == Str(status)
  {
    if |xs| == 0 then []
    else
      var rest := WithStatus(xs[1..], status);
      assert forall a :: a in xs <==> a == xs[0] || a in xs[1..];
      if DictGet(xs[0], "status", Null) == Str(status) then [xs[0]] + rest else rest
  }

  datatype Listing = Listing(page: nat, perPage: nat, total: nat, pages: nat, data: seq<Row>)

  /** The animes listed before paging: the title search when `q` is given,
      else every anime, then only those with the status when one is given. */
  function Kept(q: Option<string>, status: Option<string>, searched: seq<Row>, all: seq<Row>): seq<Row> {
    var rows := if Strings.Given(q) then searched else all;
    if Strings.Given(status) then WithStatus(rows, status.value) else rows
  }

  /** `get_animes`: one page of the kept animes. The framework enforces
      `page >= 1` and `1 <= per_page <= 100`. */
  function GetAnimes(page: nat, perPage: nat, q: Option<string>, status: Option<string>,
                     searched: seq<Row>, all: seq<Row>): (r: Listing)
    requires page >= 1 && 1 <= perPage <= 100
    ensures r.page == page && r.perPage == perPage && r.pages == PageCount(r.total, perPage)
    ensures r.total == |Kept(q, status, searched, all)|
    ensures r.data == PageSlice(Kept(q, status, searched, all), (page - 1) * perPage, perPage)
    ensures |r.data| <= perPage
    ensures forall a :: a in r.data ==> a in (if Strings.Given(q) then searched else all)
    ensures Strings.Given(status) ==> forall a :: a in r.data ==> DictGet(a, "status", Null) == Str(status.value)
  {
    var kept := Kept(q, status, searched, all);
    var data := PageSlice(kept, (page - 1) * perPage, perPage);
    assert forall a :: a in data ==> a in kept;
    Listing(page, perPage, |kept|, PageCount(|kept|, perPage), data)
  }

  // ------------------------------------------------- detail

  /** A subtitle group of the detail view. */
  datatype SubtitleGroup = SubtitleGroup(id: Value, name: Value)

  /** Whether row `r` names a usable group: both id and name truthy. */
  predicate Usable(r: Row) {
    Truthy(DictGet(r, "subtitle_group_id", Null)) && Truthy(DictGet(r, "subtitle_group_name", Null))
  }

  function GroupIds(gs: seq<SubtitleGroup>): (ids: seq<Value>)
    ensures |ids| == |gs| && forall k :: 0 <= k < |gs| ==> ids[k] == gs[k].id
  {
    seq(|gs|, k requires 0 <= k < |gs| => gs[k].id)
  }

  /** The groups after the loop has seen `rs`: a usable row whose id is new
      adds its group; every other row is skipped. */
  function DetailGroups(rs: seq<Row>): seq<SubtitleGroup> {
    if |rs| == 0 then []
    else
      var gs := DetailGroups(rs[..|rs| - 1]);
      var r := rs[|rs| - 1];
      var id := DictGet(r, "subtitle_group_id", Null);
      if Usable(r) && id !in GroupIds(gs) then gs + [SubtitleGroup(id, DictGet(r, "subtitle_group_name", Null))]
      else gs
  }

  /** `r` is the first usable row of `rs` carrying group id `id`. */
  predicate FirstWithId(rs: seq<Row>, i: nat, id: Value) {
    i < |rs| && Usable(rs[i]) && DictGet(rs[i], "subtitle_group_id", Null) == id
    && forall j :: 0 <= j < i ==> !(Usable(rs[j]) && DictGet(rs[j], "subtitle_group_id", Null) == id)
  }

  /** The detail view's groups are deduplicated by id, the first usable row
      for an id gives its name, and every usable row's id has a group. */
  lemma {:induction false} DetailGroupsFacts(rs: seq<Row>)
    ensures var gs := DetailGroups(rs);
      (forall i, j :: 0 <= i < j < |gs| ==> gs[i].id != gs[j].id)
      && (forall k :: 0 <= k < |gs| ==>
            exists i: nat :: (FirstWithId(rs, i, gs[k].id) && gs[k].name == DictGet(rs[i], "subtitle_group_name", Null)))
      && (forall i :: 0 <= i < |rs| && Usable(rs[i]) ==> DictGet(rs[i], "subtitle_group_id", Null) in GroupIds(gs))
    decreases |rs|
  {
    if |rs| > 0 {
      var init := rs[..|rs| - 1];
      DetailGroupsFacts(init);
      var gs := DetailGroups(init);
      var r := rs[|rs| - 1];
      var id := DictGet(r, "subtitle_group_id", Null);
      assert forall i :: 0 <= i < |init| ==> init[i] == rs[i];
      forall k | 0 <= k < |gs|
        ensures exists i: nat :: FirstWithId(rs, i, gs[k].id) && gs[k].name == DictGet(rs[i], "subtitle_group_name", Null)
      {
        var i: nat :| FirstWithId(init, i, gs[k].id) && gs[k].name == DictGet(init[i], "subtitle_group_name", Null);
        assert FirstWithId(rs, i, gs[k].id);
      }
      if Usable(r) && id !in GroupIds(gs) {
        var out := gs + [SubtitleGroup(id, DictGet(r, "subtitle_group_name", Null))];
        assert GroupIds(out) == GroupIds(gs) + [id];
        assert FirstWithId(rs, |rs| - 1, id);
      }
    }
  }

  /** The subtitle-group loop of `get_anime_detail`. */
  method CollectSubtitleGroups(rs: seq<Row>) returns (gs: seq<SubtitleGroup>)
    ensures gs == DetailGroups(rs)
  {
    gs := [];
    for i := 0 to |rs|
      invariant gs == DetailGroups(rs[..i])
    {
      var seen := rs[..i + 1];
      assert seen[..i] == rs[..i] && seen[i] == rs[i];
      var id := DictGet(rs[i], "subtitle_group_id", Null);
      if Usable(rs[i]) && id !in GroupIds(gs) {
        gs := gs + [SubtitleGroup(id, DictGet(rs[i], "subtitle_group_name", Null))];
      }
    }
    assert rs[..|rs|] == rs;
  }

  datatype Detail =
    | DetailNotFound
    | Detail(anime: Row, resources: seq<Row>, groups: seq<SubtitleGroup>)

  /** `get_anime_detail`: 404 when the anime is missing or its row is empty
      (a falsy dictionary); otherwise the anime, all its resources and the
      deduplicated groups. */
  method GetAnimeDetail(anime: Option<Row>, rs: seq<Row>) returns (d: Detail)
    ensures d.DetailNotFound? <==> anime.None? || |anime.value| == 0
    ensures d.Detail? ==> d.anime == anime.value && d.resources == rs && d.groups == DetailGroups(rs)
  {
    if anime.None? || |anime.value| == 0 {
      return DetailNotFound;
    }
    var groups := CollectSubtitleGroups(rs);
    d := Detail(anime.value, rs, groups);
  }

  /** `get_anime_resources`: 404 as for the detail, else one page of the
      anime's resources. */
  function GetAnimeResources(anime: Option<Row>, rs: seq<Row>, page: nat, perPage: nat): (r: Option<Listing>)
    requires page >= 1 && 1 <= perPage <= 100
    ensures r.None? <==> anime.None? || |anime.value| == 0
    ensures r.Some? ==> r.value.total == |rs| && r.value.pages == PageCount(|rs|, perPage)
    ensures r.Some? ==> r.value.data == PageSlice(rs, (page - 1) * perPage, perPage)
  {
    if anime.None? || |anime.value| == 0 then None
    else Some(Listing(page, perPage, |rs|, PageCount(|rs|, perPage), PageSlice(rs, (page - 1) * perPage, perPage)))
  }

  /** `search_animes`: the first `limit` matches. */
  function SearchAnimes(found: seq<Row>, limit: nat): (r: seq<Row>)
    requires 1 <= limit <= 50
    ensures |r| == if |found| < limit then |found| else limit
    ensures r <= found
  {
    if |found| <= limit then found else found[..limit]
  }
}

=== FILE: api_analyzer.dfy ===
/** The season-endpoint prober src/utils/api_analyzer.py: which responses
    count as anime data, what is summarised from an HTML answer, and the
    first-success search over the candidate endpoints and seasons. The
    HTTP session is a `fetch` parameter. */
module ApiAnalyzer {
  import opened Wrappers
  import opened Strings
  import opened PyValue
  import opened MikanScan
  import SrcSpider

  /** The recursive `_contains_bangumi_data`: a dictionary with one of the
      five keys, or a dictionary or list value inside a dictionary that
      contains such data, or a dictionary element of a list that does. A
      list element of a list is not looked into. */
  predicate ContainsBangumiData(v: Value)
    decreases v
  {
    match v
    case Dict(m) =>
      SrcSpider.HasBangumiField(m)
      || exists k :: k in m && (m[k].Dict? || m[k].List?) && ContainsBangumiData(m[k])
    case List(xs) => exists i :: 0 <= i < |xs| && xs[i].Dict? && ContainsBangumiData(xs[i])
    case _ => false
  }

  /** Whatever the one-level check of the src spider accepts, the recursive one accepts too. */
  lemma ShallowImpliesDeep(v: Value)
    requires SrcSpider.ContainsBangumiData(v)
    ensures ContainsBangumiData(v)
  {
    if v.List? {
      var k :| 0 <= k < |v.items| && v.items[k].Dict? && SrcSpider.HasBangumiField(v.items[k].entries);
      assert ContainsBangumiData(v.items[k]);
    }
  }

  /** The converse fails: anime data one level down is found only by the recursive check. */
  lemma DeepFindsNested()
    ensures ContainsBangumiData(Dict(map["data" := Dict(map["title" := Str("x")])]))
    ensures !SrcSpider.ContainsBangumiData(Dict(map["data" := Dict(map["title" := Str("x")])]))
  {
    var inner := Dict(map["title" := Str("x")]);
    var m := map["data" := inner];
    assert "title" in SrcSpider.BangumiFields;
    assert ContainsBangumiData(inner);
    assert "data" in m && m["data"] == inner;
    SrcSpider.NestedDataMissed();
  }

  /** A list directly inside a list is not searched. */
  lemma ListInListIgnored()
    ensures !ContainsBangumiData(List([List([Dict(map["title" := Str("x")])])]))
  {
  }

  /** A response: status, content type, body text, the outcome of
      `response.json()` (`None` when it raises), the body length and the
      titles the title pattern finds in the body. */
  datatype Response = Response(status: int, contentType: string, text: string, json: Option<Value>,
                               contentLength: nat, titles: seq<string>)

  /** `_is_valid_bangumi_response`: only status 200; a JSON type defers to
      the data check (and an unparsable body is invalid); an HTML type needs
      a detail-page link in the body; any other type is invalid. JSON is
      tested before HTML. */
  predicate IsValidBangumiResponse(r: Response) {
    r.status == 200
      && if Contains(r.contentType, "application/json") then r.json.Some? && ContainsBangumiData(r.json.value)
         else Contains(r.contentType, "text/html") && Contains(r.text, BangumiPath)
  }

  lemma ValidResponseCases(r: Response)
    ensures r.status != 200 ==> !IsValidBangumiResponse(r)
    ensures !Contains(r.contentType, "application/json") && !Contains(r.contentType, "text/html") ==> !IsValidBangumiResponse(r)
    ensures r.status == 200 && !Contains(r.contentType, "application/json") && Contains(r.contentType, "text/html") ==>
      (IsValidBangumiResponse(r) <==> Contains(r.text, BangumiPath))
    ensures r.status == 200 && Contains(r.contentType, "application/json") ==>
      (IsValidBangumiResponse(r) <==> r.json.Some? && ContainsBangumiData(r.json.value))
  {
  }

  /** The summary of an HTML answer. */
  datatype HtmlSummary = HtmlSummary(bangumiCount: nat, bangumiIds: set<string>, titles: seq<string>)

  /** `_extract_bangumi_links_from_html`: the number of id matches with
      repeats, the distinct ids (a set: `list(set(...))` has no fixed
      order), and the titles cut to the number of matches. */
  function ExtractBangumiLinksFromHtml(html: string, titles: seq<string>): (s: HtmlSummary)
    ensures s.bangumiCount == |AllIdsFrom(html, 0)|
    ensures forall id :: id in s.bangumiIds <==> id in AllIdsFrom(html, 0)
    ensures |s.bangumiIds| <= s.bangumiCount
    ensures s.titles <= titles && |s.titles| <= s.bangumiCount
    ensures |titles| >= s.bangumiCount ==> |s.titles| == s.bangumiCount
  {
    var ids := AllIdsFrom(html, 0);
    SetOfSeqBound(ids);
    HtmlSummary(|ids|, (set id | id in ids), PyTake(titles, Some(|ids|)))
  }

  /** A sequence has at least as many elements as its set of elements. */
  lemma {:induction false} SetOfSeqBound(xs: seq<string>)
    ensures |set x | x in xs| <= |xs|
  {
    if |xs| > 0 {
      var init := xs[..|xs| - 1];
      SetOfSeqBound(init);
      assert (set x | x in xs) == (set x | x in init) + {xs[|xs| - 1]} by {
        forall x | x in xs ensures x in init || x == xs[|xs| - 1] {
          var i :| 0 <= i < |xs| && xs[i] == x;
          if i < |xs| - 1 { assert init[i] == x; }
        }
        assert forall x :: x in init ==> x in xs;
      }
    }
  }

  /** What `_parse_response_data` keeps of a valid answer. */
  datatype ResponseData = JsonData(value: Value) | HtmlData(summary: HtmlSummary)

  function ParseResponseData(r: Response): (d: Option<ResponseData>)
    ensures Contains(r.contentType, "application/json") ==> (d.Some? <==> r.json.Some?)
    ensures Contains(r.contentType, "application/json") && r.json.Some? ==> d == Some(JsonData(r.json.value))
    ensures !Contains(r.contentType, "application/json") && Contains(r.contentType, "text/html") ==>
      d == Some(HtmlData(ExtractBangumiLinksFromHtml(r.text, r.titles)))
    ensures !Contains(r.contentType, "application/json") && !Contains(r.contentType, "text/html") ==> d.None?
  {
    if Contains(r.contentType, "application/json") then
      (if r.json.Some? then Some(JsonData(r.json.value)) else None)
    else if Contains(r.contentType, "text/html") then Some(HtmlData(ExtractBangumiLinksFromHtml(r.text, r.titles)))
    else None
  }

  /** One entry of `api_info["endpoints"]`: the answer's vitals, or the error text. */
  datatype Attempt = Answered(url: string, status: int, contentType: string, contentLength: nat)
                   | Failed(url: string, error: string)

  datatype ApiInfo = ApiInfo(year: int, season: string, endpoints: seq<Attempt>,
                             successfulEndpoint: Option<string>, responseData: Option<ResponseData>)

  /** The four candidate endpoints, tried in this order. */
  function Endpoints(year: int, season: string): (r: seq<string>)
    ensures |r| == 4
  {
    var y := IntToString(year);
    [BangumiPath + y + "/" + season,
     "/Home/Bangumi?year=" + y + "&season=" + season,
     "/api/bangumi?year=" + y + "&season=" + season,
     "/Home/GetBangumiList?year=" + y + "&season=" + season]
  }

  function AttemptOf(url: string, answer: Result<Response, string>): (a: Attempt)
    ensures a.url == url
  {
    match answer
    case Ok(r) => Answered(url, r.status, r.contentType, r.contentLength)
    case Err(e) => Failed(url, e)
  }

  predicate Succeeds(answer: Result<Response, string>) {
    answer.Ok? && IsValidBangumiResponse(answer.value)
  }

  /** The index of the first candidate whose answer is valid. */
  function FirstSuccess(urls: seq<string>, fetch: string -> Result<Response, string>): (r: Option<nat>)
    ensures r.Some? ==> r.value < |urls| && Succeeds(fetch(urls[r.value]))
    ensures r.Some? ==> forall j :: 0 <= j < r.value ==> !Succeeds(fetch(urls[j]))
    ensures r.None? <==> forall j :: 0 <= j < |urls| ==> !Succeeds(fetch(urls[j]))
  {
    if |urls| == 0 then None
    else if Succeeds(fetch(urls[0])) then Some(0)
    else match FirstSuccess(urls[1..], fetch)
      case None => None
      case Some(i) => Some(i + 1)
  }

  /** The attempts of the first `n` candidates. */
  function Attempts(urls: seq<string>, fetch: string -> Result<Response, string>): (r: seq<Attempt>)
    ensures |r| == |urls| && forall k :: 0 <= k < |r| ==> r[k] == AttemptOf(urls[k], fetch(urls[k]))
  {
    seq(|urls|, k requires 0 <= k < |urls| => AttemptOf(urls[k], fetch(urls[k])))
  }

  /** The full urls of the candidates. */
  function Urls(year: int, season: string, join: string -> string): (r: seq<string>)
    ensures |r| == 4
  {
    var e := Endpoints(year, season);
    seq(4, k requires 0 <= k < 4 => join(e[k]))
  }

  /** The expected `api_info`: every candidate up to and including the
      first valid one is recorded once, in order, and the search stops there. */
  function Analysis(year: int, season: string, join: string -> string, fetch: string -> Result<Response, string>): (info: ApiInfo)
    ensures info.year == year && info.season == season
    ensures FirstSuccess(Urls(year, season, join), fetch).None? ==>
      info.endpoints == Attempts(Urls(year, season, join), fetch) && info.successfulEndpoint.None? && info.responseData.None?
    ensures FirstSuccess(Urls(year, season, join), fetch).Some? ==>
      var i := FirstSuccess(Urls(year, season, join), fetch).value;
      info.endpoints == Attempts(Urls(year, season, join)[..i + 1], fetch)
        && info.successfulEndpoint == Some(Urls(year, season, join)[i])
        && info.responseData == ParseResponseData(fetch(Urls(year, season, join)[i]).value)
  {
    var urls := Urls(year, season, join);
    match FirstSuccess(urls, fetch)
    case None => ApiInfo(year, season, Attempts(urls, fetch), None, None)
    case Some(i) =>
      ApiInfo(year, season, Attempts(urls[..i + 1], fetch), Some(urls[i]), ParseResponseData(fetch(urls[i]).value))
  }

  /** `analyze_update_bangumi_flow`. */
  method AnalyzeUpdateBangumiFlow(year: int, season: string, join: string -> string,
                                  fetch: string -> Result<Response, string>) returns (info: ApiInfo)
    ensures info == Analysis(year, season, join, fetch)
  {
    var urls := Urls(year, season, join);
    info := ApiInfo(year, season, [], None, None);
    var i := 0;
    while i < |urls|
      invariant 0 <= i <= |urls|
      invariant forall j :: 0 <= j < i ==> !Succeeds(fetch(urls[j]))
      invariant info == ApiInfo(year, season, Attempts(urls[..i], fetch), None, None)
    {
      var url := urls[i];
      var answer := fetch(url);
      AttemptsPrefix(urls, fetch, i);
      info := info.(endpoints := info.endpoints + [AttemptOf(url, answer)]);
      if answer.Ok? && IsValidBangumiResponse(answer.value) {
        FirstSuccessAt(urls, fetch, i);
        info := info.(successfulEndpoint := Some(url), responseData := ParseResponseData(answer.value));
        return;
      }
      i := i + 1;
    }
    assert urls[..|urls|] == urls;
  }

  lemma AttemptsPrefix(urls: seq<string>, fetch: string -> Result<Response, string>, i: nat)
    requires i < |urls|
    ensures Attempts(urls[..i + 1], fetch) == Attempts(urls[..i], fetch) + [AttemptOf(urls[i], fetch(urls[i]))]
  {
  }

  lemma FirstSuccessAt(urls: seq<string>, fetch: string -> Result<Response, string>, i: nat)
    requires i < |urls| && Succeeds(fetch(urls[i]))
    requires forall j :: 0 <= j < i ==> !Succeeds(fetch(urls[j]))
    ensures FirstSuccess(urls, fetch) == Some(i)
  {
    var r := FirstSuccess(urls, fetch);
    assert r.Some?;
    assert !(r.value < i) && !(r.value > i);
  }

  /** Every recorded attempt names the candidate tried at that position. */
  lemma AttemptsFollowCandidates(year: int, season: string, join: string -> string, fetch: string -> Result<Response, string>)
    ensures var info := Analysis(year, season, join, fetch);
      1 <= |info.endpoints| <= 4
      && forall k :: 0 <= k < |info.endpoints| ==> info.endpoints[k].url == Urls(year, season, join)[k]
  {
  }

  /** The seasons tried, in order. */
  const Seasons: seq<string> := ["春", "夏", "秋", "冬"]

  /** The first season whose analysis found an endpoint, and that endpoint. */
  function WorkingApi(year: int, seasons: seq<string>, join: string -> string, fetch: string -> Result<Response, string>): (r: Option<string>)
    ensures r.Some? ==> exists k :: 0 <= k < |seasons| && Analysis(year, seasons[k], join, fetch).successfulEndpoint == r
    ensures r.None? <==> forall k :: 0 <= k < |seasons| ==> Analysis(year, seasons[k], join, fetch).successfulEndpoint.None?
  {
    if |seasons| == 0 then None
    else
      var s := Analysis(year, seasons[0], join, fetch).successfulEndpoint;
      if s.Some? then s
      else
        var r := WorkingApi(year, seasons[1..], join, fetch);
        assert forall k :: 1 <= k < |seasons| ==> seasons[k] == seasons[1..][k - 1];
        r
  }

  /** The search from the `i`-th season stops there on a found endpoint and
      goes on with the next season otherwise. */
  lemma WorkingApiFrom(year: int, seasons: seq<string>, i: nat, join: string -> string,
                       fetch: string -> Result<Response, string>)
    requires i < |seasons|
    ensures WorkingApi(year, seasons[i..], join, fetch)
         == if Analysis(year, seasons[i], join, fetch).successfulEndpoint.Some?
            then Analysis(year, seasons[i], join, fetch).successfulEndpoint
            else WorkingApi(year, seasons[i + 1..], join, fetch)
  {
    assert seasons[i..][0] == seasons[i] && seasons[i..][1..] == seasons[i + 1..];
  }

  /** `find_working_api`: the seasons in order; the first found endpoint, or `None`. */
  method FindWorkingApi(year: int, join: string -> string, fetch: string -> Result<Response, string>)
    returns (r: Option<string>)
    ensures r == WorkingApi(year, Seasons, join, fetch)
  {
    var i := 0;
    while i < |Seasons|
      invariant 0 <= i <= |Seasons|
      invariant WorkingApi(year, Seasons, join, fetch) == WorkingApi(year, Seasons[i..], join, fetch)
    {
      var info := AnalyzeUpdateBangumiFlow(year, Seasons[i], join, fetch);
      WorkingApiFrom(year, Seasons, i, join, fetch);
      if info.successfulEndpoint.Some? {
        return info.successfulEndpoint;
      }
      i := i + 1;
    }
    return None;
  }

  /** `test_all_seasons`: one analysis per season. */
  method TestAllSeasons(year: int, join: string -> string, fetch: string -> Result<Response, string>)
    returns (results: map<string, ApiInfo>)
    ensures forall s :: s in results <==> s in Seasons
    ensures forall s :: s in results ==> results[s] == Analysis(year, s, join, fetch)
  {
    results := map[];
    for i := 0 to |Seasons|
      invariant forall s :: s in results <==> s in Seasons[..i]
      invariant forall s :: s in results ==> results[s] == Analysis(year, s, join, fetch)
    {
      var info := AnalyzeUpdateBangumiFlow(year, Seasons[i], join, fetch);
      results := results[Seasons[i] := info];
      assert Seasons[..i + 1] == Seasons[..i] + [Seasons[i]];
    }
    assert Seasons[..|Seasons|] == Seasons;
  }
}

=== FILE: cache_service.dfy ===
/** The two-level cache of ikuyo/core/cache_service.py: entries in memory,
    mirrored as JSON files named after their key, each expiring after the
    time-to-live of the type it is read as. The clock (`time.time()`) is a
    parameter in whole seconds; the cache directory is a map from key to
    file content. */
module CacheService {
  import opened Wrappers
  import opened Strings
  import opened PyValue

  /** A cache record: its `data` (absent when a file lacked the key), its
      `timestamp` (absent when a file lacked it) and the type it was stored as. */
  datatype Entry = Entry(data: Option<Value>, timestamp: Option<int>, cacheType: string)

  /** The content of `<key>.json`: a decoded record, or a file that does not
      decode as one. */
  datatype CacheFile = Stored(entry: Entry) | Unreadable

  /** The time-to-live, in seconds, of each cache type. */
  const CacheTtl: map<string, nat> := map["calendar" := 3600, "subject" := 86400, "episodes" := 43200, "default" := 1800]

  /** The time-to-live a type is read with: its own, or the default 1800. */
  function Ttl(cacheType: string): (t: nat)
    ensures cacheType in CacheTtl ==> t == CacheTtl[cacheType]
    ensures cacheType !in CacheTtl ==> t == 1800
  {
    if cacheType in CacheTtl then CacheTtl[cacheType] else CacheTtl["default"]
  }

  /** `_is_expired`: a record without timestamp is expired; otherwise it is
      expired once more than the time-to-live of the requested type has passed. */
  predicate IsExpired(e: Entry, cacheType: string, now: int) {
    e.timestamp.None? || now - e.timestamp.value > Ttl(cacheType)
  }

  /** Expiry follows the type a record is read as, not the type it was
      stored as: a "subject" record read with the default type expires after 30 minutes. */
  lemma ExpiryByRequestedType(data: Value, stored: int)
    ensures !IsExpired(Entry(Some(data), Some(stored), "subject"), "subject", stored + 1801)
    ensures IsExpired(Entry(Some(data), Some(stored), "subject"), "default", stored + 1801)
  {
  }

  /** What `get` gives back: the data, `None`, or the KeyError raised by a
      live in-memory record without data. */
  datatype Lookup = Hit(data: Value) | Miss | Raised

  /** The cache's contents: the memory layer and the files. */
  datatype State = State(memory: map<string, Entry>, files: map<string, CacheFile>)

  /** The file step of `get`: a live file record with data is loaded into
      memory and returned; an expired, unreadable or data-less file is deleted. */
  function ReadFile(s: State, key: string, cacheType: string, now: int): (r: (Lookup, State))
    ensures key !in s.files ==> r == (Miss, s)
    ensures r.0.Hit? ==> key in s.files && s.files[key].Stored? && r.1.memory == s.memory[key := s.files[key].entry]
  {
    if key !in s.files then (Miss, s)
    else match s.files[key]
      case Unreadable => (Miss, s.(files := s.files - {key}))
      case Stored(e) =>
        if IsExpired(e, cacheType, now) then (Miss, s.(files := s.files - {key}))
        else if e.data.Some? then (Hit(e.data.value), s.(memory := s.memory[key := e]))
        // loaded into memory first, then the KeyError deletes the file
        else (Miss, State(s.memory[key := e], s.files - {key}))
  }

  /** `get`: a live memory record answers directly; an expired one is
      dropped and the file is tried. */
  function Read(s: State, key: string, cacheType: string, now: int): (r: (Lookup, State))
    ensures key in s.memory && !IsExpired(s.memory[key], cacheType, now) ==>
      r.1 == s && r.0 == (if s.memory[key].data.Some? then Hit(s.memory[key].data.value) else Raised)
    ensures key in s.memory && IsExpired(s.memory[key], cacheType, now) ==>
      r == ReadFile(s.(memory := s.memory - {key}), key, cacheType, now)
    ensures key !in s.memory ==> r == ReadFile(s, key, cacheType, now)
  {
    if key in s.memory && !IsExpired(s.memory[key], cacheType, now) then
      (if s.memory[key].data.Some? then Hit(s.memory[key].data.value) else Raised, s)
    else if key in s.memory then ReadFile(s.(memory := s.memory - {key}), key, cacheType, now)
    else ReadFile(s, key, cacheType, now)
  }

  /** `set`: the record is stored in memory and written to its file;
      `serializable` says whether `json.dump` succeeds (when it fails the
      file is left truncated). */
  function Write(s: State, key: string, data: Value, cacheType: string, now: int, serializable: bool): (t: State)
    ensures t.memory == s.memory[key := Entry(Some(data), Some(now), cacheType)]
    ensures key in t.files && forall k :: k in s.files && k != key ==> k in t.files && t.files[k] == s.files[k]
  {
    var e := Entry(Some(data), Some(now), cacheType);
    State(s.memory[key := e], s.files[key := if serializable then Stored(e) else Unreadable])
  }

  /** A value just set is read back, unchanged, until its time-to-live
      (for the type it is read as) has passed. */
  lemma SetThenGet(s: State, key: string, data: Value, cacheType: string, readType: string,
                   now: int, later: int, serializable: bool)
    requires now <= later <= now + Ttl(readType)
    ensures Read(Write(s, key, data, cacheType, now, serializable), key, readType, later).0 == Hit(data)
  {
  }

  /** Setting a key leaves every other key's read unchanged. */
  lemma SetIsolated(s: State, key: string, other: string, data: Value, cacheType: string, readType: string,
                    now: int, later: int, serializable: bool)
    requires other != key
    ensures Read(Write(s, key, data, cacheType, now, serializable), other, readType, later).0
            == Read(s, other, readType, later).0
  {
    var t := Write(s, key, data, cacheType, now, serializable);
    assert (other in t.memory) == (other in s.memory);
    assert other in s.memory ==> t.memory[other] == s.memory[other];
    assert (other in t.files) == (other in s.files);
    assert other in s.files ==> t.files[other] == s.files[other];
  }

  /** Once expired, a record is not served again from memory. */
  lemma ExpiredLeavesMemory(s: State, key: string, cacheType: string, now: int)
    requires key in s.memory && IsExpired(s.memory[key], cacheType, now)
    requires key !in s.files || s.files[key].Unreadable?
    ensures Read(s, key, cacheType, now) == (Miss, State(s.memory - {key}, s.files - {key}))
  {
    if key !in s.files {
      assert s.files - {key} == s.files;
    }
  }

  /** `clear`: a truthy key removes that key's record and file; no key, or
      the empty key, empties the memory layer and every file. */
  function Clear(s: State, key: Option<string>): (t: State)
    ensures Given(key) ==> t.memory == s.memory - {key.value} && t.files == s.files - {key.value}
    ensures !Given(key) ==> t.memory == map[] && t.files == map[]
  {
    if Given(key) then State(s.memory - {key.value}, s.files - {key.value}) else State(map[], map[])
  }

  /** The memory part of `get_cache_info`. */
  datatype CacheInfo = CacheInfo(memoryCacheCount: nat, fileCacheCount: nat, cacheTtlConfig: map<string, nat>)

  class CacheManager {
    var memory: map<string, Entry>
    var files: map<string, CacheFile>

    /** A manager over a cache directory that already holds `files`. */
    constructor(files: map<string, CacheFile>)
      ensures memory == map[] && this.files == files
    {
      memory := map[];
      this.files := files;
    }

    function Contents(): State
      reads this
    {
      State(memory, files)
    }

    method Get(key: string, cacheType: string, now: int) returns (r: Lookup)
      modifies this
      ensures (r, Contents()) == Read(old(Contents()), key, cacheType, now)
    {
      if key in memory {
        var e := memory[key];
        if !IsExpired(e, cacheType, now) {
          return if e.data.Some? then Hit(e.data.value) else Raised;
        }
        memory := memory - {key};
      }
      if key in files {
        match files[key]
        case Unreadable =>
          files := files - {key};
        case Stored(e) =>
          if !IsExpired(e, cacheType, now) {
            memory := memory[key := e];
            if e.data.Some? {
              return Hit(e.data.value);
            }
          }
          files := files - {key};
      }
      r := Miss;
    }

    method Set(key: string, data: Value, cacheType: string, now: int, serializable: bool)
      modifies this
      ensures Contents() == Write(old(Contents()), key, data, cacheType, now, serializable)
    {
      var e := Entry(Some(data), Some(now), cacheType);
      memory := memory[key := e];
      files := files[key := if serializable then Stored(e) else Unreadable];
    }

    method ClearCache(key: Option<string>)
      modifies this
      ensures Contents() == Clear(old(Contents()), key)
    {
      if Given(key) {
        memory := memory - {key.value};
        files := files - {key.value};
      } else {
        memory := map[];
        files := map[];
      }
    }

    /** `get_cache_info`: the number of records in memory and of cache files,
        and the time-to-live table. */
    method GetCacheInfo() returns (info: CacheInfo)
      ensures info.memoryCacheCount == |memory| && info.fileCacheCount == |files| && info.cacheTtlConfig == CacheTtl
    {
      info := CacheInfo(|memory|, |files|, CacheTtl);
    }
  }
}

=== FILE: config.dfy ===
/** The configuration tables of the three configuration modules (config.py,
    src/config.py and src/ikuyo/config.py). They share one lookup rule,
    `get_config(section, key=None)`, and differ in their sections and
    values. The directories src/config.py and src/ikuyo/config.py create
    on import are not modelled. */
module Config {
  import opened Wrappers
  import opened PyValue

  /** One configuration section: a dictionary of settings. */
  type Section = map<string, Value>

  /** `get_config(section, key)` over a table of sections: an unknown
      section and an unknown key raise ValueError (the error carries its
      message); no key gives the whole section; otherwise the stored value. */
  function Lookup(configs: map<string, Section>, section: string, key: Option<string>): (r: Result<Value, string>)
    ensures r.Ok? <==> section in configs && (key.None? || key.value in configs[section])
    ensures section !in configs ==> r == Err("Unknown config section: " + section)
    ensures section in configs && key.Some? && key.value !in configs[section] ==>
      r == Err("Unknown config key: " + key.value + " in section: " + section)
    ensures r.Ok? && key.None? ==> r.value == Dict(configs[section])
    ensures r.Ok? && key.Some? ==> r.value == configs[section][key.value]
  {
    if section !in configs then Err("Unknown config section: " + section)
    else if key.None? then Ok(Dict(configs[section]))
    else if key.value !in configs[section] then Err("Unknown config key: " + key.value + " in section: " + section)
    else Ok(configs[section][key.value])
  }

  /** Asking for a section and then for one of its keys agrees with asking
      for the key directly. */
  lemma SectionThenKey(configs: map<string, Section>, section: string, key: string)
    requires Lookup(configs, section, None).Ok?
    ensures Lookup(configs, section, None).value.Dict?
    ensures Lookup(configs, section, Some(key)).Ok? <==> key in Lookup(configs, section, None).value.entries
    ensures key in Lookup(configs, section, None).value.entries ==>
      Lookup(configs, section, Some(key)).value == Lookup(configs, section, None).value.entries[key]
  {
  }

  // ------------------------------------------------- config.py

  const CrawlerConfig: Section := map[
    "test_mode" := Bool(true), "test_limit" := Int(3), "download_delay" := Int(1),
    "concurrent_requests" := Int(16), "retry_times" := Int(3)]
  const SiteConfig: Section := map[
    "base_url" := Str("https://mikanani.me"),
    "allowed_domains" := List([Str("mikanani.me")]),
    "start_urls" := List([Str("https://mikanani.me/Home")])]
  const DatabaseConfig: Section := map["sqlite_db" := Str("data/mikan_data.db")]
  const OutputConfig: Section := map["output_dir" := Str("output")]

  /** The four sections of config.py. */
  const Configs: map<string, Section> := map[
    "crawler" := CrawlerConfig, "site" := SiteConfig, "database" := DatabaseConfig, "output" := OutputConfig]

  function GetConfig(section: string, key: Option<string>): (r: Result<Value, string>)
    ensures r.Ok? ==> section in {"crawler", "site", "database", "output"}
    ensures section in {"crawler", "site", "database", "output"} && key.None? ==> r.Ok?
  {
    Lookup(Configs, section, key)
  }

  /** `is_test_mode()`: test mode is switched on. */
  function IsTestMode(): (r: Result<Value, string>)
    ensures r == Ok(Bool(true))
  {
    GetConfig("crawler", Some("test_mode"))
  }

  /** `get_test_limit()`: three items in test mode. */
  function GetTestLimit(): (r: Result<Value, string>)
    ensures r == Ok(Int(3))
  {
    GetConfig("crawler", Some("test_limit"))
  }
}

/** src/config.py: config.py's sections plus the crawl-mode and scheduler
    sections, a faster crawler and its own database path. */
module SrcConfig {
  import opened Wrappers
  import opened PyValue
  import Config

  const CrawlerConfig: Config.Section := map[
    "test_mode" := Bool(true), "test_limit" := Int(3), "download_delay" := Real(0.1),
    "concurrent_requests" := Int(32), "retry_times" := Int(3)]
  const CrawlModeConfig: Config.Section := map[
    "mode" := Str("season"), "year" := Int(2024), "season" := Str("夏"),
    "year_range" := Dict(map["start" := Int(2013), "end" := Int(2025)]),
    "seasons" := List([Str("春"), Str("夏"), Str("秋"), Str("冬")]),
    "incremental" := Dict(map["enabled" := Bool(false), "last_crawl_time" := Null, "check_interval" := Int(3600)]),
    "api" := Dict(map["enabled" := Bool(true), "timeout" := Int(30), "retry_times" := Int(3)]),
    "dynamic_parser" := Dict(map["enabled" := Bool(true), "wait_time" := Int(3), "timeout" := Int(60)])]
  const DatabaseConfig: Config.Section := map["sqlite_db" := Str("data/database/ikuyo.db")]
  const SchedulerConfig: Config.Section := map[
    "enabled" := Bool(true), "default_cron" := Str("0 2 * * *"), "timezone" := Str("Asia/Shanghai"),
    "jobs" := List([Dict(map[
      "id" := Str("mikan_crawler"), "name" := Str("Mikan爬虫定时任务"), "cron" := Str("0 2 * * *"),
      "enabled" := Bool(true), "description" := Str("定时爬取Mikan Project动画资源"), "mode" := Str("homepage")])]),
    "scheduler_settings" := Dict(map["job_defaults" := Dict(map[
      "coalesce" := Bool(false), "max_instances" := Int(1), "misfire_grace_time" := Int(300)])])]

  /** The six sections of src/config.py. */
  const Configs: map<string, Config.Section> := map[
    "crawler" := CrawlerConfig, "site" := Config.SiteConfig, "crawl_mode" := CrawlModeConfig,
    "database" := DatabaseConfig, "output" := Config.OutputConfig, "scheduler" := SchedulerConfig]

  function GetConfig(section: string, key: Option<string>): (r: Result<Value, string>)
    ensures r.Ok? ==> section in {"crawler", "site", "crawl_mode", "database", "output", "scheduler"}
    ensures section in {"crawler", "site", "crawl_mode", "database", "output", "scheduler"} && key.None? ==> r.Ok?
  {
    Config.Lookup(Configs, section, key)
  }

  function IsTestMode(): (r: Result<Value, string>)
    ensures r == Ok(Bool(true))
  {
    GetConfig("crawler", Some("test_mode"))
  }

  function GetTestLimit(): (r: Result<Value, string>)
    ensures r == Ok(Int(3))
  {
    GetConfig("crawler", Some("test_limit"))
  }

  /** `get_crawl_mode()`: the season mode. */
  function GetCrawlMode(): (r: Result<Value, string>)
    ensures r == Ok(Str("season"))
  {
    GetConfig("crawl_mode", Some("mode"))
  }

  function GetCrawlYear(): (r: Result<Value, string>)
    ensures r == Ok(Int(2024))
  {
    GetConfig("crawl_mode", Some("year"))
  }

  function GetCrawlSeason(): (r: Result<Value, string>)
    ensures r == Ok(Str("夏"))
  {
    GetConfig("crawl_mode", Some("season"))
  }

  /** `get_year_range()`: 2013 to 2025. */
  function GetYearRange(): (r: Result<Value, string>)
    ensures r.Ok? && r.value.Dict? && r.value.entries == map["start" := Int(2013), "end" := Int(2025)]
  {
    GetConfig("crawl_mode", Some("year_range"))
  }

  /** `get_seasons()`: the four seasons in calendar order. */
  function GetSeasons(): (r: Result<Value, string>)
    ensures r == Ok(List([Str("春"), Str("夏"), Str("秋"), Str("冬")]))
  {
    GetConfig("crawl_mode", Some("seasons"))
  }

  /** The configured season is one of the configured seasons, and the
      configured year lies in the configured range. */
  lemma CrawlModeConsistent()
    ensures GetCrawlSeason().value in GetSeasons().value.items
    ensures GetYearRange().value.entries["start"].i <= GetCrawlYear().value.i <= GetYearRange().value.entries["end"].i
  {
    assert GetSeasons().value.items[1] == GetCrawlSeason().value;
  }
}

/** src/ikuyo/config.py: config.py's sections plus a scheduler section,
    but no crawl-mode section. */
module SrcIkuyoConfig {
  import opened Wrappers
  import opened PyValue
  import Config
  import SrcConfig

  const SchedulerConfig: Config.Section := map[
    "enabled" := Bool(true), "default_cron" := Str("0 2 * * *"), "timezone" := Str("Asia/Shanghai"),
    "jobs" := List([Dict(map[
      "id" := Str("mikan_crawler"), "name" := Str("Mikan爬虫定时任务"), "cron" := Str("0 2 * * *"),
      "enabled" := Bool(true), "description" := Str("定时爬取Mikan Project动画资源")])]),
    "scheduler_settings" := SrcConfig.SchedulerConfig["scheduler_settings"]]

  /** The five sections of src/ikuyo/config.py. */
  const Configs: map<string, Config.Section> := map[
    "crawler" := Config.CrawlerConfig, "site" := Config.SiteConfig, "database" := SrcConfig.DatabaseConfig,
    "output" := Config.OutputConfig, "scheduler" := SchedulerConfig]

  function GetConfig(section: string, key: Option<string>): (r: Result<Value, string>)
    ensures r.Ok? ==> section in {"crawler", "site", "database", "output", "scheduler"}
    ensures section in {"crawler", "site", "database", "output", "scheduler"} && key.None? ==> r.Ok?
  {
    Config.Lookup(Configs, section, key)
  }

  function IsTestMode(): (r: Result<Value, string>)
    ensures r == Ok(Bool(true))
  {
    GetConfig("crawler", Some("test_mode"))
  }

  function GetTestLimit(): (r: Result<Value, string>)
    ensures r == Ok(Int(3))
  {
    GetConfig("crawler", Some("test_limit"))
  }

  /** There is no crawl-mode section here: asking for it raises, unlike in
      src/config.py; the crawler's download delay is one second. */
  lemma NoCrawlModeSection()
    ensures GetConfig("crawl_mode", Some("mode")) == Err("Unknown config section: " + "crawl_mode")
    ensures SrcConfig.GetConfig("crawl_mode", Some("mode")).Ok?
    ensures GetConfig("crawler", Some("download_delay")) == Ok(Int(1))
  {
    UnknownCrawlMode();
    assert SrcConfig.GetCrawlMode().Ok?;
    SlowerCrawler();
  }

  lemma UnknownCrawlMode()
    ensures GetConfig("crawl_mode", Some("mode")) == Err("Unknown config section: " + "crawl_mode")
  {
    assert "crawl_mode" !in Configs;
  }

  lemma SlowerCrawler()
    ensures GetConfig("crawler", Some("download_delay")) == Ok(Int(1))
  {
    assert Configs["crawler"]["download_delay"] == Int(1);
  }
}

=== FILE: crawler_runners.dfy ===
/** The command-line crawl entry points: `run_crawler` of
    ikuyo/core/crawler_runner.py and of src/core/crawler_runner.py, and
    scripts/run_single_spider.py. Each sets Scrapy settings, builds the
    spider's keyword arguments by conditional inserts and starts the crawl,
    which is the oracle `crawl` (the text of the exception it raised, if
    any). Command-line arguments are the attribute dictionary of `args`. */
module CrawlerRunners {
  import opened Wrappers
  import opened PyValue
  import opened Strings
  import opened SpiderRunner

  /** `getattr(args, name, default)` for each spider option. */
  function ArgsConfig(args: map<string, Value>): (c: SpiderConfig)
    ensures "mode" !in args ==> c.mode == Str("homepage")
    ensures "log_level" !in args ==> c.logLevel == Str("INFO")
    ensures "limit" !in args ==> c.limit == Null
  {
    SpiderConfig(DictGet(args, "mode", Str("homepage")), DictGet(args, "year", Null),
                 DictGet(args, "season", Null), DictGet(args, "start_url", Null),
                 DictGet(args, "limit", Null), DictGet(args, "log_level", Str("INFO")))
  }

  /** The Scrapy settings after the runner's assignments: `LOG_LEVEL` always,
      the JSON feed only when `output` is truthy, every other setting as it was. */
  function RunnerSettings(base: map<string, Value>, args: map<string, Value>): (s: map<string, Value>)
    ensures "LOG_LEVEL" in s && s["LOG_LEVEL"] == DictGet(args, "log_level", Str("INFO"))
    ensures Truthy(DictGet(args, "output", Null)) ==>
      "FEED_FORMAT" in s && s["FEED_FORMAT"] == Str("json") && "FEED_URI" in s && s["FEED_URI"] == args["output"]
    ensures !Truthy(DictGet(args, "output", Null)) ==> s == base["LOG_LEVEL" := DictGet(args, "log_level", Str("INFO"))]
    ensures forall k :: k in base && k !in {"LOG_LEVEL", "FEED_FORMAT", "FEED_URI"} ==> k in s && s[k] == base[k]
    ensures s.Keys <= base.Keys + {"LOG_LEVEL", "FEED_FORMAT", "FEED_URI"}
  {
    var s0 := base["LOG_LEVEL" := DictGet(args, "log_level", Str("INFO"))];
    if Truthy(DictGet(args, "output", Null)) then s0["FEED_FORMAT" := Str("json")]["FEED_URI" := args["output"]]
    else s0
  }

  /** What one `run_crawler` call hands to Scrapy, and what it raises. */
  datatype Launch = Launch(settings: map<string, Value>, kwargs: map<string, Value>, raised: Option<string>)

  /** The settings assignments shared by both runners. */
  method ApplySettings(base: map<string, Value>, args: map<string, Value>) returns (settings: map<string, Value>)
    ensures settings == RunnerSettings(base, args)
  {
    settings := base["LOG_LEVEL" := DictGet(args, "log_level", Str("INFO"))];
    if Truthy(DictGet(args, "output", Null)) {
      settings := settings["FEED_FORMAT" := Str("json")];
      settings := settings["FEED_URI" := args["output"]];
    }
  }

  /** The shared body of both runners: the settings, then the keyword
      arguments inserted as in `SpiderRunner.BuildSpiderKwargs`. */
  method Prepare(base: map<string, Value>, args: map<string, Value>, config: Value)
    returns (settings: map<string, Value>, kwargs: map<string, Value>)
    ensures settings == RunnerSettings(base, args)
    ensures kwargs == Kwargs(ArgsConfig(args), config)
  {
    settings := ApplySettings(base, args);
    kwargs := BuildSpiderKwargs(ArgsConfig(args), config);
  }

  /** `run_crawler` of ikuyo/core/crawler_runner.py: every exception is
      written to the debug log and swallowed. */
  method RunCrawlerIkuyo(base: map<string, Value>, args: map<string, Value>, config: Value,
                         crawl: map<string, Value> -> Option<string>) returns (l: Launch)
    ensures l.raised.None?
    ensures l.settings == RunnerSettings(base, args) && l.kwargs == Kwargs(ArgsConfig(args), config)
  {
    var settings, kwargs := Prepare(base, args, config);
    var _ := crawl(kwargs);
    l := Launch(settings, kwargs, None);
  }

  /** `run_crawler` of src/core/crawler_runner.py: the crawl's exception propagates. */
  method RunCrawlerSrc(base: map<string, Value>, args: map<string, Value>, config: Value,
                       crawl: map<string, Value> -> Option<string>) returns (l: Launch)
    ensures l.raised == crawl(Kwargs(ArgsConfig(args), config))
    ensures l.settings == RunnerSettings(base, args) && l.kwargs == Kwargs(ArgsConfig(args), config)
  {
    var settings, kwargs := Prepare(base, args, config);
    l := Launch(settings, kwargs, crawl(kwargs));
  }

  /** Both runners give the spider `config` and `mode` (default "homepage"),
      `year`, `season` and `start_url` only when truthy and `limit` whenever
      it is set, even to 0; the JSON feed is configured only for a truthy `output`. */
  lemma RunnerKwargsShape(args: map<string, Value>, config: Value, base: map<string, Value>)
    ensures Kwargs(ArgsConfig(args), config)["mode"] == DictGet(args, "mode", Str("homepage"))
    ensures "year" in Kwargs(ArgsConfig(args), config) <==> Truthy(DictGet(args, "year", Null))
    ensures "limit" in Kwargs(ArgsConfig(args), config) <==> "limit" in args && args["limit"] != Null
    ensures "FEED_URI" in RunnerSettings(base, args) <==> "FEED_URI" in base || Truthy(DictGet(args, "output", Null))
  {
  }

  /** The spider mode of run_single_spider.py: `crawler_mode`, else `mode`, else "homepage". */
  function SingleMode(parameters: map<string, Value>): (m: Value)
    ensures "crawler_mode" in parameters ==> m == parameters["crawler_mode"]
    ensures "crawler_mode" !in parameters && "mode" in parameters ==> m == parameters["mode"]
    ensures "crawler_mode" !in parameters && "mode" !in parameters ==> m == Str("homepage")
  {
    DictGet(parameters, "crawler_mode", DictGet(parameters, "mode", Str("homepage")))
  }

  /** The keyword arguments of `run_spider`, inserted one by one. */
  method SingleKwargs(taskId: int, parameters: map<string, Value>, projectConfig: Value)
    returns (kw: map<string, Value>)
    ensures "task_id" in kw && kw["task_id"] == Int(taskId)
    ensures "config" in kw && kw["config"] == projectConfig
    ensures "mode" in kw && kw["mode"] == SingleMode(parameters)
    ensures "year" in kw <==> Truthy(DictGet(parameters, "year", Null))
    ensures "season" in kw <==> Truthy(DictGet(parameters, "season", Null))
    ensures "start_url" in kw <==> Truthy(DictGet(parameters, "start_url", Null))
    ensures "limit" in kw <==> DictGet(parameters, "limit", Null) != Null
    ensures forall k :: k in kw && k !in {"task_id", "config", "mode"} ==> k in parameters && kw[k] == parameters[k]
    ensures kw.Keys <= {"task_id", "config", "mode", "year", "season", "start_url", "limit"}
  {
    kw := map["config" := projectConfig, "mode" := SingleMode(parameters), "task_id" := Int(taskId)];
    if Truthy(DictGet(parameters, "year", Null)) {
      kw := kw["year" := parameters["year"]];
    }
    if Truthy(DictGet(parameters, "season", Null)) {
      kw := kw["season" := parameters["season"]];
    }
    if Truthy(DictGet(parameters, "start_url", Null)) {
      kw := kw["start_url" := parameters["start_url"]];
    }
    if DictGet(parameters, "limit", Null) != Null {
      kw := kw["limit" := parameters["limit"]];
    }
  }

  /** `run_spider`: parameters that are not a dictionary raise on `.get`;
      the crawl's exception becomes `{"success": False, "error", "traceback"}`,
      a finished crawl `{"success": True, "message"}`. */
  method RunSpider(taskId: int, parameters: Value, projectConfig: Value,
                   crawl: map<string, Value> -> Option<string>, traceback: string)
    returns (r: map<string, Value>)
    ensures "success" in r && r["success"].Bool?
    ensures r["success"].b ==> r == map["success" := Bool(true),
                                        "message" := Str("Spider for task " + IntToString(taskId) + " completed.")]
    ensures !r["success"].b ==> r.Keys == {"success", "error", "traceback"} && r["traceback"] == Str(traceback)
    ensures !parameters.Dict? ==> r == Failure(NoAttribute(parameters, "get"), traceback)
    ensures r["success"].b <==> parameters.Dict? && crawl(KwargsOfRun(taskId, parameters.entries, projectConfig)).None?
  {
    if !parameters.Dict? {
      return Failure(NoAttribute(parameters, "get"), traceback);
    }
    var kw := SingleKwargs(taskId, parameters.entries, projectConfig);
    KwargsOfRunIs(taskId, parameters.entries, projectConfig, kw);
    var raised := crawl(kw);
    if raised.Some? {
      return Failure(raised.value, traceback);
    }
    r := map["success" := Bool(true), "message" := Str("Spider for task " + IntToString(taskId) + " completed.")];
  }

  /** The keyword arguments `run_spider` builds, as a value. */
  function KwargsOfRun(taskId: int, parameters: map<string, Value>, projectConfig: Value): (kw: map<string, Value>)
    ensures kw.Keys <= {"task_id", "config", "mode", "year", "season", "start_url", "limit"}
  {
    var m := SingleMode(parameters);
    var k0 := map["config" := projectConfig, "mode" := m, "task_id" := Int(taskId)];
    var k1 := if Truthy(DictGet(parameters, "year", Null)) then k0["year" := parameters["year"]] else k0;
    var k2 := if Truthy(DictGet(parameters, "season", Null)) then k1["season" := parameters["season"]] else k1;
    var k3 := if Truthy(DictGet(parameters, "start_url", Null)) then k2["start_url" := parameters["start_url"]] else k2;
    if DictGet(parameters, "limit", Null) != Null then k3["limit" := parameters["limit"]] else k3
  }

  /** The method's inserts build exactly that value: both are determined key by key. */
  lemma KwargsOfRunIs(taskId: int, parameters: map<string, Value>, projectConfig: Value, kw: map<string, Value>)
    requires "task_id" in kw && kw["task_id"] == Int(taskId)
    requires "config" in kw && kw["config"] == projectConfig
    requires "mode" in kw && kw["mode"] == SingleMode(parameters)
    requires "year" in kw <==> Truthy(DictGet(parameters, "year", Null))
    requires "season" in kw <==> Truthy(DictGet(parameters, "season", Null))
    requires "start_url" in kw <==> Truthy(DictGet(parameters, "start_url", Null))
    requires "limit" in kw <==> DictGet(parameters, "limit", Null) != Null
    requires forall k :: k in kw && k !in {"task_id", "config", "mode"} ==> k in parameters && kw[k] == parameters[k]
    requires kw.Keys <= {"task_id", "config", "mode", "year", "season", "start_url", "limit"}
    ensures kw == KwargsOfRun(taskId, parameters, projectConfig)
  {
    var other := KwargsOfRun(taskId, parameters, projectConfig);
    KwargsOfRunEntries(taskId, parameters, projectConfig);
    assert kw.Keys == other.Keys;
    forall k | k in kw
      ensures kw[k] == other[k]
    {
      if k !in {"task_id", "config", "mode"} {
        assert k in parameters && kw[k] == parameters[k];
      }
    }
  }

  /** The entries of `KwargsOfRun` one by one: the three fixed ones, and each
      optional one present exactly under its condition, copied from the
      parameters. */
  lemma KwargsOfRunEntries(taskId: int, parameters: map<string, Value>, projectConfig: Value)
    ensures var kw := KwargsOfRun(taskId, parameters, projectConfig);
      && "task_id" in kw && kw["task_id"] == Int(taskId)
      && "config" in kw && kw["config"] == projectConfig
      && "mode" in kw && kw["mode"] == SingleMode(parameters)
      && ("year" in kw <==> Truthy(DictGet(parameters, "year", Null)))
      && ("season" in kw <==> Truthy(DictGet(parameters, "season", Null)))
      && ("start_url" in kw <==> Truthy(DictGet(parameters, "start_url", Null)))
      && ("limit" in kw <==> DictGet(parameters, "limit", Null) != Null)
      && forall k :: k in kw && k !in {"task_id", "config", "mode"} ==> k in parameters && kw[k] == parameters[k]
  {
  }

  /** The failure dictionary of `run_spider`: a false flag, the message and the traceback. */
  function Failure(e: string, traceback: string): (r: map<string, Value>)
    ensures r.Keys == {"success", "error", "traceback"}
    ensures r["success"] == Bool(false) && r["error"] == Str(e) && r["traceback"] == Str(traceback)
  {
    map["success" := Bool(false), "error" := Str(e), "traceback" := Str(traceback)]
  }

  /** How the command line ends: its exit status and the JSON it printed. */
  datatype CliOutcome = CliOutcome(exitCode: int, printed: Option<map<string, Value>>)

  /** The `__main__` block: fewer than two arguments, a task id `int()`
      refuses (an uncaught ValueError) or parameters `json.loads` refuses
      (`loads` gives None) exit with status 1 before running; otherwise the
      result is printed and the status is 1 exactly when it is a failure. */
  method Cli(argv: seq<string>, loads: string -> Option<Value>, projectConfig: Value,
             crawl: map<string, Value> -> Option<string>, traceback: string) returns (o: CliOutcome)
    ensures o.exitCode == 0 || o.exitCode == 1
    ensures |argv| < 3 ==> o == CliOutcome(1, None)
    ensures |argv| >= 3 && (PyInt(argv[1]).None? || loads(argv[2]).None?) ==> o == CliOutcome(1, None)
    ensures o.printed.Some? <==> |argv| >= 3 && PyInt(argv[1]).Some? && loads(argv[2]).Some?
    ensures o.printed.Some? ==> "success" in o.printed.value && o.printed.value["success"].Bool?
                                && (o.exitCode == 0 <==> o.printed.value["success"].b)
    ensures o.printed.Some? ==>
      var taskId := PyInt(argv[1]).value;
      var parameters := loads(argv[2]).value;
      (o.exitCode == 0 <==> parameters.Dict? && crawl(KwargsOfRun(taskId, parameters.entries, projectConfig)).None?)
      && (o.exitCode == 0 ==> o.printed.value == map["success" := Bool(true),
                               "message" := Str("Spider for task " + IntToString(taskId) + " completed.")])
      && (o.exitCode == 1 ==> o.printed.value.Keys == {"success", "error", "traceback"})
  {
    if |argv| < 3 {
      return CliOutcome(1, None);
    }
    var taskId := PyInt(argv[1]);
    if taskId.None? {
      return CliOutcome(1, None);
    }
    var parameters := loads(argv[2]);
    if parameters.None? {
      return CliOutcome(1, None);
    }
    var result := RunSpider(taskId.value, parameters.value, projectConfig, crawl, traceback);
    o := CliOutcome(if result["success"].b then 0 else 1, Some(result));
  }
}

=== FILE: crawler_task.dfy ===
/** The crawler task object of the task abstraction layer
    (ikuyo/core/tasks/crawler_task.py, ikuyo/core/tasks/base.py):
    parameter validation against `CrawlerTaskParams` and the status writes
    of `execute` and `cancel`. */
module CrawlerTasks {
  import opened Wrappers
  import opened PyValue
  import opened Strings
  import opened TaskModel

  /** `CrawlerTaskParams`: a required `mode` and four optional fields. */
  datatype CrawlerTaskParams = CrawlerTaskParams(
    mode: string, year: Option<int>, season: Option<string>, startUrl: Option<string>, limit: Option<int>)

  /** Why `validate` raises its ValueError. */
  datatype ValidateError = ParamsEmpty | ParamsInvalid

  /** An optional integer field under Pydantic's lax mode: absent and
      `None` are `None`; an integer is kept; a boolean counts as 0 or 1; a
      float is accepted only without a fractional part; a string only when
      it reads as an integer (`PyInt`); anything else is refused. */
  function OptInt(d: map<string, Value>, k: string): (r: Result<Option<int>, ValidateError>)
    ensures r == Ok(None) <==> DictGet(d, k, Null) == Null
    ensures DictGet(d, k, Null).Int? ==> r == Ok(Some(DictGet(d, k, Null).i))
    ensures DictGet(d, k, Null).Str? ==>
              (r.Ok? <==> PyInt(DictGet(d, k, Null).s).Some?) && (r.Ok? ==> r.value == PyInt(DictGet(d, k, Null).s))
    ensures DictGet(d, k, Null).Real? ==>
              (r.Ok? <==> DictGet(d, k, Null).r == DictGet(d, k, Null).r.Floor as real)
    ensures DictGet(d, k, Null).List? || DictGet(d, k, Null).Dict? ==> r.Err?
  {
    match DictGet(d, k, Null)
    case Null => Ok(None)
    case Int(i) => Ok(Some(i))
    case Bool(b) => Ok(Some(if b then 1 else 0))
    case Real(x) => if x == x.Floor as real then Ok(Some(x.Floor)) else Err(ParamsInvalid)
    case Str(t) => if PyInt(t).Some? then Ok(PyInt(t)) else Err(ParamsInvalid)
    case _ => Err(ParamsInvalid)
  }

  /** An optional string field: absent and `None` are `None`; lax mode
      turns no other value into a string. */
  function OptStr(d: map<string, Value>, k: string): (r: Result<Option<string>, ValidateError>)
    ensures DictGet(d, k, Null) == Null ==> r == Ok(None)
    ensures DictGet(d, k, Null).Str? ==> r == Ok(Some(DictGet(d, k, Null).s))
    ensures DictGet(d, k, Null) != Null && !DictGet(d, k, Null).Str? ==> r == Err(ParamsInvalid)
  {
    match DictGet(d, k, Null)
    case Null => Ok(None)
    case Str(s) => Ok(Some(s))
    case _ => Err(ParamsInvalid)
  }

  /** `CrawlerTaskParams(**params)`: keys other than the five fields are ignored. */
  function ParamsOf(d: map<string, Value>): (r: Result<CrawlerTaskParams, ValidateError>)
    ensures r.Ok? <==> "mode" in d && d["mode"].Str? && OptInt(d, "year").Ok? && OptStr(d, "season").Ok?
                       && OptStr(d, "start_url").Ok? && OptInt(d, "limit").Ok?
    ensures r.Ok? ==> r.value.mode == d["mode"].s
    ensures r.Ok? ==> r.value.year == OptInt(d, "year").value && r.value.limit == OptInt(d, "limit").value
    ensures r.Ok? ==> r.value.season == OptStr(d, "season").value && r.value.startUrl == OptStr(d, "start_url").value
    ensures r.Ok? ==> (r.value.year.Some? <==> DictGet(d, "year", Null) != Null)
    ensures r.Ok? ==> (r.value.limit.Some? <==> DictGet(d, "limit", Null) != Null)
    ensures r.Err? ==> r.error == ParamsInvalid
  {
    if "mode" !in d || !d["mode"].Str? then Err(ParamsInvalid)
    else
      var year, season, url, limit := OptInt(d, "year"), OptStr(d, "season"), OptStr(d, "start_url"), OptInt(d, "limit");
      if year.Err? || season.Err? || url.Err? || limit.Err? then Err(ParamsInvalid)
      else Ok(CrawlerTaskParams(d["mode"].s, year.value, season.value, url.value, limit.value))
  }

  /** The dictionary that holds exactly the fields of `p`. */
  function ParamsDict(p: CrawlerTaskParams): map<string, Value> {
    map["mode" := Str(p.mode),
        "year" := (if p.year.Some? then Int(p.year.value) else Null),
        "season" := (if p.season.Some? then Str(p.season.value) else Null),
        "start_url" := (if p.startUrl.Some? then Str(p.startUrl.value) else Null),
        "limit" := (if p.limit.Some? then Int(p.limit.value) else Null)]
  }

  /** Validating the dictionary of any parameters object gives it back. */
  lemma ParamsRoundTrip(p: CrawlerTaskParams)
    ensures ParamsOf(ParamsDict(p)) == Ok(p)
  {
    var d := ParamsDict(p);
    assert DictGet(d, "year", Null) == (if p.year.Some? then Int(p.year.value) else Null);
    assert DictGet(d, "limit", Null) == (if p.limit.Some? then Int(p.limit.value) else Null);
    assert DictGet(d, "season", Null) == (if p.season.Some? then Str(p.season.value) else Null);
    assert DictGet(d, "start_url", Null) == (if p.startUrl.Some? then Str(p.startUrl.value) else Null);
  }

  /** Lax mode: a year given as decimal text, such as "2024", validates as
      that integer. */
  lemma YearTextCoerced(mode: string, year: nat)
    ensures ParamsOf(map["mode" := Str(mode), "year" := Str(NatToString(year))])
            == Ok(CrawlerTaskParams(mode, Some(year), None, None, None))
  {
    var d := map["mode" := Str(mode), "year" := Str(NatToString(year))];
    PyIntOfNatToString(year);
    assert DictGet(d, "year", Null) == Str(NatToString(year));
    assert DictGet(d, "limit", Null) == Null && DictGet(d, "season", Null) == Null;
    assert DictGet(d, "start_url", Null) == Null;
  }

  /** Extra keys never change the outcome of validation. */
  lemma ExtraKeysIgnored(d: map<string, Value>, k: string, v: Value)
    requires k !in {"mode", "year", "season", "start_url", "limit"}
    ensures ParamsOf(d[k := v]) == ParamsOf(d)
  {
    var e := d[k := v];
    assert DictGet(e, "year", Null) == DictGet(d, "year", Null);
    assert DictGet(e, "limit", Null) == DictGet(d, "limit", Null);
    assert DictGet(e, "season", Null) == DictGet(d, "season", Null);
    assert DictGet(e, "start_url", Null) == DictGet(d, "start_url", Null);
    assert OptInt(e, "year") == OptInt(d, "year") && OptInt(e, "limit") == OptInt(d, "limit");
    assert OptStr(e, "season") == OptStr(d, "season") && OptStr(e, "start_url") == OptStr(d, "start_url");
    assert ("mode" in e <==> "mode" in d) && ("mode" in d ==> e["mode"] == d["mode"]);
  }

  /** `validate` on the record's `parameters` text: empty or absent text is
      refused outright; otherwise the JSON must decode to a dictionary that
      fits `CrawlerTaskParams` (`**` on a non-dictionary raises too). */
  function Validate(parameters: Option<string>, loads: string -> Option<Value>): (r: Result<CrawlerTaskParams, ValidateError>)
    ensures r == Err(ParamsEmpty) <==> parameters.None? || parameters.value == ""
    ensures r.Ok? ==> loads(parameters.value).Some? && loads(parameters.value).value.Dict?
                      && r == ParamsOf(loads(parameters.value).value.entries)
    ensures (parameters.Some? && parameters.value != "" && loads(parameters.value).Some? && loads(parameters.value).value.Dict?)
              ==> r == ParamsOf(loads(parameters.value).value.entries)
    ensures (parameters.Some? && parameters.value != "" && (loads(parameters.value).None? || !loads(parameters.value).value.Dict?))
              ==> r == Err(ParamsInvalid)
  {
    if parameters.None? || parameters.value == "" then Err(ParamsEmpty)
    else
      match loads(parameters.value)
      case None => Err(ParamsInvalid)
      case Some(v) => if v.Dict? then ParamsOf(v.entries) else Err(ParamsInvalid)
  }

  /** `CrawlerTask`: the repository, the record it manages, the validated
      parameters and the `task_id`, which nothing in the class ever sets. */
  class CrawlerTask {
    const repository: TaskDb
    var record: TaskRecord
    var params: Option<CrawlerTaskParams>
    var taskId: Option<string>

    constructor (repository: TaskDb, record: TaskRecord)
      ensures this.repository == repository && this.record == record
      ensures params.None? && taskId.None?
    {
      this.repository := repository;
      this.record := record;
      params := None;
      taskId := None;
    }

    /** `validate`: on success `params` is set; on failure it keeps its value and the error is returned. */
    method ValidateParams(loads: string -> Option<Value>) returns (r: Result<CrawlerTaskParams, ValidateError>)
      modifies this`params
      ensures r == Validate(record.parameters, loads)
      ensures params == if r.Ok? then Some(r.value) else old(params)
    {
      r := Validate(record.parameters, loads);
      if r.Ok? {
        params := Some(r.value);
      }
    }

    /** `execute`: the record is set back to "pending" and written. */
    method Execute()
      requires repository.Valid() && record.id.Some? && record.id.value in repository.rows
      modifies this`record, repository`rows
      ensures repository.Valid()
      ensures record == old(record).(status := "pending")
      ensures repository.rows == Store(old(repository.rows), record)
    {
      record := record.(status := "pending");
      repository.Update(record);
    }

    /** `cancel`: only with a non-empty `task_id` is the record cancelled,
        stamped and written; otherwise nothing happens. */
    method Cancel(now: Time)
      requires repository.Valid() && record.id.Some? && record.id.value in repository.rows
      modifies this`record, repository`rows
      ensures repository.Valid()
      ensures taskId.None? || taskId.value == "" ==> record == old(record) && repository.rows == old(repository.rows)
      ensures taskId.Some? && taskId.value != "" ==>
        record == old(record).(status := "cancelled", completedAt := Some(now))
        && repository.rows == Store(old(repository.rows), record)
    {
      if taskId.Some? && taskId.value != "" {
        record := record.(status := "cancelled", completedAt := Some(now));
        repository.Update(record);
      }
    }

    /** `on_progress`: the progress is assigned to `task_record.progress`, a
        field the task model does not declare, so the assignment raises before
        the write-back; the handler swallows the error and nothing is written. */
    method OnProgress(progress: map<string, Value>)
      requires repository.Valid()
      ensures repository.Valid()
      ensures repository.rows == old(repository.rows) && record == old(record)
    {
    }
  }

  /** A freshly constructed task cannot be cancelled: its `task_id` is `None`. */
  method CancelFreshTaskIsNoOp(db: TaskDb, t: TaskRecord, now: Time)
    requires db.Valid() && t.id.Some? && t.id.value in db.rows
    modifies db`rows
    ensures db.rows == old(db.rows)
  {
    var task := new CrawlerTask(db, t);
    task.Cancel(now);
    assert task.record == t;
  }
}

=== FILE: cron_table.dfy ===
/** The trigger table that the database-driven schedulers keep in their
    APScheduler instance (ikuyo/core/scheduler/unified_scheduler.py and
    ikuyo/core/scheduler.py): one cron trigger per job id. APScheduler's
    own computation of fire times is outside the model. */
module CronTable {
  import opened Wrappers
  import opened Strings

  /** The five crontab fields in POSIX order (IEEE Std 1003.1, `crontab`). */
  datatype CronFields = CronFields(minute: string, hour: string, day: string, month: string, dayOfWeek: string)

  /** `minute, hour, day, month, day_of_week = cron_expr.split()`, refused unless there are exactly five fields. */
  function CronOf(expr: string): (r: Option<CronFields>)
    ensures r.Some? <==> |Words(expr)| == 5
    ensures r.Some? ==> r.value == CronFields(Words(expr)[0], Words(expr)[1], Words(expr)[2], Words(expr)[3], Words(expr)[4])
  {
    var parts := Words(expr);
    if |parts| != 5 then None else Some(CronFields(parts[0], parts[1], parts[2], parts[3], parts[4]))
  }

  /** The expression a crontab line spells for the fields. */
  function CronText(c: CronFields): string {
    Join([c.minute, c.hour, c.day, c.month, c.dayOfWeek], " ")
  }

  /** Fields without blanks survive being written out and split again. */
  lemma CronRoundTrip(c: CronFields)
    requires |c.minute| > 0 && |c.hour| > 0 && |c.day| > 0 && |c.month| > 0 && |c.dayOfWeek| > 0
    requires NoSpace(c.minute) && NoSpace(c.hour) && NoSpace(c.day) && NoSpace(c.month) && NoSpace(c.dayOfWeek)
    ensures CronOf(CronText(c)) == Some(c)
  {
    var ws := [c.minute, c.hour, c.day, c.month, c.dayOfWeek];
    forall k | 0 <= k < |ws| ensures |ws[k]| > 0 && NoSpace(ws[k]) {
      if k == 0 { } else if k == 1 { } else if k == 2 { } else if k == 3 { } else { }
    }
    WordsOfJoin(ws);
    assert Words(CronText(c)) == ws;
  }

  /** A registered trigger: its cron fields and the job's display name. */
  datatype Trigger = Trigger(cron: CronFields, name: string)

  /** What registering one job does to the table: nothing, a trigger under
      the job id (`replace_existing=True`), or an exception that ends the
      loading loop. */
  datatype Step = Skip | Add(id: string, trigger: Trigger) | Abort

  /** The table after a loading loop, and whether an exception ended it early. */
  datatype Filled = Filled(triggers: map<string, Trigger>, aborted: bool)

  /** The loading loop over the steps, in order. */
  function Fill(t: map<string, Trigger>, steps: seq<Step>): (r: Filled)
    decreases |steps|
  {
    if |steps| == 0 then Filled(t, false)
    else match steps[0]
      case Skip => Fill(t, steps[1..])
      case Add(id, tr) => Fill(t[id := tr], steps[1..])
      case Abort => Filled(t, true)
  }

  /** One step of the loop, taken at position `i`. */
  lemma FillAt(t: map<string, Trigger>, steps: seq<Step>, i: nat)
    requires i < |steps|
    ensures steps[i].Abort? ==> Fill(t, steps[i..]) == Filled(t, true)
    ensures steps[i].Skip? ==> Fill(t, steps[i..]) == Fill(t, steps[i + 1..])
    ensures steps[i].Add? ==> Fill(t, steps[i..]) == Fill(t[steps[i].id := steps[i].trigger], steps[i + 1..])
  {
    assert steps[i..][0] == steps[i] && steps[i..][1..] == steps[i + 1..];
  }

  /** A key no step adds keeps its entry, or its absence. */
  lemma {:induction false} FillKeeps(t: map<string, Trigger>, steps: seq<Step>, k: string)
    requires forall j :: 0 <= j < |steps| && steps[j].Add? ==> steps[j].id != k
    ensures k in Fill(t, steps).triggers <==> k in t
    ensures k in t ==> Fill(t, steps).triggers[k] == t[k]
    decreases |steps|
  {
    if |steps| > 0 && !steps[0].Abort? {
      var t' := if steps[0].Add? then t[steps[0].id := steps[0].trigger] else t;
      FillKeeps(t', steps[1..], k);
    }
  }

  /** Without exceptions, the keys afterwards are the old keys and the ids of the added jobs. */
  lemma {:induction false} FillKeys(t: map<string, Trigger>, steps: seq<Step>, k: string)
    requires forall j :: 0 <= j < |steps| ==> !steps[j].Abort?
    ensures !Fill(t, steps).aborted
    ensures k in Fill(t, steps).triggers <==> k in t || exists j :: 0 <= j < |steps| && steps[j].Add? && steps[j].id == k
    decreases |steps|
  {
    if |steps| > 0 {
      var t' := if steps[0].Add? then t[steps[0].id := steps[0].trigger] else t;
      FillKeys(t', steps[1..], k);
      if k in Fill(t, steps).triggers && k !in t && steps[0].Add? && steps[0].id == k {
        assert steps[0].Add? && steps[0].id == k;
      }
      if exists j :: 1 <= j < |steps| && steps[j].Add? && steps[j].id == k {
        var j :| 1 <= j < |steps| && steps[j].Add? && steps[j].id == k;
        assert steps[1..][j - 1] == steps[j];
      }
      if exists j :: 0 <= j < |steps[1..]| && steps[1..][j].Add? && steps[1..][j].id == k {
        var j :| 0 <= j < |steps[1..]| && steps[1..][j].Add? && steps[1..][j].id == k;
        assert steps[j + 1] == steps[1..][j];
      }
    }
  }

  /** The last step that adds a key decides its trigger, if no exception comes first. */
  lemma {:induction false} FillLastWins(t: map<string, Trigger>, steps: seq<Step>, i: nat)
    requires i < |steps| && steps[i].Add?
    requires forall j :: 0 <= j < i ==> !steps[j].Abort?
    requires forall j :: i < j < |steps| && steps[j].Add? ==> steps[j].id != steps[i].id
    ensures steps[i].id in Fill(t, steps).triggers
    ensures Fill(t, steps).triggers[steps[i].id] == steps[i].trigger
    decreases i
  {
    var t' := if steps[0].Add? then t[steps[0].id := steps[0].trigger] else t;
    if i == 0 {
      FillKeeps(t', steps[1..], steps[0].id);
    } else {
      assert steps[1..][i - 1] == steps[i];
      FillLastWins(t', steps[1..], i - 1);
    }
  }

  /** A skipped job affects no other job: removing it changes nothing. */
  lemma {:induction false} FillSkip(t: map<string, Trigger>, before: seq<Step>, after: seq<Step>)
    ensures Fill(t, before + [Skip] + after) == Fill(t, before + after)
    decreases |before|
  {
    if |before| == 0 {
      assert before + [Skip] + after == [Skip] + after;
      assert ([Skip] + after)[1..] == after;
      assert before + after == after;
    } else {
      assert (before + [Skip] + after)[0] == before[0];
      assert (before + [Skip] + after)[1..] == before[1..] + [Skip] + after;
      assert (before + after)[0] == before[0];
      assert (before + after)[1..] == before[1..] + after;
      var t' := if before[0].Add? then t[before[0].id := before[0].trigger] else t;
      FillSkip(t', before[1..], after);
    }
  }

  /** An exception ends the loop: the steps before it take effect, none after it. */
  lemma {:induction false} FillAbort(t: map<string, Trigger>, steps: seq<Step>, i: nat)
    requires i < |steps| && steps[i].Abort?
    requires forall j :: 0 <= j < i ==> !steps[j].Abort?
    ensures Fill(t, steps) == Filled(Fill(t, steps[..i]).triggers, true)
    decreases i
  {
    if i > 0 {
      var t' := if steps[0].Add? then t[steps[0].id := steps[0].trigger] else t;
      assert steps[1..][i - 1] == steps[i];
      assert steps[..i][1..] == steps[1..][..i - 1];
      FillAbort(t', steps[1..], i - 1);
    }
  }
}

=== FILE: database.dfy ===
/** The query builders of ikuyo/core/database.py: the SQL text and bound
    parameters each repository call hands to sqlite. Executing the query
    is not modelled; the property kept throughout is that the text has one
    `?` placeholder per bound parameter. */
module Database {
  import opened Wrappers
  import opened Strings

  /** A bound parameter. */
  datatype Param = PInt(i: int) | PStr(s: string)

  /** A piece of query text: literal SQL written by the builder, or a `?`
      placeholder that sqlite fills from the parameters. */
  datatype Piece = Text(sql: string) | Hole

  type Query = seq<Piece>

  /** The query string sent to sqlite. */
  function Render(q: Query): string {
    if |q| == 0 then "" else (match q[0] case Text(t) => t case Hole => "?") + Render(q[1..])
  }

  /** The number of placeholders in a query. */
  function Holes(q: Query): nat {
    if |q| == 0 then 0 else (if q[0].Hole? then 1 else 0) + Holes(q[1..])
  }

  lemma {:induction false} HolesConcat(a: Query, b: Query)
    ensures Holes(a + b) == Holes(a) + Holes(b)
    decreases |a|
  {
    if |a| > 0 {
      assert (a + b)[1..] == a[1..] + b;
      HolesConcat(a[1..], b);
    } else {
      assert a + b == b;
    }
  }

  lemma {:induction false} RenderConcat(a: Query, b: Query)
    ensures Render(a + b) == Render(a) + Render(b)
    decreases |a|
  {
    if |a| > 0 {
      assert (a + b)[1..] == a[1..] + b;
      RenderConcat(a[1..], b);
    } else {
      assert a + b == b;
    }
  }

  /** A present, non-zero number (Python truthiness of an optional int). */
  predicate TruthyInt(x: Option<int>) {
    x.Some? && x.value != 0
  }

  // ------------------------------------------------- anime repository

  /** `get_anime_by_id`: one placeholder, bound to the id. */
  method GetAnimeById(mikanId: int) returns (query: Query, params: seq<Param>)
    ensures params == [PInt(mikanId)] && Holes(query) == |params|
    ensures Render(query) == "SELECT * FROM animes WHERE mikan_id = ?"
  {
    query := [Text("SELECT * FROM animes WHERE mikan_id = "), Hole];
    params := [PInt(mikanId)];
    assert query[1..] == [Hole] && query[1..][1..] == [];
  }

  const AllAnimes: string := "SELECT * FROM animes ORDER BY created_at DESC"

  /** `get_all_animes`: LIMIT and OFFSET are written into the text, and only
      when `limit` is truthy; nothing is bound. */
  method GetAllAnimes(limit: Option<int>, offset: int) returns (query: Query, params: seq<Param>)
    ensures params == [] && Holes(query) == 0
    ensures TruthyInt(limit) ==> Render(query) == AllAnimes + " LIMIT " + IntToString(limit.value) + " OFFSET " + IntToString(offset)
    ensures !TruthyInt(limit) ==> Render(query) == AllAnimes
  {
    var text := AllAnimes;
    if TruthyInt(limit) {
      text := text + " LIMIT " + IntToString(limit.value) + " OFFSET " + IntToString(offset);
    }
    query := [Text(text)];
    params := [];
    assert query[1..] == [];
  }

  /** `search_animes_by_title`: exactly one bound parameter, the title
      wrapped in `%` for a substring match. */
  method SearchAnimesByTitle(title: string) returns (query: Query, params: seq<Param>)
    ensures params == [PStr("%" + title + "%")] && Holes(query) == |params|
    ensures Render(query) == "SELECT * FROM animes WHERE title LIKE " + "?" + " ORDER BY created_at DESC"
  {
    query := [Text("SELECT * FROM animes WHERE title LIKE "), Hole, Text(" ORDER BY created_at DESC")];
    params := [PStr("%" + title + "%")];
    var tail := [Text(" ORDER BY created_at DESC")];
    assert query[1..] == [Hole] + tail && ([Hole] + tail)[1..] == tail && tail[1..] == [];
    assert Render(tail) == " ORDER BY created_at DESC" && Holes(tail) == 0;
    assert Render([Hole] + tail) == "?" + " ORDER BY created_at DESC" && Holes([Hole] + tail) == 1;
  }

  /** `get_anime_resources`: one placeholder, bound to the anime id. */
  method GetAnimeResources(mikanId: int) returns (query: Query, params: seq<Param>)
    ensures params == [PInt(mikanId)] && Holes(query) == |params|
  {
    query := [Text("\n        SELECT r.*, sg.name as subtitle_group_name\n        FROM resources r\n"
                   + "        JOIN subtitle_groups sg ON r.subtitle_group_id = sg.id\n        WHERE r.mikan_id = "),
              Hole, Text("\n        ORDER BY r.release_date DESC\n        ")];
    params := [PInt(mikanId)];
    var tail := [query[2]];
    assert query[1..] == [Hole] + tail && ([Hole] + tail)[1..] == tail && tail[1..] == [];
    assert Holes(tail) == 0;
    assert Holes([Hole] + tail) == 1;
  }

  // ------------------------------------------------- resource repository

  /** One filter: the column it tests and the value bound for it. */
  datatype Filter = Filter(column: string, param: Param)

  /** The condition of a filter: `r.<column> = ?`. */
  function Condition(f: Filter): (c: Query)
    ensures Holes(c) == 1
  {
    var c := [Text("r." + f.column + " = "), Hole];
    assert c[1..] == [Hole] && c[1..][1..] == [];
    assert Holes([Hole]) == 1;
    c
  }

  /** The filters `get_resources_by_filters` applies: one per truthy
      argument, in the order anime id, resolution, episode. */
  function Filters(mikanId: Option<int>, resolution: Option<string>, episode: Option<int>): (fs: seq<Filter>)
    ensures |fs| == (if TruthyInt(mikanId) then 1 else 0) + (if Given(resolution) then 1 else 0)
                    + (if TruthyInt(episode) then 1 else 0)
    ensures TruthyInt(mikanId) ==> fs[0] == Filter("mikan_id", PInt(mikanId.value))
    ensures TruthyInt(episode) ==> fs[|fs| - 1] == Filter("episode_number", PInt(episode.value))
    ensures Given(resolution) <==> Filter("resolution", PStr(resolution.GetOr(""))) in fs
  {
    (if TruthyInt(mikanId) then [Filter("mikan_id", PInt(mikanId.value))] else [])
    + (if Given(resolution) then [Filter("resolution", PStr(resolution.value))] else [])
    + (if TruthyInt(episode) then [Filter("episode_number", PInt(episode.value))] else [])
  }

  function Params(fs: seq<Filter>): (ps: seq<Param>)
    ensures |ps| == |fs| && forall i :: 0 <= i < |fs| ==> ps[i] == fs[i].param
  {
    seq(|fs|, i requires 0 <= i < |fs| => fs[i].param)
  }

  /** `" AND ".join(conditions) if conditions else "1=1"`. */
  function WhereClause(fs: seq<Filter>): (w: Query)
    ensures Holes(w) == |fs|
  {
    if |fs| == 0 then [Text("1=1")]
    else if |fs| == 1 then Condition(fs[0])
    else
      var rest := WhereClause(fs[1..]);
      HolesConcat(Condition(fs[0]), [Text(" AND ")]);
      HolesConcat(Condition(fs[0]) + [Text(" AND ")], rest);
      Condition(fs[0]) + [Text(" AND ")] + rest
  }

  const FilterSelect: string :=
    "\n        SELECT r.*, a.title as anime_title, sg.name as subtitle_group_name\n        FROM resources r\n"
    + "        JOIN animes a ON r.mikan_id = a.mikan_id\n"
    + "        JOIN subtitle_groups sg ON r.subtitle_group_id = sg.id\n        WHERE "
  const FilterOrder: string := "\n        ORDER BY r.release_date DESC\n        "

  /** `" LIMIT {limit}"` when `limit` is truthy. */
  function LimitClause(limit: Option<int>): string {
    if TruthyInt(limit) then " LIMIT " + IntToString(limit.value) else ""
  }

  /** The condition-collecting steps of `get_resources_by_filters`. */
  method CollectFilters(mikanId: Option<int>, resolution: Option<string>, episode: Option<int>)
    returns (conditions: seq<Filter>, params: seq<Param>)
    ensures conditions == Filters(mikanId, resolution, episode) && params == Params(conditions)
  {
    conditions := [];
    params := [];
    if TruthyInt(mikanId) {
      conditions := conditions + [Filter("mikan_id", PInt(mikanId.value))];
      params := params + [PInt(mikanId.value)];
    }
    assert params == Params(conditions);
    if Given(resolution) {
      conditions := conditions + [Filter("resolution", PStr(resolution.value))];
      params := params + [PStr(resolution.value)];
    }
    assert params == Params(conditions);
    if TruthyInt(episode) {
      conditions := conditions + [Filter("episode_number", PInt(episode.value))];
      params := params + [PInt(episode.value)];
    }
    assert params == Params(conditions);
  }

  /** `get_resources_by_filters`: a condition and a parameter for each
      truthy argument (0 and "" are ignored), "1=1" when there are none,
      and LIMIT written into the text only when `limit` is truthy. The
      parameters line up one-to-one with the placeholders of the conditions. */
  method GetResourcesByFilters(mikanId: Option<int>, resolution: Option<string>, episode: Option<int>,
                               limit: Option<int>) returns (query: Query, params: seq<Param>)
    ensures params == Params(Filters(mikanId, resolution, episode))
    ensures query == [Text(FilterSelect)] + WhereClause(Filters(mikanId, resolution, episode))
                     + [Text(FilterOrder + LimitClause(limit))]
    ensures Holes(query) == |params|
  {
    var conditions;
    conditions, params := CollectFilters(mikanId, resolution, episode);
    var whereClause := WhereClause(conditions);
    var suffix := FilterOrder;
    if TruthyInt(limit) {
      suffix := suffix + " LIMIT " + IntToString(limit.value);
    }
    assert suffix == FilterOrder + LimitClause(limit);
    query := [Text(FilterSelect)] + whereClause + [Text(suffix)];
    HolesConcat([Text(FilterSelect)], whereClause);
    HolesConcat([Text(FilterSelect)] + whereClause, [Text(suffix)]);
    assert Holes([Text(FilterSelect)]) == 0 by { assert [Text(FilterSelect)][1..] == []; }
    assert Holes([Text(suffix)]) == 0 by { assert [Text(suffix)][1..] == []; }
  }

  /** With no truthy filter the query selects every row: its WHERE clause is "1=1". */
  lemma NoFilterSelectsAll(limit: Option<int>)
    ensures Render([Text(FilterSelect)] + WhereClause(Filters(None, None, None)) + [Text(FilterOrder + LimitClause(limit))])
            == FilterSelect + "1=1" + FilterOrder + LimitClause(limit)
  {
    var tail := FilterOrder + LimitClause(limit);
    assert [Text(FilterSelect)] + WhereClause(Filters(None, None, None)) + [Text(tail)]
        == [Text(FilterSelect), Text("1=1"), Text(tail)];
    RenderThreeTexts(FilterSelect, "1=1", tail);
  }

  /** Three text pieces render as their concatenation. */
  lemma RenderThreeTexts(a: string, b: string, c: string)
    ensures Render([Text(a), Text(b), Text(c)]) == a + b + c
  {
    var q := [Text(a), Text(b), Text(c)];
    assert q[1..] == [Text(b), Text(c)] && q[1..][1..] == [Text(c)] && q[1..][1..][1..] == [];
    assert Render([Text(c)]) == c;
    assert Render([Text(b), Text(c)]) == b + c;
    assert Render(q) == a + (b + c);
  }
}

=== FILE: deduplication.dfy ===
/** The combined pipeline of src/crawler/pipelines/deduplication.py: hash
    deduplication with its counters, incremental tagging, the (inactive)
    merge stage, the crawl history and their composition. `md5`, sorted
    `json.dumps`, `str` of non-text values, the clock and ISO date
    comparison are parameters. */
module Deduplication {
  import opened Wrappers
  import opened PyValue
  import opened ScrapyItems

  /** The text whose md5 identifies an item: an item with `mikan_id` is
      keyed by id and title; else one with `group_id` by group id and name;
      else one with `magnet_link` by anime id, group id and link; else by
      the whole item's sorted JSON. */
  function KeyData(item: Item, render: Value -> string, dumps: map<string, Value> -> string): (key: string)
    ensures "mikan_id" in item.fields ==>
      key == StrOf(Get(item, "mikan_id"), render) + "_" + StrOf(DictGet(item.fields, "title", Str("")), render)
    ensures "mikan_id" !in item.fields && "group_id" in item.fields ==>
      key == StrOf(Get(item, "group_id"), render) + "_" + StrOf(DictGet(item.fields, "group_name", Str("")), render)
    ensures "mikan_id" !in item.fields && "group_id" !in item.fields && "magnet_link" in item.fields ==>
      key == StrOf(Get(item, "mikan_id"), render) + "_" + StrOf(Get(item, "group_id"), render) + "_"
             + StrOf(DictGet(item.fields, "magnet_link", Str("")), render)
    ensures "mikan_id" !in item.fields && "group_id" !in item.fields && "magnet_link" !in item.fields ==>
      key == dumps(item.fields)
  {
    var f := item.fields;
    if "mikan_id" in f then StrOf(Get(item, "mikan_id"), render) + "_" + StrOf(DictGet(f, "title", Str("")), render)
    else if "group_id" in f then StrOf(Get(item, "group_id"), render) + "_" + StrOf(DictGet(f, "group_name", Str("")), render)
    else if "magnet_link" in f then
      StrOf(Get(item, "mikan_id"), render) + "_" + StrOf(Get(item, "group_id"), render) + "_"
        + StrOf(DictGet(f, "magnet_link", Str("")), render)
    else dumps(f)
  }

  /** Two anime entries that agree on id and title share a key, whatever else differs. */
  lemma SameAnimeSameKey(a: Item, b: Item, render: Value -> string, dumps: map<string, Value> -> string)
    requires "mikan_id" in a.fields && "mikan_id" in b.fields
    requires a.fields["mikan_id"] == b.fields["mikan_id"]
    requires DictGet(a.fields, "title", Str("")) == DictGet(b.fields, "title", Str(""))
    ensures KeyData(a, render, dumps) == KeyData(b, render, dumps)
  {
  }

  /** The hashing functions the pipeline uses. */
  datatype Hashing = Hashing(md5: string -> string, render: Value -> string, dumps: map<string, Value> -> string)

  /** The deduplication hash: an anime entry hashes its id and title, a
      subtitle group its id and name, whatever other fields it carries. */
  function ItemHash(h: Hashing, item: Item): (r: string)
    ensures "mikan_id" in item.fields ==>
      r == h.md5(StrOf(Get(item, "mikan_id"), h.render) + "_" + StrOf(DictGet(item.fields, "title", Str("")), h.render))
    ensures "mikan_id" !in item.fields && "group_id" in item.fields ==>
      r == h.md5(StrOf(Get(item, "group_id"), h.render) + "_" + StrOf(DictGet(item.fields, "group_name", Str("")), h.render))
  {
    h.md5(KeyData(item, h.render, h.dumps))
  }

  /** The item the deduplication stage passes on: the same item with its
      hash and the processing time added and every other field kept. */
  function Annotated(h: Hashing, item: Item, now: string): (r: Item)
    ensures r.kind == item.kind
    ensures r.fields.Keys == item.fields.Keys + {"deduplication_hash", "processed_at"}
    ensures r.fields["deduplication_hash"] == Str(ItemHash(h, item)) && r.fields["processed_at"] == Str(now)
    ensures forall k :: k in item.fields && k != "deduplication_hash" && k != "processed_at" ==> r.fields[k] == item.fields[k]
  {
    Item(item.kind, item.fields["deduplication_hash" := Str(ItemHash(h, item))]["processed_at" := Str(now)])
  }

  /** `DeduplicationPipeline`. */
  class DeduplicationPipeline {
    const hashing: Hashing
    var seenItems: set<string>
    var duplicateCount: nat
    var totalCount: nat

    /** Every item counted was either dropped or added one new hash. */
    predicate Valid()
      reads this
    {
      totalCount == duplicateCount + |seenItems|
    }

    constructor(hashing: Hashing)
      ensures this.hashing == hashing && seenItems == {} && duplicateCount == 0 && totalCount == 0 && Valid()
    {
      this.hashing := hashing;
      seenItems := {};
      duplicateCount := 0;
      totalCount := 0;
    }

    /** `process_item`: every call counts; a hash seen before is a
        duplicate and is dropped, otherwise the hash is remembered and the
        item is annotated with it and the processing time. */
    method ProcessItem(item: Item, now: string) returns (r: Outcome)
      requires Valid()
      modifies this
      ensures Valid()
      ensures totalCount == old(totalCount) + 1
      ensures ItemHash(hashing, item) in old(seenItems) ==>
        r == Dropped && duplicateCount == old(duplicateCount) + 1 && seenItems == old(seenItems)
      ensures ItemHash(hashing, item) !in old(seenItems) ==>
        duplicateCount == old(duplicateCount) && seenItems == old(seenItems) + {ItemHash(hashing, item)}
        && r == Passed(Annotated(hashing, item, now))
    {
      totalCount := totalCount + 1;
      var h := ItemHash(hashing, item);
      if h in seenItems {
        duplicateCount := duplicateCount + 1;
        return Dropped;
      }
      seenItems := seenItems + {h};
      r := Passed(Annotated(hashing, item, now));
    }
  }

  // ------------------------------------------------- incremental update

  /** The time fields, in the order they are tried. */
  const TimeFields: seq<string> := ["created_at", "updated_at", "release_date", "date"]

  /** `_extract_item_time`: the first of the time fields that is set and truthy. */
  function ItemTime(item: Item): (r: Option<Value>)
    ensures r.Some? ==> Truthy(r.value) && exists f :: f in TimeFields && f in item.fields && item.fields[f] == r.value
    ensures r.None? <==> forall f :: f in TimeFields && f in item.fields ==> !Truthy(item.fields[f])
  {
    FirstTruthy(item, TimeFields)
  }

  function FirstTruthy(item: Item, fs: seq<string>): (r: Option<Value>)
    ensures r.Some? ==> Truthy(r.value) && exists f :: f in fs && f in item.fields && item.fields[f] == r.value
    ensures r.None? <==> forall f :: f in fs && f in item.fields ==> !Truthy(item.fields[f])
  {
    if |fs| == 0 then None
    else if fs[0] in item.fields && Truthy(item.fields[fs[0]]) then Some(item.fields[fs[0]])
    else
      var r := FirstTruthy(item, fs[1..]);
      assert forall f :: f in fs ==> f == fs[0] || f in fs[1..];
      r
  }

  /** `_is_new_item`: new without a last crawl time, without a time field,
      or when either time is not a parsable text (the comparison raises);
      otherwise new exactly when the item's time is later. `later` is
      `fromisoformat` and `>` on the two texts, `None` when one does not parse. */
  function IsNewItem(last: Value, item: Item, later: (string, string) -> Option<bool>): (r: bool)
    ensures !Truthy(last) ==> r
    ensures ItemTime(item).None? ==> r
    ensures (Truthy(last) && ItemTime(item).Some? && ItemTime(item).value.Str? && last.Str?
             && later(ItemTime(item).value.s, last.s).Some?) ==> r == later(ItemTime(item).value.s, last.s).value
  {
    if !Truthy(last) then true
    else match ItemTime(item)
      case None => true
      case Some(t) =>
        if t.Str? && last.Str? then
          match later(t.s, last.s)
          case Some(b) => b
          case None => true
        else true
  }

  /** The fields the incremental stage sets. */
  const IncrementalFields: set<string> := {"update_type", "incremental_processed", "last_crawl_time", "current_crawl_time"}

  /** The item the incremental stage passes on in the incremental mode:
      tagged "new" or "updated", marked processed and stamped with both
      crawl times, every other field kept. */
  function Tagged(item: Item, isNew: bool, last: Value, now: string): (r: Item)
    ensures r.kind == item.kind
    ensures r.fields.Keys == item.fields.Keys + IncrementalFields
    ensures r.fields["update_type"] == Str(if isNew then "new" else "updated")
    ensures r.fields["incremental_processed"] == Bool(true)
    ensures r.fields["last_crawl_time"] == last && r.fields["current_crawl_time"] == Str(now)
    ensures forall k :: k in item.fields && k !in IncrementalFields ==> r.fields[k] == item.fields[k]
  {
    Item(item.kind, item.fields["update_type" := Str(if isNew then "new" else "updated")]
                               ["incremental_processed" := Bool(true)]["last_crawl_time" := last]["current_crawl_time" := Str(now)])
  }

  class IncrementalUpdatePipeline {
    var lastCrawlTime: Value
    var updatedItems: nat
    var newItems: nat

    constructor()
      ensures lastCrawlTime == Null && updatedItems == 0 && newItems == 0
    {
      lastCrawlTime := Null;
      updatedItems := 0;
      newItems := 0;
    }

    /** `spider_opened`: the last crawl time of the incremental settings. */
    method SpiderOpened(incremental: map<string, Value>)
      modifies this
      ensures lastCrawlTime == DictGet(incremental, "last_crawl_time", Null)
      ensures updatedItems == old(updatedItems) && newItems == old(newItems)
    {
      lastCrawlTime := DictGet(incremental, "last_crawl_time", Null);
    }

    /** `process_item`: outside the incremental mode the item passes as it
        is; in it, the item is tagged "new" or "updated" (and counted so)
        and stamped with both crawl times. */
    method ProcessItem(item: Item, mode: Option<string>, now: string, later: (string, string) -> Option<bool>)
      returns (r: Item)
      modifies this
      ensures mode != Some("incremental") ==>
        r == item && newItems == old(newItems) && updatedItems == old(updatedItems)
      ensures mode == Some("incremental") && IsNewItem(lastCrawlTime, item, later) ==>
        newItems == old(newItems) + 1 && updatedItems == old(updatedItems)
      ensures mode == Some("incremental") && !IsNewItem(lastCrawlTime, item, later) ==>
        updatedItems == old(updatedItems) + 1 && newItems == old(newItems)
      ensures mode == Some("incremental") ==>
        r == Tagged(item, IsNewItem(lastCrawlTime, item, later), lastCrawlTime, now)
      ensures lastCrawlTime == old(lastCrawlTime)
    {
      if mode != Some("incremental") {
        return item;
      }
      var isNew := IsNewItem(lastCrawlTime, item, later);
      if isNew {
        newItems := newItems + 1;
      } else {
        updatedItems := updatedItems + 1;
      }
      r := Tagged(item, isNew, lastCrawlTime, now);
    }
  }

  // ------------------------------------------------- merge

  /** `_needs_merge`: no item, with or without an anime id, needs merging. */
  function NeedsMerge(item: Item): (r: bool)
    ensures !r
  {
    if "mikan_id" in item.fields then false else false
  }

  class DataMergePipeline {
    var mergedItems: nat

    constructor()
      ensures mergedItems == 0
    {
      mergedItems := 0;
    }

    /** `process_item`: since nothing needs merging, the item passes as it
        is and the merge count stays where it was. */
    method ProcessItem(item: Item) returns (r: Item)
      modifies this
      ensures r == item && mergedItems == old(mergedItems)
    {
      assert !NeedsMerge(item);
      r := item;
    }
  }

  // ------------------------------------------------- history

  datatype ItemRecord = ItemRecord(itemType: string, itemId: Value, title: Value, processedTime: string)

  function ClassName(k: Kind): string {
    match k
    case AnimeItem => "AnimeItem"
    case ResourceItem => "ResourceItem"
    case SubtitleGroupItem => "SubtitleGroupItem"
    case AnimeSubtitleGroupItem => "AnimeSubtitleGroupItem"
    case CrawlLogItem => "CrawlLogItem"
    case OtherItem(n) => n
  }

  /** The record of one item: its id is the anime id, else the group id,
      else "unknown"; its title the title, else the group name, else "unknown". */
  function RecordOf(item: Item, now: string): (rec: ItemRecord)
    ensures Truthy(Get(item, "mikan_id")) ==> rec.itemId == Get(item, "mikan_id")
    ensures !Truthy(Get(item, "mikan_id")) && Truthy(Get(item, "group_id")) ==> rec.itemId == Get(item, "group_id")
    ensures !Truthy(Get(item, "mikan_id")) && !Truthy(Get(item, "group_id")) ==> rec.itemId == Str("unknown")
    ensures Truthy(Get(item, "title")) ==> rec.title == Get(item, "title")
    ensures !Truthy(Get(item, "title")) && Truthy(Get(item, "group_name")) ==> rec.title == Get(item, "group_name")
    ensures !Truthy(Get(item, "title")) && !Truthy(Get(item, "group_name")) ==> rec.title == Str("unknown")
  {
    ItemRecord(ClassName(item.kind), Or(Or(Get(item, "mikan_id"), Get(item, "group_id")), Str("unknown")),
               Or(Or(Get(item, "title"), Get(item, "group_name")), Str("unknown")), now)
  }

  /** The merged start and end record written when the spider closes. */
  datatype CrawlRecord = CrawlRecord(crawlMode: Value, crawlYear: Value, crawlSeason: Value,
                                     status: string, totalItems: nat)

  class CrawlHistoryPipeline {
    var history: seq<ItemRecord>

    constructor()
      ensures history == []
    {
      history := [];
    }

    /** `process_item`: one record per item; the item passes unchanged. */
    method ProcessItem(item: Item, now: string) returns (r: Item)
      modifies this
      ensures r == item && history == old(history) + [RecordOf(item, now)]
    {
      history := history + [RecordOf(item, now)];
      r := item;
    }

    /** `spider_closed`: status "completed" and the number of item records.
        `mode`, `year` and `season` are the spider's attributes as read by
        `getattr` (with "unknown" and `None` for missing ones). */
    method SpiderClosed(mode: Value, year: Value, season: Value) returns (rec: CrawlRecord)
      ensures rec == CrawlRecord(mode, year, season, "completed", |history|)
    {
      rec := CrawlRecord(mode, year, season, "completed", |history|);
    }
  }

  // ------------------------------------------------- composition

  class ComprehensiveDataPipeline {
    const deduplication: DeduplicationPipeline
    const incremental: IncrementalUpdatePipeline
    const merge: DataMergePipeline
    const history: CrawlHistoryPipeline

    constructor(hashing: Hashing)
      ensures fresh(deduplication) && fresh(incremental) && fresh(merge) && fresh(history)
      ensures deduplication.Valid() && deduplication.hashing == hashing
      ensures deduplication.seenItems == {} && history.history == [] && merge.mergedItems == 0
    {
      deduplication := new DeduplicationPipeline(hashing);
      incremental := new IncrementalUpdatePipeline();
      merge := new DataMergePipeline();
      history := new CrawlHistoryPipeline();
    }

    /** `process_item`: a duplicate comes back as it arrived, unannotated,
        and no later stage sees it; any other item is annotated by the
        deduplication stage, then tagged by the incremental stage, passed
        through the merge stage, and recorded, as tagged, by the history
        stage, which also returns it. */
    method ProcessItem(item: Item, mode: Option<string>, now: string, later: (string, string) -> Option<bool>)
      returns (r: Item)
      requires deduplication.Valid()
      modifies deduplication, incremental, merge, history
      ensures deduplication.Valid()
      ensures ItemHash(deduplication.hashing, item) in old(deduplication.seenItems) ==>
        r == item && history.history == old(history.history)
        && incremental.newItems == old(incremental.newItems) && incremental.updatedItems == old(incremental.updatedItems)
      ensures ItemHash(deduplication.hashing, item) !in old(deduplication.seenItems) ==>
        var a := Annotated(deduplication.hashing, item, now);
        var last := incremental.lastCrawlTime;
        r == (if mode == Some("incremental") then Tagged(a, IsNewItem(last, a, later), last, now) else a)
        && history.history == old(history.history) + [RecordOf(r, now)]
        && incremental.newItems + incremental.updatedItems
           == old(incremental.newItems) + old(incremental.updatedItems) + (if mode == Some("incremental") then 1 else 0)
      ensures incremental.lastCrawlTime == old(incremental.lastCrawlTime)
      ensures merge.mergedItems == old(merge.mergedItems)
    {
      var d := deduplication.ProcessItem(item, now);
      if d.Dropped? {
        return item;
      }
      var x := incremental.ProcessItem(d.item, mode, now, later);
      x := merge.ProcessItem(x);
      r := history.ProcessItem(x, now);
    }
  }
}

=== FILE: dynamic_parser.dfy ===
/** The browser fallback src/crawler/middlewares/dynamic_parser.py: when the
    season pages are fetched through a headless browser, and what text the
    browser pass hands back. The browser itself (clicking a season link,
    visiting the anime pages) is the `Browser` parameter. */
module DynamicParser {
  import opened Wrappers
  import opened Strings
  import opened MikanScan
  import MikanRows

  /** What the middleware reads from the spider: `mode` (absent or `None`
      alike), `year`, `season` and the optional `year_range`. */
  datatype SpiderView = SpiderView(mode: Option<string>, year: Option<int>, season: Option<string>,
                                   yearRange: Option<(int, int)>)

  /** The modes whose season pages the browser may fetch. */
  predicate BrowserMode(spider: SpiderView) {
    spider.mode == Some("year") || spider.mode == Some("season") || spider.mode == Some("full")
  }

  /** `_should_use_dynamic_parser`: only in the three season modes, and
      only for a url with a detail path that also names a year or whose
      spider has a truthy year. */
  function ShouldUseDynamicParser(url: string, spider: SpiderView): (r: bool)
    ensures !BrowserMode(spider) ==> !r
    ensures BrowserMode(spider) ==>
      (r <==> Contains(url, BangumiPath) && (Contains(url, "year=") || (spider.year.Some? && spider.year.value != 0)))
  {
    BrowserMode(spider) && Contains(url, BangumiPath)
      && (Contains(url, "year=") || (spider.year.Some? && spider.year.value != 0))
  }

  /** The browser: whether a season's link could be clicked, and the page
      sources (or failures, `None`) of the anime links found after it. */
  datatype Browser = Browser(clicks: (Option<int>, Option<string>) -> bool,
                             pages: (Option<int>, Option<string>) -> seq<Option<string>>)

  /** The truthy texts, in order. */
  function GivenOnly(xs: seq<Option<string>>): (r: seq<string>)
    ensures |r| <= |xs|
    ensures forall k :: 0 <= k < |r| ==> r[k] != ""
    ensures |r| == 0 <==> forall k :: 0 <= k < |xs| ==> !Given(xs[k])
  {
    if |xs| == 0 then []
    else
      var init := GivenOnly(xs[..|xs| - 1]);
      var x := xs[|xs| - 1];
      assert forall k :: 0 <= k < |xs| - 1 ==> xs[..|xs| - 1][k] == xs[k];
      init + (if Given(x) then [x.value] else [])
  }

  /** Joining at least one non-empty text gives a non-empty text. */
  lemma {:induction false} JoinNonEmpty(xs: seq<string>, sep: string)
    requires |xs| > 0 && xs[0] != ""
    ensures Join(xs, sep) != ""
  {
    if |xs| > 1 {
      assert |Join(xs, sep)| >= |xs[0]|;
    }
  }

  /** `"\n".join` of the truthy texts, or `None` when there are none. */
  function JoinKept(xs: seq<Option<string>>): (r: Option<string>)
    ensures r.None? <==> forall k :: 0 <= k < |xs| ==> !Given(xs[k])
    ensures r.Some? ==> r.value != "" && r.value == Join(GivenOnly(xs), "\n")
  {
    var kept := GivenOnly(xs);
    if |kept| > 0 then
      JoinNonEmpty(kept, "\n");
      Some(Join(kept, "\n"))
    else None
  }

  /** `_parse_by_season` with a browser: `None` when the season link is not
      found, else the truthy page sources joined by newlines (possibly the
      empty text). */
  function ParseBySeason(b: Browser, year: Option<int>, season: Option<string>): (r: Option<string>)
    ensures r.Some? <==> b.clicks(year, season)
    ensures r.Some? ==> r.value == Join(GivenOnly(b.pages(year, season)), "\n")
  {
    if !b.clicks(year, season) then None
    else Some(Join(GivenOnly(b.pages(year, season)), "\n"))
  }

  /** The four seasons `_parse_by_year` walks. */
  const Seasons: seq<string> := ["春", "夏", "秋", "冬"]

  function SeasonContents(b: Browser, year: Option<int>): (r: seq<Option<string>>)
    ensures |r| == 4 && forall k :: 0 <= k < 4 ==> r[k] == ParseBySeason(b, year, Some(Seasons[k]))
  {
    seq(4, k requires 0 <= k < 4 => ParseBySeason(b, year, Some(Seasons[k])))
  }

  /** `_parse_by_year`: the non-empty season texts joined by newlines, or
      `None` when every season gave nothing. */
  function ParseByYear(b: Browser, year: Option<int>): (r: Option<string>)
    ensures r.None? <==> forall k :: 0 <= k < 4 ==> !Given(ParseBySeason(b, year, Some(Seasons[k])))
    ensures r.Some? ==> r.value != ""
  {
    JoinKept(SeasonContents(b, year))
  }

  /** `range(start, end + 1)`. */
  function YearsFrom(start: int, end: int): (r: seq<int>)
    ensures |r| == if end >= start then end - start + 1 else 0
    ensures forall k :: 0 <= k < |r| ==> r[k] == start + k
  {
    if end < start then [] else seq(end - start + 1, k requires 0 <= k <= end - start => start + k)
  }

  /** `_parse_full_range`: every year of the spider's range (2013 to 2025
      when it has none), the non-empty year texts joined, else `None`. */
  function ParseFullRange(b: Browser, spider: SpiderView): (r: Option<string>)
    ensures r.Some? ==> r.value != ""
    ensures spider.yearRange.None? ==> r == JoinKept(YearContents(b, YearsFrom(2013, 2025)))
  {
    var range := if spider.yearRange.Some? then spider.yearRange.value else (2013, 2025);
    JoinKept(YearContents(b, YearsFrom(range.0, range.1)))
  }

  function YearContents(b: Browser, years: seq<int>): (r: seq<Option<string>>)
    ensures |r| == |years| && forall k :: 0 <= k < |years| ==> r[k] == ParseByYear(b, Some(years[k]))
  {
    seq(|years|, k requires 0 <= k < |years| => ParseByYear(b, Some(years[k])))
  }

  /** `_parse_dynamic_page` once the browser exists: dispatch on the mode. */
  function ParseDynamicPage(b: Browser, spider: SpiderView): (r: Option<string>)
    ensures spider.mode == Some("year") ==> r == ParseByYear(b, spider.year)
    ensures spider.mode == Some("season") ==> r == ParseBySeason(b, spider.year, spider.season)
    ensures spider.mode == Some("full") ==> r == ParseFullRange(b, spider)
    ensures !BrowserMode(spider) ==> r.None?
  {
    if spider.mode == Some("year") then ParseByYear(b, spider.year)
    else if spider.mode == Some("season") then ParseBySeason(b, spider.year, spider.season)
    else if spider.mode == Some("full") then ParseFullRange(b, spider)
    else None
  }

  /** A page the browser pass builds: the request's url and the page text. */
  datatype Page = Page(url: string, body: string)

  /** What the downloader hands on: the original response or the browser's page. */
  datatype Reply = Original | Dynamic(page: Page)

  class DynamicParserMiddleware {
    const enabled: bool
    /** Whether a browser driver exists. */
    var driver: bool

    constructor(enabled: bool)
      ensures this.enabled == enabled && !driver
    {
      this.enabled := enabled;
      driver := false;
    }

    /** `spider_opened`: the browser is started only when the middleware is
        enabled and the spider runs a season mode; `started` is whether
        `_init_browser` succeeded. */
    method SpiderOpened(spider: SpiderView, started: bool)
      modifies this
      ensures enabled && BrowserMode(spider) ==> driver == started
      ensures !(enabled && BrowserMode(spider)) ==> driver == old(driver)
    {
      if enabled && BrowserMode(spider) {
        driver := started;
      }
    }

    /** `spider_closed`: the browser is closed and forgotten. */
    method SpiderClosed()
      modifies this
      ensures !driver
    {
      driver := false;
    }

    /** `process_request`: nothing unless the browser should be used and
        exists; then the browser's page when its text is non-empty. */
    function ProcessRequest(url: string, spider: SpiderView, b: Browser): (r: Option<Page>)
      reads this
      ensures r.Some? <==> ShouldUseDynamicParser(url, spider) && driver && Given(ParseDynamicPage(b, spider))
      ensures r.Some? ==> r.value.url == url && r.value.body == ParseDynamicPage(b, spider).value && r.value.body != ""
    {
      if !ShouldUseDynamicParser(url, spider) || !driver then None
      else
        var html := ParseDynamicPage(b, spider);
        if Given(html) then Some(Page(url, html.value)) else None
    }
  }

  /** Only the season answer can be empty yet present: it is then passed over. */
  lemma EmptySeasonNotServed(m: DynamicParserMiddleware, url: string, spider: SpiderView, b: Browser)
    requires spider.mode == Some("season") && b.clicks(spider.year, spider.season)
    requires GivenOnly(b.pages(spider.year, spider.season)) == []
    ensures m.ProcessRequest(url, spider, b).None?
  {
  }

  class DynamicParserDownloaderMiddleware {
    const parser: DynamicParserMiddleware

    constructor(enabled: bool)
      ensures fresh(parser) && parser.enabled == enabled && !parser.driver
    {
      parser := new DynamicParserMiddleware(enabled);
    }

    /** `process_response`: a status-200 answer is passed on as it is; any
        other status is replaced by the browser's page when there is one. */
    function ProcessResponse(url: string, status: int, spider: SpiderView, b: Browser): (r: Reply)
      reads this, parser
      ensures status == 200 ==> r == Original
      ensures r.Dynamic? <==> status != 200 && parser.ProcessRequest(url, spider, b).Some?
      ensures r.Dynamic? ==> r.page == parser.ProcessRequest(url, spider, b).value
    {
      if status != 200 && ShouldUseDynamicParser(url, spider) then
        match parser.ProcessRequest(url, spider, b)
        case Some(p) => Dynamic(p)
        case None => Original
      else Original
    }

    /** `process_exception`: the browser's page when there is one, else
        `None` so the failure propagates. */
    function ProcessException(url: string, spider: SpiderView, b: Browser): (r: Option<Page>)
      reads this, parser
      ensures r == parser.ProcessRequest(url, spider, b)
      ensures !BrowserMode(spider) ==> r.None?
    {
      if ShouldUseDynamicParser(url, spider) then parser.ProcessRequest(url, spider, b) else None
    }
  }
}

=== FILE: ikuyo_spider.dfy ===
/** The production Scrapy spider, ikuyo/crawler/spiders/mikan.py: mode
    routing, the initial progress report, the resource rows enriched by the
    title parser, the per-group aggregation of resources into
    anime/subtitle-group links, the crawl statistics and `closed`. */
module IkuyoSpider {
  import opened Wrappers
  import opened Strings
  import opened MikanScan
  import opened MikanRows
  import TextParser

  /** A call on the task's progress reporter. */
  datatype Report =
    | StatusReport(status: string)
    | ProgressReport(totalItems: int, processedItems: int, percentage: int,
                     processingSpeed: int, estimatedRemaining: Option<int>)

  /** A resource row with what the title parser reads from it. */
  datatype Resource = Resource(mikanId: int, row: Row, release: Option<int>,
                               episode: Option<nat>, resolution: Option<string>,
                               subtitleType: Option<string>)

  /** The subtitle type stored for a title: the extracted keyword,
      normalised, or `None` when nothing was extracted. */
  function SubtitleTypeOf(title: string): (r: Option<string>)
    ensures r.Some? ==> r.value in TextParser.NormalTypes
    ensures |title| == 0 ==> r.None?
  {
    var raw := TextParser.ExtractSubtitleType(title);
    if Given(raw) then TextParser.NormalizeSubtitleType(raw.value) else None
  }

  /** The enrichment of a parsed row: the episode, resolution and subtitle
      type come from the title as found, the release time from the stripped
      date through the (external) date parser `stamp`. */
  function Enrich(mikanId: int, row: Row, stamp: string -> Option<int>): (r: Resource)
    ensures r.row == row && r.mikanId == mikanId
    ensures r.episode.Some? ==> 1 <= r.episode.value <= 9999
    ensures r.subtitleType.Some? ==> r.subtitleType.value in TextParser.NormalTypes
    ensures row.date.None? ==> r.release.None?
  {
    Resource(mikanId, row, if row.date.Some? then stamp(row.date.value) else None,
             TextParser.ExtractEpisodeNumber(row.rawTitle), TextParser.ExtractResolution(row.rawTitle),
             SubtitleTypeOf(row.rawTitle))
  }

  function EnrichAll(mikanId: int, rows: seq<Row>, stamp: string -> Option<int>): (r: seq<Resource>)
    ensures |r| == |rows|
  {
    if |rows| == 0 then []
    else EnrichAll(mikanId, rows[..|rows| - 1], stamp) + [Enrich(mikanId, rows[|rows| - 1], stamp)]
  }

  /** `_extract_resources` of this spider: the rows of every group block,
      each enriched by the title parser. */
  method ExtractPageResources(blocks: seq<Block>, mikanId: int, join: string -> string, stamp: string -> Option<int>)
    returns (resources: seq<Resource>)
    ensures resources == EnrichAll(mikanId, BlocksRows(blocks, join), stamp)
  {
    var rows := MikanRows.ExtractResources(blocks, join);
    resources := [];
    for i := 0 to |rows|
      invariant resources == EnrichAll(mikanId, rows[..i], stamp)
    {
      EnrichAllStep(mikanId, rows, i, stamp);
      resources := resources + [Enrich(mikanId, rows[i], stamp)];
    }
    assert rows[..|rows|] == rows;
  }

  /** Enriching one more row extends the enriched prefix by that row. */
  lemma EnrichAllStep(mikanId: int, rows: seq<Row>, i: nat, stamp: string -> Option<int>)
    requires i < |rows|
    ensures EnrichAll(mikanId, rows[..i + 1], stamp) == EnrichAll(mikanId, rows[..i], stamp) + [Enrich(mikanId, rows[i], stamp)]
  {
    assert rows[..i + 1][..i] == rows[..i];
  }

  // ---------------------------------------------------------------- aggregation

  /** What `anime_subtitle_groups[group_id]` holds. */
  datatype GroupLink = GroupLink(first: Option<int>, last: Option<int>, count: nat)

  /** A release time the code takes into account: a non-zero time stamp. */
  predicate Stamped(t: Option<int>) {
    t.Some? && t.value != 0
  }

  /** One resource folded into its group's entry: a new entry starts with
      both dates set to the resource's time and a count of 0; a stamped time
      then lowers the first date and raises the last; the count goes up by one. */
  function Absorb(g: Option<GroupLink>, t: Option<int>): (r: GroupLink)
    ensures g.Some? ==> r.count == g.value.count + 1
    ensures g.None? ==> r.count == 1
  {
    var e := if g.Some? then g.value else GroupLink(t, t, 0);
    var first := if Stamped(t) && (e.first.None? || t.value < e.first.value) then t else e.first;
    var last := if Stamped(t) && (e.last.None? || t.value > e.last.value) then t else e.last;
    GroupLink(first, last, e.count + 1)
  }

  /** The group id of every resource, in order. */
  function GroupIds(rs: seq<Resource>): (ids: seq<string>)
    ensures |ids| == |rs|
  {
    if |rs| == 0 then [] else GroupIds(rs[..|rs| - 1]) + [rs[|rs| - 1].row.groupId]
  }

  /** The group table after the resources, in order: one entry per group id met. */
  function Aggregate(rs: seq<Resource>): (m: map<string, GroupLink>)
    ensures forall g :: g in m <==> g in GroupIds(rs)
  {
    if |rs| == 0 then map[]
    else
      var r := rs[|rs| - 1];
      var m0 := Aggregate(rs[..|rs| - 1]);
      m0[r.row.groupId := Absorb(if r.row.groupId in m0 then Some(m0[r.row.groupId]) else None, r.release)]
  }

  /** The group ids in the order the dictionary first saw them. */
  function GroupOrder(rs: seq<Resource>): (order: seq<string>)
    ensures forall i, j :: 0 <= i < j < |order| ==> order[i] != order[j]
    ensures forall g :: g in order <==> g in Aggregate(rs)
  {
    if |rs| == 0 then []
    else
      var o := GroupOrder(rs[..|rs| - 1]);
      var g := rs[|rs| - 1].row.groupId;
      if g in o then o else o + [g]
  }

  /** The number of resources of group `g`. */
  function CountOf(rs: seq<Resource>, g: string): (n: nat)
    ensures n <= |rs|
  {
    if |rs| == 0 then 0
    else CountOf(rs[..|rs| - 1], g) + (if rs[|rs| - 1].row.groupId == g then 1 else 0)
  }

  /** The stamped release times of group `g`, in order. */
  function Releases(rs: seq<Resource>, g: string): (ts: seq<int>)
    ensures |ts| <= CountOf(rs, g)
  {
    if |rs| == 0 then []
    else
      var r := rs[|rs| - 1];
      Releases(rs[..|rs| - 1], g) + (if r.row.groupId == g && Stamped(r.release) then [r.release.value] else [])
  }

  /** The least element, `None` for none. */
  function MinOf(xs: seq<int>): (r: Option<int>)
    ensures r.None? <==> |xs| == 0
    ensures r.Some? ==> r.value in xs && forall x :: x in xs ==> r.value <= x
  {
    if |xs| == 0 then None
    else match MinOf(xs[..|xs| - 1])
      case None => assert xs[..|xs| - 1] == []; Some(xs[|xs| - 1])
      case Some(m) =>
        assert forall x :: x in xs ==> x in xs[..|xs| - 1] || x == xs[|xs| - 1];
        if xs[|xs| - 1] < m then Some(xs[|xs| - 1]) else Some(m)
  }

  /** The greatest element, `None` for none. */
  function MaxOf(xs: seq<int>): (r: Option<int>)
    ensures r.None? <==> |xs| == 0
    ensures r.Some? ==> r.value in xs && forall x :: x in xs ==> x <= r.value
  {
    if |xs| == 0 then None
    else match MaxOf(xs[..|xs| - 1])
      case None => assert xs[..|xs| - 1] == []; Some(xs[|xs| - 1])
      case Some(m) =>
        assert forall x :: x in xs ==> x in xs[..|xs| - 1] || x == xs[|xs| - 1];
        if xs[|xs| - 1] > m then Some(xs[|xs| - 1]) else Some(m)
  }

  /** Each group's count is the number of its resources. */
  lemma {:induction false} AggregateCounts(rs: seq<Resource>, g: string)
    requires g in Aggregate(rs)
    ensures Aggregate(rs)[g].count == CountOf(rs, g) >= 1
  {
    var init := rs[..|rs| - 1];
    var r := rs[|rs| - 1];
    if g in Aggregate(init) {
      AggregateCounts(init, g);
    } else if r.row.groupId == g {
      NotSeenNotCounted(init, g);
    }
  }

  lemma {:induction false} NotSeenNotCounted(rs: seq<Resource>, g: string)
    requires g !in Aggregate(rs)
    ensures CountOf(rs, g) == 0 && Releases(rs, g) == []
  {
    if |rs| > 0 {
      NotSeenNotCounted(rs[..|rs| - 1], g);
    }
  }

  /** With no zero time stamp (zero is falsy and would be kept only as a
      starting value), a group's first and last dates are the least and the
      greatest release time of its resources, `None` when none has one. */
  lemma {:induction false} AggregateDates(rs: seq<Resource>, g: string)
    requires forall k :: 0 <= k < |rs| ==> rs[k].release != Some(0)
    requires g in Aggregate(rs)
    ensures Aggregate(rs)[g].first == MinOf(Releases(rs, g))
    ensures Aggregate(rs)[g].last == MaxOf(Releases(rs, g))
  {
    var init := rs[..|rs| - 1];
    var r := rs[|rs| - 1];
    var xs := Releases(init, g);
    var ys := Releases(rs, g);
    if r.row.groupId == g && Stamped(r.release) {
      assert ys == xs + [r.release.value];
      assert ys[..|ys| - 1] == xs;
    } else {
      assert ys == xs;
    }
    if g in Aggregate(init) {
      AggregateDates(init, g);
    } else {
      NotSeenNotCounted(init, g);
    }
  }

  /** One resource's update of an existing entry, statement by statement. */
  method Bump(e: GroupLink, t: Option<int>) returns (e': GroupLink)
    ensures e' == Absorb(Some(e), t)
  {
    e' := e;
    if Stamped(t) {
      if e'.first.None? || t.value < e'.first.value {
        e' := e'.(first := t);
      }
      if e'.last.None? || t.value > e'.last.value {
        e' := e'.(last := t);
      }
    }
    e' := e'.(count := e'.count + 1);
  }

  /** The group table and the first-seen order, built in one pass as
      `parse_anime_detail` builds `anime_subtitle_groups`. */
  method AggregateGroups(rs: seq<Resource>) returns (order: seq<string>, table: map<string, GroupLink>)
    ensures order == GroupOrder(rs) && table == Aggregate(rs)
  {
    order := [];
    table := map[];
    for i := 0 to |rs|
      invariant order == GroupOrder(rs[..i]) && table == Aggregate(rs[..i])
    {
      var r := rs[i];
      var g := r.row.groupId;
      ghost var prev := if g in table then Some(table[g]) else None;
      ghost var table0 := table;
      assert rs[..i + 1][..i] == rs[..i];
      assert g in order <==> g in table;
      if g !in table {
        order := order + [g];
        table := table[g := GroupLink(r.release, r.release, 0)];
      }
      var e := Bump(table[g], r.release);
      table := table[g := e];
      assert table == table0[g := Absorb(prev, r.release)];
    }
    assert rs[..|rs|] == rs;
  }

  /** One `AnimeSubtitleGroupItem` (time stamps left out). */
  datatype AnimeGroupItem = AnimeGroupItem(mikanId: int, groupId: string, first: Option<int>,
                                           last: Option<int>, count: nat, isActive: int)

  /** The link items, one per group in first-seen order, each active. */
  function LinkItems(mikanId: int, order: seq<string>, table: map<string, GroupLink>): (items: seq<AnimeGroupItem>)
    requires forall g :: g in order ==> g in table
    ensures |items| == |order|
    ensures forall k :: 0 <= k < |items| ==>
      (items[k].groupId == order[k] && items[k].isActive == 1
       && items[k].count == table[order[k]].count && items[k].mikanId == mikanId)
  {
    seq(|order|, k requires 0 <= k < |order| =>
      var e := table[order[k]];
      AnimeGroupItem(mikanId, order[k], e.first, e.last, e.count, 1))
  }

  /** Exactly one link item per group of the page: no two items share a
      group, every group has one, and its count is the group's number of
      resources. */
  lemma OneItemPerGroup(mikanId: int, rs: seq<Resource>)
    ensures var items := PageItems(mikanId, rs);
      forall i, j :: 0 <= i < j < |items| ==> items[i].groupId != items[j].groupId
    ensures var items := PageItems(mikanId, rs);
      forall g :: g in GroupIds(rs) ==>
        exists k :: 0 <= k < |items| && items[k].groupId == g && items[k].count == CountOf(rs, g)
  {
    var order := GroupOrder(rs);
    var items := LinkItems(mikanId, order, Aggregate(rs));
    forall g | g in GroupIds(rs)
      ensures exists k :: 0 <= k < |items| && items[k].groupId == g && items[k].count == CountOf(rs, g)
    {
      assert g in order;
      var k :| 0 <= k < |order| && order[k] == g;
      AggregateCounts(rs, g);
      assert items[k].groupId == g && items[k].count == CountOf(rs, g);
    }
  }

  /** The link items of a page's resources. */
  function PageItems(mikanId: int, rs: seq<Resource>): (items: seq<AnimeGroupItem>)
    ensures |items| == |GroupOrder(rs)|
  {
    LinkItems(mikanId, GroupOrder(rs), Aggregate(rs))
  }

  /** The resources of a detail page and its link items. */
  method DetailItems(mikanId: int, blocks: seq<Block>, join: string -> string, stamp: string -> Option<int>)
    returns (resources: seq<Resource>, items: seq<AnimeGroupItem>)
    ensures resources == EnrichAll(mikanId, BlocksRows(blocks, join), stamp)
    ensures items == PageItems(mikanId, resources)
  {
    resources := ExtractPageResources(blocks, mikanId, join, stamp);
    var order, table := AggregateGroups(resources);
    items := LinkItems(mikanId, order, table);
  }

  // ---------------------------------------------------------------- the spider

  /** `crawler_stats`. */
  datatype Stats = Stats(success: nat, failed: nat, dropped: nat)

  /** The fields of `crawl_log` this model follows. */
  datatype CrawlLog = CrawlLog(status: string, itemsCount: int, crawlMode: string,
                               mikanId: Option<int>, errorMessage: Option<string>)

  class Spider {
    const mode: string
    const limit: Option<int>
    const startUrl: Option<string>
    const year: Option<int>
    const season: Option<string>
    /** A progress reporter exists iff a task id was given (`from_crawler`). */
    const hasReporter: bool
    var totalItems: nat
    var processedItems: nat
    var stats: Stats
    var log: CrawlLog
    /** The `error_message` attribute, set by failing callbacks. */
    var errorMessage: Option<string>
    /** The reporter calls made so far. */
    var reports: seq<Report>

    /** `__init__` followed by `from_crawler`: the mode defaults to
        "homepage", every counter starts at 0 and the log is running. */
    constructor(limit: Option<int>, startUrl: Option<string>, mode: Option<string>,
                year: Option<int>, season: Option<string>, taskId: Option<int>)
      ensures this.mode == (if Given(mode) then mode.value else "homepage")
      ensures this.limit == limit && this.startUrl == startUrl && this.year == year && this.season == season
      ensures hasReporter <==> taskId.Some?
      ensures totalItems == 0 && processedItems == 0 && stats == Stats(0, 0, 0)
      ensures log == CrawlLog("running", 0, this.mode, None, None)
      ensures errorMessage.None? && reports == []
    {
      this.mode := if Given(mode) then mode.value else "homepage";
      this.limit := limit;
      this.startUrl := startUrl;
      this.year := year;
      this.season := season;
      hasReporter := taskId.Some?;
      totalItems := 0;
      processedItems := 0;
      stats := Stats(0, 0, 0);
      log := CrawlLog("running", 0, if Given(mode) then mode.value else "homepage", None, None);
      errorMessage := None;
      reports := [];
    }

    /** The reports `_report_initial_progress` makes for a total. */
    function InitialReports(total: nat): (r: seq<Report>)
      reads this
      ensures hasReporter ==> |r| == 2 && r[0] == StatusReport("running") && r[1].ProgressReport?
      ensures hasReporter ==> r[1].totalItems == total && r[1].processedItems == 0 && r[1].percentage == 0
      ensures !hasReporter ==> r == []
    {
      if hasReporter then [StatusReport("running"), ProgressReport(total, 0, 0, 0, None)] else []
    }

    /** `_report_initial_progress`: with a reporter, status "running" and
        then a progress report at zero of `total_items`; without one, nothing. */
    method ReportInitialProgress()
      modifies this
      ensures reports == old(reports) + InitialReports(totalItems)
      ensures totalItems == old(totalItems) && processedItems == old(processedItems)
      ensures stats == old(stats) && log == old(log) && errorMessage == old(errorMessage)
    {
      reports := reports + InitialReports(totalItems);
    }

    /** `parse`: a `start_url` naming a detail page is followed directly;
        "homepage" counts the kept links into `total_items`, reports, and
        requests their detail pages; "year", "season" and "full" request
        season pages; any other mode falls back to the homepage parse
        without setting `total_items` or reporting. */
    method Parse(links: seq<ListLink>, seasons: seq<string>, firstYear: int, lastYear: int,
                 join: string -> string) returns (requests: seq<Request>)
      modifies this
      ensures NamesDetailPage(startUrl) ==> requests == StartRequests(startUrl)
      ensures !NamesDetailPage(startUrl) && mode == "homepage" ==>
        totalItems == |LimitIfSet(links, limit)| && requests == LinkRequests(LimitIfSet(links, limit), join)
        && |requests| <= totalItems && reports == old(reports) + InitialReports(totalItems)
      ensures !NamesDetailPage(startUrl) && mode == "year" ==> requests == YearRequests(year, seasons)
      ensures !NamesDetailPage(startUrl) && mode == "season" ==> requests == [SeasonPage(year, season)]
      ensures !NamesDetailPage(startUrl) && mode == "full" ==> requests == RangeRequests(firstYear, lastYear, seasons)
      ensures !NamesDetailPage(startUrl) && mode !in {"homepage", "year", "season", "full"} ==>
        requests == LinkRequests(LimitIfSet(links, limit), join)
      ensures mode != "homepage" || NamesDetailPage(startUrl) ==> totalItems == old(totalItems) && reports == old(reports)
      ensures processedItems == old(processedItems)
      ensures stats == old(stats) && log == old(log) && errorMessage == old(errorMessage)
    {
      if NamesDetailPage(startUrl) {
        requests := StartRequests(startUrl);
        return;
      }
      if mode == "homepage" {
        totalItems := |LimitIfSet(links, limit)|;
        ReportInitialProgress();
        requests := ParseHomepage(links, limit, join);
      } else if mode == "year" {
        requests := YearRequests(year, seasons);
      } else if mode == "season" {
        requests := [SeasonPage(year, season)];
      } else if mode == "full" {
        requests := RangeRequests(firstYear, lastYear, seasons);
      } else {
        requests := ParseHomepage(links, limit, join);
      }
    }

    /** `_parse_season_response`: an HTML page is treated like the homepage
        (total, report, detail requests); anything else records the error
        "API返回非HTML响应" and requests nothing. */
    method ParseSeasonResponse(isHtml: bool, links: seq<ListLink>, join: string -> string)
      returns (requests: seq<Request>)
      modifies this
      ensures isHtml ==> totalItems == |LimitIfSet(links, limit)| && requests == LinkRequests(LimitIfSet(links, limit), join)
      ensures isHtml ==> errorMessage == old(errorMessage) && reports == old(reports) + InitialReports(totalItems)
      ensures !isHtml ==> requests == [] && errorMessage == Some("API返回非HTML响应")
      ensures !isHtml ==> totalItems == old(totalItems) && reports == old(reports)
      ensures processedItems == old(processedItems) && stats == old(stats) && log == old(log)
    {
      if isHtml {
        totalItems := |LimitIfSet(links, limit)|;
        ReportInitialProgress();
        requests := ParseHomepage(links, limit, join);
      } else {
        errorMessage := Some("API返回非HTML响应");
        requests := [];
      }
    }

    /** `parse_anime_detail`: a page whose extraction raises (`Err`) counts
        one failure and records the error; otherwise its resources and one
        link item per group are emitted, `items_count` grows by the number
        of resources, and the success and processed counters grow by one. */
    method ParseAnimeDetail(mikanId: int, page: Result<seq<Block>, string>, join: string -> string,
                            stamp: string -> Option<int>)
      returns (resources: seq<Resource>, items: seq<AnimeGroupItem>)
      modifies this
      ensures page.Err? ==> resources == [] && items == [] && errorMessage == Some(page.error)
      ensures page.Err? ==> stats == old(stats).(failed := old(stats).failed + 1)
      ensures page.Err? ==> log == old(log) && processedItems == old(processedItems)
      ensures page.Ok? ==> resources == EnrichAll(mikanId, BlocksRows(page.value, join), stamp)
      ensures page.Ok? ==> items == PageItems(mikanId, resources)
      ensures page.Ok? ==> stats == old(stats).(success := old(stats).success + 1)
      ensures page.Ok? ==> processedItems == old(processedItems) + 1 && errorMessage == old(errorMessage)
      ensures page.Ok? ==> log == old(log).(itemsCount := old(log).itemsCount + |resources|, mikanId := Some(mikanId))
      ensures totalItems == old(totalItems) && reports == old(reports)
    {
      match page
      case Err(e) =>
        RecordFailure(e);
        resources, items := [], [];
      case Ok(blocks) =>
        resources, items := DetailItems(mikanId, blocks, join, stamp);
        RecordPage(mikanId, |resources|);
    }

    /** The failure branch of `parse_anime_detail`. */
    method RecordFailure(e: string)
      modifies this
      ensures stats == old(stats).(failed := old(stats).failed + 1) && errorMessage == Some(e)
      ensures log == old(log) && processedItems == old(processedItems)
      ensures totalItems == old(totalItems) && reports == old(reports)
    {
      stats := stats.(failed := stats.failed + 1);
      errorMessage := Some(e);
    }

    /** The bookkeeping at the end of a parsed detail page with `n` resources. */
    method RecordPage(mikanId: int, n: nat)
      modifies this
      ensures stats == old(stats).(success := old(stats).success + 1)
      ensures processedItems == old(processedItems) + 1 && errorMessage == old(errorMessage)
      ensures log == old(log).(itemsCount := old(log).itemsCount + n, mikanId := Some(mikanId))
      ensures totalItems == old(totalItems) && reports == old(reports)
    {
      log := log.(itemsCount := log.itemsCount + n, mikanId := Some(mikanId));
      stats := stats.(success := stats.success + 1);
      processedItems := processedItems + 1;
    }

    /** `closed`: the log is "completed" exactly for the reason "finished",
        else "failed"; its `items_count` is replaced by the number of
        successfully parsed detail pages and it takes the error message. */
    method Closed(reason: string)
      modifies this
      ensures log == old(log).(status := if reason == "finished" then "completed" else "failed",
                               itemsCount := stats.success, errorMessage := errorMessage)
      ensures totalItems == old(totalItems) && processedItems == old(processedItems)
      ensures stats == old(stats) && errorMessage == old(errorMessage) && reports == old(reports)
    {
      log := log.(status := if reason == "finished" then "completed" else "failed",
                  itemsCount := stats.success, errorMessage := errorMessage);
    }
  }
}

=== FILE: js.dfy ===
/** The parts of JavaScript's semantics the front-end stores rely on, over
    the same JSON-shaped values the back end uses. `undefined` and `null`
    are both `Null`: the stores only ever test them for truthiness. The
    one helper that tells them apart, `formatTime`, takes its own argument
    type (`TaskUtils.JsNumber`). */
module Js {
  import opened PyValue

  /** ECMAScript truthiness (section 7.1.2 of ECMA-262): unlike Python,
      every object and array is true, even when empty. */
  predicate JsTruthy(v: Value) {
    match v
    case Null => false
    case Bool(b) => b
    case Int(i) => i != 0
    case Real(r) => r != 0.0
    case Str(s) => |s| > 0
    case List(_) => true
    case Dict(_) => true
  }

  /** `v.k`: the property of an object, `undefined` for anything else. */
  function Prop(v: Value, k: string): (r: Value)
    ensures v.Dict? && k in v.entries ==> r == v.entries[k]
    ensures !(v.Dict? && k in v.entries) ==> r == Null
  {
    if v.Dict? && k in v.entries then v.entries[k] else Null
  }

  /** `Object.values(v)` for an array or an object (the object's values in
      some order, given by `order`, a listing of its keys). */
  function Values(v: Value, order: seq<string>): (r: seq<Value>)
    ensures v.List? ==> r == v.items
    ensures v.Dict? ==> |r| == |order| && forall i :: 0 <= i < |order| ==> r[i] == Prop(v, order[i])
  {
    match v
    case List(xs) => xs
    case Dict(_) => seq(|order|, i requires 0 <= i < |order| => Prop(v, order[i]))
    case _ => []
  }

  /** WhiteSpace and LineTerminator (sections 12.2 and 12.3 of ECMA-262):
      what `String.prototype.trim` removes. */
  predicate IsJsSpace(c: char) {
    c == '\t' || c == '\n' || c == '\U{0B}' || c == '\U{0C}' || c == '\r' || c == ' ' || c == '\U{A0}'
    || c == '\U{1680}' || ('\U{2000}' <= c <= '\U{200A}') || c == '\U{2028}' || c == '\U{2029}'
    || c == '\U{202F}' || c == '\U{205F}' || c == '\U{3000}' || c == '\U{FEFF}'
  }

  /** `s.trim()`. */
  function Trim(s: string): (r: string)
    ensures |r| == 0 <==> forall i :: 0 <= i < |s| ==> IsJsSpace(s[i])
    ensures |r| <= |s| && (|r| > 0 ==> !IsJsSpace(r[0]) && !IsJsSpace(r[|r| - 1]))
    decreases |s|
  {
    if |s| == 0 then s
    else if IsJsSpace(s[0]) then Trim(s[1..])
    else if IsJsSpace(s[|s| - 1]) then Trim(s[..|s| - 1])
    else s
  }
}

=== FILE: legacy_worker.dfy ===
/** The legacy polling worker (ikuyo/worker.py): each poll walks the
    pending tasks `list_by_status` returns (at most 100), marks each
    running, decodes its parameters and runs the crawler through
    `run_crawler` of ikuyo/core/crawler_runner.py, then marks it completed
    or failed. That runner swallows every exception of the crawl itself, so
    only what happens before the crawl can fail a task. The cancellation
    check after the crawl re-reads the task with `session.get`, which
    answers from the session's identity map with the worker's own object,
    still "running"; so a cancellation committed by another writer meanwhile
    is never seen and is overwritten. `SettleIntended` is the worker with a
    fresh re-read. One poll is `PollOnce`; the endless loop, the sleep and
    the debug log file are outside the model. */
module LegacyWorker {
  import opened Wrappers
  import opened PyValue
  import opened Strings
  import opened TaskModel
  import opened TaskDispatcher
  import opened SpiderRunner
  import CrawlerRunners

  /** The attributes of the `Args` object handed to `run_crawler`: the
      decoded parameters' values (None for absent keys), log level "INFO"
      and no output file. */
  function ArgsOf(params: map<string, Value>): (a: map<string, Value>)
    ensures a.Keys == {"mode", "year", "season", "start_url", "limit", "log_level", "output"}
    ensures a["log_level"] == Str("INFO") && a["output"] == Null
    ensures forall k :: k in {"mode", "year", "season", "start_url", "limit"} ==> a[k] == DictGet(params, k, Null)
  {
    map["mode" := DictGet(params, "mode", Null), "year" := DictGet(params, "year", Null),
        "season" := DictGet(params, "season", Null), "start_url" := DictGet(params, "start_url", Null),
        "limit" := DictGet(params, "limit", Null), "log_level" := Str("INFO"), "output" := Null]
  }

  /** Every attribute is set, so the runner's defaults never apply: the
      spider is asked for the parameters' `mode` (None when absent, not
      "homepage"), `limit` is passed only when the parameters hold one, and
      the output feed is never configured. */
  lemma WorkerSpiderArguments(params: map<string, Value>, config: Value, base: map<string, Value>)
    ensures Kwargs(CrawlerRunners.ArgsConfig(ArgsOf(params)), config)["mode"] == DictGet(params, "mode", Null)
    ensures "limit" in Kwargs(CrawlerRunners.ArgsConfig(ArgsOf(params)), config) <==> DictGet(params, "limit", Null) != Null
    ensures CrawlerRunners.RunnerSettings(base, ArgsOf(params)) == base["LOG_LEVEL" := Str("INFO")]
  {
  }

  /** The outside world during one task: how `json.loads` fails on a text;
      what loading the configuration or the runner's opening debug-log
      write raises (`setupError`); the Scrapy crawl for given spider
      arguments, with the project's base settings and configuration; whether
      another writer committed a cancellation of the task while the crawl
      ran (which only a fresh re-read would see); and the traceback text. */
  datatype World = World(loads: string -> Option<Value>, decodeError: string -> string,
                         setupError: Option<string>, base: map<string, Value>, config: Value,
                         crawl: map<string, Value> -> Option<string>, cancelledInDb: int -> bool,
                         traceback: string)

  /** The error column after an exception with text `e`: the text, a newline and the traceback. */
  function FailureText(e: string, w: World): (s: string)
    ensures StartsWith(s, e)
  {
    assert e <= e + "\n" + w.traceback;
    e + "\n" + w.traceback
  }

  /** What becomes of a task after its turn. */
  datatype Fate = LeftRunning | KeptCancelled | Completed | Failed(error: string)

  /** The branch the loop body takes for task `t`. Absent parameters and
      parameters that decode to something falsy leave the task running;
      undecodable text (the empty string included), parameters that are not
      a dictionary and an exception before the crawl fail it. Neither the
      crawl's own outcome nor another writer's cancellation plays a part: the
      re-read at line 67 returns the worker's own "running" object. */
  function FateOf(t: TaskRecord, w: World): (f: Fate)
    requires t.id.Some?
    ensures t.parameters.None? ==> f == LeftRunning
    ensures t.parameters.Some? && w.loads(t.parameters.value).None? ==> f == Failed(w.decodeError(t.parameters.value))
    ensures f == Completed <==>
              t.parameters.Some? && w.loads(t.parameters.value).Some?
              && Truthy(w.loads(t.parameters.value).value) && w.loads(t.parameters.value).value.Dict?
              && w.setupError.None?
    ensures t.parameters.Some? && w.loads(t.parameters.value).Some? && !Truthy(w.loads(t.parameters.value).value) ==> f == LeftRunning
    ensures (t.parameters.Some? && w.loads(t.parameters.value).Some? && Truthy(w.loads(t.parameters.value).value)
              && !w.loads(t.parameters.value).value.Dict?) ==> f == Failed(NoAttribute(w.loads(t.parameters.value).value, "get"))
    ensures f != KeptCancelled
    ensures f.Failed? && t.parameters.Some? && w.loads(t.parameters.value).Some? ==>
              !w.loads(t.parameters.value).value.Dict? || (w.setupError.Some? && f.error == w.setupError.value)
  {
    if t.parameters.None? then LeftRunning
    else
      match w.loads(t.parameters.value)
      case None => Failed(w.decodeError(t.parameters.value))
      case Some(p) =>
        if !Truthy(p) then LeftRunning
        else if !p.Dict? then Failed(NoAttribute(p, "get"))
        else if w.setupError.Some? then Failed(w.setupError.value)
        else Completed
  }

  /** Whatever the crawl raises, a task whose parameters decode to a
      non-empty dictionary ends completed unless something before the crawl
      raised. */
  lemma CrawlErrorStillCompletes(t: TaskRecord, w: World, now: Time, d: map<string, Value>)
    requires t.id.Some? && t.parameters.Some? && w.loads(t.parameters.value) == Some(Dict(d)) && |d| > 0
    requires w.setupError.None?
    requires w.crawl(Kwargs(CrawlerRunners.ArgsConfig(ArgsOf(d)), w.config)).Some?
    ensures Settle(t, w, now).status == "completed" && Settle(t, w, now).completedAt == Some(now)
  {
    assert Truthy(Dict(d));
  }

  /** The row a task ends its turn with. */
  function Settle(t: TaskRecord, w: World, now: Time): (r: TaskRecord)
    requires t.id.Some?
    ensures r.id == t.id && r.parameters == t.parameters
    ensures r.status != "pending"
    ensures FateOf(t, w) == LeftRunning ==> r == t.(status := "running")
    ensures FateOf(t, w) == Completed ==> r.status == "completed" && r.completedAt == Some(now)
    ensures FateOf(t, w).Failed? ==> r.status == "failed" && r.errorMessage.Some?
                                     && StartsWith(r.errorMessage.value, FateOf(t, w).error)
  {
    var running := t.(status := "running");
    match FateOf(t, w)
    case LeftRunning => running
    case KeptCancelled => running.(status := "cancelled")
    case Completed => running.(status := "completed", completedAt := Some(now))
    case Failed(e) => running.(status := "failed", errorMessage := Some(FailureText(e, w)))
  }

  /** A cancellation another writer commits during the crawl is overwritten:
      the task still ends completed and stamped. */
  lemma CancelDuringCrawlOverwritten(t: TaskRecord, w: World, now: Time, d: map<string, Value>)
    requires t.id.Some? && t.parameters.Some? && w.loads(t.parameters.value) == Some(Dict(d)) && |d| > 0
    requires w.setupError.None? && w.cancelledInDb(t.id.value)
    ensures Settle(t, w, now).status == "completed" && Settle(t, w, now).completedAt == Some(now)
  {
    assert Truthy(Dict(d));
  }

  /** The corrected worker, whose re-read sees the database: a task that
      would complete is left as the other writer's cancellation made it. */
  function FateOfIntended(t: TaskRecord, w: World): (f: Fate)
    requires t.id.Some?
    ensures f == KeptCancelled <==> FateOf(t, w) == Completed && w.cancelledInDb(t.id.value)
    ensures f != KeptCancelled ==> f == FateOf(t, w)
  {
    var f := FateOf(t, w);
    if f == Completed && w.cancelledInDb(t.id.value) then KeptCancelled else f
  }

  /** The row a task ends its turn with in the corrected worker. */
  function SettleIntended(t: TaskRecord, w: World, now: Time): (r: TaskRecord)
    requires t.id.Some?
    ensures r.id == t.id && r.parameters == t.parameters && r.status != "pending"
    ensures FateOfIntended(t, w) == KeptCancelled ==> r.status == "cancelled" && r.completedAt == t.completedAt
    ensures FateOfIntended(t, w) != KeptCancelled ==> r == Settle(t, w, now)
  {
    if FateOfIntended(t, w) == KeptCancelled then t.(status := "cancelled") else Settle(t, w, now)
  }

  /** With the fresh re-read a cancellation made during the crawl is kept. */
  lemma IntendedKeepsCancellation(t: TaskRecord, w: World, now: Time, d: map<string, Value>)
    requires t.id.Some? && t.parameters.Some? && w.loads(t.parameters.value) == Some(Dict(d)) && |d| > 0
    requires w.setupError.None? && w.cancelledInDb(t.id.value)
    ensures SettleIntended(t, w, now).status == "cancelled"
  {
    assert Truthy(Dict(d));
    assert FateOf(t, w) == Completed;
  }

  /** A task with parameters that decode to an empty dictionary stays running for good. */
  lemma EmptyParametersLeftRunning(t: TaskRecord, w: World, now: Time)
    requires t.id.Some? && t.parameters.Some? && w.loads(t.parameters.value) == Some(Dict(map[]))
    ensures Settle(t, w, now).status == "running"
  {
  }

  /** The first statements of the loop body: mark running and persist. */
  method MarkRunning(db: TaskDb, t: TaskRecord) returns (task: TaskRecord)
    requires db.Valid() && t.id.Some? && t.id.value in db.rows
    modifies db`rows
    ensures db.Valid()
    ensures task == t.(status := "running")
    ensures db.rows == Store(old(db.rows), task)
  {
    task := t.(status := "running");
    db.Update(task);
  }

  /** `run_crawler(args, config)` with the task's arguments: the runner
      catches the crawl's exception, so nothing is raised, and the spider
      receives the arguments built from the task's parameters. */
  method RunCrawler(w: World, params: map<string, Value>) returns (l: CrawlerRunners.Launch)
    ensures l.raised.None?
    ensures l.kwargs == Kwargs(CrawlerRunners.ArgsConfig(ArgsOf(params)), w.config)
  {
    l := CrawlerRunners.RunCrawlerIkuyo(w.base, ArgsOf(params), w.config, w.crawl);
  }

  /** One task's turn, statement by statement. */
  method RunTask(db: TaskDb, t: TaskRecord, w: World, now: Time)
    requires db.Valid() && t.id.Some? && t.id.value in db.rows
    modifies db`rows
    ensures db.Valid()
    ensures db.rows == Store(old(db.rows), Settle(t, w, now))
  {
    var task := MarkRunning(db, t);
    var err: Option<string> := None;
    if task.parameters.Some? {
      var params := w.loads(task.parameters.value);
      if params.None? {
        err := Some(w.decodeError(task.parameters.value));
        assert FateOf(t, w) == Failed(err.value);
      } else if Truthy(params.value) {
        if !params.value.Dict? {
          err := Some(NoAttribute(params.value, "get"));
          assert FateOf(t, w) == Failed(err.value);
        } else {
          if w.setupError.Some? {
            err := w.setupError;
            assert FateOf(t, w) == Failed(err.value);
          } else {
            var _ := RunCrawler(w, params.value.entries);
            // the re-read is the session's own object, still "running", so
            // the cancellation branch is not taken
            assert FateOf(t, w) == Completed;
            task := task.(status := "completed", completedAt := Some(now));
            db.Update(task);
            StoreOver(old(db.rows), t.(status := "running"), task);
            assert Settle(t, w, now) == task;
          }
        }
      } else {
        assert FateOf(t, w) == LeftRunning;
        assert Settle(t, w, now) == task;
      }
    } else {
      assert Settle(t, w, now) == task;
    }
    if err.Some? {
      assert FateOf(t, w) == Failed(err.value);
      task := task.(status := "failed", errorMessage := Some(FailureText(err.value, w)));
      db.Update(task);
      StoreOver(old(db.rows), t.(status := "running"), task);
      assert Settle(t, w, now) == task;
    }
  }

  /** Storing a row twice under the same id keeps only the second write. */
  lemma StoreOver(rows: map<int, TaskRecord>, a: TaskRecord, b: TaskRecord)
    requires a.id.Some? && b.id == a.id
    ensures Store(Store(rows, a), b) == Store(rows, b)
  {
  }

  /** `list_by_status("pending")` with its default `limit=100`: pending
      rows, in the order the database returns them, as many as there are up
      to 100. */
  const PollLimit := 100

  predicate PollBatch(rows: map<int, TaskRecord>, fetched: seq<TaskRecord>) {
    Snapshot(rows, fetched)
    && (forall k :: 0 <= k < |fetched| ==> fetched[k].status == "pending")
    && |fetched| == if |PendingIds(rows)| < PollLimit then |PendingIds(rows)| else PollLimit
  }

  /** One poll over the fetched batch. Afterwards each fetched row is
      settled and every other row, pending ones included, is as it was;
      when the backlog fits the limit, no row is pending any more. */
  method PollOnce(db: TaskDb, fetched: seq<TaskRecord>, w: World, now: Time)
    requires db.Valid() && PollBatch(db.rows, fetched)
    modifies db`rows
    ensures db.Valid() && db.rows.Keys == old(db.rows).Keys
    ensures forall k :: k in db.rows ==>
      db.rows[k] == if k in IdsOf(fetched) then Settle(old(db.rows)[k], w, now) else old(db.rows)[k]
    ensures |PendingIds(old(db.rows))| <= PollLimit ==> forall k :: k in db.rows ==> db.rows[k].status != "pending"
  {
    ghost var rows0 := db.rows;
    ghost var done: set<int> := {};
    for i := 0 to |fetched|
      invariant db.Valid() && db.rows.Keys == rows0.Keys
      invariant done == set j | 0 <= j < i :: fetched[j].id.value
      invariant forall k :: k in db.rows ==> db.rows[k] == if k in done then Settle(rows0[k], w, now) else rows0[k]
    {
      var id := fetched[i].id.value;
      RunTask(db, fetched[i], w, now);
      done := done + {id};
    }
    assert done == IdsOf(fetched);
    if |PendingIds(rows0)| <= PollLimit {
      BatchIsAllPending(rows0, fetched);
      forall k | k in db.rows ensures db.rows[k].status != "pending" {
        if k !in done {
          assert k !in PendingIds(rows0);
        }
      }
    }
  }

  /** A batch that is as large as the backlog holds every pending id. */
  lemma BatchIsAllPending(rows: map<int, TaskRecord>, fetched: seq<TaskRecord>)
    requires PollBatch(rows, fetched) && |PendingIds(rows)| <= PollLimit
    ensures IdsOf(fetched) == PendingIds(rows)
  {
    var ids := IdsOf(fetched);
    assert ids <= PendingIds(rows);
    DistinctIdsCount(fetched);
    SubsetSameSize(ids, PendingIds(rows));
  }

  /** Distinct ids make as many keys as tasks. */
  lemma {:induction false} DistinctIdsCount(fetched: seq<TaskRecord>)
    requires HasIds(fetched) && forall i, j :: 0 <= i < j < |fetched| ==> fetched[i].id != fetched[j].id
    ensures |IdsOf(fetched)| == |fetched|
  {
    if |fetched| > 0 {
      var init := fetched[..|fetched| - 1];
      var last := fetched[|fetched| - 1].id.value;
      DistinctIdsCount(init);
      assert IdsOf(fetched) == IdsOf(init) + {last};
      assert last !in IdsOf(init);
    }
  }

  /** A subset as large as its superset is the superset. */
  lemma SubsetSameSize(small: set<int>, big: set<int>)
    requires small <= big && |small| == |big|
    ensures small == big
  {
    var rest := big - small;
    assert big == small + rest && small !! rest;
    assert |rest| == 0;
  }
}

=== FILE: mikan_rows.dfy ===
/** The detail-page resource tables as the two Scrapy spiders read them
    (ikuyo/crawler/spiders/mikan.py and src/crawler/spiders/mikan.py share
    this code): each subtitle-group `div` is followed by its table, and each
    row of at least four cells gives a resource when it has a title and a
    magnet link. Selector results are inputs: a cell's texts, its magnet
    attribute and its first link. */
module MikanRows {
  import opened Wrappers
  import opened Strings
  import opened MikanScan

  /** One `td`: the text of its `a.magnet-link-wrap`, its own first text,
      the `data-clipboard-text` of its `a.js-magnet` and its first link. */
  datatype Col = Col(wrapText: Option<string>, text: Option<string>,
                     magnet: Option<string>, href: Option<string>)

  /** The dictionary `_parse_resource_row` returns (time stamps left out),
      with the title as found before stripping, which the ikuyo spider's
      title parser reads. */
  datatype Row = Row(groupId: string, groupName: string, rawTitle: string, title: string,
                     size: Option<string>, date: Option<string>,
                     magnetLink: string, magnetHash: Option<string>,
                     torrentUrl: Option<string>, playUrl: Option<string>)

  /** `a or b` on optional strings. */
  function OrElse(a: Option<string>, b: Option<string>): (r: Option<string>)
    ensures Given(a) ==> r == a
    ensures !Given(a) ==> r == b
  {
    if Given(a) then a else b
  }

  /** `v.strip() if v else None`. */
  function StripGiven(v: Option<string>): (r: Option<string>)
    ensures r.Some? <==> Given(v)
    ensures r.Some? ==> r.value == Strip(v.value)
  {
    if Given(v) then Some(Strip(v.value)) else None
  }

  /** `urljoin(BASE_URL, v) if v else None`; the join itself is a parameter. */
  function JoinGiven(join: string -> string, v: Option<string>): (r: Option<string>)
    ensures r.Some? <==> Given(v)
    ensures r.Some? ==> r.value == join(v.value)
  {
    if Given(v) then Some(join(v.value)) else None
  }

  /** The title of a row: the magnet-wrap text, else the cell's own text. */
  function TitleOf(c: Col): Option<string> {
    OrElse(c.wrapText, c.text)
  }

  /** The row built from the cells and an already computed play link. */
  function RowWith(cols: seq<Col>, play: Option<string>, groupId: string, groupName: string,
                   join: string -> string): (r: Option<Row>)
    requires |cols| >= 4
    ensures r.Some? <==> Given(TitleOf(cols[0])) && Given(cols[0].magnet)
    ensures r.Some? ==> r.value.magnetLink == cols[0].magnet.value && r.value.magnetLink != ""
    ensures r.Some? ==> r.value.magnetHash == MagnetHashLower(cols[0].magnet)
    ensures r.Some? ==> r.value.torrentUrl == JoinGiven(join, cols[3].href) && r.value.playUrl == play
    ensures r.Some? ==> r.value.rawTitle == TitleOf(cols[0]).value && r.value.title == Strip(r.value.rawTitle)
    ensures r.Some? ==> r.value.size == StripGiven(cols[1].text) && r.value.date == StripGiven(cols[2].text)
    ensures r.Some? ==> r.value.groupId == groupId && r.value.groupName == groupName
  {
    var title := TitleOf(cols[0]);
    var magnet := cols[0].magnet;
    if Given(title) && Given(magnet) then
      Some(Row(groupId, groupName, title.value, Strip(title.value), StripGiven(cols[1].text), StripGiven(cols[2].text),
               magnet.value, MagnetHashLower(magnet), JoinGiven(join, cols[3].href), play))
    else None
  }

  /** `_parse_resource_row` as written: the play link is read from the fifth
      cell, so a four-cell row raises `IndexError`, which the method's own
      handler turns into `None`. */
  function ParseResourceRowAsWritten(cols: seq<Col>, groupId: string, groupName: string,
                                     join: string -> string): (r: Option<Row>)
    requires |cols| >= 4
    ensures |cols| == 4 ==> r.None?
    ensures |cols| >= 5 ==> r == RowWith(cols, JoinGiven(join, cols[4].href), groupId, groupName, join)
  {
    if |cols| < 5 then None
    else RowWith(cols, JoinGiven(join, cols[4].href), groupId, groupName, join)
  }

  /** The row parser the four-cell guard evidently intends: the play link is
      absent when there is no fifth cell, and every other field is read as before. */
  function ParseResourceRow(cols: seq<Col>, groupId: string, groupName: string,
                            join: string -> string): (r: Option<Row>)
    requires |cols| >= 4
    ensures r.Some? <==> Given(TitleOf(cols[0])) && Given(cols[0].magnet)
    ensures r.Some? && |cols| == 4 ==> r.value.playUrl.None?
    ensures r.Some? ==> r.value.magnetHash.Some? ==> IsInfohash(r.value.magnetHash.value)
  {
    var play := if |cols| >= 5 then JoinGiven(join, cols[4].href) else None;
    var r := RowWith(cols, play, groupId, groupName, join);
    if r.Some? && r.value.magnetHash.Some? then LowerHashIsInfohash(cols[0].magnet.value); r
    else r
  }

  /** A lower-cased hash found by the spiders is still forty hex digits. */
  lemma LowerHashIsInfohash(link: string)
    requires MagnetHashLower(Some(link)).Some?
    ensures IsInfohash(MagnetHashLower(Some(link)).value)
  {
    var h := HashSearch(link, "xt=urn:btih:").value;
    forall k | 0 <= k < 40 ensures TextParser.IsHex(Lower(h)[k]) {
      assert TextParser.IsHex(h[k]);
    }
  }

  /** The two parsers agree on every row of five or more cells. */
  lemma WideRowsAgree(cols: seq<Col>, groupId: string, groupName: string, join: string -> string)
    requires |cols| >= 5
    ensures ParseResourceRowAsWritten(cols, groupId, groupName, join) == ParseResourceRow(cols, groupId, groupName, join)
  {
  }

  /** A four-cell row with a title and a magnet link: the guard admits it,
      the code as written loses it, the intended parser keeps it. */
  lemma FourCellRowDropped(cols: seq<Col>, groupId: string, groupName: string, join: string -> string)
    requires |cols| == 4 && Given(TitleOf(cols[0])) && Given(cols[0].magnet)
    ensures ParseResourceRowAsWritten(cols, groupId, groupName, join).None?
    ensures ParseResourceRow(cols, groupId, groupName, join).Some?
  {
  }

  /** One subtitle-group `div.subgroup-text`: its `id` attribute, the text of
      its first link, and the rows of the table that follows it, if any. */
  datatype Block = Block(id: Option<string>, name: Option<string>, table: Option<seq<seq<Col>>>)

  /** The resources of the rows of one table, in order. */
  function RowsOf(rows: seq<seq<Col>>, groupId: string, groupName: string, join: string -> string): (r: seq<Row>)
    ensures |r| <= |rows|
    ensures forall k :: 0 <= k < |r| ==> r[k].groupId == groupId && r[k].magnetLink != ""
    ensures forall k :: 0 <= k < |r| ==> r[k].magnetHash.Some? ==> IsInfohash(r[k].magnetHash.value)
  {
    if |rows| == 0 then []
    else
      var cols := rows[|rows| - 1];
      var row := if |cols| >= 4 then ParseResourceRow(cols, groupId, groupName, join) else None;
      RowsOf(rows[..|rows| - 1], groupId, groupName, join) + (if row.Some? then [row.value] else [])
  }

  /** The resources of one group block: none without an id, a name or a table. */
  function BlockRows(b: Block, join: string -> string): (r: seq<Row>)
    ensures (!Given(b.id) || !Given(b.name) || b.table.None?) ==> r == []
    ensures forall k :: 0 <= k < |r| ==> r[k].groupId == b.id.value && r[k].magnetLink != ""
  {
    if Given(b.id) && Given(b.name) && b.table.Some? then RowsOf(b.table.value, b.id.value, Strip(b.name.value), join)
    else []
  }

  /** The ids of the blocks that have one. */
  function BlockIds(blocks: seq<Block>): (ids: seq<string>)
    ensures |ids| <= |blocks|
  {
    if |blocks| == 0 then []
    else
      var b := blocks[|blocks| - 1];
      BlockIds(blocks[..|blocks| - 1]) + (if Given(b.id) then [b.id.value] else [])
  }

  /** The resources of all blocks, block by block: each carries a magnet
      link and the id of a block it came from. */
  function BlocksRows(blocks: seq<Block>, join: string -> string): (r: seq<Row>)
    ensures forall k :: 0 <= k < |r| ==> r[k].magnetLink != "" && r[k].groupId in BlockIds(blocks)
  {
    if |blocks| == 0 then []
    else BlocksRows(blocks[..|blocks| - 1], join) + BlockRows(blocks[|blocks| - 1], join)
  }

  /** The rows of one table, as the inner loop of `_extract_resources` collects them. */
  method CollectRows(rows: seq<seq<Col>>, groupId: string, groupName: string, join: string -> string)
    returns (found: seq<Row>)
    ensures found == RowsOf(rows, groupId, groupName, join)
  {
    found := [];
    for j := 0 to |rows|
      invariant found == RowsOf(rows[..j], groupId, groupName, join)
    {
      var cols := rows[j];
      RowsOfPrefix(rows, j, groupId, groupName, join);
      if |cols| >= 4 {
        var row := ParseResourceRow(cols, groupId, groupName, join);
        if row.Some? {
          found := found + [row.value];
        }
      }
    }
    assert rows[..|rows|] == rows;
  }

  lemma RowsOfPrefix(rows: seq<seq<Col>>, j: nat, groupId: string, groupName: string, join: string -> string)
    requires j < |rows|
    ensures var row := if |rows[j]| >= 4 then ParseResourceRow(rows[j], groupId, groupName, join) else None;
      RowsOf(rows[..j + 1], groupId, groupName, join)
      == RowsOf(rows[..j], groupId, groupName, join) + (if row.Some? then [row.value] else [])
  {
    assert rows[..j + 1][..j] == rows[..j] && rows[..j + 1][j] == rows[j];
  }

  /** `_extract_resources`: every block with an id, a name and a table
      contributes the resources of its rows. */
  method ExtractResources(blocks: seq<Block>, join: string -> string) returns (resources: seq<Row>)
    ensures resources == BlocksRows(blocks, join)
  {
    resources := [];
    for i := 0 to |blocks|
      invariant resources == BlocksRows(blocks[..i], join)
    {
      var b := blocks[i];
      if Given(b.id) && Given(b.name) && b.table.Some? {
        var found := CollectRows(b.table.value, b.id.value, Strip(b.name.value), join);
        resources := resources + found;
      }
      assert blocks[..i + 1][..i] == blocks[..i];
    }
    assert blocks[..|blocks|] == blocks;
  }

  /** A table whose rows are all four-cell rows with a title and a magnet
      link yields one resource per row. */
  lemma {:induction false} FullRowsAllKept(rows: seq<seq<Col>>, groupId: string, groupName: string, join: string -> string)
    requires forall k :: 0 <= k < |rows| ==> |rows[k]| >= 4 && Given(TitleOf(rows[k][0])) && Given(rows[k][0].magnet)
    ensures |RowsOf(rows, groupId, groupName, join)| == |rows|
  {
    if |rows| > 0 {
      FullRowsAllKept(rows[..|rows| - 1], groupId, groupName, join);
    }
  }

  // ---------------------------------------------------------------- requests

  /** An anime link of a list page: its `href` and its `title` (default ""). */
  datatype ListLink = ListLink(href: Option<string>, title: string)

  /** A request the spiders yield: a detail page, or a season's cover-flow page. */
  datatype Request =
    | Detail(url: string, mikanId: nat, title: string)
    | SeasonPage(year: Option<int>, season: Option<string>)

  /** The detail request of one link: only a link with `/Home/Bangumi/` and a
      non-zero id (`if mikan_id:`) gives one. */
  function LinkRequest(l: ListLink, join: string -> string): (r: Option<Request>)
    ensures r.Some? ==> r.value.Detail? && Given(l.href) && MikanId(l.href.value) == Some(r.value.mikanId)
    ensures r.Some? ==> r.value.mikanId > 0 && r.value.title == l.title
  {
    if Given(l.href) && Contains(l.href.value, BangumiPath) then
      match MikanId(l.href.value)
      case Some(n) => if n != 0 then Some(Detail(join(l.href.value), n, l.title)) else None
      case None => None
    else None
  }

  /** The detail requests of `links[:limit] if limit else links`, in order. */
  function LinkRequests(links: seq<ListLink>, join: string -> string): (r: seq<Request>)
    ensures |r| <= |links|
    ensures forall k :: 0 <= k < |r| ==> r[k].Detail? && r[k].mikanId > 0
  {
    if |links| == 0 then []
    else
      var req := LinkRequest(links[|links| - 1], join);
      LinkRequests(links[..|links| - 1], join) + (if req.Some? then [req.value] else [])
  }

  /** Links that all carry a non-zero id give one request each. */
  lemma {:induction false} IdLinksAllRequested(links: seq<ListLink>, join: string -> string)
    requires forall k :: 0 <= k < |links| ==> Given(links[k].href) && exists n: nat :: n > 0 && MikanId(links[k].href.value) == Some(n)
    ensures |LinkRequests(links, join)| == |links|
  {
    if |links| > 0 {
      var l := links[|links| - 1];
      IdLinksAllRequested(links[..|links| - 1], join);
      var n: nat :| n > 0 && MikanId(l.href.value) == Some(n);
      IdMeansPath(l.href.value);
      assert LinkRequest(l, join).Some?;
    }
  }

  /** An id is only found where the path occurs. */
  lemma IdMeansPath(href: string)
    requires MikanId(href).Some?
    ensures Contains(href, BangumiPath)
  {
    var p := FirstIdFrom(href, 0).value;
    OccursContains(href, BangumiPath, p);
  }

  /** Whether `parse` goes straight to the detail page named by `start_url`. */
  predicate NamesDetailPage(startUrl: Option<string>) {
    Given(startUrl) && Contains(startUrl.value, BangumiPath)
  }

  /** The request `parse` makes for such a `start_url`: one, titled
      "指定动画", when its id is non-zero, else none. */
  function StartRequests(startUrl: Option<string>): (r: seq<Request>)
    requires NamesDetailPage(startUrl)
    ensures |r| <= 1
    ensures r != [] ==> r[0].Detail? && r[0].mikanId > 0 && MikanId(startUrl.value) == Some(r[0].mikanId)
    ensures r == [] <==> MikanId(startUrl.value) == None || MikanId(startUrl.value) == Some(0)
  {
    match MikanId(startUrl.value)
    case Some(n) => if n != 0 then [Detail(startUrl.value, n, "指定动画")] else []
    case None => []
  }

  /** `parse_homepage`: the detail requests of the links kept by the limit. */
  method ParseHomepage(links: seq<ListLink>, limit: Option<int>, join: string -> string)
    returns (requests: seq<Request>)
    ensures requests == LinkRequests(LimitIfSet(links, limit), join)
    ensures |requests| <= |LimitIfSet(links, limit)|
  {
    var kept := LimitIfSet(links, limit);
    requests := [];
    for i := 0 to |kept|
      invariant requests == LinkRequests(kept[..i], join)
    {
      var req := LinkRequest(kept[i], join);
      LinkRequestsPrefix(kept, i, join);
      if req.Some? {
        requests := requests + [req.value];
      }
    }
    assert kept[..|kept|] == kept;
  }

  lemma LinkRequestsPrefix(links: seq<ListLink>, i: nat, join: string -> string)
    requires i < |links|
    ensures var req := LinkRequest(links[i], join);
      LinkRequests(links[..i + 1], join) == LinkRequests(links[..i], join) + (if req.Some? then [req.value] else [])
  {
    assert links[..i + 1][..i] == links[..i] && links[..i + 1][i] == links[i];
  }

  /** The season requests of `parse_by_year`: one per configured season. */
  function YearRequests(year: Option<int>, seasons: seq<string>): (r: seq<Request>)
    ensures |r| == |seasons|
    ensures forall k :: 0 <= k < |r| ==> r[k] == SeasonPage(year, Some(seasons[k]))
  {
    if |seasons| == 0 then []
    else YearRequests(year, seasons[..|seasons| - 1]) + [SeasonPage(year, Some(seasons[|seasons| - 1]))]
  }

  /** The season requests of `parse_full_range`: every season of every year
      from `start` to `end` inclusive. */
  function RangeRequests(start: int, end: int, seasons: seq<string>): (r: seq<Request>)
    ensures |r| == (if end >= start then (end - start + 1) * |seasons| else 0)
    ensures forall k :: 0 <= k < |r| ==>
      r[k].SeasonPage? && r[k].year.Some? && start <= r[k].year.value <= end && r[k].season.Some? && r[k].season.value in seasons
    ensures forall y, j :: start <= y <= end && 0 <= j < |seasons| ==> SeasonPage(Some(y), Some(seasons[j])) in r
    decreases end - start + 1
  {
    if end < start then []
    else
      var before := RangeRequests(start, end - 1, seasons);
      var last := YearRequests(Some(end), seasons);
      assert forall j :: 0 <= j < |seasons| ==> SeasonPage(Some(end), Some(seasons[j])) == last[j];
      before + last
  }
}

=== FILE: mikan_scan.dfy ===
/** Scanners shared by every Mikan spider snapshot: the regular expressions
    `/Home/Bangumi/(\d+)`, `btih:([a-fA-F0-9]{40})`, `xt=urn:btih:([a-fA-F0-9]{40})`,
    `(\d+)` and `\s*\d+/\d+/\d+.*` written out as leftmost-match scanners, the
    "Mikan Project - " title clean-up and Python's list slicing by a limit. */
module MikanScan {
  import opened Wrappers
  import opened Strings
  import TextParser

  const BangumiPath := "/Home/Bangumi/"
  const TitlePrefix := "Mikan Project - "

  // ---------------------------------------------------------------- infohash

  /** Forty hexadecimal digits start at `i` (`[a-fA-F0-9]{40}`). */
  predicate Hex40At(s: string, i: nat) {
    i + 40 <= |s| && forall k :: i <= k < i + 40 ==> TextParser.IsHex(s[k])
  }

  /** The pattern `marker` + 40 hex digits matches at `i`. */
  predicate HashAt(s: string, marker: string, i: nat) {
    OccursAt(s, marker, i) && Hex40At(s, i + |marker|)
  }

  /** The leftmost match of `marker` + 40 hex digits at or after `i`. */
  function FirstHashFrom(s: string, marker: string, i: nat): (r: Option<nat>)
    ensures r.Some? ==> i <= r.value && HashAt(s, marker, r.value)
    ensures r.Some? ==> forall j :: i <= j < r.value ==> !HashAt(s, marker, j)
    ensures r.None? ==> forall j :: i <= j ==> !HashAt(s, marker, j)
    decreases |s| - i
  {
    if i >= |s| then None
    else if HashAt(s, marker, i) then Some(i)
    else FirstHashFrom(s, marker, i + 1)
  }

  /** `re.search(marker + "([a-fA-F0-9]{40})", s).group(1)`, or `None` without a match. */
  function HashSearch(s: string, marker: string): (r: Option<string>)
    ensures r.Some? ==> |r.value| == 40 && forall k :: 0 <= k < 40 ==> TextParser.IsHex(r.value[k])
    ensures r.Some? ==> exists i: nat :: HashAt(s, marker, i) && s[i + |marker|..i + |marker| + 40] == r.value
    ensures r.None? <==> forall i :: !HashAt(s, marker, i)
  {
    match FirstHashFrom(s, marker, 0)
    case None => None
    case Some(p) => Some(s[p + |marker|..p + |marker| + 40])
  }

  /** `_extract_magnet_hash` of mikan.py, also the hash step of the
      ikuyo_scrapy spider: no hash for a missing or empty link, else the
      first 40-hex value after `btih:`, case preserved. */
  function MagnetHash(link: Option<string>): (r: Option<string>)
    ensures link.None? || link.value == "" ==> r.None?
    ensures link.Some? && link.value != "" ==> r == HashSearch(link.value, "btih:")
  {
    if link.None? || link.value == "" then None else HashSearch(link.value, "btih:")
  }

  /** The hash step of the ikuyo and src spiders: only for links starting
      `magnet:?`, the first 40-hex value after `xt=urn:btih:`, lower-cased. */
  function MagnetHashLower(link: Option<string>): (r: Option<string>)
    ensures r.Some? ==> link.Some? && StartsWith(link.value, "magnet:?")
    ensures r.Some? ==> forall k :: 0 <= k < |r.value| ==> !('A' <= r.value[k] <= 'Z')
    ensures link.Some? && StartsWith(link.value, "magnet:?") ==>
      r == (match HashSearch(link.value, "xt=urn:btih:") case None => None case Some(h) => Some(Lower(h)))
  {
    if link.Some? && link.value != "" && StartsWith(link.value, "magnet:?") then
      match HashSearch(link.value, "xt=urn:btih:")
      case None => None
      case Some(h) => Some(Lower(h))
    else None
  }

  /** Forty hex digits. */
  predicate IsInfohash(h: string) {
    |h| == 40 && forall k :: 0 <= k < 40 ==> TextParser.IsHex(h[k])
  }

  /** A magnet URI of BitTorrent BEP 9 whose first parameter is the exact
      topic `xt=urn:btih:` + a 40-hex infohash gives that infohash back. */
  lemma MagnetHashOfUri(h: string, rest: string)
    requires IsInfohash(h)
    ensures MagnetHash(Some("magnet:?xt=urn:btih:" + h + rest)) == Some(h)
    ensures MagnetHashLower(Some("magnet:?xt=urn:btih:" + h + rest)) == Some(Lower(h))
  {
    var s := "magnet:?xt=urn:btih:" + h + rest;
    BtihAt(h, rest);
    ExactTopicAt(h, rest);
    assert StartsWith(s, "magnet:?") by { assert s[..8] == "magnet:?"; }
  }

  /** In such a URI the first `btih:` is the one of the exact topic, followed by the infohash. */
  lemma BtihAt(h: string, rest: string)
    requires IsInfohash(h)
    ensures var s := "magnet:?xt=urn:btih:" + h + rest;
      FirstHashFrom(s, "btih:", 0) == Some(15) && HashAt(s, "btih:", 15) && s[20..60] == h
  {
    var s := "magnet:?xt=urn:btih:" + h + rest;
    var head := "magnet:?xt=urn:btih:";
    assert s[..20] == head;
    assert s[20..60] == h;
    assert HashAt(s, "btih:", 15) by { assert s[15..20] == "btih:"; }
    forall j | 0 <= j < 15 ensures !HashAt(s, "btih:", j) {
      assert s[j] == head[j];
      assert s[j..j + 5][0] == s[j];
    }
  }

  /** In such a URI `xt=urn:btih:` first occurs right after `magnet:?`. */
  lemma ExactTopicAt(h: string, rest: string)
    requires IsInfohash(h)
    ensures var s := "magnet:?xt=urn:btih:" + h + rest;
      FirstHashFrom(s, "xt=urn:btih:", 0) == Some(8) && HashAt(s, "xt=urn:btih:", 8) && s[20..60] == h
  {
    var s := "magnet:?xt=urn:btih:" + h + rest;
    var head := "magnet:?xt=urn:btih:";
    assert s[..20] == head;
    assert s[20..60] == h;
    assert HashAt(s, "xt=urn:btih:", 8) by { assert s[8..20] == "xt=urn:btih:"; }
    forall j | 0 <= j < 8 ensures !HashAt(s, "xt=urn:btih:", j) {
      assert s[j] == head[j];
      assert s[j..j + 12][0] == s[j];
    }
  }

  /** A link that is not a magnet URI gets no lower-cased hash, whatever it contains. */
  lemma NonMagnetHasNoLowerHash(link: string)
    requires !StartsWith(link, "magnet:?")
    ensures MagnetHashLower(Some(link)) == None
  {
  }

  // ---------------------------------------------------------------- numbers

  /** `/Home/Bangumi/` followed by at least one digit starts at `i`. */
  predicate IdAt(s: string, i: nat) {
    OccursAt(s, BangumiPath, i) && TextParser.DigitRun(s, i + |BangumiPath|) > 0
  }

  function FirstIdFrom(s: string, i: nat): (r: Option<nat>)
    ensures r.Some? ==> i <= r.value && IdAt(s, r.value)
    ensures r.Some? ==> forall j :: i <= j < r.value ==> !IdAt(s, j)
    ensures r.None? ==> forall j :: i <= j ==> !IdAt(s, j)
    decreases |s| - i
  {
    if i >= |s| then None
    else if IdAt(s, i) then Some(i)
    else FirstIdFrom(s, i + 1)
  }

  /** The digits of the maximal digit run starting at `i`. */
  function RunAt(s: string, i: nat): (d: string)
    ensures forall k :: 0 <= k < |d| ==> IsDigit(d[k])
  {
    var n := TextParser.DigitRun(s, i);
    if n == 0 then "" else s[i..i + n]
  }

  /** `_extract_mikan_id`: `int(re.search(r"/Home/Bangumi/(\d+)", href).group(1))`,
      or `None` without a match. */
  function MikanId(href: string): (r: Option<nat>)
    ensures r.None? <==> forall i :: !IdAt(href, i)
    ensures r.Some? ==> exists i: nat :: IdAt(href, i) && r.value == NumberOf(RunAt(href, i + |BangumiPath|))
  {
    match FirstIdFrom(href, 0)
    case None => None
    case Some(p) => Some(NumberOf(RunAt(href, p + |BangumiPath|)))
  }

  /** `re.findall(r"/Home/Bangumi/(\d+)", s)` from `i`: the digit runs of
      the non-overlapping matches, left to right, duplicates kept. */
  function AllIdsFrom(s: string, i: nat): (ids: seq<string>)
    ensures forall k :: 0 <= k < |ids| ==> AllDigits(ids[k])
    ensures ids == [] <==> FirstIdFrom(s, i).None?
    ensures ids != [] ==> ids[0] == RunAt(s, FirstIdFrom(s, i).value + |BangumiPath|)
    decreases |s| - i
  {
    match FirstIdFrom(s, i)
    case None => []
    case Some(p) =>
      var d := RunAt(s, p + |BangumiPath|);
      IdRun(s, p);
      [d] + AllIdsFrom(s, p + |BangumiPath| + |d|)
  }

  /** The digits after a match are a non-empty run inside the text. */
  lemma IdRun(s: string, p: nat)
    requires IdAt(s, p)
    ensures |RunAt(s, p + |BangumiPath|)| > 0 && AllDigits(RunAt(s, p + |BangumiPath|))
    ensures p + |BangumiPath| + |RunAt(s, p + |BangumiPath|)| <= |s|
  {
  }

  /** The first id found by the scan of the whole text is the one `_extract_mikan_id` reads. */
  lemma FirstFoundIsMikanId(s: string)
    ensures AllIdsFrom(s, 0) == [] <==> MikanId(s) == None
    ensures AllIdsFrom(s, 0) != [] ==> MikanId(s) == Some(NumberOf(AllIdsFrom(s, 0)[0]))
  {
  }

  /** No id match starts inside a prefix that does not contain `/Home`. */
  lemma NoIdInPrefix(prefix: string, tail: string, j: nat)
    requires !Contains(prefix, "/Home") && BangumiPath <= tail && j < |prefix|
    ensures !OccursAt(prefix + tail, BangumiPath, j)
  {
    if j + 5 <= |prefix| { NoIdWithinPrefix(prefix, tail, j); } else { NoIdAcrossPrefix(prefix, tail, j); }
  }

  lemma NoIdWithinPrefix(prefix: string, tail: string, j: nat)
    requires !Contains(prefix, "/Home") && j + 5 <= |prefix|
    ensures !OccursAt(prefix + tail, BangumiPath, j)
  {
    var s := prefix + tail;
    if OccursAt(s, BangumiPath, j) {
      var w := s[j..j + 14];
      assert w[..5] == "/Home";
      assert prefix[j..j + 5] == w[..5];
      OccursContains(prefix, "/Home", j);
    }
  }

  lemma NoIdAcrossPrefix(prefix: string, tail: string, j: nat)
    requires BangumiPath <= tail && j < |prefix| < j + 5
    ensures !OccursAt(prefix + tail, BangumiPath, j)
  {
    var s := prefix + tail;
    assert s[|prefix|] == '/';
    assert s[|prefix|] != BangumiPath[|prefix| - j];
    assert j + 14 <= |s| ==> s[j..j + 14][|prefix| - j] == s[|prefix|];
  }

  /** In a detail-page link the id match sits right after the prefix and
      its digit run is the decimal id. */
  lemma IdAtLink(prefix: string, d: string, rest: string)
    requires |d| > 0 && forall k :: 0 <= k < |d| ==> IsDigit(d[k])
    requires |rest| == 0 || !IsDigit(rest[0])
    ensures IdAt(prefix + BangumiPath + d + rest, |prefix|)
    ensures RunAt(prefix + BangumiPath + d + rest, |prefix| + |BangumiPath|) == d
  {
    var s := prefix + BangumiPath + d + rest;
    var p := |prefix|;
    assert s[p..p + 14] == BangumiPath;
    TextParser.DigitRunOf(prefix + BangumiPath, d, rest);
    assert s[p + 14..p + 14 + |d|] == d;
  }

  /** The leftmost id match is the first one after a `/Home`-free prefix. */
  lemma FirstIdAfterPrefix(prefix: string, tail: string)
    requires !Contains(prefix, "/Home") && BangumiPath <= tail
    requires IdAt(prefix + tail, |prefix|)
    ensures FirstIdFrom(prefix + tail, 0) == Some(|prefix|)
  {
    var s := prefix + tail;
    forall j | 0 <= j < |prefix| ensures !IdAt(s, j) {
      NoIdInPrefix(prefix, tail, j);
    }
  }

  /** Reading the id back out of a detail-page link: any prefix without
      `/Home`, then `/Home/Bangumi/`, the decimal id and a non-digit tail. */
  lemma {:induction false} MikanIdOfLink(prefix: string, n: nat, rest: string)
    requires !Contains(prefix, "/Home")
    requires |rest| == 0 || !IsDigit(rest[0])
    ensures MikanId(prefix + BangumiPath + NatToString(n) + rest) == Some(n)
  {
    var d := NatToString(n);
    var tail := BangumiPath + d + rest;
    assert prefix + tail == prefix + BangumiPath + d + rest;
    IdAtLink(prefix, d, rest);
    assert BangumiPath <= tail;
    FirstIdAfterPrefix(prefix, tail);
    NumberOfNatToString(n);
  }

  /** A link without `/Home/Bangumi/` has no id. */
  lemma NoPathNoId(href: string)
    requires !Contains(href, BangumiPath)
    ensures MikanId(href) == None
  {
    forall i | IdAt(href, i) ensures false { OccursContains(href, BangumiPath, i); }
  }

  /** The first digit run at or after `i`. */
  function FirstDigitFrom(s: string, i: nat): (r: Option<nat>)
    ensures r.Some? ==> i <= r.value < |s| && IsDigit(s[r.value])
    ensures r.Some? ==> forall j :: i <= j < r.value ==> !IsDigit(s[j])
    ensures r.None? ==> forall j :: i <= j < |s| ==> !IsDigit(s[j])
    decreases |s| - i
  {
    if i >= |s| then None
    else if IsDigit(s[i]) then Some(i)
    else FirstDigitFrom(s, i + 1)
  }

  /** `int(re.search(r"(\d+)", title).group(1))`, or `None` without a digit. */
  function FirstNumber(title: string): (r: Option<nat>)
    ensures r.None? <==> forall j :: 0 <= j < |title| ==> !IsDigit(title[j])
  {
    match FirstDigitFrom(title, 0)
    case None => None
    case Some(p) => Some(NumberOf(RunAt(title, p)))
  }

  /** The episode number of the simple snapshots: the first number in the
      title, or 1 when the title has no digit. */
  function EpisodeOrOne(title: string): (r: nat)
    ensures (forall j :: 0 <= j < |title| ==> !IsDigit(title[j])) ==> r == 1
    ensures FirstNumber(title).Some? ==> r == FirstNumber(title).value
  {
    match FirstNumber(title)
    case None => 1
    case Some(n) => n
  }

  /** A title that starts with a number yields that number. */
  lemma {:induction false} EpisodeOfLeadingNumber(n: nat, rest: string)
    requires |rest| == 0 || !IsDigit(rest[0])
    ensures EpisodeOrOne(NatToString(n) + rest) == n
  {
    var d := NatToString(n);
    var s := d + rest;
    assert IsDigit(s[0]);
    assert FirstDigitFrom(s, 0) == Some(0);
    TextParser.DigitRunOf("", d, rest);
    assert "" + d + rest == s;
    assert RunAt(s, 0) == d by { assert s[0..|d|] == d; }
    NumberOfNatToString(n);
  }

  // ---------------------------------------------------------------- titles

  /** `_extract_title`: when the page title starts with "Mikan Project - ",
      every occurrence of that text is removed (`str.replace`); any other
      title, or no title, is kept. */
  function CleanPageTitle(title: Option<string>): (r: Option<string>)
    ensures title.None? ==> r.None?
    ensures title.Some? && !StartsWith(title.value, TitlePrefix) ==> r == title
    ensures title.Some? && StartsWith(title.value, TitlePrefix) ==> r == Some(ReplaceAll(title.value, TitlePrefix, ""))
  {
    match title
    case None => None
    case Some(t) => if |t| > 0 && StartsWith(t, TitlePrefix) then Some(ReplaceAll(t, TitlePrefix, "")) else title
  }

  /** The site prefix is removed from a page title that carries it once. */
  lemma PrefixRemoved(name: string)
    requires !Contains(name, TitlePrefix)
    ensures CleanPageTitle(Some(TitlePrefix + name)) == Some(name)
  {
    var t := TitlePrefix + name;
    assert TitlePrefix <= t;
    assert t[|TitlePrefix|..] == name;
    calc {
      ReplaceAll(t, TitlePrefix, "");
      "" + ReplaceAll(t[|TitlePrefix|..], TitlePrefix, "");
      { ReplaceAbsent(name, TitlePrefix, ""); }
      name;
    }
  }

  // ---------------------------------------------------------------- limits

  /** `xs[:limit]` with Python's slice rules: `None` keeps everything, a
      negative limit drops that many from the end. */
  function PyTake<T>(xs: seq<T>, limit: Option<int>): (r: seq<T>)
    ensures r <= xs
    ensures limit.None? ==> r == xs
    ensures limit.Some? && limit.value >= 0 ==> |r| == if limit.value < |xs| then limit.value else |xs|
    ensures limit.Some? && limit.value < 0 ==> |r| == if |xs| + limit.value > 0 then |xs| + limit.value else 0
  {
    match limit
    case None => xs
    case Some(k) =>
      if k >= 0 then (if k < |xs| then xs[..k] else xs)
      else (if |xs| + k > 0 then xs[..|xs| + k] else [])
  }

  /** `xs[:limit] if limit else xs`: a zero or missing limit keeps every element. */
  function LimitIfSet<T>(xs: seq<T>, limit: Option<int>): (r: seq<T>)
    ensures r <= xs
    ensures limit.None? || limit.value == 0 ==> r == xs
    ensures limit.Some? && limit.value != 0 ==> r == PyTake(xs, limit)
  {
    if limit.None? || limit.value == 0 then xs else PyTake(xs, limit)
  }
}

=== FILE: mikan_script.dfy ===
/** The stand-alone requests/BeautifulSoup crawler mikan.py: subtitle-group
    validation and name cleaning, subgroup ids, resource rows grouped by
    subtitle group, the list page, the limited crawl and the episode default
    of `main`. Selector results (link attributes, `get_text(strip=True)`
    texts, `li`/`td` lists) are inputs; HTTP fetching is the oracle `fetch`. */
module MikanScript {
  import opened Wrappers
  import opened Strings
  import opened MikanScan
  import TextParser

  /** `Selectors.EXCLUDED_GROUPS`: navigation texts that are not group names. */
  const ExcludedGroups: set<string> := {"主页", "订阅", "列表", "搜索站内", "取消"}

  /** `_is_valid_subtitle_group`. */
  function IsValidSubtitleGroup(name: string): (ok: bool)
    ensures ok <==> |name| > 1 && name !in ExcludedGroups
    ensures name in ExcludedGroups ==> !ok
  {
    |name| > 0 && |name| > 1 && name !in ExcludedGroups
  }

  // ------------------------------------------------- `\s*\d+/\d+/\d+.*` scanner

  /** The maximal run of whitespace starting at `i`. */
  function SpaceRun(s: string, i: nat): (n: nat)
    ensures n == 0 || i + n <= |s|
    ensures i <= |s| ==> i + n <= |s|
    ensures forall k :: i <= k < i + n ==> k < |s| && IsSpace(s[k])
    decreases |s| - i
  {
    if i < |s| && IsSpace(s[i]) then 1 + SpaceRun(s, i + 1) else 0
  }

  /** The length of the date `\d+/\d+/\d+` starting at `j`, or 0 when none does. */
  function DateLen(s: string, j: nat): (n: nat)
    ensures n > 0 ==> j + n <= |s| && IsDigit(s[j])
  {
    var a := TextParser.DigitRun(s, j);
    if a > 0 && j + a < |s| && s[j + a] == '/' then
      var b := TextParser.DigitRun(s, j + a + 1);
      if b > 0 && j + a + 1 + b < |s| && s[j + a + 1 + b] == '/' then
        var c := TextParser.DigitRun(s, j + a + b + 2);
        if c > 0 then a + b + c + 2 else 0
      else 0
    else 0
  }

  /** `\d+/\d+/\d+` matches at `j` (what `re.search(DATE_PATTERN, s)` looks for). */
  predicate DateAt(s: string, j: nat) {
    DateLen(s, j) > 0
  }

  /** `\s*\d+/\d+/\d+` matches at `i`: a date after the whitespace run at `i`. */
  predicate CutAt(s: string, i: nat) {
    i <= |s| && DateAt(s, i + SpaceRun(s, i))
  }

  /** The leftmost position at or after `i` where the substitution pattern matches. */
  function FirstCutFrom(s: string, i: nat): (r: Option<nat>)
    ensures r.Some? ==> i <= r.value < |s| && CutAt(s, r.value)
    ensures r.Some? ==> forall j :: i <= j < r.value ==> !CutAt(s, j)
    decreases |s| - i
  {
    if i >= |s| then None
    else if CutAt(s, i) then Some(i)
    else
      var r := FirstCutFrom(s, i + 1);
      assert r.Some? ==> forall j :: i <= j < r.value ==> !CutAt(s, j) by {
        if r.Some? {
          forall j | i <= j < r.value ensures !CutAt(s, j) {
            if j == i {
            } else {
              assert i + 1 <= j < r.value;
            }
          }
        }
      }
      r
  }

  /** Without a match from `i` the pattern matches nowhere from `i` on. */
  lemma {:induction false} FirstCutNone(s: string, i: nat)
    requires FirstCutFrom(s, i).None?
    ensures forall j :: i <= j < |s| ==> !CutAt(s, j)
    decreases |s| - i
  {
    if i < |s| {
      assert FirstCutFrom(s, i) == if CutAt(s, i) then Some(i) else FirstCutFrom(s, i + 1);
      FirstCutNone(s, i + 1);
      forall j | i <= j < |s| ensures !CutAt(s, j) {
        if j == i {
        } else {
          assert i + 1 <= j < |s|;
        }
      }
    }
  }

  /** Where `.*` stops: the first line break at or after `k`, or the end. */
  function LineEnd(s: string, k: nat): (e: nat)
    requires k <= |s|
    ensures k <= e <= |s|
    ensures e < |s| ==> s[e] == '\n'
    ensures forall m :: k <= m < e ==> s[m] != '\n'
    decreases |s| - k
  {
    if k == |s| || s[k] == '\n' then k else LineEnd(s, k + 1)
  }

  /** `re.sub(r"\s*\d+/\d+/\d+.*", "", s[i:])`: every match, scanned left to
      right, is removed together with the rest of its line. */
  function DropDates(s: string, i: nat): (r: string)
    requires i <= |s|
    ensures |r| <= |s| - i
    decreases |s| - i
  {
    match FirstCutFrom(s, i)
    case None => s[i..]
    case Some(c) =>
      var d := c + SpaceRun(s, c);
      s[i..c] + DropDates(s, LineEnd(s, d + DateLen(s, d)))
  }

  /** `_clean_subtitle_group_name`. The guard `re.search(DATE_PATTERN, name)`
      holds exactly when the substitution pattern matches somewhere, so it
      is written as that search. */
  function CleanSubtitleGroupName(name: string): (r: string)
    ensures (forall j :: !DateAt(name, j)) ==> r == name
    ensures |r| <= |name|
    ensures (forall m :: 0 <= m < |name| ==> name[m] != '\n') && FirstCutFrom(name, 0).Some? ==>
      r == name[..FirstCutFrom(name, 0).value]
  {
    match FirstCutFrom(name, 0)
    case None => name
    case Some(c) =>
      var d := c + SpaceRun(name, c);
      assert DateAt(name, d);
      DropDatesOneLine(name);
      DropDates(name, 0)
  }

  /** On a one-line name the first match removes the rest of the text. */
  lemma DropDatesOneLine(name: string)
    ensures (forall m :: 0 <= m < |name| ==> name[m] != '\n') && FirstCutFrom(name, 0).Some? ==>
      DropDates(name, 0) == name[..FirstCutFrom(name, 0).value]
  {
    if (forall m :: 0 <= m < |name| ==> name[m] != '\n') && FirstCutFrom(name, 0).Some? {
      var c := FirstCutFrom(name, 0).value;
      var d := c + SpaceRun(name, c);
      var e := LineEnd(name, d + DateLen(name, d));
      assert e == |name|;
      assert DropDates(name, |name|) == "";
      assert DropDates(name, 0) == name[0..c] + DropDates(name, e);
    }
  }

  /** On a one-line name, cleaning keeps exactly the text before the
      leftmost `\s*date`: the cut point starts whitespace-then-date, and no
      earlier position does. */
  lemma CleanCutsAtFirstDate(name: string, j: nat)
    requires forall m :: 0 <= m < |name| ==> name[m] != '\n'
    requires DateAt(name, j)
    ensures exists c: nat :: (c <= j && CleanSubtitleGroupName(name) == name[..c] && CutAt(name, c)
      && forall k :: 0 <= k < c ==> !CutAt(name, k))
  {
    CutBeforeDate(name, j);
    var c := FirstCutFrom(name, 0).value;
    assert CleanSubtitleGroupName(name) == name[..c];
  }

  /** A date at `j` puts the first cut at or before `j`. */
  lemma CutBeforeDate(s: string, j: nat)
    requires DateAt(s, j)
    ensures FirstCutFrom(s, 0).Some? && FirstCutFrom(s, 0).value <= j
  {
    assert SpaceRun(s, j) == 0;
    assert CutAt(s, j);
    if FirstCutFrom(s, 0).None? {
      FirstCutNone(s, 0);
    }
  }

  /** A group name read as "name<space>date trailing text" loses everything from the space on. */
  lemma CleanExample(s: string)
    requires s == "ANi 2024/7/5 更新"
    ensures CleanSubtitleGroupName(s) == "ANi"
  {
    assert forall m :: 0 <= m < |s| ==> s[m] != '\n' by { ExampleOneLine(); }
    assert FirstCutFrom(s, 0) == Some(3) by { ExampleFirstCut(); }
    assert CleanSubtitleGroupName(s) == s[..3];
    assert s[..3] == "ANi";
  }

  lemma ExampleOneLine()
    ensures forall m :: 0 <= m < |"ANi 2024/7/5 更新"| ==> "ANi 2024/7/5 更新"[m] != '\n'
  {
  }

  lemma ExampleFirstCut()
    ensures FirstCutFrom("ANi 2024/7/5 更新", 0) == Some(3)
  {
    var s := "ANi 2024/7/5 更新";
    ExampleNoEarlyCut();
    ExampleCut();
    var r := FirstCutFrom(s, 0);
    if r.None? {
      FirstCutNone(s, 0);
    }
  }

  lemma ExampleNoEarlyCut()
    ensures forall k :: 0 <= k < 3 ==> !CutAt("ANi 2024/7/5 更新", k)
  {
    var s := "ANi 2024/7/5 更新";
    assert s[0] == 'A' && s[1] == 'N' && s[2] == 'i';
    assert SpaceRun(s, 0) == 0 && SpaceRun(s, 1) == 0 && SpaceRun(s, 2) == 0;
    assert TextParser.DigitRun(s, 0) == 0 && TextParser.DigitRun(s, 1) == 0 && TextParser.DigitRun(s, 2) == 0;
  }

  lemma ExampleCut()
    ensures CutAt("ANi 2024/7/5 更新", 3)
  {
    var s := "ANi 2024/7/5 更新";
    ExampleRuns();
    assert s[3] == ' ' && s[4] == '2' && s[8] == '/' && s[10] == '/';
    assert SpaceRun(s, 4) == 0;
    assert SpaceRun(s, 3) == 1;
    DateLenAt(s, 4, 4, 1, 1);
  }

  lemma ExampleRuns()
    ensures TextParser.DigitRun("ANi 2024/7/5 更新", 4) == 4
    ensures TextParser.DigitRun("ANi 2024/7/5 更新", 9) == 1
    ensures TextParser.DigitRun("ANi 2024/7/5 更新", 11) == 1
  {
    var s := "ANi 2024/7/5 更新";
    assert s[4..13] == "2024/7/5 ";
    DigitRunSpan(s, 4, 4);
    DigitRunSpan(s, 9, 1);
    DigitRunSpan(s, 11, 1);
  }

  /** The digit run at `i` is `n` long when `n` digits stand there and no
      digit follows them. */
  lemma {:induction false} DigitRunSpan(s: string, i: nat, n: nat)
    requires i + n <= |s|
    requires forall k :: i <= k < i + n ==> IsDigit(s[k])
    requires i + n == |s| || !IsDigit(s[i + n])
    ensures TextParser.DigitRun(s, i) == n
    decreases n
  {
    if n > 0 {
      DigitRunSpan(s, i + 1, n - 1);
    }
  }

  /** Digit runs of lengths `a`, `b` and `c` at `j`, separated by single
      '/', are matched whole as a date. */
  lemma DateLenAt(s: string, j: nat, a: nat, b: nat, c: nat)
    requires a > 0 && b > 0 && c > 0 && j + a + 1 + b < |s|
    requires TextParser.DigitRun(s, j) == a && s[j + a] == '/'
    requires TextParser.DigitRun(s, j + a + 1) == b && s[j + a + 1 + b] == '/'
    requires TextParser.DigitRun(s, j + a + b + 2) == c
    ensures DateLen(s, j) == a + b + c + 2
  {
  }

  /** Validation runs before cleaning, so a name that is only a date passes
      validation and is then emptied. */
  lemma ValidThenCleanedToEmpty()
    ensures IsValidSubtitleGroup("1/2/3") && CleanSubtitleGroupName("1/2/3") == ""
  {
    var s := "1/2/3";
    assert forall m :: 0 <= m < |s| ==> s[m] != '\n';
    assert SpaceRun(s, 0) == 0;
    assert TextParser.DigitRun(s, 1) == 0;
    assert TextParser.DigitRun(s, 0) == 1;
    assert TextParser.DigitRun(s, 3) == 0;
    assert TextParser.DigitRun(s, 2) == 1;
    assert TextParser.DigitRun(s, 5) == 0;
    assert TextParser.DigitRun(s, 4) == 1;
    assert CutAt(s, 0);
    assert FirstCutFrom(s, 0) == Some(0);
  }

  // ------------------------------------------------- subtitle groups

  /** A class `subgroup-<int>` whose remainder `int()` reads. */
  predicate IdClass(c: string) {
    StartsWith(c, "subgroup-") && PyInt(ReplaceAll(c, "subgroup-", "")).Some?
  }

  /** The first class `subgroup-<int>` of a link: `int(cls.replace("subgroup-", ""))`
      for the first class starting with "subgroup-" whose remainder parses;
      classes that do not parse are skipped. */
  function SubgroupId(classes: seq<string>): (r: Option<int>)
    ensures r.Some? ==> exists k :: (0 <= k < |classes| && StartsWith(classes[k], "subgroup-")
      && PyInt(ReplaceAll(classes[k], "subgroup-", "")) == r)
    ensures forall k :: (0 <= k < |classes| && IdClass(classes[k]) && (forall j :: 0 <= j < k ==> !IdClass(classes[j])))
                        ==> r == PyInt(ReplaceAll(classes[k], "subgroup-", ""))
    ensures (forall k :: 0 <= k < |classes| ==> !IdClass(classes[k])) ==> r.None?
    ensures (forall k :: 0 <= k < |classes| ==> !StartsWith(classes[k], "subgroup-")) ==> r.None?
  {
    if |classes| == 0 then None
    else if IdClass(classes[0]) then
      PyInt(ReplaceAll(classes[0], "subgroup-", ""))
    else
      var r := SubgroupId(classes[1..]);
      assert r.Some? ==> exists k :: (1 <= k < |classes| && StartsWith(classes[k], "subgroup-")
        && PyInt(ReplaceAll(classes[k], "subgroup-", "")) == r) by {
        if r.Some? {
          var k :| 0 <= k < |classes[1..]| && StartsWith(classes[1..][k], "subgroup-")
            && PyInt(ReplaceAll(classes[1..][k], "subgroup-", "")) == r;
          assert classes[k + 1] == classes[1..][k];
        }
      }
      assert forall k :: 1 <= k < |classes| ==> classes[1..][k - 1] == classes[k];
      r
  }

  /** `subgroup-382` gives 382, after a class like `subgroup-name` that does not parse. */
  lemma SubgroupIdExample()
    ensures SubgroupId(["subgroup-name", "subgroup-382"]) == Some(382)
  {
    NameClassSkipped();
    NumberClassParsed();
    var cs := ["subgroup-name", "subgroup-382"];
    assert cs[1..] == ["subgroup-382"];
  }

  lemma NameClassSkipped()
    ensures PyInt(ReplaceAll("subgroup-name", "subgroup-", "")) == None
  {
    var a := "subgroup-name";
    assert "subgroup-" <= a;
    assert a[9..] == "name";
    assert ReplaceAll("name", "subgroup-", "") == "name" by { ReplaceShortAbsent("name"); }
    assert ReplaceAll(a, "subgroup-", "") == "name";
    PyIntOfWord("name");
  }

  /** A text that starts and ends with a lower-case letter is not an integer. */
  lemma PyIntOfWord(t: string)
    requires |t| > 0 && 'a' <= t[0] <= 'z' && 'a' <= t[|t| - 1] <= 'z'
    ensures PyInt(t) == None
  {
    assert !IsSpace(t[0]) && !IsSpace(t[|t| - 1]);
    assert TrimStart(t) == t;
    assert TrimEnd(t) == t;
    assert !IsDigit(t[0]);
  }

  lemma NumberClassParsed()
    ensures StartsWith("subgroup-382", "subgroup-")
    ensures PyInt(ReplaceAll("subgroup-382", "subgroup-", "")) == Some(382)
  {
    var b := "subgroup-382";
    assert "subgroup-" <= b;
    assert b[9..] == "382";
    assert ReplaceAll("382", "subgroup-", "") == "382" by { ReplaceShortAbsent("382"); }
    assert ReplaceAll(b, "subgroup-", "") == "382";
    assert NatToString(382) == "382";
    PyIntOfNatToString(382);
  }

  /** A text shorter than the pattern is left as it is by `replace`. */
  lemma {:induction false} ReplaceShortAbsent(t: string)
    requires |t| < 9
    ensures ReplaceAll(t, "subgroup-", "") == t
    decreases |t|
  {
    if |t| > 0 {
      ReplaceShortAbsent(t[1..]);
      assert [t[0]] + t[1..] == t;
    }
  }

  /** A subgroup link: its class list and its stripped text. */
  datatype SubLink = SubLink(classes: seq<string>, text: string)

  /** One subtitle group entry: id and cleaned name. */
  datatype Group = Group(id: int, name: string)

  /** What one `li` contributes: a group when its subgroup link has a
      non-zero id and a valid name, the name then cleaned. */
  function GroupOf(li: Option<SubLink>): (r: Option<Group>)
    ensures r.Some? ==> li.Some? && SubgroupId(li.value.classes) == Some(r.value.id) && r.value.id != 0
    ensures r.Some? ==> IsValidSubtitleGroup(li.value.text) && r.value.name == CleanSubtitleGroupName(li.value.text)
    ensures (li.Some? && SubgroupId(li.value.classes).Some? && SubgroupId(li.value.classes).value != 0
      && IsValidSubtitleGroup(li.value.text)) ==> r.Some?
  {
    match li
    case None => None
    case Some(l) =>
      var id := SubgroupId(l.classes);
      if id.Some? && id.value != 0 && IsValidSubtitleGroup(l.text) then Some(Group(id.value, CleanSubtitleGroupName(l.text)))
      else None
  }

  /** The groups of the `li` visits, in order. */
  function GroupsOf(lis: seq<Option<SubLink>>): (r: seq<Group>)
    ensures |r| <= |lis|
  {
    if |lis| == 0 then []
    else
      var g := GroupOf(lis[|lis| - 1]);
      GroupsOf(lis[..|lis| - 1]) + (if g.Some? then [g.value] else [])
  }

  /** One more visit adds that visit's group, if any. */
  lemma GroupsOfPrefix(lis: seq<Option<SubLink>>, i: nat)
    requires i < |lis|
    ensures GroupsOf(lis[..i + 1]) == GroupsOf(lis[..i]) + (if GroupOf(lis[i]).Some? then [GroupOf(lis[i]).value] else [])
  {
    var seen := lis[..i + 1];
    assert seen[..i] == lis[..i] && seen[i] == lis[i];
  }

  /** The loop over the `li` visits. */
  method CollectGroups(lis: seq<Option<SubLink>>) returns (groups: seq<Group>)
    ensures groups == GroupsOf(lis)
  {
    groups := [];
    for i := 0 to |lis|
      invariant groups == GroupsOf(lis[..i])
    {
      GroupsOfPrefix(lis, i);
      var g := GroupOf(lis[i]);
      if g.Some? {
        groups := groups + [g.value];
      }
    }
    assert lis[..|lis|] == lis;
  }

  /** `_extract_subtitle_groups`: only a page whose stripped strings mention
      "字幕组列表" is scanned, and then every `li` visit is examined once. */
  method ExtractSubtitleGroups(strings: seq<string>, lis: seq<Option<SubLink>>) returns (groups: seq<Group>)
    ensures (forall t :: t in strings ==> !Contains(t, "字幕组列表")) ==> groups == []
    ensures (exists t :: t in strings && Contains(t, "字幕组列表")) ==> groups == GroupsOf(lis)
  {
    groups := [];
    for t := 0 to |strings|
      invariant forall u :: 0 <= u < t ==> !Contains(strings[u], "字幕组列表")
      invariant groups == []
    {
      if Contains(strings[t], "字幕组列表") {
        groups := CollectGroups(lis);
        return;
      }
    }
  }

  // ------------------------------------------------- resources

  /** A `td` cell: its stripped text, the `data-clipboard-text` of its
      `a.js-magnet` link and the `href` of its first link. */
  datatype Cell = Cell(text: string, magnet: Option<string>, href: Option<string>)

  /** A table: the text of its parent element and its `tr` rows as cell lists. */
  datatype Table = Table(parentText: string, rows: seq<seq<Cell>>)

  datatype Resource = Resource(title: string, fileSize: string, releaseDate: string,
                               magnetUrl: Option<string>, torrentUrl: Option<string>, playUrl: Option<string>,
                               group: string, groupId: int)

  /** `str(v) if v else None` on an attribute. */
  function Truthy(v: Option<string>): (r: Option<string>)
    ensures r.Some? <==> v.Some? && v.value != ""
  {
    if v.Some? && v.value != "" then v else None
  }

  /** `_extract_torrent_url`: the first link's target, joined to the site, only when it contains "Download". */
  function TorrentUrl(c: Cell, join: string -> string): (r: Option<string>)
    ensures r.Some? <==> c.href.Some? && Contains(c.href.value, "Download")
  {
    if c.href.Some? && c.href.value != "" && Contains(c.href.value, "Download") then Some(join(c.href.value)) else None
  }

  /** One row of a five-column table. */
  function RowResource(cols: seq<Cell>, group: string, groupId: int, join: string -> string): (r: Resource)
    requires |cols| >= 5
    ensures r.title == cols[0].text && r.group == group && r.groupId == groupId
    ensures r.magnetUrl == Truthy(cols[0].magnet) && r.playUrl == Truthy(cols[4].href)
    ensures r.fileSize == cols[1].text && r.releaseDate == cols[2].text && r.torrentUrl == TorrentUrl(cols[3], join)
  {
    Resource(cols[0].text, cols[1].text, cols[2].text, Truthy(cols[0].magnet),
             TorrentUrl(cols[3], join), Truthy(cols[4].href), group, groupId)
  }

  /** The resources of the rows after the header with at least five cells. */
  function RowsResources(rows: seq<seq<Cell>>, group: string, groupId: int, join: string -> string): (r: seq<Resource>)
    ensures |r| <= |rows|
    ensures forall k :: 0 <= k < |r| ==> r[k].group == group && r[k].groupId == groupId
  {
    if |rows| == 0 then []
    else
      var cols := rows[|rows| - 1];
      RowsResources(rows[..|rows| - 1], group, groupId, join)
        + (if |cols| >= 5 then [RowResource(cols, group, groupId, join)] else [])
  }

  /** The resources `_extract_group_resources` collects from the first `k` tables. */
  function TablesResources(tables: seq<Table>, group: string, groupId: int, join: string -> string): (r: seq<Resource>)
    ensures forall k :: 0 <= k < |r| ==> r[k].group == group && r[k].groupId == groupId
  {
    if |tables| == 0 then []
    else
      var t := tables[|tables| - 1];
      TablesResources(tables[..|tables| - 1], group, groupId, join)
        + (if Contains(t.parentText, group) && |t.rows| > 0 then RowsResources(t.rows[1..], group, groupId, join)
           else [])
  }

  /** `_extract_group_resources`: every table whose parent text mentions
      the group name contributes its rows after the header row. */
  method ExtractGroupResources(tables: seq<Table>, group: string, groupId: int, join: string -> string)
    returns (resources: seq<Resource>)
    ensures resources == TablesResources(tables, group, groupId, join)
  {
    resources := [];
    for i := 0 to |tables|
      invariant resources == TablesResources(tables[..i], group, groupId, join)
    {
      var seen := tables[..i + 1];
      assert seen[..i] == tables[..i] && seen[i] == tables[i];
      var t := tables[i];
      if Contains(t.parentText, group) && |t.rows| > 0 {
        var rs := ExtractRowResources(t.rows[1..], group, groupId, join);
        resources := resources + rs;
      }
    }
    assert tables[..|tables|] == tables;
  }

  /** The inner loop of `_extract_group_resources` over one table's rows
      after the header. */
  method ExtractRowResources(rows: seq<seq<Cell>>, group: string, groupId: int, join: string -> string)
    returns (resources: seq<Resource>)
    ensures resources == RowsResources(rows, group, groupId, join)
  {
    resources := [];
    for j := 0 to |rows|
      invariant resources == RowsResources(rows[..j], group, groupId, join)
    {
      var seen := rows[..j + 1];
      assert seen[..j] == rows[..j] && seen[j] == rows[j];
      var cols := rows[j];
      if |cols| >= 5 {
        resources := resources + [RowResource(cols, group, groupId, join)];
      }
    }
    assert rows[..|rows|] == rows;
  }

  /** A header row and rows of four cells or fewer never become resources. */
  lemma ShortRowsSkipped(rows: seq<seq<Cell>>, group: string, groupId: int, join: string -> string)
    requires forall k :: 0 <= k < |rows| ==> |rows[k]| < 5
    ensures RowsResources(rows, group, groupId, join) == []
  {
  }

  /** The expected `resources_by_group` after the first groups: only
      non-empty lists, keyed by group name, a later group of the same name
      replacing an earlier one. */
  function ResourcesByGroup(groups: seq<Group>, tables: seq<Table>, join: string -> string): (m: map<string, seq<Resource>>)
    ensures forall n :: n in m ==> |m[n]| > 0
    ensures forall n :: n in m ==> exists k :: 0 <= k < |groups| && groups[k].name == n
  {
    if |groups| == 0 then map[]
    else
      var g := groups[|groups| - 1];
      var rs := TablesResources(tables, g.name, g.id, join);
      var m0 := ResourcesByGroup(groups[..|groups| - 1], tables, join);
      assert forall n :: n in m0 ==> exists k :: 0 <= k < |groups| && groups[k].name == n by {
        forall n | n in m0 ensures exists k :: 0 <= k < |groups| && groups[k].name == n {
          var k :| 0 <= k < |groups| - 1 && groups[..|groups| - 1][k].name == n;
          assert groups[k].name == n;
        }
      }
      if |rs| > 0 then m0[g.name := rs] else m0
  }

  /** `_extract_resources`. */
  method ExtractResources(groups: seq<Group>, tables: seq<Table>, join: string -> string)
    returns (byGroup: map<string, seq<Resource>>)
    ensures byGroup == ResourcesByGroup(groups, tables, join)
  {
    byGroup := map[];
    for i := 0 to |groups|
      invariant byGroup == ResourcesByGroup(groups[..i], tables, join)
    {
      var rs := ExtractGroupResources(tables, groups[i].name, groups[i].id, join);
      if |rs| > 0 {
        byGroup := byGroup[groups[i].name := rs];
      }
      assert groups[..i + 1][..i] == groups[..i];
    }
    assert groups[..|groups|] == groups;
  }

  /** Every listed resource belongs to the group it is listed under. */
  lemma ListedUnderOwnGroup(groups: seq<Group>, tables: seq<Table>, join: string -> string, n: string)
    requires n in ResourcesByGroup(groups, tables, join)
    ensures forall r :: r in ResourcesByGroup(groups, tables, join)[n] ==> r.group == n
  {
    if |groups| > 0 {
      var g := groups[|groups| - 1];
      var rs := TablesResources(tables, g.name, g.id, join);
      if !(|rs| > 0 && n == g.name) {
        ListedUnderOwnGroup(groups[..|groups| - 1], tables, join, n);
      }
    }
  }

  // ------------------------------------------------- list page and crawl

  /** A list-page link: its `href` and `title` attributes. */
  datatype ListLink = ListLink(href: Option<string>, title: string)

  /** An entry of `parse_bangumi_list_page`: full url, title and id (possibly `None`). */
  datatype Bangumi = Bangumi(url: string, title: string, mikanId: Option<nat>)

  /** The entries for the links whose `href` contains `/Home/Bangumi/`. */
  function ListEntries(links: seq<ListLink>, join: string -> string): (r: seq<Bangumi>)
    ensures |r| <= |links|
  {
    if |links| == 0 then []
    else
      var l := links[|links| - 1];
      ListEntries(links[..|links| - 1], join)
        + (if l.href.Some? && l.href.value != "" && Contains(l.href.value, BangumiPath)
           then [Bangumi(join(l.href.value), l.title, MikanId(l.href.value))] else [])
  }

  /** `parse_bangumi_list_page`: an entry is kept even when its id cannot be read. */
  method ParseBangumiListPage(links: seq<ListLink>, join: string -> string) returns (entries: seq<Bangumi>)
    ensures entries == ListEntries(links, join)
  {
    entries := [];
    for i := 0 to |links|
      invariant entries == ListEntries(links[..i], join)
    {
      var l := links[i];
      if l.href.Some? && l.href.value != "" && Contains(l.href.value, BangumiPath) {
        entries := entries + [Bangumi(join(l.href.value), l.title, MikanId(l.href.value))];
      }
      assert links[..i + 1][..i] == links[..i];
    }
    assert links[..|links|] == links;
  }

  /** A crawled detail page tagged with the id of the link it came from. */
  datatype Detail = Detail(mikanId: Option<nat>, page: string)

  /** The details of the entries whose fetch and parse succeeded, in order. */
  function Crawled(entries: seq<Bangumi>, fetch: string -> Option<string>): (r: seq<Detail>)
    ensures |r| <= |entries|
  {
    if |entries| == 0 then []
    else
      var e := entries[|entries| - 1];
      var p := fetch(e.url);
      Crawled(entries[..|entries| - 1], fetch) + (if p.Some? then [Detail(e.mikanId, p.value)] else [])
  }

  /** `crawl_bangumi_list(limit)`: the detail pages of `bangumi_links[:limit]`;
      a failing page is skipped, a failing list page gives `[]`. */
  method CrawlBangumiList(listPage: Option<seq<ListLink>>, limit: Option<int>, join: string -> string,
                          fetch: string -> Option<string>) returns (results: seq<Detail>)
    ensures listPage.None? ==> results == []
    ensures listPage.Some? ==> results == Crawled(PyTake(ListEntries(listPage.value, join), limit), fetch)
  {
    if listPage.None? {
      return [];
    }
    var entries := ParseBangumiListPage(listPage.value, join);
    var todo := PyTake(entries, limit);
    results := [];
    for i := 0 to |todo|
      invariant results == Crawled(todo[..i], fetch)
    {
      var p := fetch(todo[i].url);
      if p.Some? {
        results := results + [Detail(todo[i].mikanId, p.value)];
      }
      assert todo[..i + 1][..i] == todo[..i];
    }
    assert todo[..|todo|] == todo;
  }

  /** With no limit every listed anime is crawled; with a limit `k >= 0` at most `k`. */
  lemma CrawlBounded(entries: seq<Bangumi>, limit: Option<int>, fetch: string -> Option<string>)
    ensures limit.Some? && limit.value >= 0 ==> |Crawled(PyTake(entries, limit), fetch)| <= limit.value
    ensures |Crawled(PyTake(entries, limit), fetch)| <= |entries|
  {
  }

  /** The `Resource` model row `main` builds: episode = first number of the
      title or 1, infohash = first 40-hex value after `btih:`. */
  datatype StoredResource = StoredResource(animeId: nat, groupId: int, episode: nat, title: string,
                                           downloadUrl: Option<string>, magnetHash: Option<string>)

  function ToStored(animeId: nat, r: Resource): (s: StoredResource)
    ensures s.episode == EpisodeOrOne(r.title)
    ensures s.magnetHash == MagnetHash(r.magnetUrl)
    ensures s.animeId == animeId && s.groupId == r.groupId && s.downloadUrl == r.magnetUrl
  {
    StoredResource(animeId, r.groupId, EpisodeOrOne(r.title), r.title, r.magnetUrl, MagnetHash(r.magnetUrl))
  }

  /** `main` on a resource with a proper magnet URI stores its infohash, and
      a title starting "12 ..." gets episode 12. */
  lemma StoredExample(animeId: nat, h: string, r: Resource)
    requires IsInfohash(h) && r.magnetUrl == Some("magnet:?xt=urn:btih:" + h + "&tr=x")
    requires r.title == NatToString(12) + " [1080p]"
    ensures ToStored(animeId, r).magnetHash == Some(h)
    ensures ToStored(animeId, r).episode == 12
  {
    MagnetHashOfUri(h, "&tr=x");
    EpisodeOfLeadingNumber(12, " [1080p]");
  }

  /** `_extract_description`: the first stripped string longer than 50 characters. */
  function Description(strings: seq<string>): (r: Option<string>)
    ensures r.Some? ==> r.value in strings && |r.value| > 50
    ensures r.None? <==> forall t :: t in strings ==> |t| <= 50
    ensures r.Some? ==> exists k :: 0 <= k < |strings| && strings[k] == r.value
                                  && forall j :: 0 <= j < k ==> |strings[j]| <= 50
  {
    if |strings| == 0 then None
    else if |strings[0]| > 50 then Some(strings[0])
    else
      var r := Description(strings[1..]);
      assert forall t :: t in strings[1..] ==> t in strings;
      assert forall t :: t in strings ==> t == strings[0] || t in strings[1..];
      assert r.Some? ==> exists k :: 0 <= k < |strings| && strings[k] == r.value
                                     && forall j :: 0 <= j < k ==> |strings[j]| <= 50 by {
        if r.Some? {
          var k :| 0 <= k < |strings[1..]| && strings[1..][k] == r.value
                   && forall j :: 0 <= j < k ==> |strings[1..][j]| <= 50;
          assert strings[k + 1] == r.value && forall j :: 0 <= j < k + 1 ==> |strings[j]| <= 50;
        }
      }
      r
  }
}

=== FILE: mikan_spider_script.dfy ===
/** The older stand-alone crawler mikan_spider.py. It shares the list page,
    the id scanner, the group-name validation and cleaning and the
    description rule with mikan.py; it differs in reading group names from
    the `li` texts themselves and in taking table rows of four cells. */
module MikanSpiderScript {
  import opened Wrappers
  import opened Strings
  import opened MikanScript

  /** The cleaned names of the valid `li` texts, in order. */
  function NamesOf(texts: seq<string>): (r: seq<string>)
    ensures |r| <= |texts|
  {
    if |texts| == 0 then []
    else
      var t := texts[|texts| - 1];
      NamesOf(texts[..|texts| - 1]) + (if IsValidSubtitleGroup(t) then [CleanSubtitleGroupName(t)] else [])
  }

  /** Every name comes from a valid text; an excluded navigation text never contributes. */
  lemma {:induction false} NamesFromValidTexts(texts: seq<string>)
    ensures forall n :: n in NamesOf(texts) ==> exists t :: t in texts && IsValidSubtitleGroup(t) && n == CleanSubtitleGroupName(t)
  {
    if |texts| > 0 {
      var init := texts[..|texts| - 1];
      NamesFromValidTexts(init);
      assert forall t :: t in init ==> t in texts;
    }
  }

  /** `_extract_subtitle_groups`: when a stripped string mentions
      "字幕组列表", the valid `li` texts, each cleaned of its date. */
  method ExtractSubtitleGroups(strings: seq<string>, liTexts: seq<string>) returns (names: seq<string>)
    ensures (forall t :: t in strings ==> !Contains(t, "字幕组列表")) ==> names == []
    ensures (exists t :: t in strings && Contains(t, "字幕组列表")) ==> names == NamesOf(liTexts)
  {
    names := [];
    for t := 0 to |strings|
      invariant forall u :: 0 <= u < t ==> !Contains(strings[u], "字幕组列表")
      invariant names == []
    {
      if Contains(strings[t], "字幕组列表") {
        for i := 0 to |liTexts|
          invariant names == NamesOf(liTexts[..i])
        {
          if IsValidSubtitleGroup(liTexts[i]) {
            names := names + [CleanSubtitleGroupName(liTexts[i])];
          }
          assert liTexts[..i + 1][..i] == liTexts[..i];
        }
        assert liTexts[..|liTexts|] == liTexts;
        return;
      }
    }
  }

  datatype Entry = Entry(title: string, fileSize: string, releaseDate: string,
                   downloadUrl: Option<string>, group: string)

  /** One row of at least four cells; the download link is the first link of the fourth cell. */
  function RowResource(cols: seq<Cell>, group: string): (r: Entry)
    requires |cols| >= 4
    ensures r.title == cols[0].text && r.fileSize == cols[1].text && r.releaseDate == cols[2].text
    ensures r.downloadUrl == Truthy(cols[3].href) && r.group == group
  {
    Entry(cols[0].text, cols[1].text, cols[2].text, Truthy(cols[3].href), group)
  }

  function RowsResources(rows: seq<seq<Cell>>, group: string): (r: seq<Entry>)
    ensures |r| <= |rows|
    ensures forall k :: 0 <= k < |r| ==> r[k].group == group
  {
    if |rows| == 0 then []
    else
      var cols := rows[|rows| - 1];
      RowsResources(rows[..|rows| - 1], group) + (if |cols| >= 4 then [RowResource(cols, group)] else [])
  }

  /** Rows with four or more cells are all kept, one resource each. */
  lemma {:induction false} WideRowsAllKept(rows: seq<seq<Cell>>, group: string)
    requires forall k :: 0 <= k < |rows| ==> |rows[k]| >= 4
    ensures |RowsResources(rows, group)| == |rows|
  {
    if |rows| > 0 { WideRowsAllKept(rows[..|rows| - 1], group); }
  }

  function TablesResources(tables: seq<Table>, group: string): (r: seq<Entry>)
    ensures forall k :: 0 <= k < |r| ==> r[k].group == group
  {
    if |tables| == 0 then []
    else
      var t := tables[|tables| - 1];
      TablesResources(tables[..|tables| - 1], group)
        + (if Contains(t.parentText, group) && |t.rows| > 0 then RowsResources(t.rows[1..], group) else [])
  }

  /** `_extract_group_resources`: the rows after the header of every table
      whose parent text mentions the group. */
  method ExtractGroupResources(tables: seq<Table>, group: string) returns (resources: seq<Entry>)
    ensures resources == TablesResources(tables, group)
  {
    resources := [];
    for i := 0 to |tables|
      invariant resources == TablesResources(tables[..i], group)
    {
      var seen := tables[..i + 1];
      assert seen[..i] == tables[..i] && seen[i] == tables[i];
      var t := tables[i];
      if Contains(t.parentText, group) && |t.rows| > 0 {
        var rs := ExtractRowResources(t.rows[1..], group);
        resources := resources + rs;
      }
    }
    assert tables[..|tables|] == tables;
  }

  /** The inner loop over one table's rows after the header. */
  method ExtractRowResources(rows: seq<seq<Cell>>, group: string) returns (resources: seq<Entry>)
    ensures resources == RowsResources(rows, group)
  {
    resources := [];
    for j := 0 to |rows|
      invariant resources == RowsResources(rows[..j], group)
    {
      var seen := rows[..j + 1];
      assert seen[..j] == rows[..j] && seen[j] == rows[j];
      if |rows[j]| >= 4 {
        resources := resources + [RowResource(rows[j], group)];
      }
    }
    assert rows[..|rows|] == rows;
  }

  function ByGroup(names: seq<string>, tables: seq<Table>): (m: map<string, seq<Entry>>)
    ensures forall n :: n in m ==> n in names && |m[n]| > 0 && m[n] == TablesResources(tables, n)
  {
    if |names| == 0 then map[]
    else
      var n := names[|names| - 1];
      var rs := TablesResources(tables, n);
      var m0 := ByGroup(names[..|names| - 1], tables);
      assert forall k :: k in m0 ==> k in names by {
        forall k | k in m0 ensures k in names { assert k in names[..|names| - 1]; }
      }
      if |rs| > 0 then m0[n := rs] else m0
  }

  /** A listed name's resources are present exactly when it has some. */
  lemma {:induction false} ByGroupComplete(names: seq<string>, tables: seq<Table>, n: string)
    requires n in names
    ensures n in ByGroup(names, tables) <==> |TablesResources(tables, n)| > 0
  {
    var last := names[|names| - 1];
    if n != last {
      assert n in names[..|names| - 1];
      ByGroupComplete(names[..|names| - 1], tables, n);
    }
  }

  /** `_extract_resources`: only groups with a non-empty resource list are kept. */
  method ExtractResources(names: seq<string>, tables: seq<Table>) returns (byGroup: map<string, seq<Entry>>)
    ensures byGroup == ByGroup(names, tables)
  {
    byGroup := map[];
    for i := 0 to |names|
      invariant byGroup == ByGroup(names[..i], tables)
    {
      var rs := ExtractGroupResources(tables, names[i]);
      if |rs| > 0 {
        byGroup := byGroup[names[i] := rs];
      }
      assert names[..i + 1][..i] == names[..i];
    }
    assert names[..|names|] == names;
  }
}

=== FILE: pipelines.dfy ===
/** Scraped items as the item pipelines see them: the item class and the
    fields that are set. */
module ScrapyItems {
  import opened PyValue

  datatype Kind = AnimeItem | ResourceItem | SubtitleGroupItem | AnimeSubtitleGroupItem | CrawlLogItem
                | OtherItem(className: string)

  datatype Item = Item(kind: Kind, fields: map<string, Value>)

  /** `item.get(k)`: `None` for a field that is not set. */
  function Get(item: Item, k: string): (v: Value)
    ensures k !in item.fields ==> v == Null
    ensures k in item.fields ==> v == item.fields[k]
  {
    DictGet(item.fields, k, Null)
  }

  /** `not item.get(a) or not item.get(b)`. */
  predicate Lacks(item: Item, a: string, b: string) {
    !Truthy(Get(item, a)) || !Truthy(Get(item, b))
  }

  /** What a pipeline stage does with an item: hands it on, or raises `DropItem`. */
  datatype Outcome = Passed(item: Item) | Dropped
}

/** The item pipelines of ikuyo/crawler/pipelines.py that decide which items
    reach the database: required-field validation and duplicate filtering. */
module IkuyoPipelines {
  import opened PyValue
  import opened ScrapyItems

  /** The items `ValidationPipeline` rejects. */
  predicate MissesRequired(item: Item) {
    match item.kind
    case AnimeItem => Lacks(item, "mikan_id", "title")
    case ResourceItem => Lacks(item, "mikan_id", "subtitle_group_id")
    case SubtitleGroupItem => Lacks(item, "id", "name")
    case AnimeSubtitleGroupItem => Lacks(item, "mikan_id", "subtitle_group_id")
    case _ => false
  }

  /** `ValidationPipeline.process_item`: an item missing a required field is
      dropped; every other item, of any class, passes unchanged. */
  function Validate(item: Item): (r: Outcome)
    ensures r.Dropped? <==> MissesRequired(item)
    ensures r.Passed? ==> r.item == item
  {
    if MissesRequired(item) then Dropped else Passed(item)
  }

  /** Crawl-log items and items of other classes are never validated away. */
  lemma OtherKindsPass(item: Item)
    requires item.kind.CrawlLogItem? || item.kind.OtherItem?
    ensures Validate(item) == Passed(item)
  {
  }

  /** The four seen-sets of `DuplicatesPipeline`. */
  datatype Seen = Seen(animeIds: set<Value>, groupIds: set<Value>, resourceHashes: set<Value>,
                       pairs: set<(Value, Value)>)

  /** Whether the item repeats one already seen. A resource with a falsy
      hash is never a repeat. */
  predicate IsDuplicate(seen: Seen, item: Item) {
    match item.kind
    case AnimeItem => Get(item, "mikan_id") in seen.animeIds
    case SubtitleGroupItem => Get(item, "id") in seen.groupIds
    case AnimeSubtitleGroupItem => (Get(item, "mikan_id"), Get(item, "subtitle_group_id")) in seen.pairs
    case ResourceItem => Truthy(Get(item, "magnet_hash")) && Get(item, "magnet_hash") in seen.resourceHashes
    case _ => false
  }

  /** The seen-sets after the item: its key is added to its class's set; a
      resource with a falsy hash adds nothing. */
  function Record(seen: Seen, item: Item): (s: Seen)
    ensures seen.animeIds <= s.animeIds && seen.groupIds <= s.groupIds
    ensures seen.resourceHashes <= s.resourceHashes && seen.pairs <= s.pairs
  {
    match item.kind
    case AnimeItem => seen.(animeIds := seen.animeIds + {Get(item, "mikan_id")})
    case SubtitleGroupItem => seen.(groupIds := seen.groupIds + {Get(item, "id")})
    case AnimeSubtitleGroupItem =>
      seen.(pairs := seen.pairs + {(Get(item, "mikan_id"), Get(item, "subtitle_group_id"))})
    case ResourceItem =>
      if Truthy(Get(item, "magnet_hash")) then seen.(resourceHashes := seen.resourceHashes + {Get(item, "magnet_hash")})
      else seen
    case _ => seen
  }

  /** A repeat changes no set: what it would add is already there. */
  lemma DuplicateRecordsNothing(seen: Seen, item: Item)
    requires IsDuplicate(seen, item)
    ensures Record(seen, item) == seen
  {
  }

  /** Once an anime, subtitle group, pair or hashed resource has passed,
      the same key is dropped from then on. */
  lemma SecondCopyDropped(seen: Seen, item: Item)
    requires item.kind.AnimeItem? || item.kind.SubtitleGroupItem? || item.kind.AnimeSubtitleGroupItem?
             || (item.kind.ResourceItem? && Truthy(Get(item, "magnet_hash")))
    ensures IsDuplicate(Record(seen, item), item)
  {
  }

  /** A resource without a truthy hash is never dropped and never recorded. */
  lemma UnhashedResourceKept(seen: Seen, item: Item)
    requires item.kind.ResourceItem? && !Truthy(Get(item, "magnet_hash"))
    ensures !IsDuplicate(seen, item) && Record(seen, item) == seen
  {
  }

  class DuplicatesPipeline {
    var seen: Seen

    constructor()
      ensures seen == Seen({}, {}, {}, {})
    {
      seen := Seen({}, {}, {}, {});
    }

    /** `process_item`: a repeat is dropped, anything else passes unchanged;
        either way the seen-sets become `Record(old(seen), item)`. */
    method ProcessItem(item: Item) returns (r: Outcome)
      modifies this
      ensures r == (if IsDuplicate(old(seen), item) then Dropped else Passed(item))
      ensures seen == Record(old(seen), item)
    {
      var dup := IsDuplicate(seen, item);
      if dup {
        DuplicateRecordsNothing(seen, item);
        return Dropped;
      }
      seen := Record(seen, item);
      return Passed(item);
    }
  }
}

/** The pipelines of src/ikuyo/crawler/pipelines.py: the same validation and
    duplicate filtering over three item classes, the log-only validation
    stage, the pass-through stage and the JSON array writer. */
module SrcIkuyoPipelines {
  import opened PyValue
  import opened Strings
  import opened ScrapyItems
  import IkuyoPipelines

  /** `IkuyoScrapyPipeline.process_item` hands every item on unchanged. */
  function PassThrough(item: Item): (r: Outcome)
    ensures r.Passed? && r.item == item
  {
    Passed(item)
  }

  /** `DataValidationPipeline`: missing fields are only logged; the item is
      never dropped or changed. */
  function DataValidation(item: Item): (r: Outcome)
    ensures r.Passed? && r.item == item
  {
    Passed(item)
  }

  /** The items `ValidationPipeline` rejects: only the anime, resource and
      subtitle-group classes are checked. */
  predicate MissesRequired(item: Item) {
    match item.kind
    case AnimeItem => Lacks(item, "mikan_id", "title")
    case ResourceItem => Lacks(item, "mikan_id", "subtitle_group_id")
    case SubtitleGroupItem => Lacks(item, "id", "name")
    case _ => false
  }

  function Validate(item: Item): (r: Outcome)
    ensures r.Dropped? <==> MissesRequired(item)
    ensures r.Passed? ==> r.item == item
  {
    if MissesRequired(item) then Dropped else Passed(item)
  }

  /** Unlike the ikuyo pipeline, a link item without its ids is let through. */
  lemma LinkItemsUnchecked(item: Item)
    requires item.kind.AnimeSubtitleGroupItem?
    ensures Validate(item) == Passed(item) && IkuyoPipelines.MissesRequired(item) == Lacks(item, "mikan_id", "subtitle_group_id")
  {
  }

  datatype Seen = Seen(animeIds: set<Value>, groupIds: set<Value>, resourceHashes: set<Value>)

  predicate IsDuplicate(seen: Seen, item: Item) {
    match item.kind
    case AnimeItem => Get(item, "mikan_id") in seen.animeIds
    case SubtitleGroupItem => Get(item, "id") in seen.groupIds
    case ResourceItem => Truthy(Get(item, "magnet_hash")) && Get(item, "magnet_hash") in seen.resourceHashes
    case _ => false
  }

  function Record(seen: Seen, item: Item): (s: Seen)
    ensures seen.animeIds <= s.animeIds && seen.groupIds <= s.groupIds && seen.resourceHashes <= s.resourceHashes
  {
    match item.kind
    case AnimeItem => seen.(animeIds := seen.animeIds + {Get(item, "mikan_id")})
    case SubtitleGroupItem => seen.(groupIds := seen.groupIds + {Get(item, "id")})
    case ResourceItem =>
      if Truthy(Get(item, "magnet_hash")) then seen.(resourceHashes := seen.resourceHashes + {Get(item, "magnet_hash")})
      else seen
    case _ => seen
  }

  lemma SecondCopyDropped(seen: Seen, item: Item)
    requires item.kind.AnimeItem? || item.kind.SubtitleGroupItem? || (item.kind.ResourceItem? && Truthy(Get(item, "magnet_hash")))
    ensures IsDuplicate(Record(seen, item), item)
  {
  }

  class DuplicatesPipeline {
    var seen: Seen

    constructor()
      ensures seen == Seen({}, {}, {})
    {
      seen := Seen({}, {}, {});
    }

    method ProcessItem(item: Item) returns (r: Outcome)
      modifies this
      ensures r == (if IsDuplicate(old(seen), item) then Dropped else Passed(item))
      ensures seen == Record(old(seen), item)
    {
      if IsDuplicate(seen, item) {
        return Dropped;
      }
      seen := Record(seen, item);
      return Passed(item);
    }
  }

  /** `sep.join(xs + [x])` adds the separator and `x` to the join of a non-empty `xs`. */
  lemma {:induction false} JoinSnoc(xs: seq<string>, x: string, sep: string)
    requires |xs| > 0
    ensures Join(xs + [x], sep) == Join(xs, sep) + sep + x
  {
    if |xs| > 1 {
      assert (xs + [x])[1..] == xs[1..] + [x];
      JoinSnoc(xs[1..], x, sep);
    } else {
      assert (xs + [x])[1..] == [x];
    }
  }

  /** The dumps of the items, in order. */
  function Dumped(items: seq<Item>, dumps: Item -> string): (r: seq<string>)
    ensures |r| == |items| && forall k :: 0 <= k < |items| ==> r[k] == dumps(items[k])
  {
    seq(|items|, k requires 0 <= k < |items| => dumps(items[k]))
  }

  /** The file of a finished run: a JSON array of the items' dumps. */
  function Framed(items: seq<Item>, dumps: Item -> string): string {
    "[\n" + Join(Dumped(items, dumps), ",\n") + "\n]"
  }

  /** `JsonWriterPipeline`; the file is the text written so far and
      `dumps` stands for `json.dumps(dict(item), indent=2)`. */
  class JsonWriterPipeline {
    const dumps: Item -> string
    var text: string
    var firstItem: bool
    ghost var written: seq<Item>

    /** The file holds the opening bracket and the dumps so far, separated by ",\n". */
    ghost predicate Valid()
      reads this
    {
      text == "[\n" + Join(Dumped(written, dumps), ",\n") && (firstItem <==> written == [])
    }

    /** `open_spider`. */
    constructor(dumps: Item -> string)
      ensures this.dumps == dumps && text == "[\n" && firstItem && written == [] && Valid()
    {
      this.dumps := dumps;
      text := "[\n";
      firstItem := true;
      written := [];
    }

    /** `process_item`: a separator before every item but the first, then
        the item's dump; the item passes unchanged. */
    method ProcessItem(item: Item) returns (r: Outcome)
      requires Valid()
      modifies this
      ensures Valid() && written == old(written) + [item] && r == Passed(item)
      ensures text == old(text) + (if old(firstItem) then "" else ",\n") + dumps(item)
    {
      if !firstItem {
        text := text + ",\n";
      }
      text := text + dumps(item);
      firstItem := false;
      ghost var ds := Dumped(written, dumps);
      if |written| > 0 {
        JoinSnoc(ds, dumps(item), ",\n");
      }
      assert Dumped(written + [item], dumps) == ds + [dumps(item)];
      written := written + [item];
      r := Passed(item);
    }

    /** `close_spider`: the closing bracket completes the array. */
    method CloseSpider()
      requires Valid()
      modifies this
      ensures text == Framed(written, dumps) && written == old(written)
    {
      text := text + "\n]";
    }
  }

  /** A run with no items writes an empty array. */
  lemma EmptyRunFramed(dumps: Item -> string)
    ensures Framed([], dumps) == "[\n\n]"
  {
  }
}

=== FILE: process_pool.dfy ===
/** The worker process pool (ikuyo/core/worker/process_pool.py): the slot
    table keyed by worker id, the running flag, the task and control queues,
    the idle/busy counts, the liveness monitor and the result message a
    worker builds. Operating-system processes are replaced by oracles: whether
    a spawn succeeds (and the pid it gets) and whether a process is alive. */
module ProcessPool {
  import opened Wrappers
  import opened PyValue

  datatype ProcessStatus = Idle | Busy | Error | Stopped

  /** `ProcessInfo`: the worker's pid, its status and its start time. */
  datatype Slot = Slot(pid: int, status: ProcessStatus, currentTaskId: Option<int>,
                       startTime: Option<int>, lastHeartbeat: Option<int>)

  /** The slot `_start_worker_process` records for a freshly spawned worker. */
  function FreshSlot(pid: int, now: int): (s: Slot)
    ensures s.status == Idle && s.startTime == Some(now) && s.pid == pid
    ensures s.currentTaskId.None? && s.lastHeartbeat.None?
  {
    Slot(pid, Idle, None, Some(now), None)
  }

  /** The ids of the slots in a given status. */
  function SlotsWith(m: map<int, Slot>, st: ProcessStatus): (r: set<int>)
    ensures forall k :: k in r <==> k in m && m[k].status == st
  {
    set k | k in m && m[k].status == st
  }

  /** Idle and busy workers are distinct slots, so together they never exceed the table. */
  lemma IdleBusyBound(m: map<int, Slot>)
    ensures |SlotsWith(m, Idle)| + |SlotsWith(m, Busy)| <= |m|
  {
    var i, b := SlotsWith(m, Idle), SlotsWith(m, Busy);
    assert i !! b;
    assert i + b <= m.Keys;
    assert |i + b| == |i| + |b|;
    SubsetCard(i + b, m.Keys);
  }

  lemma SubsetCard(a: set<int>, b: set<int>)
    requires a <= b
    ensures |a| <= |b|
  {
    assert b == a + (b - a);
  }

  /** A table in which every slot is idle counts all of its slots as idle and none as busy. */
  lemma AllIdleCounts(m: map<int, Slot>)
    requires forall k :: k in m ==> m[k].status == Idle
    ensures |SlotsWith(m, Idle)| == |m| && |SlotsWith(m, Busy)| == 0
  {
    var idle, busy := SlotsWith(m, Idle), SlotsWith(m, Busy);
    forall k | k in m ensures k in idle { }
    assert idle == m.Keys;
    forall k | k in busy ensures false { }
    assert busy == {};
  }

  /** A non-empty set has an element. */
  lemma NonEmpty(s: set<int>)
    requires s != {}
    ensures exists x :: x in s
  {
    if forall x :: x !in s {
      assert false;
    }
  }

  /** `get_pool_status`. */
  datatype PoolStatus = PoolStatus(totalWorkers: nat, idleWorkers: nat, busyWorkers: nat, isRunning: bool, queueSize: nat)

  /** The table `monitor_processes` leaves: a live slot is kept; a dead one is
      replaced by a fresh idle slot under the same id, or removed if the respawn fails. */
  function Monitored(m: map<int, Slot>, alive: int -> bool, spawn: int -> Option<int>, now: int): (r: map<int, Slot>)
    ensures r.Keys <= m.Keys
    ensures forall k :: k in m && alive(k) ==> k in r && r[k] == m[k]
    ensures forall k :: k in m && !alive(k) && spawn(k).Some? ==> k in r && r[k] == FreshSlot(spawn(k).value, now)
    ensures forall k :: k in m && !alive(k) && spawn(k).None? ==> k !in r
  {
    map k | k in m && (alive(k) || spawn(k).Some?) :: if alive(k) then m[k] else FreshSlot(spawn(k).value, now)
  }

  /** The table while `monitor_processes` still has the ids in `todo` to visit. */
  function PartlyMonitored(m: map<int, Slot>, todo: set<int>, alive: int -> bool, spawn: int -> Option<int>, now: int): map<int, Slot> {
    map k | k in m && (k in todo || alive(k) || spawn(k).Some?) :: if k in todo || alive(k) then m[k] else FreshSlot(spawn(k).value, now)
  }

  /** Visiting one more id restarts it if it is dead and changes nothing else. */
  lemma MonitorStep(m: map<int, Slot>, todo: set<int>, id: int, alive: int -> bool, spawn: int -> Option<int>, now: int)
    requires id in todo && todo <= m.Keys
    ensures var before, after := PartlyMonitored(m, todo, alive, spawn, now), PartlyMonitored(m, todo - {id}, alive, spawn, now);
      after == if alive(id) then before
               else if spawn(id).Some? then before[id := FreshSlot(spawn(id).value, now)]
               else before - {id}
  {
  }

  /** The control message that tells a worker to exit. */
  const StopMessage: map<string, Value> := map["action" := Str("stop")]

  class Pool {
    const maxWorkers: int
    var processes: map<int, Slot>
    var isRunning: bool
    var taskQueue: seq<map<string, Value>>
    var controlQueue: seq<map<string, Value>>

    /** No statement of this class ever marks a slot busy. */
    ghost predicate Valid()
      reads this
    {
      forall k :: k in processes ==> processes[k].status == Idle
    }

    constructor (maxWorkers: int)
      ensures Valid() && this.maxWorkers == maxWorkers && processes == map[] && !isRunning
      ensures taskQueue == [] && controlQueue == []
    {
      this.maxWorkers := maxWorkers;
      processes := map[];
      isRunning := false;
      taskQueue := [];
      controlQueue := [];
    }

    /** `_start_worker_process(id)`: on a successful spawn the id gets a fresh
        idle slot; a failed spawn is logged and the table is unchanged. */
    method StartWorker(id: int, spawn: int -> Option<int>, now: int)
      requires Valid()
      modifies this`processes
      ensures Valid()
      ensures spawn(id).Some? ==> processes == old(processes)[id := FreshSlot(spawn(id).value, now)]
      ensures spawn(id).None? ==> processes == old(processes)
    {
      var pid := spawn(id);
      if pid.Some? {
        processes := processes[id := FreshSlot(pid.value, now)];
      }
    }

    /** `start`: sets the flag, spawns workers 0..max_workers-1 and answers
        true even when some spawns fail; the ids that spawned now hold fresh
        idle slots and every other entry is as it was. */
    method Start(spawn: int -> Option<int>, now: int) returns (ok: bool)
      requires Valid()
      modifies this`processes, this`isRunning
      ensures Valid() && ok && isRunning
      ensures forall k :: 0 <= k < maxWorkers && spawn(k).Some? ==> k in processes && processes[k] == FreshSlot(spawn(k).value, now)
      ensures forall k :: (k < 0 || k >= maxWorkers || spawn(k).None?) ==>
                (k in processes <==> k in old(processes)) && (k in processes ==> processes[k] == old(processes)[k])
    {
      isRunning := true;
      var i := 0;
      while i < maxWorkers
        invariant Valid() && isRunning
        invariant maxWorkers <= 0 ==> i == 0
        invariant maxWorkers > 0 ==> 0 <= i <= maxWorkers
        invariant forall k :: 0 <= k < i && spawn(k).Some? ==> k in processes && processes[k] == FreshSlot(spawn(k).value, now)
        invariant forall k :: (k < 0 || k >= i || spawn(k).None?) ==>
                    (k in processes <==> k in old(processes)) && (k in processes ==> processes[k] == old(processes)[k])
      {
        StartWorker(i, spawn, now);
        i := i + 1;
      }
      ok := true;
    }

    /** `stop`: clears the flag, queues one stop message per configured worker
        and empties the slot table. */
    method Stop() returns (ok: bool)
      modifies this`processes, this`isRunning, this`controlQueue
      ensures Valid() && ok && !isRunning && processes == map[]
      ensures |controlQueue| == |old(controlQueue)| + (if maxWorkers > 0 then maxWorkers else 0)
      ensures controlQueue[..|old(controlQueue)|] == old(controlQueue)
      ensures forall k :: |old(controlQueue)| <= k < |controlQueue| ==> controlQueue[k] == StopMessage
    {
      isRunning := false;
      var i := 0;
      while i < maxWorkers
        invariant !isRunning
        invariant maxWorkers <= 0 ==> i == 0
        invariant maxWorkers > 0 ==> 0 <= i <= maxWorkers
        invariant |controlQueue| == |old(controlQueue)| + i
        invariant controlQueue[..|old(controlQueue)|] == old(controlQueue)
        invariant forall k :: |old(controlQueue)| <= k < |controlQueue| ==> controlQueue[k] == StopMessage
      {
        controlQueue := controlQueue + [StopMessage];
        i := i + 1;
      }
      processes := map[];
      ok := true;
    }

    /** `submit_task`: refused while the pool is stopped or when the queue is
        full; otherwise the payload is queued. */
    method SubmitTask(taskData: map<string, Value>, queueFull: bool) returns (ok: bool)
      modifies this`taskQueue
      ensures ok <==> isRunning && !queueFull
      ensures taskQueue == if ok then old(taskQueue) + [taskData] else old(taskQueue)
    {
      if !isRunning || queueFull {
        return false;
      }
      taskQueue := taskQueue + [taskData];
      ok := true;
    }

    /** `get_idle_workers`. */
    function IdleWorkers(): nat
      reads this
    {
      |SlotsWith(processes, Idle)|
    }

    /** `get_busy_workers`. */
    function BusyWorkers(): nat
      reads this
    {
      |SlotsWith(processes, Busy)|
    }

    /** `get_pool_status`: the counts agree with the table; since no slot is
        ever busy, every worker is idle. */
    method GetPoolStatus(queueSize: nat) returns (s: PoolStatus)
      requires Valid()
      ensures s.totalWorkers == |processes| && s.isRunning == isRunning && s.queueSize == queueSize
      ensures s.idleWorkers + s.busyWorkers <= s.totalWorkers
      ensures s.idleWorkers == s.totalWorkers && s.busyWorkers == 0
    {
      IdleBusyBound(processes);
      AllIdleCounts(processes);
      s := PoolStatus(|processes|, IdleWorkers(), BusyWorkers(), isRunning, queueSize);
    }

    /** `_restart_worker_process(id)`: the old slot is dropped and a new worker spawned under the same id. */
    method RestartWorker(id: int, spawn: int -> Option<int>, now: int)
      requires Valid()
      modifies this`processes
      ensures Valid()
      ensures spawn(id).Some? ==> processes == old(processes)[id := FreshSlot(spawn(id).value, now)]
      ensures spawn(id).None? ==> processes == old(processes) - {id}
    {
      if id in processes {
        processes := processes - {id};
      }
      StartWorker(id, spawn, now);
    }

    /** `monitor_processes`: every dead slot is restarted under its own id and
        live slots are left alone, whatever order the ids are visited in. */
    method MonitorProcesses(alive: int -> bool, spawn: int -> Option<int>, now: int)
      requires Valid()
      modifies this`processes
      ensures Valid()
      ensures processes == Monitored(old(processes), alive, spawn, now)
    {
      ghost var m0 := processes;
      var todo := processes.Keys;
      assert processes == PartlyMonitored(m0, todo, alive, spawn, now);
      while todo != {}
        invariant Valid()
        invariant todo <= m0.Keys
        invariant processes == PartlyMonitored(m0, todo, alive, spawn, now)
        decreases |todo|
      {
        NonEmpty(todo);
        var id :| id in todo;
        MonitorStep(m0, todo, id, alive, spawn, now);
        if !alive(id) {
          RestartWorker(id, spawn, now);
        }
        todo := todo - {id};
      }
      assert PartlyMonitored(m0, {}, alive, spawn, now) == Monitored(m0, alive, spawn, now);
    }
  }

  /** The result a worker queues for one task: its worker id and the payload's
      `task_id`, with the runner's status (defaulting to "failed"), result and
      error; if the runner raises, status "failed" and the error text. */
  function WorkerResult(workerId: int, taskData: map<string, Value>, outcome: Result<map<string, Value>, string>): (r: map<string, Value>)
    ensures r.Keys == {"worker_id", "task_id", "status", "result", "error"}
    ensures r["worker_id"] == Int(workerId) && r["task_id"] == DictGet(taskData, "task_id", Null)
    ensures outcome.Err? ==> r["status"] == Str("failed") && r["error"] == Str(outcome.error) && r["result"] == Null
    ensures outcome.Ok? ==> r["status"] == DictGet(outcome.value, "status", Str("failed"))
    ensures outcome.Ok? && "status" !in outcome.value ==> r["status"] == Str("failed")
    ensures outcome.Ok? ==> r["result"] == DictGet(outcome.value, "result", Null)
                            && r["error"] == DictGet(outcome.value, "error", Null)
  {
    var taskId := DictGet(taskData, "task_id", Null);
    match outcome
    case Ok(sr) =>
      map["worker_id" := Int(workerId), "task_id" := taskId, "status" := DictGet(sr, "status", Str("failed")),
          "result" := DictGet(sr, "result", Null), "error" := DictGet(sr, "error", Null)]
    case Err(e) =>
      map["worker_id" := Int(workerId), "task_id" := taskId, "status" := Str("failed"),
          "result" := Null, "error" := Str(e)]
  }

  /** What one turn of the worker loop does. */
  datatype WorkerAction = Exit | Wait | Emit(result: map<string, Value>)

  /** One turn of `_worker_process`: a pending stop message ends the loop;
      with no task queued the worker waits; otherwise it runs the task and emits its result. */
  function WorkerTurn(workerId: int, control: Option<map<string, Value>>, task: Option<map<string, Value>>,
                      outcome: Result<map<string, Value>, string>): (a: WorkerAction)
    ensures control.Some? && DictGet(control.value, "action", Null) == Str("stop") ==> a == Exit
    ensures a.Emit? ==> task.Some? && a.result == WorkerResult(workerId, task.value, outcome)
  {
    if control.Some? && DictGet(control.value, "action", Null) == Str("stop") then Exit
    else if task.None? then Wait
    else Emit(WorkerResult(workerId, task.value, outcome))
  }
}

=== FILE: progress_consumer.dfy ===
/** The Redis progress relay (ikuyo/core/worker/progress_consumer.py): the
    channel-prefix dispatch of one pub/sub message and the three table
    writes it leads to. The subscription loop is replaced by one step per
    message; `json.loads` and the session's failures are oracle inputs. */
module ProgressConsumer {
  import opened Wrappers
  import opened PyValue
  import opened Strings
  import opened TaskModel

  const ProgressPrefix := "crawler_progress:"
  const StatusPrefix := "crawler_status:"
  const ResultPrefix := "crawler_result:"

  /** `int(channel.split(":")[1])`: the integer between the first and second
      colon; a channel without a colon (IndexError) or with a non-integer
      there (ValueError) names no task. */
  function ChannelTaskId(channel: string): (r: Option<int>)
    ensures Find(channel, ":").None? ==> r.None?
  {
    var parts := SplitOn(channel, ":");
    if |parts| < 2 then None else PyInt(parts[1])
  }

  /** A channel built as `<name>:<id>` names task `id` again. */
  lemma ChannelTaskIdRoundTrip(name: string, id: nat)
    requires forall i :: 0 <= i < |name| ==> name[i] != ':'
    ensures ChannelTaskId(name + ":" + NatToString(id)) == Some(id)
  {
    var digits := NatToString(id);
    forall i | 0 <= i < |digits| ensures digits[i] != ':' {
      assert IsDigit(digits[i]);
    }
    SplitOnce(name, ':', digits);
    assert name + ":" + digits == name + [':'] + digits;
    PyIntOfNatToString(id);
  }

  /** Which handler a channel selects. */
  datatype Handler = Progress | Status | ResultSummary | NoHandler

  /** The `if/elif` chain on the channel prefix. */
  function HandlerFor(channel: string): (h: Handler)
    ensures h == Progress <==> StartsWith(channel, ProgressPrefix)
    ensures h == Status <==> !StartsWith(channel, ProgressPrefix) && StartsWith(channel, StatusPrefix)
    ensures h == ResultSummary <==> !StartsWith(channel, ProgressPrefix) && !StartsWith(channel, StatusPrefix) && StartsWith(channel, ResultPrefix)
  {
    if StartsWith(channel, ProgressPrefix) then Progress
    else if StartsWith(channel, StatusPrefix) then Status
    else if StartsWith(channel, ResultPrefix) then ResultSummary
    else NoHandler
  }

  /** The three prefixes exclude each other, so a channel selects at most one handler. */
  lemma PrefixesDisjoint(channel: string)
    ensures !(StartsWith(channel, ProgressPrefix) && StartsWith(channel, StatusPrefix))
    ensures !(StartsWith(channel, ProgressPrefix) && StartsWith(channel, ResultPrefix))
    ensures !(StartsWith(channel, StatusPrefix) && StartsWith(channel, ResultPrefix))
  {
    if StartsWith(channel, ProgressPrefix) {
      assert channel[8] == 'p';
    }
    if StartsWith(channel, StatusPrefix) {
      assert channel[8] == 's';
    }
  }

  /** `round(v, 2)` accepts numbers (and booleans, which are integers in
      Python); `None` is not rounded but skipped by `update_progress`. */
  function RoundArg(v: Value): (r: Result<Option<real>, string>)
    ensures r.Err? <==> !(v.Null? || v.Int? || v.Real? || v.Bool?)
    ensures r == Ok(None) <==> v.Null?
    ensures v.Int? ==> r == Ok(Some(v.i as real))
    ensures v.Real? ==> r == Ok(Some(v.r))
  {
    match v
    case Null => Ok(None)
    case Int(i) => Ok(Some(i as real))
    case Real(r) => Ok(Some(r))
    case Bool(b) => Ok(Some(if b then 1.0 else 0.0))
    case _ => Err("type " + TypeName(v) + " doesn't define __round__ method")
  }

  /** A count argument, which `update_progress` assigns unrounded. The
      model's count columns hold integers only, so a float or a text count,
      which the source would hand to the database as it is, is treated as a
      failed update that leaves the row unchanged. */
  function CountArg(v: Value): (r: Result<Option<int>, string>)
    ensures r.Err? <==> !(v.Null? || v.Int? || v.Bool?)
    ensures r == Ok(None) <==> v.Null?
    ensures v.Int? ==> r == Ok(Some(v.i))
  {
    match v
    case Null => Ok(None)
    case Int(i) => Ok(Some(i))
    case Bool(b) => Ok(Some(if b then 1 else 0))
    case _ => Err("count is not an integer")
  }

  /** The five keyword arguments forwarded to `update_progress`; an absent key is `None`. */
  function ProgressArgsOf(data: map<string, Value>): (r: Result<ProgressArgs, string>)
    ensures r.Ok? && "percentage" !in data ==> r.value.percentage.None?
    ensures r.Ok? && "processed_items" !in data ==> r.value.processedItems.None?
    ensures r.Ok? && "total_items" !in data ==> r.value.totalItems.None?
    ensures r.Ok? && "processing_speed" !in data ==> r.value.processingSpeed.None?
    ensures r.Ok? && "estimated_remaining" !in data ==> r.value.estimatedRemaining.None?
    ensures r.Ok? && "processed_items" in data && data["processed_items"].Int? ==> r.value.processedItems == Some(data["processed_items"].i)
    ensures r.Ok? && "total_items" in data && data["total_items"].Int? ==> r.value.totalItems == Some(data["total_items"].i)
  {
    var p := RoundArg(DictGet(data, "percentage", Null));
    var c := CountArg(DictGet(data, "processed_items", Null));
    var t := CountArg(DictGet(data, "total_items", Null));
    var s := RoundArg(DictGet(data, "processing_speed", Null));
    var e := RoundArg(DictGet(data, "estimated_remaining", Null));
    if p.Err? then Err(p.error)
    else if c.Err? then Err(c.error)
    else if t.Err? then Err(t.error)
    else if s.Err? then Err(s.error)
    else if e.Err? then Err(e.error)
    else Ok(ProgressArgs(p.value, c.value, t.value, s.value, e.value))
  }

  /** One message from the pattern subscription. */
  datatype Message = Message(kind: string, channel: string, data: string)

  /** How handling a message ends: ignored, handled (possibly with a logged
      error), or the listener dies because the payload is not JSON, which is
      decoded outside the `try`. */
  datatype Outcome = Ignored | Handled | ListenerDies

  /** The `result_summary` column after `task.result_summary = v`: a JSON
      null is stored as NULL, any other value as its `str`. */
  function SummaryOf(v: Value, render: Value -> string): (r: Option<string>)
    ensures r.None? <==> v == Null
    ensures v.Str? ==> r == Some(v.s)
  {
    if v == Null then None else Some(StrOf(v, render))
  }

  /** The table after one message. The handler's session may fail (`dbOk`);
      any error inside the handler leaves the table as it was, and so does a
      JSON null status, which the NOT NULL `status` column refuses at the
      commit. */
  function Relay(rows: map<int, TaskRecord>, m: Message, loads: string -> Option<Value>, dbOk: bool,
                 round2: real -> real, render: Value -> string, now: Time): (r: map<int, TaskRecord>)
    requires WellKeyed(rows)
    ensures r.Keys == rows.Keys
    ensures forall k :: k in rows && Some(k) != ChannelTaskId(m.channel) ==> r[k] == rows[k]
    ensures !dbOk ==> r == rows
    ensures m.kind != "pmessage" || loads(m.data).None? ==> r == rows
    ensures (loads(m.data).Some? && ChannelTaskId(m.channel).Some? && ChannelTaskId(m.channel).value in rows
             && RelayedRow(rows[ChannelTaskId(m.channel).value], HandlerFor(m.channel), loads(m.data).value,
                           round2, render, now).None?) ==> r == rows
  {
    if m.kind != "pmessage" || loads(m.data).None? then rows
    else
      var id := ChannelTaskId(m.channel);
      var h := HandlerFor(m.channel);
      if h == NoHandler || id.None? || id.value !in rows || !dbOk then rows
      else
        match RelayedRow(rows[id.value], h, loads(m.data).value, round2, render, now)
        case None => rows
        case Some(t) => Store(rows, t)
  }

  /** What handler `h` makes of the task's row, or none when it raises or
      its commit fails, so that the row stays as it was. */
  function RelayedRow(t: TaskRecord, h: Handler, data: Value, round2: real -> real, render: Value -> string,
                      now: Time): (r: Option<TaskRecord>)
    ensures r.Some? ==> r.value.id == t.id
    ensures h == NoHandler || !data.Dict? ==> r.None?
    ensures data.Dict? && h == Progress ==> (r.None? <==> ProgressArgsOf(data.entries).Err?)
    ensures data.Dict? && h == Status ==> (r.None? <==> "status" !in data.entries || data.entries["status"] == Null)
    ensures data.Dict? && h == ResultSummary ==> (r.None? <==> "result_summary" !in data.entries)
  {
    if h == NoHandler || !data.Dict? then None
    else if h == Progress then
      var a := ProgressArgsOf(data.entries);
      if a.Err? then None else Some(UpdateProgress(t, a.value, round2))
    else if h == Status then
      if "status" !in data.entries || data.entries["status"] == Null then None
      else
        var status := StrOf(data.entries["status"], render);
        var err := DictGet(data.entries, "error_message", Null);
        Some(WithStatus(t, status, if Truthy(err) then Some(StrOf(err, render)) else None, now))
    else
      if "result_summary" !in data.entries then None
      else Some(t.(resultSummary := SummaryOf(data.entries["result_summary"], render)))
  }

  /** The status relay applies no transition check: whatever status is sent
      is stored, the old error survives unless a truthy one is sent, and
      `completed_at` is stamped exactly for the terminal statuses. */
  lemma StatusRelayWrites(rows: map<int, TaskRecord>, m: Message, loads: string -> Option<Value>,
                          round2: real -> real, render: Value -> string, now: Time, id: int, status: string)
    requires WellKeyed(rows) && m.kind == "pmessage" && loads(m.data).Some? && loads(m.data).value.Dict?
    requires ChannelTaskId(m.channel) == Some(id) && id in rows && StartsWith(m.channel, StatusPrefix)
    requires "status" in loads(m.data).value.entries && loads(m.data).value.entries["status"] == Str(status)
    ensures var r := Relay(rows, m, loads, true, round2, render, now)[id];
      r.status == status
      && (IsTerminal(status) ==> r.completedAt == Some(now))
      && (!IsTerminal(status) ==> r.completedAt == rows[id].completedAt)
      && (!Truthy(DictGet(loads(m.data).value.entries, "error_message", Null)) ==> r.errorMessage == rows[id].errorMessage)
      && r.(status := rows[id].status, errorMessage := rows[id].errorMessage, completedAt := rows[id].completedAt) == rows[id]
  {
    PrefixesDisjoint(m.channel);
  }

  /** A JSON null status makes the commit fail, so the row stays as it was. */
  lemma NullStatusUnchanged(rows: map<int, TaskRecord>, m: Message, loads: string -> Option<Value>,
                            round2: real -> real, render: Value -> string, now: Time)
    requires WellKeyed(rows) && m.kind == "pmessage" && loads(m.data).Some? && loads(m.data).value.Dict?
    requires StartsWith(m.channel, StatusPrefix)
    requires "status" in loads(m.data).value.entries && loads(m.data).value.entries["status"] == Null
    ensures Relay(rows, m, loads, true, round2, render, now) == rows
  {
    PrefixesDisjoint(m.channel);
  }

  /** The result relay overwrites `result_summary` and nothing else; a JSON
      null clears it. */
  lemma ResultRelayWrites(rows: map<int, TaskRecord>, m: Message, loads: string -> Option<Value>,
                          round2: real -> real, render: Value -> string, now: Time, id: int)
    requires WellKeyed(rows) && m.kind == "pmessage" && loads(m.data).Some? && loads(m.data).value.Dict?
    requires ChannelTaskId(m.channel) == Some(id) && id in rows && StartsWith(m.channel, ResultPrefix)
    requires "result_summary" in loads(m.data).value.entries
    ensures Relay(rows, m, loads, true, round2, render, now)[id]
      == rows[id].(resultSummary := SummaryOf(loads(m.data).value.entries["result_summary"], render))
  {
    PrefixesDisjoint(m.channel);
  }

  /** The progress relay forwards the five fields to `update_progress`. */
  lemma ProgressRelayWrites(rows: map<int, TaskRecord>, m: Message, loads: string -> Option<Value>,
                            round2: real -> real, render: Value -> string, now: Time, id: int)
    requires WellKeyed(rows) && m.kind == "pmessage" && loads(m.data).Some? && loads(m.data).value.Dict?
    requires ChannelTaskId(m.channel) == Some(id) && id in rows && StartsWith(m.channel, ProgressPrefix)
    requires ProgressArgsOf(loads(m.data).value.entries).Ok?
    ensures Relay(rows, m, loads, true, round2, render, now)[id]
      == UpdateProgress(rows[id], ProgressArgsOf(loads(m.data).value.entries).value, round2)
  {
  }

  /** A message for a task that is not in the table changes nothing. */
  lemma UnknownTaskUnchanged(rows: map<int, TaskRecord>, m: Message, loads: string -> Option<Value>, dbOk: bool,
                             round2: real -> real, render: Value -> string, now: Time)
    requires WellKeyed(rows)
    requires ChannelTaskId(m.channel).None? || ChannelTaskId(m.channel).value !in rows
    ensures Relay(rows, m, loads, dbOk, round2, render, now) == rows
  {
  }

  /** One turn of the `pubsub.listen()` loop, applied to the table. */
  method ListenStep(db: TaskDb, m: Message, loads: string -> Option<Value>, dbOk: bool,
                    round2: real -> real, render: Value -> string, now: Time) returns (outcome: Outcome)
    requires db.Valid()
    modifies db`rows
    ensures db.Valid()
    ensures db.rows == Relay(old(db.rows), m, loads, dbOk, round2, render, now)
    ensures outcome == (if m.kind != "pmessage" then Ignored else if loads(m.data).None? then ListenerDies else Handled)
  {
    if m.kind != "pmessage" {
      return Ignored;
    }
    var decoded := loads(m.data);
    if decoded.None? {
      return ListenerDies;
    }
    outcome := Handled;
    var next := Relay(db.rows, m, loads, dbOk, round2, render, now);
    var id := ChannelTaskId(m.channel);
    if id.Some? && id.value in db.rows && next != db.rows {
      db.Update(next[id.value]);
      assert db.rows == next;
    }
  }
}

=== FILE: progress_reporter.dfy ===
/** The per-task progress reporter used by spiders
    (ikuyo/core/crawler/progress_reporter.py) and the module-level
    "current reporter" it offers. Each report opens a session, re-reads the
    row and writes it back; `ok` says whether that session completes without
    raising. */
module ProgressReporting {
  import opened Wrappers
  import opened PyValue
  import opened TaskModel

  class ProgressReporter {
    const taskId: int

    constructor (taskId: int)
      ensures this.taskId == taskId
    {
      this.taskId := taskId;
    }

    /** `report_progress`. The serialized progress is assigned to
        `task.progress`, a field the task model does not declare, and the
        model rejects that assignment by raising. The handler catches it, so
        the answer is false for every task, as it is for a missing one, and
        no row changes. */
    method ReportProgress(db: TaskDb, progress: map<string, Value>) returns (success: bool)
      ensures !success
    {
      var t := db.Get(taskId);
      if t.None? {
        return false;
      }
      success := false;
    }

    /** `report_status`: for an existing task the status write of
        `TaskModel.WithStatus` is committed; a missing task or a failing
        session changes nothing and answers false. */
    method ReportStatus(db: TaskDb, status: string, errorMessage: Option<string>, ok: bool, now: Time)
      returns (success: bool)
      requires db.Valid()
      modifies db`rows
      ensures db.Valid()
      ensures success <==> taskId in old(db.rows) && ok
      ensures db.rows == if success then Store(old(db.rows), WithStatus(old(db.rows)[taskId], status, errorMessage, now))
                         else old(db.rows)
    {
      var t := db.Get(taskId);
      if t.None? || !ok {
        return false;
      }
      db.Update(WithStatus(t.value, status, errorMessage, now));
      success := true;
    }

    /** `report_result`: only `result_summary` of an existing task changes. */
    method ReportResult(db: TaskDb, resultSummary: string, ok: bool) returns (success: bool)
      requires db.Valid()
      modifies db`rows
      ensures db.Valid()
      ensures success <==> taskId in old(db.rows) && ok
      ensures db.rows == if success then Store(old(db.rows), old(db.rows)[taskId].(resultSummary := Some(resultSummary)))
                         else old(db.rows)
    {
      var t := db.Get(taskId);
      if t.None? || !ok {
        return false;
      }
      db.Update(t.value.(resultSummary := Some(resultSummary)));
      success := true;
    }
  }

  /** The module global `_current_reporter` and the functions that delegate to it. */
  class CurrentReporter {
    var current: Option<ProgressReporter>

    constructor ()
      ensures current.None?
    {
      current := None;
    }

    /** `set_current_task`: a new reporter for `taskId` replaces the old one. */
    method SetCurrentTask(taskId: int)
      modifies this`current
      ensures current.Some? && current.value.taskId == taskId && fresh(current.value)
    {
      var r := new ProgressReporter(taskId);
      current := Some(r);
    }

    /** Module-level `report_progress`: false while no task is current, and
        the current reporter's answer, also false, otherwise. */
    method ReportProgress(db: TaskDb, progress: map<string, Value>) returns (success: bool)
      ensures !success
    {
      if current.None? {
        return false;
      }
      success := current.value.ReportProgress(db, progress);
    }

    /** Module-level `report_status`: false and no change while no task is
        current, otherwise the current reporter's answer. */
    method ReportStatus(db: TaskDb, status: string, errorMessage: Option<string>, ok: bool, now: Time)
      returns (success: bool)
      requires db.Valid()
      modifies db`rows
      ensures db.Valid()
      ensures current.None? ==> !success && db.rows == old(db.rows)
      ensures current.Some? ==> (success <==> current.value.taskId in old(db.rows) && ok)
      ensures current.Some? && success ==>
        db.rows == Store(old(db.rows), WithStatus(old(db.rows)[current.value.taskId], status, errorMessage, now))
      ensures !success ==> db.rows == old(db.rows)
    {
      if current.None? {
        return false;
      }
      success := current.value.ReportStatus(db, status, errorMessage, ok, now);
    }

    /** Module-level `report_result`. */
    method ReportResult(db: TaskDb, resultSummary: string, ok: bool) returns (success: bool)
      requires db.Valid()
      modifies db`rows
      ensures db.Valid()
      ensures current.None? ==> !success && db.rows == old(db.rows)
      ensures current.Some? ==> (success <==> current.value.taskId in old(db.rows) && ok)
      ensures current.Some? && success ==>
        db.rows == Store(old(db.rows), old(db.rows)[current.value.taskId].(resultSummary := Some(resultSummary)))
      ensures !success ==> db.rows == old(db.rows)
    {
      if current.None? {
        return false;
      }
      success := current.value.ReportResult(db, resultSummary, ok);
    }
  }

  /** Reporting the same status twice leaves the row as one report does, as
      long as the clock has not moved. */
  lemma StatusReportIdempotent(t: TaskRecord, status: string, errorMessage: Option<string>, now: Time)
    ensures WithStatus(WithStatus(t, status, errorMessage, now), status, errorMessage, now)
         == WithStatus(t, status, errorMessage, now)
  {
  }

  /** A non-terminal status report never stamps `completed_at`, and a terminal one always does. */
  lemma StatusReportStamp(t: TaskRecord, status: string, errorMessage: Option<string>, now: Time)
    ensures WithStatus(t, status, errorMessage, now).completedAt != t.completedAt ==> IsTerminal(status)
    ensures IsTerminal(status) ==> WithStatus(t, status, errorMessage, now).completedAt == Some(now)
  {
  }
}

=== FILE: py_value.dfy ===
/** Decoded JSON / Python values as they flow through task parameters, scraped
    items and cache entries, with Python's truthiness rules. */
module PyValue {
  import opened Wrappers
  import opened Strings

  /** A JSON-shaped Python value (RFC 8259 values plus Python's `None`). Dict
      entries are keyed by strings, as JSON objects are. */
  datatype Value =
    | Null
    | Bool(b: bool)
    | Int(i: int)
    | Real(r: real)
    | Str(s: string)
    | List(items: seq<Value>)
    | Dict(entries: map<string, Value>)

  /** Python truthiness: `None`, `False`, zero, and empty strings and containers are false. */
  predicate Truthy(v: Value) {
    match v
    case Null => false
    case Bool(b) => b
    case Int(i) => i != 0
    case Real(r) => r != 0.0
    case Str(s) => |s| > 0
    case List(xs) => |xs| > 0
    case Dict(m) => |m| > 0
  }

  /** `d.get(k, default)`: the default applies only when the key is absent,
      never when the stored value is `None`. */
  function DictGet(d: map<string, Value>, k: string, default: Value): (r: Value)
    ensures k in d ==> r == d[k]
    ensures k !in d ==> r == default
  {
    if k in d then d[k] else default
  }

  /** `x or y` on values. */
  function Or(x: Value, y: Value): (r: Value)
    ensures Truthy(x) ==> r == x
    ensures !Truthy(x) ==> r == y
  {
    if Truthy(x) then x else y
  }

  /** `type(v).__name__`, as it appears in Python's error messages. */
  function TypeName(v: Value): string {
    match v
    case Null => "NoneType"
    case Bool(_) => "bool"
    case Int(_) => "int"
    case Real(_) => "float"
    case Str(_) => "str"
    case List(_) => "list"
    case Dict(_) => "dict"
  }

  /** The message of the AttributeError raised by `v.name` on a value without that attribute. */
  function NoAttribute(v: Value, name: string): string {
    "'" + TypeName(v) + "' object has no attribute '" + name + "'"
  }

  /** `str(v)`. `None`, booleans, integers and strings are spelt out; floats,
      lists and dicts are rendered by `render`, standing for their `repr`. */
  function StrOf(v: Value, render: Value -> string): (r: string)
    ensures v.Str? ==> r == v.s
    ensures v.Int? && v.i >= 0 ==> AllDigits(r)
  {
    match v
    case Null => "None"
    case Bool(b) => if b then "True" else "False"
    case Int(i) => IntToString(i)
    case Str(s) => s
    case _ => render(v)
  }

  /** Reading back `str(i)` with `int()` gives `i` for every natural number. */
  lemma StrOfIntRoundTrip(i: nat, render: Value -> string)
    ensures PyInt(StrOf(Int(i), render)) == Some(i)
  {
    PyIntOfNatToString(i);
  }
}

=== FILE: redis_consumer.dfy ===
/** The Redis queue consumer (ikuyo/core/worker/redis_consumer.py): message
    validation in one pass of `_consume_loop`, the claim and rollback in
    `_process_task`, its `_prepare_task_data`, and the start/stop flags. The
    blocking pop, the pool and the database's failures are oracle inputs. */
module RedisConsumer {
  import opened Wrappers
  import opened PyValue
  import opened TaskModel
  import TaskDispatcher

  /** `_prepare_task_data`: string parameters are JSON-decoded and any other
      value (here only `None`) is passed on as it is; only a decode failure
      gives `None`. There is no emptiness check. */
  function PrepareTaskData(t: TaskRecord, loads: string -> Option<Value>): (r: Option<map<string, Value>>)
    ensures r.None? <==> t.parameters.Some? && loads(t.parameters.value).None?
    ensures r.Some? && t.parameters.None? ==> r.value == Payload(t, Null)
    ensures r.Some? ==> r.value.Keys == {"task_id", "task_type", "parameters", "created_at"}
  {
    if t.parameters.None? then Some(Payload(t, Null))
    else
      match loads(t.parameters.value)
      case None => None
      case Some(params) => Some(Payload(t, params))
  }

  /** The two preparations differ on empty parameters: a pending task whose
      parameters are `{}` is prepared here and skipped by the dispatcher. */
  lemma EmptyParametersDiffer(t: TaskRecord, loads: string -> Option<Value>)
    requires TaskDispatcher.DecodesJson(loads) && t.parameters == Some("{}")
    ensures PrepareTaskData(t, loads).Some? && TaskDispatcher.PrepareTaskData(t, loads).None?
  {
  }

  /** Whether the "running" write commits, the pool accepts the payload, and
      the rollback write commits. */
  datatype Attempt = Attempt(claimOk: bool, submitOk: bool, rollbackOk: bool)

  /** The table after `_process_task(task_id)` and the payload it submitted, if any. */
  datatype Claim = Claim(rows: map<int, TaskRecord>, submitted: Option<map<string, Value>>)

  /** `_process_task`: a missing or non-pending task, or one whose data cannot
      be prepared, is left alone; otherwise it is claimed (running, started
      now) and submitted, and rolled back to pending with no start time when
      the pool refuses it. */
  function ProcessTask(rows: map<int, TaskRecord>, id: int, a: Attempt,
                       loads: string -> Option<Value>, now: Time): (c: Claim)
    requires WellKeyed(rows)
    ensures c.rows.Keys == rows.Keys
    ensures forall k :: k in rows && k != id ==> c.rows[k] == rows[k]
    ensures id !in rows || rows[id].status != "pending" ==> c == Claim(rows, None)
    ensures id in rows && PrepareTaskData(rows[id], loads).None? ==> c == Claim(rows, None)
    ensures c.submitted.Some? ==>
      id in rows && c.rows[id] == TaskDispatcher.Claimed(rows[id], now)
      && c.submitted == PrepareTaskData(rows[id], loads)
    ensures id in rows && rows[id].status == "pending" && PrepareTaskData(rows[id], loads).Some? && a.claimOk && !a.submitOk && a.rollbackOk
      ==> c.rows[id].status == "pending" && c.rows[id].startedAt.None? && c.submitted.None?
    ensures id in rows && rows[id].status == "pending" && PrepareTaskData(rows[id], loads).Some? ==>
      (c.submitted.Some? <==> a.claimOk && a.submitOk)
    ensures id in rows && rows[id].status == "pending" && PrepareTaskData(rows[id], loads).Some? && !a.claimOk
      ==> c == Claim(rows, None)
    ensures id in rows && rows[id].status == "pending" && PrepareTaskData(rows[id], loads).Some? && a.claimOk && !a.submitOk && !a.rollbackOk
      ==> c.rows[id] == TaskDispatcher.Claimed(rows[id], now) && c.submitted.None?
  {
    if id !in rows then Claim(rows, None)
    else
      var t := rows[id];
      if t.status != "pending" then Claim(rows, None)
      else
        match PrepareTaskData(t, loads)
        case None => Claim(rows, None)
        case Some(data) =>
          if !a.claimOk then Claim(rows, None)
          else
            var claimed := TaskDispatcher.Claimed(t, now);
            if a.submitOk then Claim(Store(rows, claimed), Some(data))
            else if a.rollbackOk then Claim(Store(rows, TaskDispatcher.RolledBack(claimed)), None)
            else Claim(Store(rows, claimed), None)
  }

  /** The task id a decoded message names, if it is a dict with a truthy
      `task_id`. The id is returned whatever its type; `ConsumeOnce` looks up
      integer ids only and treats a truthy id of any other type as naming no
      row, so such a message changes nothing. */
  function MessageTaskId(message: Option<Value>, loads: string -> Option<Value>): (r: Option<Value>)
    ensures r.Some? ==> Truthy(r.value)
  {
    if message.None? then None
    else
      var m := message.value;
      if !m.List? || |m.items| != 2 then None
      else if !m.items[1].Str? then None
      else
        match loads(m.items[1].s)
        case None => None
        case Some(data) =>
          if !data.Dict? then None
          else
            var taskId := DictGet(data.entries, "task_id", Null);
            if Truthy(taskId) then Some(taskId) else None
  }

  /** Messages that are dropped before any task is looked at: nothing popped,
      not a two-element list, undecodable, not a dict, or without a truthy `task_id`. */
  lemma MalformedMessagesDropped(message: Option<Value>, loads: string -> Option<Value>)
    ensures message.None? ==> MessageTaskId(message, loads).None?
    ensures message.Some? && (!message.value.List? || |message.value.items| != 2) ==> MessageTaskId(message, loads).None?
    ensures message.Some? && message.value.List? && |message.value.items| == 2 && message.value.items[1].Str?
            && loads(message.value.items[1].s).Some? && loads(message.value.items[1].s).value.Dict?
            && !Truthy(DictGet(loads(message.value.items[1].s).value.entries, "task_id", Null))
            ==> MessageTaskId(message, loads).None?
  {
  }

  class Consumer {
    var isRunning: bool
    var threadsStarted: nat

    constructor ()
      ensures !isRunning && threadsStarted == 0
    {
      isRunning := false;
      threadsStarted := 0;
    }

    /** `start`: true at once when already running; a failed `ping` answers
        false and leaves the consumer stopped; otherwise the flag is set and
        the consuming thread launched. */
    method Start(pingOk: bool) returns (ok: bool)
      modifies this
      ensures old(isRunning) ==> ok && isRunning && threadsStarted == old(threadsStarted)
      ensures !old(isRunning) && !pingOk ==> !ok && !isRunning && threadsStarted == old(threadsStarted)
      ensures !old(isRunning) && pingOk ==> ok && isRunning && threadsStarted == old(threadsStarted) + 1
    {
      if isRunning {
        return true;
      }
      if !pingOk {
        return false;
      }
      isRunning := true;
      threadsStarted := threadsStarted + 1;
      ok := true;
    }

    /** `stop` clears the flag. */
    method Stop() returns (ok: bool)
      modifies this`isRunning
      ensures ok && !isRunning
    {
      isRunning := false;
      ok := true;
    }

    /** One pass of `_consume_loop`. With no idle worker nothing is popped.
        Otherwise the popped message is validated and, when it names an
        integer task id, that task is handled as `ProcessTask` says. */
    method ConsumeOnce(db: TaskDb, idle: nat, message: Option<Value>, a: Attempt,
                       loads: string -> Option<Value>, now: Time) returns (popped: bool, submitted: Option<map<string, Value>>)
      requires db.Valid()
      modifies db`rows
      ensures db.Valid()
      ensures popped <==> idle > 0
      ensures !popped || MessageTaskId(message, loads).None? ==> db.rows == old(db.rows) && submitted.None?
      ensures popped && MessageTaskId(message, loads).Some? && !MessageTaskId(message, loads).value.Int?
              ==> db.rows == old(db.rows) && submitted.None?
      ensures popped && MessageTaskId(message, loads).Some? && MessageTaskId(message, loads).value.Int?
              ==> Claim(db.rows, submitted) == ProcessTask(old(db.rows), MessageTaskId(message, loads).value.i, a, loads, now)
    {
      submitted := None;
      if idle == 0 {
        return false, None;
      }
      popped := true;
      var taskId := MessageTaskId(message, loads);
      if taskId.None? || !taskId.value.Int? {
        return;
      }
      var id := taskId.value.i;
      if id !in db.rows || db.rows[id].status != "pending" {
        return;
      }
      var t := db.rows[id];
      var data := PrepareTaskData(t, loads);
      if data.None? || !a.claimOk {
        return;
      }
      var claimed := TaskDispatcher.Claimed(t, now);
      db.Update(claimed);
      if a.submitOk {
        submitted := data;
      } else if a.rollbackOk {
        db.Update(TaskDispatcher.RolledBack(claimed));
      }
    }
  }
}

=== FILE: resource_routes.dfy ===
/** The resource routes of ikuyo/api/routes/resources.py: the subtitle-type
    and resolution priorities, the grouping of an anime's resources by
    subtitle group, the order inside each group, and the pagination of the
    library search. The repositories are inputs: the filtered resource
    list, the group-name table and the search results. */
module ResourceRoutes {
  import opened Wrappers
  import opened Strings

  // ------------------------------------------------- priorities

  /** The subtitle types in priority order (1 first). */
  const SubtitleTypes: seq<string> :=
    ["中日双语", "简体中文", "繁体中文", "中文字幕", "英语", "简繁双语", "简繁日", "简繁英", "多语字幕", "无字幕", "其他"]

  /** The resolutions in priority order (1 first). */
  const Resolutions: seq<string> := ["2160p", "1080p", "720p", "480p", "420p"]

  /** The 1-based position of `x` in `table`, or 99 when it is not listed. */
  function Rank(table: seq<string>, x: string): (p: nat)
    requires |table| < 99
    ensures x in table ==> 1 <= p <= |table| && table[p - 1] == x
    ensures x in table ==> forall j :: 0 <= j < p - 1 ==> table[j] != x
    ensures x !in table ==> p == 99
  {
    if |table| == 0 then 99
    else if table[0] == x then 1
    else
      assert x in table ==> x in table[1..];
      var p := Rank(table[1..], x);
      assert p != 99 ==> table[1..][p - 1] == table[p];
      if p == 99 then 99 else p + 1
  }

  /** `get_subtitle_type_priority`: `None` is looked up as "". */
  function SubtitleTypePriority(t: Option<string>): (p: nat)
    ensures t.Some? && t.value in SubtitleTypes ==> 1 <= p <= 11 && SubtitleTypes[p - 1] == t.value
    ensures t.None? || t.value !in SubtitleTypes ==> p == 99
  {
    Rank(SubtitleTypes, t.GetOr(""))
  }

  /** `get_resolution_priority`: `None` is looked up as "". */
  function ResolutionPriority(res: Option<string>): (p: nat)
    ensures res.Some? && res.value in Resolutions ==> 1 <= p <= 5 && Resolutions[p - 1] == res.value
    ensures res.None? || res.value !in Resolutions ==> p == 99
  {
    Rank(Resolutions, res.GetOr(""))
  }

  /** Distinct listed names get distinct priorities, so the order is strict. */
  lemma {:induction false} RankInjective(table: seq<string>, x: string, y: string)
    requires |table| < 99 && x in table && y in table && x != y
    ensures Rank(table, x) != Rank(table, y)
  {
  }

  /** The bilingual Chinese-Japanese type comes before every other type. */
  lemma BilingualFirst(t: string)
    requires t != "中日双语"
    ensures SubtitleTypePriority(Some("中日双语")) == 1 < SubtitleTypePriority(Some(t))
  {
    assert SubtitleTypes[0] == "中日双语";
  }

  /** The vertical line count each listed resolution names. */
  function Lines(res: string): nat
    requires res in Resolutions
  {
    if res == "2160p" then 2160 else if res == "1080p" then 1080 else if res == "720p" then 720
    else if res == "480p" then 480 else 420
  }

  /** Among listed resolutions, a higher one always sorts first. */
  lemma HigherResolutionFirst(a: string, b: string)
    requires a in Resolutions && b in Resolutions
    ensures ResolutionPriority(Some(a)) < ResolutionPriority(Some(b)) <==> Lines(a) > Lines(b)
  {
    var pa := ResolutionPriority(Some(a));
    var pb := ResolutionPriority(Some(b));
    assert Resolutions[pa - 1] == a && Resolutions[pb - 1] == b;
    if pa < pb {
      LinesDecreasing(pa - 1, pb - 1);
    } else if pb < pa {
      LinesDecreasing(pb - 1, pa - 1);
    }
  }

  /** The table lists resolutions from the most lines to the fewest. */
  lemma LinesDecreasing(i: nat, j: nat)
    requires i < j < |Resolutions|
    ensures Lines(Resolutions[i]) > Lines(Resolutions[j])
  {
    assert Lines(Resolutions[0]) == 2160 && Lines(Resolutions[1]) == 1080 && Lines(Resolutions[2]) == 720;
    assert Lines(Resolutions[3]) == 480 && Lines(Resolutions[4]) == 420;
  }

  /** Resolutions outside the table sort after every listed one, 1440p and 4K included. */
  lemma UnlistedResolutionsLast()
    ensures ResolutionPriority(Some("1440p")) == 99 && ResolutionPriority(Some("4K")) == 99
    ensures ResolutionPriority(Some("240p")) == 99 && ResolutionPriority(None) == 99
  {
  }

  // ------------------------------------------------- resources of a group

  /** A resource row as the repository's filter returns it. */
  datatype DbResource = DbResource(id: Option<int>, subtitleGroupId: Option<int>, title: Option<string>,
                                   resolution: Option<string>, subtitleType: Option<string>,
                                   fileSize: Option<string>, magnetUrl: Option<string>,
                                   torrentUrl: Option<string>, releaseDate: Option<int>)

  /** The resource as the route shows it inside its group. */
  datatype GroupResource = GroupResource(id: int, title: string, resolution: string, subtitleType: string,
                                         fileSize: string, magnetUrl: string, torrentUrl: string,
                                         releaseDate: Option<int>)

  /** `int(x or 0)`. */
  function OrZero(x: Option<int>): int {
    if x.Some? then x.value else 0
  }

  /** `x or ""`. */
  function OrEmpty(x: Option<string>): string {
    x.GetOr("")
  }

  /** The shown resource: absent texts become "", an absent id 0, and a
      zero or absent release timestamp `None` (its ISO rendering is not modelled). */
  function Shown(r: DbResource): (s: GroupResource)
    ensures s.releaseDate.Some? <==> r.releaseDate.Some? && r.releaseDate.value != 0
  {
    GroupResource(OrZero(r.id), OrEmpty(r.title), OrEmpty(r.resolution), OrEmpty(r.subtitleType),
                  OrEmpty(r.fileSize), OrEmpty(r.magnetUrl), OrEmpty(r.torrentUrl),
                  if r.releaseDate.Some? && r.releaseDate.value != 0 then r.releaseDate else None)
  }

  /** The subtitle group a resource is filed under. */
  function GroupIdOf(r: DbResource): int {
    OrZero(r.subtitleGroupId)
  }

  /** The name shown for a group id: the repository's name, or "未知字幕组". */
  function GroupName(names: map<int, string>, gid: int): string {
    if gid in names then names[gid] else "未知字幕组"
  }

  datatype Group = Group(id: int, name: string, resourceCount: nat, resources: seq<GroupResource>)

  function Ids(gs: seq<Group>): (r: seq<int>)
    ensures |r| == |gs| && forall k :: 0 <= k < |gs| ==> r[k] == gs[k].id
  {
    seq(|gs|, k requires 0 <= k < |gs| => gs[k].id)
  }

  /** The position of a present id. */
  function IndexOf(ids: seq<int>, gid: int): (k: nat)
    requires gid in ids
    ensures k < |ids| && ids[k] == gid
  {
    if ids[0] == gid then 0 else 1 + IndexOf(ids[1..], gid)
  }

  /** One step of the grouping loop: the resource joins its group, which is
      created (named once, from the repository) the first time its id appears. */
  function AddResource(gs: seq<Group>, r: DbResource, names: map<int, string>): seq<Group> {
    var gid := GroupIdOf(r);
    if gid in Ids(gs) then
      var k := IndexOf(Ids(gs), gid);
      gs[k := gs[k].(resourceCount := gs[k].resourceCount + 1, resources := gs[k].resources + [Shown(r)])]
    else gs + [Group(gid, GroupName(names, gid), 1, [Shown(r)])]
  }

  /** The groups after the loop has seen all of `rs`. */
  function Grouped(rs: seq<DbResource>, names: map<int, string>): seq<Group> {
    if |rs| == 0 then [] else AddResource(Grouped(rs[..|rs| - 1], names), rs[|rs| - 1], names)
  }

  /** Reference: the shown resources of `rs` filed under `gid`, in their order. */
  function Members(rs: seq<DbResource>, gid: int): seq<GroupResource> {
    if |rs| == 0 then []
    else Members(rs[..|rs| - 1], gid) + (if GroupIdOf(rs[|rs| - 1]) == gid then [Shown(rs[|rs| - 1])] else [])
  }

  /** The sum of the groups' counts. */
  function Total(gs: seq<Group>): nat {
    if |gs| == 0 then 0 else Total(gs[..|gs| - 1]) + gs[|gs| - 1].resourceCount
  }

  predicate Distinct(ids: seq<int>) {
    forall i, j :: 0 <= i < j < |ids| ==> ids[i] != ids[j]
  }

  lemma {:induction false} TotalAppend(gs: seq<Group>, g: Group)
    ensures Total(gs + [g]) == Total(gs) + g.resourceCount
  {
    assert (gs + [g])[..|gs|] == gs;
  }

  lemma {:induction false} TotalBump(gs: seq<Group>, k: nat, g: Group)
    requires k < |gs| && g.resourceCount == gs[k].resourceCount + 1
    ensures Total(gs[k := g]) == Total(gs) + 1
    decreases |gs|
  {
    var n := |gs| - 1;
    if k == n {
      assert gs[k := g][..n] == gs[..n];
    } else {
      assert gs[k := g][..n] == gs[..n][k := g];
      TotalBump(gs[..n], k, g);
    }
  }

  lemma {:induction false} NoMembers(rs: seq<DbResource>, gid: int)
    requires forall i :: 0 <= i < |rs| ==> GroupIdOf(rs[i]) != gid
    ensures Members(rs, gid) == []
    decreases |rs|
  {
    if |rs| > 0 {
      NoMembers(rs[..|rs| - 1], gid);
    }
  }

  /** The group ids that occur in `rs`. */
  function Occurring(rs: seq<DbResource>): (ids: set<int>)
    ensures forall gid :: gid in ids <==> exists i :: 0 <= i < |rs| && GroupIdOf(rs[i]) == gid
  {
    set i | 0 <= i < |rs| :: GroupIdOf(rs[i])
  }

  /** A group as the loop leaves it: it holds exactly the resources of `rs`
      filed under its id, in order, counts them and carries the repository name. */
  predicate GroupOk(g: Group, rs: seq<DbResource>, names: map<int, string>) {
    g.resources == Members(rs, g.id) && g.resourceCount == |g.resources| && g.name == GroupName(names, g.id)
  }

  ghost predicate GroupsOk(gs: seq<Group>, rs: seq<DbResource>, names: map<int, string>) {
    Distinct(Ids(gs))
    && (forall gid :: gid in Ids(gs) <==> gid in Occurring(rs))
    && (forall k :: 0 <= k < |gs| ==> GroupOk(gs[k], rs, names))
    && Total(gs) == |rs|
  }

  lemma {:induction false} OccurringSnoc(rs: seq<DbResource>)
    requires |rs| > 0
    ensures Occurring(rs) == Occurring(rs[..|rs| - 1]) + {GroupIdOf(rs[|rs| - 1])}
  {
    var init := rs[..|rs| - 1];
    assert forall i :: 0 <= i < |init| ==> init[i] == rs[i];
  }

  lemma {:induction false} MembersSnoc(rs: seq<DbResource>, gid: int)
    requires |rs| > 0
    ensures GroupIdOf(rs[|rs| - 1]) == gid ==> Members(rs, gid) == Members(rs[..|rs| - 1], gid) + [Shown(rs[|rs| - 1])]
    ensures GroupIdOf(rs[|rs| - 1]) != gid ==> Members(rs, gid) == Members(rs[..|rs| - 1], gid)
  {
  }

  /** A resource of a known group joins that group and changes no other. */
  lemma {:induction false} AddExistingOk(gs: seq<Group>, rs: seq<DbResource>, names: map<int, string>)
    requires |rs| > 0 && GroupsOk(gs, rs[..|rs| - 1], names) && GroupIdOf(rs[|rs| - 1]) in Ids(gs)
    ensures GroupsOk(AddResource(gs, rs[|rs| - 1], names), rs, names)
  {
    var r := rs[|rs| - 1];
    var gid := GroupIdOf(r);
    var k := IndexOf(Ids(gs), gid);
    var g' := gs[k].(resourceCount := gs[k].resourceCount + 1, resources := gs[k].resources + [Shown(r)]);
    var out := gs[k := g'];
    assert out == AddResource(gs, r, names);
    TotalBump(gs, k, g');
    assert Ids(out) == Ids(gs);
    assert forall x :: x in Ids(out) <==> x in Occurring(rs) by {
      OccurringSnoc(rs);
    }
    ExistingGroupsOk(gs, rs, names, out);
  }

  /** Every group stays in step when a resource of a known group arrives. */
  lemma {:induction false} ExistingGroupsOk(gs: seq<Group>, rs: seq<DbResource>, names: map<int, string>, out: seq<Group>)
    requires |rs| > 0 && GroupsOk(gs, rs[..|rs| - 1], names) && GroupIdOf(rs[|rs| - 1]) in Ids(gs)
    requires out == AddResource(gs, rs[|rs| - 1], names)
    ensures forall j :: 0 <= j < |out| ==> GroupOk(out[j], rs, names)
  {
    var init := rs[..|rs| - 1];
    var r := rs[|rs| - 1];
    var k := IndexOf(Ids(gs), GroupIdOf(r));
    assert out == gs[k := gs[k].(resourceCount := gs[k].resourceCount + 1, resources := gs[k].resources + [Shown(r)])];
    forall j | 0 <= j < |out| ensures GroupOk(out[j], rs, names) {
      assert GroupOk(gs[j], init, names);
      MembersSnoc(rs, gs[j].id);
      if j != k {
        assert Ids(gs)[j] != Ids(gs)[k];
      }
    }
  }

  /** A resource of a new group opens a group of its own at the end. */
  lemma {:induction false} AddNewOk(gs: seq<Group>, rs: seq<DbResource>, names: map<int, string>)
    requires |rs| > 0 && GroupsOk(gs, rs[..|rs| - 1], names) && GroupIdOf(rs[|rs| - 1]) !in Ids(gs)
    ensures GroupsOk(AddResource(gs, rs[|rs| - 1], names), rs, names)
  {
    var r := rs[|rs| - 1];
    var gid := GroupIdOf(r);
    var g' := Group(gid, GroupName(names, gid), 1, [Shown(r)]);
    var out := gs + [g'];
    assert out == AddResource(gs, r, names);
    TotalAppend(gs, g');
    assert Ids(out) == Ids(gs) + [gid];
    DistinctSnoc(Ids(gs), gid);
    assert forall x :: x in Ids(out) <==> x in Occurring(rs) by {
      OccurringSnoc(rs);
    }
    NewGroupsOk(gs, rs, names, out);
    assert GroupsOk(out, rs, names);
  }

  lemma DistinctSnoc(ids: seq<int>, x: int)
    requires Distinct(ids) && x !in ids
    ensures Distinct(ids + [x])
  {
  }

  /** Every group stays in step when a resource of a new group arrives. */
  lemma {:induction false} NewGroupsOk(gs: seq<Group>, rs: seq<DbResource>, names: map<int, string>, out: seq<Group>)
    requires |rs| > 0 && GroupsOk(gs, rs[..|rs| - 1], names) && GroupIdOf(rs[|rs| - 1]) !in Ids(gs)
    requires out == AddResource(gs, rs[|rs| - 1], names)
    ensures forall j :: 0 <= j < |out| ==> GroupOk(out[j], rs, names)
  {
    var init := rs[..|rs| - 1];
    var r := rs[|rs| - 1];
    var gid := GroupIdOf(r);
    assert out == gs + [Group(gid, GroupName(names, gid), 1, [Shown(r)])];
    assert gid !in Occurring(init);
    NoMembers(init, gid);
    forall j | 0 <= j < |out| ensures GroupOk(out[j], rs, names) {
      MembersSnoc(rs, out[j].id);
      if j < |gs| {
        assert GroupOk(gs[j], init, names);
        assert Ids(gs)[j] != gid;
      }
    }
  }

  /** One iteration of the grouping loop keeps the groups in step with the resources seen. */
  lemma AddResourceOk(gs: seq<Group>, rs: seq<DbResource>, names: map<int, string>)
    requires |rs| > 0 && GroupsOk(gs, rs[..|rs| - 1], names)
    ensures GroupsOk(AddResource(gs, rs[|rs| - 1], names), rs, names)
  {
    if GroupIdOf(rs[|rs| - 1]) in Ids(gs) {
      AddExistingOk(gs, rs, names);
    } else {
      AddNewOk(gs, rs, names);
    }
  }

  /** The grouping loop files every resource exactly once: group ids are
      distinct and are exactly the ids that occur, each group holds the
      resources filed under it in their order, is named from the repository,
      counts its own resources, and the counts add up to `len(resources)`. */
  lemma {:induction false} GroupedFacts(rs: seq<DbResource>, names: map<int, string>)
    ensures GroupsOk(Grouped(rs, names), rs, names)
    decreases |rs|
  {
    if |rs| > 0 {
      GroupedFacts(rs[..|rs| - 1], names);
      AddResourceOk(Grouped(rs[..|rs| - 1], names), rs, names);
    }
  }

  /** The group id of each resource, in order. */
  function GroupIdsOf(rs: seq<DbResource>): (ids: seq<int>)
    ensures |ids| == |rs| && forall i :: 0 <= i < |rs| ==> ids[i] == GroupIdOf(rs[i])
  {
    seq(|rs|, i requires 0 <= i < |rs| => GroupIdOf(rs[i]))
  }

  /** Groups listed in the order in which their ids first occur in `ids`. */
  predicate OrderedBy(gs: seq<Group>, ids: seq<int>) {
    forall a, b :: 0 <= a < b < |gs| ==>
      gs[a].id in ids && gs[b].id in ids && IndexOf(ids, gs[a].id) < IndexOf(ids, gs[b].id)
  }

  /** Groups listed in the order in which their ids first occur among the resources. */
  predicate FirstAppearanceOrder(gs: seq<Group>, rs: seq<DbResource>) {
    OrderedBy(gs, GroupIdsOf(rs))
  }

  /** Appending does not move the first position of an id already present. */
  lemma {:induction false} IndexOfAppend(ids: seq<int>, x: int, y: int)
    requires y in ids
    ensures IndexOf(ids + [x], y) == IndexOf(ids, y)
    decreases |ids|
  {
    if ids[0] != y {
      assert (ids + [x])[1..] == ids[1..] + [x];
      IndexOfAppend(ids[1..], x, y);
    }
  }

  /** Every group the loop builds has an id some resource carries. */
  lemma GroupIdsPresent(rs: seq<DbResource>, names: map<int, string>)
    ensures forall a :: 0 <= a < |Grouped(rs, names)| ==> Grouped(rs, names)[a].id in GroupIdsOf(rs)
  {
    var gs := Grouped(rs, names);
    GroupedFacts(rs, names);
    forall a | 0 <= a < |gs| ensures gs[a].id in GroupIdsOf(rs) {
      assert gs[a].id in Ids(gs);
      var i :| 0 <= i < |rs| && GroupIdOf(rs[i]) == gs[a].id;
      assert GroupIdsOf(rs)[i] == gs[a].id;
    }
  }

  /** A resource of a known group leaves the group order as it was. */
  lemma OrderedSameIds(gs: seq<Group>, out: seq<Group>, ids: seq<int>, x: int)
    requires OrderedBy(gs, ids)
    requires |out| == |gs| && forall a :: 0 <= a < |gs| ==> out[a].id == gs[a].id
    ensures OrderedBy(out, ids + [x])
  {
    forall a | 0 <= a < |gs| ensures gs[a].id in ids ==> IndexOf(ids + [x], gs[a].id) == IndexOf(ids, gs[a].id) {
      if gs[a].id in ids { IndexOfAppend(ids, x, gs[a].id); }
    }
  }

  /** A resource of a new group puts that group last. */
  lemma OrderedNewLast(gs: seq<Group>, ids: seq<int>, g: Group)
    requires OrderedBy(gs, ids) && g.id !in ids
    requires forall a :: 0 <= a < |gs| ==> gs[a].id in ids
    ensures OrderedBy(gs + [g], ids + [g.id])
  {
    forall a | 0 <= a < |gs| ensures IndexOf(ids + [g.id], gs[a].id) == IndexOf(ids, gs[a].id) {
      IndexOfAppend(ids, g.id, gs[a].id);
    }
    assert IndexOf(ids + [g.id], g.id) == |ids|;
  }

  /** The grouping loop lists the groups in the order of their ids' first
      occurrence: a dictionary keeps insertion order. */
  lemma {:induction false} GroupedInFirstAppearanceOrder(rs: seq<DbResource>, names: map<int, string>)
    ensures FirstAppearanceOrder(Grouped(rs, names), rs)
    decreases |rs|
  {
    if |rs| > 0 {
      var init := rs[..|rs| - 1];
      var gid := GroupIdOf(rs[|rs| - 1]);
      var gs := Grouped(init, names);
      GroupedInFirstAppearanceOrder(init, names);
      assert GroupIdsOf(rs) == GroupIdsOf(init) + [gid];
      if gid in Ids(gs) {
        OrderedSameIds(gs, Grouped(rs, names), GroupIdsOf(init), gid);
      } else {
        GroupedFacts(init, names);
        GroupIdsPresent(init, names);
        assert gid !in GroupIdsOf(init);
        OrderedNewLast(gs, GroupIdsOf(init), Group(gid, GroupName(names, gid), 1, [Shown(rs[|rs| - 1])]));
      }
    }
  }

  // ------------------------------------------------- order inside a group

  /** The sort key's episode part as written: the text between the last
      "第" and the following "集" read by `int()`, 999 when the title lacks
      either character, and `None` where `int()` raises. */
  function EpisodeNumberAsWritten(title: string): (r: Option<int>)
    ensures !(Contains(title, "第") && Contains(title, "集")) ==> r == Some(999)
  {
    if Contains(title, "第") && Contains(title, "集") then
      var parts := SplitOn(title, "第");
      PyInt(SplitOn(parts[|parts| - 1], "集")[0])
    else Some(999)
  }

  /** A batch release titled "第01-12集" has no integer between the markers:
      computing its sort key raises, and the whole request answers 500. */
  lemma BatchTitleRaises()
    ensures EpisodeNumberAsWritten("第01-12集") == None
  {
    assert "第01-12集" == "第" + "01-12" + "集";
    MarkedEpisode("01-12");
    NotAnInteger();
  }

  /** A title "第<n>集" is keyed by `int(n)`, whatever `n` is. */
  lemma MarkedEpisode(n: string)
    requires forall i :: 0 <= i < |n| ==> n[i] != '第' && n[i] != '集'
    ensures EpisodeNumberAsWritten("第" + n + "集") == PyInt(n)
  {
    var t := "第" + n + "集";
    assert Contains(t, "第") by {
      assert OccursAt(t, "第", 0);
      OccursContains(t, "第", 0);
    }
    assert Contains(t, "集") by {
      assert OccursAt(t, "集", |n| + 1);
      OccursContains(t, "集", |n| + 1);
    }
    assert SplitOn(t, "第") == ["", n + "集"] by {
      assert t == "" + ['第'] + (n + "集");
      SplitOnce("", '第', n + "集");
    }
    assert SplitOn(n + "集", "集")[0] == n by {
      assert n + "集" == n + ['集'] + "";
      SplitOnce(n, '集', "");
    }
  }

  lemma NotAnInteger()
    ensures PyInt("01-12") == None
  {
    var s := "01-12";
    assert !IsSpace(s[0]) && !IsSpace(s[4]);
    assert TrimStart(s) == s;
    assert TrimEnd(s) == s;
    assert Strip(s) == s;
    assert s[0] != '+' && s[0] != '-';
    assert !DigitGroups(s) by { assert s[2] == '-'; }
  }

  /** The episode part of the sort key with the evidently intended
      fallback: a title whose marked text is not an integer sorts with the
      unnumbered titles, at 999. */
  function EpisodeKey(title: string): (e: int)
    ensures EpisodeNumberAsWritten(title).Some? ==> e == EpisodeNumberAsWritten(title).value
    ensures EpisodeNumberAsWritten(title).None? ==> e == 999
  {
    EpisodeNumberAsWritten(title).GetOr(999)
  }

  /** With the fallback, the batch title gets a key instead of failing the request. */
  lemma BatchTitleSortsLast()
    ensures EpisodeKey("第01-12集") == 999
  {
    BatchTitleRaises();
  }

  /** The key a group's resources are sorted by. */
  datatype Key = Key(episode: int, subtitle: nat, resolution: nat)

  function KeyOf(x: GroupResource): Key {
    Key(EpisodeKey(x.title), SubtitleTypePriority(Some(x.subtitleType)), ResolutionPriority(Some(x.resolution)))
  }

  /** Tuple comparison of keys. */
  predicate KeyLe(a: Key, b: Key) {
    a.episode < b.episode
    || (a.episode == b.episode && (a.subtitle < b.subtitle || (a.subtitle == b.subtitle && a.resolution <= b.resolution)))
  }

  predicate SortedBy<T>(xs: seq<T>, key: T -> Key) {
    forall i, j :: 0 <= i < j < |xs| ==> KeyLe(key(xs[i]), key(xs[j]))
  }

  /** `x` placed before the first element whose key is not smaller. */
  function Insert<T>(x: T, xs: seq<T>, key: T -> Key): (r: seq<T>)
    ensures |r| == |xs| + 1 && multiset(r) == multiset(xs) + multiset{x}
    ensures r[0] == x || (|xs| > 0 && r[0] == xs[0])
  {
    if |xs| == 0 then [x]
    else if KeyLe(key(x), key(xs[0])) then [x] + xs
    else
      assert xs == [xs[0]] + xs[1..];
      [xs[0]] + Insert(x, xs[1..], key)
  }

  lemma KeyLeTrans(a: Key, b: Key, c: Key)
    requires KeyLe(a, b) && KeyLe(b, c)
    ensures KeyLe(a, c)
  {
  }

  /** Inserting into a sorted sequence keeps it sorted. */
  lemma {:induction false} InsertSorted<T>(x: T, xs: seq<T>, key: T -> Key)
    requires SortedBy(xs, key)
    ensures SortedBy(Insert(x, xs, key), key)
    decreases |xs|
  {
    if |xs| == 0 {
    } else if KeyLe(key(x), key(xs[0])) {
      var r := [x] + xs;
      forall i, j | 0 <= i < j < |r| ensures KeyLe(key(r[i]), key(r[j])) {
        if i == 0 {
          if j > 1 { KeyLeTrans(key(x), key(xs[0]), key(xs[j - 1])); }
        }
      }
    } else {
      var rest := Insert(x, xs[1..], key);
      InsertSorted(x, xs[1..], key);
      var r := [xs[0]] + rest;
      assert KeyLe(key(xs[0]), key(rest[0])) by {
        if rest[0] != x { assert rest[0] == xs[1]; }
      }
      forall i, j | 0 <= i < j < |r| ensures KeyLe(key(r[i]), key(r[j])) {
        if i == 0 && j > 1 {
          KeyLeTrans(key(xs[0]), key(rest[0]), key(rest[j - 1]));
        }
      }
    }
  }

  /** The elements of `xs` whose key is `k`, in their order. */
  function WithKey<T>(xs: seq<T>, key: T -> Key, k: Key): seq<T> {
    if |xs| == 0 then []
    else (if key(xs[0]) == k then [xs[0]] else []) + WithKey(xs[1..], key, k)
  }

  /** Insertion puts `x` ahead of every element with its own key and
      behind none of them, so among equal keys the order is kept. */
  lemma {:induction false} InsertWithKey<T>(x: T, xs: seq<T>, key: T -> Key)
    ensures forall k :: WithKey(Insert(x, xs, key), key, k) == (if key(x) == k then [x] else []) + WithKey(xs, key, k)
    decreases |xs|
  {
    if |xs| > 0 && !KeyLe(key(x), key(xs[0])) {
      var rest := Insert(x, xs[1..], key);
      InsertWithKey(x, xs[1..], key);
      var r := [xs[0]] + rest;
      assert r[0] == xs[0] && r[1..] == rest;
      assert key(xs[0]) != key(x);
    } else if |xs| > 0 {
      var r := [x] + xs;
      assert r[0] == x && r[1..] == xs;
    } else {
      assert [x][1..] == [];
    }
  }

  /** `list.sort(key=...)`, specified by its result: sorted, a permutation,
      and stable (elements with equal keys keep their input order). */
  function SortBy<T>(xs: seq<T>, key: T -> Key): (r: seq<T>)
    ensures SortedBy(r, key) && multiset(r) == multiset(xs)
    ensures forall k :: WithKey(r, key, k) == WithKey(xs, key, k)
  {
    if |xs| == 0 then []
    else
      assert xs == [xs[0]] + xs[1..];
      InsertSorted(xs[0], SortBy(xs[1..], key), key);
      InsertWithKey(xs[0], SortBy(xs[1..], key), key);
      Insert(xs[0], SortBy(xs[1..], key), key)
  }

  predicate SortedByKey(xs: seq<GroupResource>) {
    SortedBy(xs, KeyOf)
  }

  /** A group with its resources put in key order. */
  function SortGroup(g: Group): (out: Group)
    ensures out.id == g.id && out.name == g.name && out.resourceCount == g.resourceCount
    ensures SortedByKey(out.resources) && multiset(out.resources) == multiset(g.resources)
    ensures forall k :: WithKey(out.resources, KeyOf, k) == WithKey(g.resources, KeyOf, k)
  {
    g.(resources := SortBy(g.resources, KeyOf))
  }

  /** Groups with the same counts, position by position, have the same total. */
  lemma {:induction false} TotalSameCounts(a: seq<Group>, b: seq<Group>)
    requires |a| == |b| && forall k :: 0 <= k < |a| ==> a[k].resourceCount == b[k].resourceCount
    ensures Total(a) == Total(b)
    decreases |a|
  {
    if |a| > 0 {
      TotalSameCounts(a[..|a| - 1], b[..|b| - 1]);
    }
  }

  // ------------------------------------------------- the route

  /** What `get_anime_resources` answers (filters and pagination echo the query). */
  datatype ResourcesReply =
    | NotFound(detail: string)
    | Served(message: string, totalResources: nat, groups: seq<Group>)

  /** The grouping loop of `get_anime_resources`. */
  method GroupResources(rs: seq<DbResource>, names: map<int, string>) returns (gs: seq<Group>)
    ensures gs == Grouped(rs, names)
  {
    gs := [];
    for i := 0 to |rs|
      invariant gs == Grouped(rs[..i], names)
    {
      GroupedPrefix(rs, i, names);
      gs := AddResource(gs, rs[i], names);
    }
    assert rs[..|rs|] == rs;
  }

  /** The groups after one more resource. */
  lemma GroupedPrefix(rs: seq<DbResource>, i: nat, names: map<int, string>)
    requires i < |rs|
    ensures Grouped(rs[..i + 1], names) == AddResource(Grouped(rs[..i], names), rs[i], names)
  {
    var seen := rs[..i + 1];
    assert seen[..i] == rs[..i] && seen[i] == rs[i];
  }

  /** `get_anime_resources`: 404 for an unknown anime; an empty resource
      list is still a success with no groups; otherwise every resource sits
      in the group of its subtitle-group id, each group sorted by the key. */
  method GetAnimeResources(bangumiId: int, episode: Option<int>, found: bool, rs: seq<DbResource>,
                           names: map<int, string>) returns (r: ResourcesReply)
    ensures !found ==> r == NotFound("未找到 bangumi_id=" + IntToString(bangumiId) + " 的番剧")
    ensures found && |rs| == 0 ==> r.Served? && r.totalResources == 0 && r.groups == []
    ensures found && |rs| == 0 && episode.Some? ==>
      r.message == "未找到番剧 " + IntToString(bangumiId) + " 第 " + IntToString(episode.value) + " 集的资源"
    ensures found && |rs| == 0 && episode.None? ==> r.message == "该番剧暂无可用资源"
    ensures found && |rs| > 0 ==> r.Served? && r.message == "获取资源成功" && r.totalResources == |rs|
    ensures r.Served? ==> Total(r.groups) == r.totalResources && Distinct(Ids(r.groups))
    ensures r.Served? ==> forall gid :: gid in Ids(r.groups) <==> gid in Occurring(rs)
    ensures r.Served? ==> forall k :: 0 <= k < |r.groups| ==>
      var g := r.groups[k];
      SortedByKey(g.resources) && multiset(g.resources) == multiset(Members(rs, g.id))
      && g.resourceCount == |g.resources| && g.name == GroupName(names, g.id)
    ensures r.Served? ==> FirstAppearanceOrder(r.groups, rs)
    ensures r.Served? ==> (|r.groups| == |Grouped(rs, names)|
      && forall k :: 0 <= k < |r.groups| ==> r.groups[k] == SortGroup(Grouped(rs, names)[k]))
    ensures r.Served? ==> forall k, key :: 0 <= k < |r.groups| ==>
      WithKey(r.groups[k].resources, KeyOf, key) == WithKey(Members(rs, r.groups[k].id), KeyOf, key)
  {
    if !found {
      return NotFound("未找到 bangumi_id=" + IntToString(bangumiId) + " 的番剧");
    }
    if |rs| == 0 {
      var message := if episode.Some? then "未找到番剧 " + IntToString(bangumiId) + " 第 " + IntToString(episode.value) + " 集的资源"
                     else "该番剧暂无可用资源";
      return Served(message, 0, []);
    }
    var gs := GroupResources(rs, names);
    var sorted := SortGroups(gs);
    SortedGroupsOk(gs, sorted, rs, names);
    SortedGroupsKeepOrder(gs, sorted, rs, names);
    r := Served("获取资源成功", |rs|, sorted);
  }

  /** Sorting inside the groups keeps what the grouping established. */
  lemma SortedGroupsOk(gs: seq<Group>, sorted: seq<Group>, rs: seq<DbResource>, names: map<int, string>)
    requires gs == Grouped(rs, names)
    requires |sorted| == |gs| && forall k :: 0 <= k < |gs| ==> sorted[k] == SortGroup(gs[k])
    ensures Total(sorted) == |rs| && Distinct(Ids(sorted))
    ensures forall gid :: gid in Ids(sorted) <==> gid in Occurring(rs)
    ensures forall k :: 0 <= k < |sorted| ==>
      var g := sorted[k];
      SortedByKey(g.resources) && multiset(g.resources) == multiset(Members(rs, g.id))
      && g.resourceCount == |g.resources| && g.name == GroupName(names, g.id)
  {
    GroupedFacts(rs, names);
    TotalSameCounts(sorted, gs);
    assert Ids(sorted) == Ids(gs);
    forall k | 0 <= k < |sorted|
      ensures multiset(sorted[k].resources) == multiset(Members(rs, sorted[k].id))
      ensures sorted[k].resourceCount == |sorted[k].resources|
    {
      assert GroupOk(gs[k], rs, names);
      assert |multiset(sorted[k].resources)| == |multiset(gs[k].resources)|;
    }
  }

  /** Sorting inside the groups keeps the groups' first-appearance order,
      and within a group the resources of equal key stay in arrival order. */
  lemma SortedGroupsKeepOrder(gs: seq<Group>, sorted: seq<Group>, rs: seq<DbResource>, names: map<int, string>)
    requires gs == Grouped(rs, names)
    requires |sorted| == |gs| && forall k :: 0 <= k < |gs| ==> sorted[k] == SortGroup(gs[k])
    ensures FirstAppearanceOrder(sorted, rs)
    ensures forall k, key :: 0 <= k < |sorted| ==>
      WithKey(sorted[k].resources, KeyOf, key) == WithKey(Members(rs, sorted[k].id), KeyOf, key)
  {
    GroupedInFirstAppearanceOrder(rs, names);
    GroupedFacts(rs, names);
    forall k | 0 <= k < |sorted| ensures sorted[k].id == gs[k].id && gs[k].resources == Members(rs, gs[k].id) {
      assert GroupOk(gs[k], rs, names);
    }
  }

  /** The sorting loop of `get_anime_resources`: each group, in place, in key order. */
  method SortGroups(gs: seq<Group>) returns (out: seq<Group>)
    ensures |out| == |gs| && forall k :: 0 <= k < |gs| ==> out[k] == SortGroup(gs[k])
  {
    out := gs;
    for k := 0 to |gs|
      invariant |out| == |gs|
      invariant forall j :: 0 <= j < k ==> out[j] == SortGroup(gs[j])
      invariant forall j :: k <= j < |gs| ==> out[j] == gs[j]
    {
      out := out[k := SortGroup(out[k])];
    }
  }

  // ------------------------------------------------- library search

  /** `(total + limit - 1) // limit`. */
  function CeilDiv(total: nat, limit: nat): (pages: nat)
    requires limit >= 1
    ensures pages * limit >= total
    ensures pages > 0 ==> (pages - 1) * limit < total
    ensures pages == 0 <==> total == 0
  {
    var q := (total + limit - 1) / limit;
    var rem := (total + limit - 1) % limit;
    assert q * limit + rem == total + limit - 1;
    assert (q - 1) * limit == q * limit - limit;
    q
  }

  datatype SearchReply = SearchReply(bangumiIds: seq<int>, currentPage: nat, perPage: nat, total: nat,
                                     totalPages: nat, hasNext: bool, hasPrev: bool)

  /** `offset = (page - 1) * limit`, the rows the search query skips. */
  function SearchOffset(page: nat, limit: nat): (offset: nat)
    requires page >= 1
    ensures offset == (page - 1) * limit
  {
    (page - 1) * limit
  }

  /** The truthy bangumi ids of a page of search results, in order. */
  function TruthyIds(found: seq<Option<int>>): (ids: seq<int>)
    ensures |ids| <= |found|
    ensures forall k :: 0 <= k < |ids| ==> ids[k] != 0 && Some(ids[k]) in found
    ensures forall k :: 0 <= k < |found| && found[k].Some? && found[k].value != 0 ==> found[k].value in ids
  {
    if |found| == 0 then []
    else
      var rest := TruthyIds(found[1..]);
      assert forall k :: 1 <= k < |found| ==> found[k] == found[1..][k - 1];
      if found[0].Some? && found[0].value != 0 then [found[0].value] + rest else rest
  }

  /** `search_anime_library`: `found` is the requested page of the title
      search, `total` the length of the unpaged search. The query bounds
      (`page >= 1`, `1 <= limit <= 50`) are enforced by the framework. */
  function SearchAnimeLibrary(page: nat, limit: nat, found: seq<Option<int>>, total: nat): (r: SearchReply)
    requires page >= 1 && 1 <= limit <= 50
    ensures r.bangumiIds == TruthyIds(found) && r.currentPage == page && r.perPage == limit && r.total == total
    ensures r.totalPages * limit >= total && (r.totalPages == 0 || (r.totalPages - 1) * limit < total)
    ensures r.hasNext <==> page < r.totalPages
    ensures r.hasPrev <==> page > 1
    ensures total == 0 ==> !r.hasNext
  {
    var pages := CeilDiv(total, limit);
    SearchReply(TruthyIds(found), page, limit, total, pages, page < pages, page > 1)
  }

  /** Every result lies on exactly one page: result `i` (0-based) is on page
      `i / limit + 1`, which is within the page count and skips fewer rows than `i`. */
  lemma ResultOnItsPage(i: nat, limit: nat, total: nat)
    requires 1 <= limit && i < total
    ensures var p := i / limit + 1;
      1 <= p <= CeilDiv(total, limit) && SearchOffset(p, limit) <= i < SearchOffset(p, limit) + limit
  {
    var p := i / limit + 1;
    var c := CeilDiv(total, limit);
    assert (p - 1) * limit <= i;
  }
}

=== FILE: resource_store.dfy ===
/** The resource-list store of frontend/src/stores/resourceStore.ts: three
    caches (data, loading flag, error) keyed by a string built from the
    query, and the current query. The API call is an input: its data, or
    the failure's message. */
module ResourceStore {
  import opened Wrappers
  import opened Strings
  import opened PyValue
  import opened Js

  /** The query of one resource list; absent fields were not given. */
  datatype ResourceQuery = ResourceQuery(bangumiId: int, resolution: Option<string>, subtitleType: Option<string>,
                                         limit: Option<int>, offset: Option<int>)

  /** `x || ''` on an optional string. */
  function OrEmpty(x: Option<string>): string {
    if Given(x) then x.value else ""
  }

  /** `x || d` on an optional number: absent and 0 both give the default. */
  function OrNumber(x: Option<int>, d: int): int {
    if x.Some? && x.value != 0 then x.value else d
  }

  /** The fields of a query as the key sees them. */
  function KeyFields(q: ResourceQuery): (string, string, int, int) {
    (OrEmpty(q.resolution), OrEmpty(q.subtitleType), OrNumber(q.limit, 100), OrNumber(q.offset, 0))
  }

  /** `getQueryKey`: id, resolution, subtitle type, limit (100 when absent
      or 0) and offset (0 when absent), joined with '-'. */
  function QueryKey(q: ResourceQuery): (key: string)
    ensures key == IntToString(q.bangumiId) + "-" + OrEmpty(q.resolution) + "-" + OrEmpty(q.subtitleType) + "-"
                   + IntToString(OrNumber(q.limit, 100)) + "-" + IntToString(OrNumber(q.offset, 0))
  {
    var parts := [IntToString(q.bangumiId), OrEmpty(q.resolution), OrEmpty(q.subtitleType),
                  IntToString(OrNumber(q.limit, 100)), IntToString(OrNumber(q.offset, 0))];
    JoinFiveDashes(parts[0], parts[1], parts[2], parts[3], parts[4]);
    Join(parts, "-")
  }

  lemma JoinFiveDashes(a: string, b: string, c: string, d: string, e: string)
    ensures Join([a, b, c, d, e], "-") == a + "-" + b + "-" + c + "-" + d + "-" + e
  {
    assert [d, e][1..] == [e];
    assert Join([d, e], "-") == d + "-" + e;
    assert [c, d, e][1..] == [d, e];
    assert Join([c, d, e], "-") == c + "-" + (d + "-" + e);
    assert [b, c, d, e][1..] == [c, d, e];
    assert Join([b, c, d, e], "-") == b + "-" + (c + "-" + (d + "-" + e));
    assert [a, b, c, d, e][1..] == [b, c, d, e];
    assert Join([a, b, c, d, e], "-") == a + "-" + (b + "-" + (c + "-" + (d + "-" + e)));
  }

  /** Leaving out the limit, or giving 0 or 100, gives the same key; so do
      an absent and an empty resolution. */
  lemma DefaultsShareKey(id: int, subtitleType: Option<string>, offset: Option<int>)
    ensures QueryKey(ResourceQuery(id, None, subtitleType, None, offset))
            == QueryKey(ResourceQuery(id, Some(""), subtitleType, Some(100), offset))
            == QueryKey(ResourceQuery(id, None, subtitleType, Some(0), offset))
  {
  }

  /** Splitting on a separator that occurs in neither side's first part
      finds the same first part. */
  lemma SplitAtSeparator(a: string, b: string, l: string, r: string, sep: char)
    requires sep !in a && sep !in b
    requires a + [sep] + l == b + [sep] + r
    ensures a == b && l == r
  {
    var s := a + [sep] + l;
    var t := b + [sep] + r;
    assert s[|a|] == sep && t[|b|] == sep;
    assert forall i :: 0 <= i < |a| ==> s[i] == a[i] && s[i] != sep;
    assert forall i :: 0 <= i < |b| ==> t[i] == b[i] && t[i] != sep;
    assert |a| == |b|;
    assert a == s[..|a|] && b == t[..|b|];
    assert l == s[|a| + 1..] && r == t[|b| + 1..];
  }

  /** A '-'-join of parts that contain no '-' determines the parts. */
  lemma {:induction false} JoinInjective(xs: seq<string>, ys: seq<string>)
    requires |xs| == |ys|
    requires forall i :: 0 <= i < |xs| ==> '-' !in xs[i]
    requires forall i :: 0 <= i < |ys| ==> '-' !in ys[i]
    requires Join(xs, "-") == Join(ys, "-")
    ensures xs == ys
    decreases |xs|
  {
    if |xs| > 1 {
      assert Join(xs, "-") == xs[0] + ['-'] + Join(xs[1..], "-");
      assert Join(ys, "-") == ys[0] + ['-'] + Join(ys[1..], "-");
      SplitAtSeparator(xs[0], ys[0], Join(xs[1..], "-"), Join(ys[1..], "-"), '-');
      JoinInjective(xs[1..], ys[1..]);
      assert xs == [xs[0]] + xs[1..] && ys == [ys[0]] + ys[1..];
    }
  }

  lemma NatToStringInjective(m: nat, n: nat)
    requires NatToString(m) == NatToString(n)
    ensures m == n
  {
    NumberOfNatToString(m);
    NumberOfNatToString(n);
  }

  /** Two queries share a key only when they agree on the id and on every
      field as the key reads it (for non-negative numbers and filters
      without '-'): the cache never mixes up two different queries. */
  lemma KeyDeterminesQuery(a: ResourceQuery, b: ResourceQuery)
    requires a.bangumiId >= 0 && b.bangumiId >= 0
    requires OrNumber(a.limit, 100) >= 0 && OrNumber(b.limit, 100) >= 0
    requires OrNumber(a.offset, 0) >= 0 && OrNumber(b.offset, 0) >= 0
    requires '-' !in OrEmpty(a.resolution) && '-' !in OrEmpty(a.subtitleType)
    requires '-' !in OrEmpty(b.resolution) && '-' !in OrEmpty(b.subtitleType)
    requires QueryKey(a) == QueryKey(b)
    ensures a.bangumiId == b.bangumiId && KeyFields(a) == KeyFields(b)
  {
    var xs := [IntToString(a.bangumiId), OrEmpty(a.resolution), OrEmpty(a.subtitleType),
               IntToString(OrNumber(a.limit, 100)), IntToString(OrNumber(a.offset, 0))];
    var ys := [IntToString(b.bangumiId), OrEmpty(b.resolution), OrEmpty(b.subtitleType),
               IntToString(OrNumber(b.limit, 100)), IntToString(OrNumber(b.offset, 0))];
    forall i | 0 <= i < 5
      ensures '-' !in xs[i] && '-' !in ys[i]
    {
      if i == 0 || i == 3 || i == 4 {
        assert AllDigits(xs[i]) && AllDigits(ys[i]);
      }
    }
    JoinInjective(xs, ys);
    NatToStringInjective(a.bangumiId, b.bangumiId);
    NatToStringInjective(OrNumber(a.limit, 100), OrNumber(b.limit, 100));
    NatToStringInjective(OrNumber(a.offset, 0), OrNumber(b.offset, 0));
  }

  /** The message a failed fetch records: the error's message, or the
      default when it has none. */
  function FailureMessage(message: Option<string>): (m: string)
    ensures |m| > 0
    ensures Given(message) ==> m == message.value
  {
    if Given(message) then message.value else "加载资源列表失败"
  }

  class ResourceStore {
    var resourceCache: map<string, Option<Value>>
    var loadingCache: map<string, bool>
    var errorCache: map<string, Option<string>>
    var currentQuery: Option<ResourceQuery>

    constructor()
      ensures resourceCache == map[] && loadingCache == map[] && errorCache == map[] && currentQuery.None?
    {
      resourceCache := map[];
      loadingCache := map[];
      errorCache := map[];
      currentQuery := None;
    }

    /** `currentKey`: the current query's key, '' without one. */
    function CurrentKey(): string
      reads this
    {
      if currentQuery.Some? then QueryKey(currentQuery.value) else ""
    }

    /** `resourcesData`: the cached data of the current key, if truthy. */
    function ResourcesData(): (r: Option<Value>)
      reads this
      ensures r.Some? <==> CurrentKey() in resourceCache && resourceCache[CurrentKey()].Some?
                           && JsTruthy(resourceCache[CurrentKey()].value)
      ensures r.Some? ==> r == resourceCache[CurrentKey()]
    {
      var key := CurrentKey();
      if key in resourceCache && resourceCache[key].Some? && JsTruthy(resourceCache[key].value)
      then resourceCache[key] else None
    }

    /** `loading`: the current key's flag, false when it has none. */
    function Loading(): (r: bool)
      reads this
      ensures r <==> CurrentKey() in loadingCache && loadingCache[CurrentKey()]
    {
      CurrentKey() in loadingCache && loadingCache[CurrentKey()]
    }

    /** `error`: the current key's message, if non-empty. */
    function Error(): (r: Option<string>)
      reads this
      ensures r.Some? <==> CurrentKey() in errorCache && Given(errorCache[CurrentKey()])
      ensures r.Some? ==> r == errorCache[CurrentKey()]
    {
      var key := CurrentKey();
      if key in errorCache && Given(errorCache[key]) then errorCache[key] else None
    }

    /** `fetchResources`: the query becomes current; its key's data is the
        fetched data, or `null` with the failure's message as its error;
        its loading flag is off at the end. Other keys keep their entries. */
    method FetchResources(query: ResourceQuery, outcome: Result<Value, Option<string>>)
      modifies this
      ensures currentQuery == Some(query)
      ensures loadingCache == old(loadingCache)[QueryKey(query) := false]
      ensures outcome.Ok? ==> resourceCache == old(resourceCache)[QueryKey(query) := Some(outcome.value)]
                              && errorCache == old(errorCache)[QueryKey(query) := None]
      ensures outcome.Err? ==> resourceCache == old(resourceCache)[QueryKey(query) := None]
                               && errorCache == old(errorCache)[QueryKey(query) := Some(FailureMessage(outcome.error))]
      ensures !Loading()
      ensures outcome.Ok? ==> Error().None? && (JsTruthy(outcome.value) ==> ResourcesData() == Some(outcome.value))
      ensures outcome.Err? ==> Error() == Some(FailureMessage(outcome.error)) && ResourcesData().None?
    {
      var key := QueryKey(query);
      currentQuery := Some(query);
      loadingCache := loadingCache[key := true];
      errorCache := errorCache[key := None];
      if outcome.Ok? {
        resourceCache := resourceCache[key := Some(outcome.value)];
      } else {
        errorCache := errorCache[key := Some(FailureMessage(outcome.error))];
        resourceCache := resourceCache[key := None];
      }
      loadingCache := loadingCache[key := false];
      assert CurrentKey() == key;
    }

    /** `refreshResources`: fetches the current query again; nothing
        happens without one. */
    method RefreshResources(outcome: Result<Value, Option<string>>)
      modifies this
      ensures old(currentQuery).None? ==>
        resourceCache == old(resourceCache) && loadingCache == old(loadingCache)
        && errorCache == old(errorCache) && currentQuery == old(currentQuery)
      ensures old(currentQuery).Some? ==> currentQuery == old(currentQuery) && !Loading()
      ensures old(currentQuery).Some? && outcome.Ok? ==>
        resourceCache == old(resourceCache)[QueryKey(old(currentQuery).value) := Some(outcome.value)]
      ensures old(currentQuery).Some? && outcome.Err? ==>
        Error() == Some(FailureMessage(outcome.error)) && ResourcesData().None?
    {
      if currentQuery.Some? {
        FetchResources(currentQuery.value, outcome);
      }
    }

    /** `clear`: all three caches emptied and no current query. */
    method Clear()
      modifies this
      ensures resourceCache == map[] && loadingCache == map[] && errorCache == map[] && currentQuery.None?
      ensures ResourcesData().None? && !Loading() && Error().None?
    {
      resourceCache := map[];
      loadingCache := map[];
      errorCache := map[];
      currentQuery := None;
    }
  }
}

=== FILE: schedulers.dfy ===
/** The three cron schedulers: the database-driven `UnifiedScheduler` of
    ikuyo/core/scheduler/unified_scheduler.py and of its older copy
    ikuyo/core/scheduler.py, whose loading, starting, stopping, reloading and
    listing are the same code, and the configuration-driven `CrawlerScheduler`
    of src/core/scheduler.py. All three keep an APScheduler instance whose job
    store is modelled as the trigger table of `CronTable`. */
module Schedulers {
  import opened Wrappers
  import opened PyValue
  import opened Strings
  import opened CronTable
  import opened TaskModel
  import opened TaskFactory

  /** A row of the `scheduledjob` table (ikuyo/core/models/scheduled_job.py). */
  datatype ScheduledJob = ScheduledJob(
    jobId: string,
    name: string,
    cronExpression: string,
    parameters: Option<string>,
    enabled: bool)

  /** `select(ScheduledJob).offset(offset).limit(limit)`: SQL `OFFSET`, then
      `LIMIT` when one is given. A limit of zero selects no row. */
  function ListJobs(table: seq<ScheduledJob>, limit: Option<nat>, offset: nat): (r: seq<ScheduledJob>)
    ensures offset >= |table| ==> r == []
    ensures offset < |table| && limit.None? ==> r == table[offset..]
    ensures limit.Some? ==> |r| <= limit.value
    ensures forall i :: 0 <= i < |r| ==> offset + i < |table| && r[i] == table[offset + i]
  {
    var rest := if offset >= |table| then [] else table[offset..];
    if limit.Some? && limit.value < |rest| then rest[..limit.value] else rest
  }

  /** The limit the schedulers pass as written: `job_repo.list()` takes its
      default `limit=0`. */
  const WrittenLimit: Option<nat> := Some(0)

  /** The evidently intended listing: no limit. */
  const IntendedLimit: Option<nat> := None

  /** `ScheduledJobRepository.list()` with its default `limit=0` selects no
      row, whatever the table holds, so the schedulers as written load nothing. */
  lemma DefaultListingIsEmpty(table: seq<ScheduledJob>, t: map<string, Trigger>, accepts: CronFields -> bool)
    ensures ListJobs(table, WrittenLimit, 0) == []
    ensures Fill(t, DbSteps(ListJobs(table, WrittenLimit, 0), accepts)) == Filled(t, false)
  {
    assert DbSteps(ListJobs(table, WrittenLimit, 0), accepts) == [];
  }

  /** Without a limit the listing is the whole table, in order. */
  lemma UnlimitedListingIsTable(table: seq<ScheduledJob>)
    ensures ListJobs(table, IntendedLimit, 0) == table
  {
  }

  /** A row that reaches `add_job`: enabled, with five fields. */
  predicate Registers(job: ScheduledJob) {
    job.enabled && |Words(job.cronExpression)| == 5
  }

  /** A row whose registration raises: `CronTrigger` refuses its fields
      (`accepts` is APScheduler's field grammar and ranges), or `add_job`
      refuses its empty name with a TypeError. */
  predicate Refused(job: ScheduledJob, accepts: CronFields -> bool) {
    Registers(job) && !(accepts(CronOf(job.cronExpression).value) && |job.name| > 0)
  }

  /** The rows that receive a trigger. */
  predicate Eligible(job: ScheduledJob, accepts: CronFields -> bool) {
    Registers(job) && accepts(CronOf(job.cronExpression).value) && |job.name| > 0
  }

  /** What loading one row does: disabled rows and expressions that do not
      split into five fields are skipped; the others are registered under
      their `job_id` with `replace_existing=True`, unless `CronTrigger` or
      `add_job` raises, which ends the loop (nothing in it catches). */
  function DbStep(job: ScheduledJob, accepts: CronFields -> bool): (s: Step)
    ensures s.Skip? <==> !Registers(job)
    ensures s.Abort? <==> Refused(job, accepts)
    ensures s.Add? <==> Eligible(job, accepts)
    ensures s.Add? ==> s.id == job.jobId && s.trigger.name == job.name
    ensures s.Add? ==> s.trigger.cron == CronFields(Words(job.cronExpression)[0], Words(job.cronExpression)[1],
                                                      Words(job.cronExpression)[2], Words(job.cronExpression)[3],
                                                      Words(job.cronExpression)[4])
  {
    if !job.enabled then Skip
    else match CronOf(job.cronExpression)
      case None => Skip
      case Some(c) => if accepts(c) && |job.name| > 0 then Add(job.jobId, Trigger(c, job.name)) else Abort
  }

  function DbSteps(jobs: seq<ScheduledJob>, accepts: CronFields -> bool): (r: seq<Step>)
    ensures |r| == |jobs|
    ensures forall i :: 0 <= i < |jobs| ==> r[i] == DbStep(jobs[i], accepts)
  {
    seq(|jobs|, i requires 0 <= i < |jobs| => DbStep(jobs[i], accepts))
  }

  /** The position of the first row from `from` on whose registration
      raises; the length of the listing when there is none. */
  function FirstRefused(jobs: seq<ScheduledJob>, accepts: CronFields -> bool, from: nat := 0): (n: nat)
    requires from <= |jobs|
    ensures from <= n <= |jobs|
    ensures forall j :: from <= j < n ==> !Refused(jobs[j], accepts)
    ensures n < |jobs| ==> Refused(jobs[n], accepts)
    decreases |jobs| - from
  {
    if from == |jobs| then from
    else if Refused(jobs[from], accepts) then from
    else FirstRefused(jobs, accepts, from + 1)
  }

  /** After loading, the loop has raised exactly when some row is refused,
      and a job id has a trigger exactly when it had one before or an
      eligible row before the first refused one carries it. */
  lemma DbLoadedKeys(t: map<string, Trigger>, jobs: seq<ScheduledJob>, accepts: CronFields -> bool, k: string)
    ensures Fill(t, DbSteps(jobs, accepts)).aborted <==> FirstRefused(jobs, accepts) < |jobs|
    ensures k in Fill(t, DbSteps(jobs, accepts)).triggers
        <==> k in t || exists i :: 0 <= i < FirstRefused(jobs, accepts) && Eligible(jobs[i], accepts) && jobs[i].jobId == k
  {
    DbStopsAtRefused(t, jobs, accepts);
    DbHeadKeys(t, jobs, accepts, k);
  }

  /** The loop ends at the first refused row, keeping what the rows before it did. */
  lemma DbStopsAtRefused(t: map<string, Trigger>, jobs: seq<ScheduledJob>, accepts: CronFields -> bool)
    ensures Fill(t, DbSteps(jobs, accepts)).aborted <==> FirstRefused(jobs, accepts) < |jobs|
    ensures Fill(t, DbSteps(jobs, accepts)).triggers == Fill(t, DbSteps(jobs, accepts)[..FirstRefused(jobs, accepts)]).triggers
  {
    var steps := DbSteps(jobs, accepts);
    var n := FirstRefused(jobs, accepts);
    forall j | 0 <= j < n
      ensures !steps[..n][j].Abort? && !steps[j].Abort?
    {
      DbHeadStep(jobs, accepts, j, "");
    }
    FillKeys(t, steps[..n], "");
    if n < |jobs| {
      assert steps[n] == DbStep(jobs[n], accepts);
      FillAbort(t, steps, n);
    } else {
      assert steps[..n] == steps;
    }
  }

  /** The keys the rows before the first refused one leave: the old ones
      and the ids of the eligible rows. */
  lemma DbHeadKeys(t: map<string, Trigger>, jobs: seq<ScheduledJob>, accepts: CronFields -> bool, k: string)
    ensures k in Fill(t, DbSteps(jobs, accepts)[..FirstRefused(jobs, accepts)]).triggers
        <==> k in t || exists i :: 0 <= i < FirstRefused(jobs, accepts) && Eligible(jobs[i], accepts) && jobs[i].jobId == k
  {
    var steps := DbSteps(jobs, accepts);
    var n := FirstRefused(jobs, accepts);
    var head := steps[..n];
    forall j | 0 <= j < |head|
      ensures !head[j].Abort?
    {
      DbHeadStep(jobs, accepts, j, k);
    }
    FillKeys(t, head, k);
    if exists i :: 0 <= i < n && Eligible(jobs[i], accepts) && jobs[i].jobId == k {
      var i :| 0 <= i < n && Eligible(jobs[i], accepts) && jobs[i].jobId == k;
      DbHeadStep(jobs, accepts, i, k);
    }
    if exists i :: 0 <= i < |head| && head[i].Add? && head[i].id == k {
      var i :| 0 <= i < |head| && head[i].Add? && head[i].id == k;
      DbHeadStep(jobs, accepts, i, k);
    }
  }

  /** A row before the first refused one does not raise, and adds a key
      exactly when it is eligible and carries that id. */
  lemma DbHeadStep(jobs: seq<ScheduledJob>, accepts: CronFields -> bool, j: nat, k: string)
    requires j < FirstRefused(jobs, accepts)
    ensures !DbSteps(jobs, accepts)[..FirstRefused(jobs, accepts)][j].Abort?
    ensures (DbSteps(jobs, accepts)[..FirstRefused(jobs, accepts)][j].Add? && DbSteps(jobs, accepts)[..FirstRefused(jobs, accepts)][j].id == k)
        <==> Eligible(jobs[j], accepts) && jobs[j].jobId == k
  {
    assert DbSteps(jobs, accepts)[..FirstRefused(jobs, accepts)][j] == DbStep(jobs[j], accepts);
  }

  /** Among eligible rows sharing a `job_id` before the first refused row,
      the last one decides the trigger. */
  lemma DbLastRowWins(t: map<string, Trigger>, jobs: seq<ScheduledJob>, accepts: CronFields -> bool, i: nat)
    requires i < FirstRefused(jobs, accepts) && Eligible(jobs[i], accepts)
    requires forall j :: i < j < FirstRefused(jobs, accepts) && Eligible(jobs[j], accepts) ==> jobs[j].jobId != jobs[i].jobId
    ensures jobs[i].jobId in Fill(t, DbSteps(jobs, accepts)).triggers
    ensures Fill(t, DbSteps(jobs, accepts)).triggers[jobs[i].jobId] == DbStep(jobs[i], accepts).trigger
    ensures Fill(t, DbSteps(jobs, accepts)).triggers[jobs[i].jobId].name == jobs[i].name
  {
    var steps := DbSteps(jobs, accepts);
    var n := FirstRefused(jobs, accepts);
    var head := steps[..n];
    assert forall j :: 0 <= j < |head| ==> head[j] == steps[j];
    FillLastWins(t, head, i);
    if n < |jobs| {
      FillAbort(t, steps, n);
    } else {
      assert head == steps;
    }
  }

  /** A job's entry in `get_jobs()`; APScheduler's next fire time and trigger text are outside the model. */
  datatype JobInfo = JobInfo(id: string, name: string, cron: CronFields)

  /** The state every scheduler keeps: whether its APScheduler instance
      exists (`self.scheduler`), `is_running`, and the instance's trigger table. */
  class Scheduler {
    var initialized: bool
    var isRunning: bool
    var triggers: map<string, Trigger>

    constructor ()
      ensures !initialized && !isRunning && triggers == map[]
    {
      initialized := false;
      isRunning := false;
      triggers := map[];
    }

    /** `init_scheduler`: a fresh, empty APScheduler instance when its
        creation (`created`) succeeds; otherwise nothing changes. */
    method InitScheduler(created: bool) returns (ok: bool)
      modifies this`initialized, this`triggers
      ensures ok == created
      ensures created ==> initialized && triggers == map[]
      ensures !created ==> initialized == old(initialized) && triggers == old(triggers)
    {
      if created {
        initialized := true;
        triggers := map[];
      }
      ok := created;
    }

    /** `load_jobs_from_db` over the rows the job listing returns with
        `limit`: nothing happens when uninitialised; otherwise each row is
        registered in order, and a registration that raises ends the loop
        and propagates (`aborted`). */
    method LoadJobsFromDb(table: seq<ScheduledJob>, limit: Option<nat>, accepts: CronFields -> bool) returns (aborted: bool)
      modifies this`triggers
      ensures !initialized ==> triggers == old(triggers) && !aborted
      ensures initialized ==> Filled(triggers, aborted) == Fill(old(triggers), DbSteps(ListJobs(table, limit, 0), accepts))
    {
      if !initialized {
        return false;
      }
      var jobs := ListJobs(table, limit, 0);
      ghost var steps := DbSteps(jobs, accepts);
      for i := 0 to |jobs|
        invariant Fill(old(triggers), steps) == Fill(triggers, steps[i..])
      {
        assert steps[i..][1..] == steps[i + 1..];
        var job := jobs[i];
        if !job.enabled {
          continue;
        }
        var parts := Words(job.cronExpression);
        if |parts| != 5 {
          continue;
        }
        var fields := CronFields(parts[0], parts[1], parts[2], parts[3], parts[4]);
        if !accepts(fields) || |job.name| == 0 {
          return true;
        }
        triggers := triggers[job.jobId := Trigger(fields, job.name)];
      }
      aborted := false;
    }

    /** `start` of the database-driven schedulers: lazy initialisation, then
        loading, then `scheduler.start()`, which raises when the instance
        already runs or when `started` is false. An exception from loading or
        starting is caught and answers false. With the listing as written
        (`WrittenLimit`) no trigger is registered. */
    method StartFromDb(created: bool, table: seq<ScheduledJob>, limit: Option<nat>, accepts: CronFields -> bool,
                       started: bool) returns (ok: bool)
      modifies this`initialized, this`triggers, this`isRunning
      ensures !old(initialized) && !created ==> !ok && !initialized && triggers == old(triggers) && isRunning == old(isRunning)
      ensures old(initialized) || created ==>
        initialized && triggers == Fill(if old(initialized) then old(triggers) else map[], DbSteps(ListJobs(table, limit, 0), accepts)).triggers
      ensures ok <==> (old(initialized) || created) && started && !old(isRunning)
                      && !Fill(if old(initialized) then old(triggers) else map[], DbSteps(ListJobs(table, limit, 0), accepts)).aborted
      ensures isRunning == (old(isRunning) || ok)
      ensures (old(initialized) || created) && limit == WrittenLimit ==>
        triggers == (if old(initialized) then old(triggers) else map[])
    {
      if !initialized {
        var made := InitScheduler(created);
        if !made {
          return false;
        }
      }
      if limit == WrittenLimit {
        DefaultListingIsEmpty(table, triggers, accepts);
      }
      var aborted := LoadJobsFromDb(table, limit, accepts);
      if aborted {
        return false;
      }
      ok := Launch(started);
    }

    /** `scheduler.start()` followed by `is_running = True`. */
    method Launch(started: bool) returns (ok: bool)
      modifies this`isRunning
      ensures ok <==> started && !old(isRunning)
      ensures isRunning == (old(isRunning) || ok)
    {
      if isRunning || !started {
        return false;
      }
      isRunning := true;
      ok := true;
    }

    /** `stop`: only a running scheduler is shut down; every other call
        reports success. A failed shutdown leaves it running. */
    method Stop(shutDown: bool) returns (ok: bool)
      modifies this`isRunning
      ensures ok <==> !(initialized && old(isRunning)) || shutDown
      ensures isRunning == (old(isRunning) && !(initialized && shutDown))
    {
      if initialized && isRunning {
        if shutDown {
          isRunning := false;
          return true;
        }
        return false;
      }
      ok := true;
    }

    /** `reload_jobs`: every trigger is removed, then the table is loaded;
        an exception from loading propagates (`raised`). With the listing as
        written (`WrittenLimit`) the table ends empty. */
    method ReloadJobs(table: seq<ScheduledJob>, limit: Option<nat>, accepts: CronFields -> bool) returns (raised: bool)
      modifies this`triggers
      ensures !initialized ==> triggers == old(triggers) && !raised
      ensures initialized ==> Filled(triggers, raised) == Fill(map[], DbSteps(ListJobs(table, limit, 0), accepts))
      ensures initialized && limit == WrittenLimit ==> triggers == map[] && !raised
    {
      if !initialized {
        return false;
      }
      triggers := map[];
      if limit == WrittenLimit {
        DefaultListingIsEmpty(table, map[], accepts);
      }
      raised := LoadJobsFromDb(table, limit, accepts);
    }

    /** `get_jobs`: one entry per registered trigger, none when uninitialised. */
    function GetJobs(): (r: set<JobInfo>)
      reads this
      ensures !initialized ==> r == {}
      ensures initialized ==> forall k :: k in triggers ==> JobInfo(k, triggers[k].name, triggers[k].cron) in r
      ensures forall j :: j in r ==> j.id in triggers && triggers[j.id] == Trigger(j.cron, j.name)
    {
      if !initialized then {}
      else set k | k in triggers :: JobInfo(k, triggers[k].name, triggers[k].cron)
    }

    /** `add_crawler_job` of src/core/scheduler.py over the scheduler
        configuration: nothing happens when uninitialised; otherwise the jobs
        are registered in order until one raises, and the exception is
        caught and logged. */
    method AddCrawlerJob(config: Value, accepts: CronFields -> bool) returns (aborted: bool)
      modifies this`triggers
      ensures !initialized ==> triggers == old(triggers) && !aborted
      ensures initialized ==> Filled(triggers, aborted) == Fill(old(triggers), ConfigSteps(config, accepts))
    {
      if !initialized {
        return false;
      }
      if !config.Dict? {
        return true;
      }
      var jobs := DictGet(config.entries, "jobs", List([]));
      if !jobs.List? {
        return !((jobs.Str? && |jobs.s| == 0) || (jobs.Dict? && |jobs.entries| == 0));
      }
      assert ConfigSteps(config, accepts) == ListSteps(jobs.items, accepts);
      aborted := AddJobs(jobs.items, accepts);
    }

    /** The loop of `add_crawler_job` over a list of job configurations:
        each job's step is applied in turn until one raises. */
    method AddJobs(xs: seq<Value>, accepts: CronFields -> bool) returns (aborted: bool)
      modifies this`triggers
      ensures Filled(triggers, aborted) == Fill(old(triggers), ListSteps(xs, accepts))
    {
      ghost var steps := ListSteps(xs, accepts);
      var i := 0;
      while i < |xs|
        invariant 0 <= i <= |xs|
        invariant Fill(old(triggers), steps) == Fill(triggers, steps[i..])
      {
        FillAt(triggers, steps, i);
        var step := ConfigStep(xs[i], accepts);
        assert step == steps[i];
        if step.Abort? {
          return true;
        }
        if step.Add? {
          triggers := triggers[step.id := step.trigger];
        }
        i := i + 1;
      }
      aborted := false;
    }

    /** `start` of src/core/scheduler.py: lazy initialisation from the
        configuration, then the configured jobs (whose failures are caught
        inside `add_crawler_job`), then `scheduler.start()`. */
    method StartFromConfig(config: Value, created: bool, accepts: CronFields -> bool, started: bool) returns (ok: bool)
      modifies this`initialized, this`triggers, this`isRunning
      ensures !old(initialized) && !InitSucceeds(config, created) ==>
        !ok && !initialized && triggers == old(triggers) && isRunning == old(isRunning)
      ensures old(initialized) || InitSucceeds(config, created) ==>
        initialized && triggers == Fill(if old(initialized) then old(triggers) else map[], ConfigSteps(config, accepts)).triggers
      ensures ok <==> (old(initialized) || InitSucceeds(config, created)) && started && !old(isRunning)
      ensures isRunning == (old(isRunning) || ok)
    {
      if !initialized {
        var made := InitScheduler(InitSucceeds(config, created));
        if !made {
          return false;
        }
      }
      var _ := AddCrawlerJob(config, accepts);
      ok := Launch(started);
    }
  }

  /** `init_scheduler` of src/core/scheduler.py succeeds when the
      configuration answers `.get`, its `scheduler_settings` (default `{}`)
      does too, and APScheduler accepts the time zone and job defaults (`created`). */
  predicate InitSucceeds(config: Value, created: bool) {
    config.Dict? && DictGet(config.entries, "scheduler_settings", Dict(map[])).Dict? && created
  }

  /** The time zone the configuration selects; "Asia/Shanghai" when unset. */
  function TimeZone(config: map<string, Value>): (r: Value)
    ensures "timezone" !in config ==> r == Str("Asia/Shanghai")
    ensures "timezone" in config ==> r == config["timezone"]
  {
    DictGet(config, "timezone", Str("Asia/Shanghai"))
  }

  /** The qualified name of `_run_crawler`, which APScheduler takes as the
      name of a job configured with a null name. */
  const CallableName := "CrawlerScheduler._run_crawler"

  /** The name `add_job` gives a job: the callable's qualified name for
      null, the text itself when it is non-empty text; anything else is
      refused with a TypeError (None). */
  function JobName(v: Value): (r: Option<string>)
    ensures v == Null ==> r == Some(CallableName)
    ensures v.Str? ==> (r.Some? <==> |v.s| > 0)
    ensures v.Str? && r.Some? ==> r.value == v.s
    ensures !v.Str? && v != Null ==> r.None?
  {
    match v
      case Null => Some(CallableName)
      case Str(s) => if |s| > 0 then Some(s) else None
      case _ => None
  }

  /** What registering one configured job does. A job that does not answer
      `.get` or lacks `id`, `name` or `cron` raises; so does a `cron` that
      is not text. A disabled job (`enabled` defaults to true) or a cron
      expression without exactly five fields is skipped. Otherwise
      `CronTrigger` raises for fields it refuses (`accepts`), and `add_job`
      for an `id` that is not text or a name `JobName` refuses. */
  function ConfigStep(job: Value, accepts: CronFields -> bool): (s: Step)
    ensures !job.Dict? ==> s == Abort
    ensures job.Dict? && !Truthy(DictGet(job.entries, "enabled", Bool(true))) ==> s == Skip
  {
    if !job.Dict? then Abort
    else
      var d := job.entries;
      if !Truthy(DictGet(d, "enabled", Bool(true))) then Skip
      else if "id" !in d || "name" !in d || "cron" !in d then Abort
      else if !d["cron"].Str? then Abort
      else match CronOf(d["cron"].s)
        case None => Skip
        case Some(c) =>
          if !accepts(c) || !d["id"].Str? then Abort
          else match JobName(d["name"])
            case None => Abort
            case Some(n) => Add(d["id"].s, Trigger(c, n))
  }

  /** A configured job gets a trigger exactly when it is an enabled
      mapping with a text `id`, a name `add_job` accepts and a five-field
      `cron` that `CronTrigger` accepts; the trigger carries that id, that
      name and the fields in order. */
  lemma ConfigStepAdds(job: Value, accepts: CronFields -> bool)
    ensures ConfigStep(job, accepts).Add? <==>
      job.Dict? && Truthy(DictGet(job.entries, "enabled", Bool(true)))
      && "id" in job.entries && "name" in job.entries && "cron" in job.entries
      && job.entries["id"].Str? && job.entries["cron"].Str?
      && |Words(job.entries["cron"].s)| == 5 && accepts(CronOf(job.entries["cron"].s).value)
      && JobName(job.entries["name"]).Some?
    ensures ConfigStep(job, accepts).Add? ==>
      ConfigStep(job, accepts).id == job.entries["id"].s
      && ConfigStep(job, accepts).trigger.name == JobName(job.entries["name"]).value
      && Some(ConfigStep(job, accepts).trigger.cron) == CronOf(job.entries["cron"].s)
  {
    if job.Dict? {
      var d := job.entries;
      if !Truthy(DictGet(d, "enabled", Bool(true))) {
        assert ConfigStep(job, accepts) == Skip;
      } else if "id" !in d || "name" !in d || "cron" !in d || !d["cron"].Str? {
        assert ConfigStep(job, accepts) == Abort;
      } else {
        var c := CronOf(d["cron"].s);
        if c.None? {
          assert ConfigStep(job, accepts) == Skip;
        } else if !accepts(c.value) || !d["id"].Str? {
          assert ConfigStep(job, accepts) == Abort;
        } else {
          var n := JobName(d["name"]);
          assert ConfigStep(job, accepts) == if n.Some? then Add(d["id"].s, Trigger(c.value, n.value)) else Abort;
        }
      }
    }
  }

  /** An enabled mapping with all three keys and a five-field text `cron`
      raises exactly when `CronTrigger` refuses the fields, the `id` is not
      text or the name is refused. */
  lemma ConfigStepRaises(d: map<string, Value>, accepts: CronFields -> bool)
    requires Truthy(DictGet(d, "enabled", Bool(true))) && "id" in d && "name" in d && "cron" in d
    requires d["cron"].Str? && |Words(d["cron"].s)| == 5
    ensures ConfigStep(Dict(d), accepts).Abort? <==>
      !accepts(CronOf(d["cron"].s).value) || !d["id"].Str? || JobName(d["name"]).None?
  {
  }

  /** A job without `enabled` is enabled: a mapping with a text `id`, a
      non-empty text `name` and an accepted five-field `cron` but no
      `enabled` key is registered. */
  lemma EnabledByDefault(d: map<string, Value>, cron: string, accepts: CronFields -> bool)
    requires "enabled" !in d && "id" in d && "name" in d && "cron" in d
    requires d["id"].Str? && d["name"].Str? && |d["name"].s| > 0 && d["cron"] == Str(cron)
    requires |Words(cron)| == 5 && accepts(CronOf(cron).value)
    ensures ConfigStep(Dict(d), accepts).Add?
  {
    assert Truthy(DictGet(d, "enabled", Bool(true)));
    assert CronOf(cron).Some?;
  }

  /** The configured jobs of a list, as steps. */
  function ListSteps(xs: seq<Value>, accepts: CronFields -> bool): (r: seq<Step>)
    ensures |r| == |xs|
    ensures forall i :: 0 <= i < |xs| ==> r[i] == ConfigStep(xs[i], accepts)
  {
    seq(|xs|, i requires 0 <= i < |xs| => ConfigStep(xs[i], accepts))
  }

  /** `for job_config in scheduler_config.get("jobs", [])`: a list yields its
      items; iterating a non-empty string or dict yields strings, which raise
      on `.get`; any other value raises as not iterable, as does a
      configuration that does not answer `.get`. */
  function ConfigSteps(config: Value, accepts: CronFields -> bool): (r: seq<Step>)
    ensures !config.Dict? ==> r == [Abort]
    ensures config.Dict? && "jobs" !in config.entries ==> r == []
    ensures config.Dict? && "jobs" in config.entries && config.entries["jobs"].List? ==>
      r == ListSteps(config.entries["jobs"].items, accepts)
  {
    if !config.Dict? then [Abort]
    else match DictGet(config.entries, "jobs", List([]))
      case List(xs) => ListSteps(xs, accepts)
      case Str(s) => if |s| == 0 then [] else [Abort]
      case Dict(m) => if |m| == 0 then [] else [Abort]
      case _ => [Abort]
  }

  /** A configured job that raises ends the loop: the jobs before it keep
      their triggers and none after it is registered. */
  lemma ConfigFailureStopsLoading(t: map<string, Trigger>, xs: seq<Value>, accepts: CronFields -> bool, i: nat)
    requires i < |xs| && ConfigStep(xs[i], accepts).Abort?
    requires forall j :: 0 <= j < i ==> !ConfigStep(xs[j], accepts).Abort?
    ensures Fill(t, ListSteps(xs, accepts)).aborted
    ensures Fill(t, ListSteps(xs, accepts)).triggers == Fill(t, ListSteps(xs[..i], accepts)).triggers
  {
    assert ListSteps(xs, accepts)[..i] == ListSteps(xs[..i], accepts);
    FillAbort(t, ListSteps(xs, accepts), i);
  }

  /** The steps of two lists in a row are the steps of each. */
  lemma ListStepsAppend(a: seq<Value>, b: seq<Value>, accepts: CronFields -> bool)
    ensures ListSteps(a + b, accepts) == ListSteps(a, accepts) + ListSteps(b, accepts)
  {
    var l := ListSteps(a + b, accepts);
    var la := ListSteps(a, accepts);
    var lb := ListSteps(b, accepts);
    assert forall i :: 0 <= i < |a| ==> (a + b)[i] == a[i];
    assert forall i :: |a| <= i < |a| + |b| ==> (a + b)[i] == b[i - |a|];
    assert forall i :: 0 <= i < |a| ==> l[i] == la[i];
    assert forall i :: |a| <= i < |a| + |b| ==> l[i] == lb[i - |a|];
  }

  /** A job skipped for its cron expression or for being disabled changes
      nothing for the other jobs. */
  lemma ConfigSkipIsolated(t: map<string, Trigger>, before: seq<Value>, job: Value, after: seq<Value>, accepts: CronFields -> bool)
    requires ConfigStep(job, accepts).Skip?
    ensures Fill(t, ListSteps(before + [job] + after, accepts)) == Fill(t, ListSteps(before + after, accepts))
  {
    ListStepsAppend(before + [job], after, accepts);
    ListStepsAppend(before, [job], accepts);
    ListStepsAppend(before, after, accepts);
    assert ListSteps([job], accepts) == [Skip];
    FillSkip(t, ListSteps(before, accepts), ListSteps(after, accepts));
  }

  /** `main`: the scheduler starts only when the configuration's `enabled`
      (default false) is truthy; a configuration without `.get` raises. */
  function MainGate(config: Value): (r: Result<bool, string>)
    ensures !config.Dict? ==> r == Err(NoAttribute(config, "get"))
    ensures config.Dict? ==> r.Ok? && (r.value <==> "enabled" in config.entries && Truthy(config.entries["enabled"]))
  {
    if !config.Dict? then Err(NoAttribute(config, "get"))
    else Ok(Truthy(DictGet(config.entries, "enabled", Bool(false))))
  }

  /** `_run_crawler`: the Scrapy crawl of "mikan" (`crawl`, its error if it
      raised) is re-raised after logging. */
  function RunCrawler(crawl: Option<string>): (r: Result<(), string>)
    ensures r.Err? <==> crawl.Some?
    ensures crawl.Some? ==> r.error == crawl.value
  {
    if crawl.Some? then Err(crawl.value) else Ok(())
  }

  /** The AttributeError of `task.write_to_db()`: `CrawlerTask` has no such method. */
  const NoWriteToDb := "'CrawlerTask' object has no attribute 'write_to_db'"

  /** The TypeError of the older scheduler's factory call. */
  const SpiderRunnerKeyword := "TaskFactory.create_task() got an unexpected keyword argument 'spider_runner'"

  /** `_write_scheduled_task` of unified_scheduler.py: the parameters are
      decoded (`loads`, None when `json.loads` raises `decodeError`), the
      factory is asked for a "scheduled" crawler task and the task is asked
      to write itself. As written the factory's own call to the task class
      raises first. The error, if any, is logged and not raised. */
  function UnifiedWrite(job: ScheduledJob, db: TaskDb, loads: string -> Option<Value>, decodeError: string)
    : (r: Result<TaskSpec, string>)
    ensures r.Err?
    ensures job.parameters.Some? && |job.parameters.value| > 0 && loads(job.parameters.value).None? ==>
      r == Err(decodeError)
    ensures job.parameters.None? || |job.parameters.value| == 0 || loads(job.parameters.value).Some? ==>
      r == Err(ArityError)
  {
    if job.parameters.Some? && |job.parameters.value| > 0 && loads(job.parameters.value).None? then Err(decodeError)
    else match CreateTask("crawler", job.parameters, Some(db), "scheduled", None)
      case Err(e) => Err(e)
      case Ok(_) => Err(NoWriteToDb)
  }

  /** The same firing with the corrected factory: the task is built, and
      asking it to write itself fails on the missing `write_to_db`. */
  function UnifiedWriteIntended(job: ScheduledJob, db: TaskDb, loads: string -> Option<Value>, decodeError: string)
    : (r: Result<TaskSpec, string>)
    ensures r.Err?
    ensures job.parameters.Some? && |job.parameters.value| > 0 && loads(job.parameters.value).None? ==>
      r == Err(decodeError)
    ensures job.parameters.None? || |job.parameters.value| == 0 || loads(job.parameters.value).Some? ==>
      r == Err(NoWriteToDb)
  {
    if job.parameters.Some? && |job.parameters.value| > 0 && loads(job.parameters.value).None? then Err(decodeError)
    else match CreateTaskIntended("crawler", job.parameters, Some(db), "scheduled", None)
      case Err(e) => Err(e)
      case Ok(_) => Err(NoWriteToDb)
  }

  /** `_write_scheduled_task` of ikuyo/core/scheduler.py: the factory
      refuses the `spider_runner` keyword before anything else happens. */
  function LegacyWrite(job: ScheduledJob): (r: Result<TaskSpec, string>)
    ensures r.Err? && r.error == SpiderRunnerKeyword
  {
    Err(SpiderRunnerKeyword)
  }

  /** No firing of either database-driven scheduler writes a task: the
      older one fails on the factory's keywords, the newer one on an
      undecodable parameter text or else on the factory's call to the task
      class; with the factory corrected, on the missing `write_to_db`. */
  lemma ScheduledWritesNeverSucceed(job: ScheduledJob, db: TaskDb, loads: string -> Option<Value>, decodeError: string)
    ensures UnifiedWrite(job, db, loads, decodeError).Err?
    ensures UnifiedWriteIntended(job, db, loads, decodeError).Err?
    ensures LegacyWrite(job) == Err(SpiderRunnerKeyword)
    ensures job.parameters.None? || |job.parameters.value| == 0 || loads(job.parameters.value).Some? ==>
      UnifiedWrite(job, db, loads, decodeError) == Err(ArityError)
      && UnifiedWriteIntended(job, db, loads, decodeError) == Err(NoWriteToDb)
  {
  }
}

=== FILE: scrapy_spider.dfy ===
/** The first Scrapy project's spider, ikuyo_scrapy/ikuyo_scrapy/spiders/mikan.py:
    the limit argument, the homepage links, the subtitle groups of a detail
    page, the external-link guess for the official site, the table-to-group
    matching and row parsing, and the crawl log. */
module IkuyoScrapySpider {
  import opened Wrappers
  import opened Strings
  import opened MikanScan
  import MikanRows
  import MikanScript

  /** `MAX_ANIME_LIMIT`. */
  const MaxAnimeLimit := 3

  /** `int(limit) if limit else MAX_ANIME_LIMIT` for the spider argument:
      an absent or empty argument gives 3, a text `int` rejects raises
      ValueError. */
  function LimitOf(arg: Option<string>): (r: Result<int, string>)
    ensures !Given(arg) ==> r == Ok(MaxAnimeLimit)
    ensures Given(arg) && PyInt(arg.value).Some? ==> r == Ok(PyInt(arg.value).value)
    ensures Given(arg) && PyInt(arg.value).None? ==> r.Err?
  {
    if !Given(arg) then Ok(MaxAnimeLimit)
    else match PyInt(arg.value)
      case Some(n) => Ok(n)
      case None => Err("ValueError")
  }

  /** `parse`: the detail requests of the first `limit` homepage links
      (`anime_links[:self.limit]`), each kept only with a non-zero id. */
  function HomepageRequests(links: seq<MikanRows.ListLink>, limit: int, join: string -> string): (r: seq<MikanRows.Request>)
    ensures limit >= 0 ==> |r| <= limit
    ensures |r| <= |links|
    ensures r == MikanRows.LinkRequests(PyTake(links, Some(limit)), join)
    ensures forall k :: 0 <= k < |r| ==> r[k].Detail? && r[k].mikanId > 0
  {
    MikanRows.LinkRequests(PyTake(links, Some(limit)), join)
  }

  // ------------------------------------------------- official website

  /** A link `_find_external_links` counts: non-empty, http(s), and on
      neither the tracker's nor bgm.tv's domain. */
  predicate IsExternal(link: string) {
    link != "" && (StartsWith(link, "http://") || StartsWith(link, "https://"))
      && !Contains(link, "mikanani.me") && !Contains(link, "bgm.tv")
  }

  /** The external links of the page, in document order. */
  function ExternalLinks(links: seq<string>): (r: seq<string>)
    ensures |r| <= |links|
    ensures forall l :: l in r <==> l in links && IsExternal(l)
  {
    if |links| == 0 then []
    else
      var l := links[|links| - 1];
      ExternalLinks(links[..|links| - 1]) + (if IsExternal(l) then [l] else [])
  }

  /** `_find_external_links`: a link only when the page has exactly one
      external link; none at all or several give `None`. */
  function FindExternalLinks(links: seq<string>): (r: Option<string>)
    ensures r.Some? <==> |ExternalLinks(links)| == 1
    ensures r.Some? ==> r.value in links && IsExternal(r.value)
    ensures r.Some? ==> forall l :: l in links && IsExternal(l) ==> l == r.value
  {
    var ext := ExternalLinks(links);
    if |ext| == 1 then
      assert ext[0] in ext;
      Some(ext[0])
    else None
  }

  /** Two different external links make the guess give up. */
  lemma TwoExternalLinksNoGuess(links: seq<string>, a: string, b: string)
    requires a in links && b in links && a != b && IsExternal(a) && IsExternal(b)
    ensures FindExternalLinks(links).None?
  {
    var ext := ExternalLinks(links);
    assert a in ext && b in ext;
  }

  /** `_extract_official_website`: the first truthy result of the four
      searches in their fixed order (link text, sections, the single
      external link, known domains). The three searches over XPath
      results are inputs; the external-link search is modelled. */
  function OfficialWebsite(byText: Option<string>, inSections: Option<string>, links: seq<string>,
                           byDomain: Option<string>): (r: Option<string>)
    ensures Given(byText) ==> r == byText
    ensures !Given(byText) && Given(inSections) ==> r == inSections
    ensures !Given(byText) && !Given(inSections) && FindExternalLinks(links).Some? ==> r == FindExternalLinks(links)
    ensures r.Some? ==> r.value != ""
    ensures !Given(byText) && !Given(inSections) && FindExternalLinks(links).None? ==> r == MikanScript.Truthy(byDomain)
  {
    if Given(byText) then byText
    else if Given(inSections) then inSections
    else
      var ext := FindExternalLinks(links);
      if ext.Some? then ext else MikanScript.Truthy(byDomain)
  }

  // ------------------------------------------------- subtitle groups

  /** An `a.subgroup-name` link: its class words and its first text node,
      none when the link has no text. */
  datatype GroupLink = GroupLink(classes: seq<string>, text: Option<string>)

  /** What one link contributes to the loop: nothing, a group, or the
      AttributeError of `.strip()` on the missing text node. */
  datatype LinkOutcome = Skipped | Taken(group: MikanScript.Group) | NoTextNode

  /** One link: a zero or unparsable subgroup id skips it before its text is
      read; otherwise a missing text node raises, and a stripped name longer
      than one character gives a group. */
  function GroupOf(l: GroupLink): (r: LinkOutcome)
    ensures r.NoTextNode? <==> MikanScript.SubgroupId(l.classes).Some? && MikanScript.SubgroupId(l.classes).value != 0
                               && l.text.None?
    ensures r.Taken? <==> MikanScript.SubgroupId(l.classes).Some? && MikanScript.SubgroupId(l.classes).value != 0
                          && l.text.Some? && |Strip(l.text.value)| > 1
    ensures r.Taken? ==> r.group.id == MikanScript.SubgroupId(l.classes).value && r.group.name == Strip(l.text.value)
  {
    var id := MikanScript.SubgroupId(l.classes);
    if id.None? || id.value == 0 then Skipped
    else if l.text.None? then NoTextNode
    else if |Strip(l.text.value)| > 1 then Taken(MikanScript.Group(id.value, Strip(l.text.value)))
    else Skipped
  }

  /** Some link of the list raises when its text is read. */
  predicate SomeLinkRaises(links: seq<GroupLink>)
  {
    exists k :: 0 <= k < |links| && GroupOf(links[k]).NoTextNode?
  }

  /** The groups of the links, or none when some link raises. */
  function GroupsOf(links: seq<GroupLink>): (r: Option<seq<MikanScript.Group>>)
    ensures r.None? <==> SomeLinkRaises(links)
    ensures r.Some? ==> |r.value| <= |links| && forall g :: g in r.value ==> g.id != 0 && |g.name| > 1
  {
    if |links| == 0 then Some([])
    else
      var init := links[..|links| - 1];
      var g := GroupOf(links[|links| - 1]);
      match GroupsOf(init)
      case None =>
        RaisingLinkKept(links);
        None
      case Some(gs) =>
        if g.NoTextNode? then None
        else
          RaisingLinkKept(links);
          Some(gs + (if g.Taken? then [g.group] else []))
  }

  /** A link that raises lies in the prefix or is the last one. */
  lemma RaisingLinkKept(links: seq<GroupLink>)
    requires |links| > 0
    ensures SomeLinkRaises(links) <==> SomeLinkRaises(links[..|links| - 1]) || GroupOf(links[|links| - 1]).NoTextNode?
  {
    var init := links[..|links| - 1];
    if k :| 0 <= k < |links| && GroupOf(links[k]).NoTextNode? {
      if k < |links| - 1 {
        assert init[k] == links[k];
      }
    }
    if k :| 0 <= k < |links| - 1 && GroupOf(init[k]).NoTextNode? {
      assert init[k] == links[k];
    }
  }

  /** `_extract_subtitle_groups`: the loop stops at the first link that
      raises. */
  method ExtractSubtitleGroups(links: seq<GroupLink>) returns (groups: Option<seq<MikanScript.Group>>)
    ensures groups == GroupsOf(links)
  {
    var gs := [];
    for i := 0 to |links|
      invariant GroupsOf(links[..i]) == Some(gs)
    {
      var g := GroupOf(links[i]);
      GroupsOfPrefix(links, i);
      if g.NoTextNode? {
        return None;
      }
      gs := gs + (if g.Taken? then [g.group] else []);
    }
    assert links[..|links|] == links;
    groups := Some(gs);
  }

  lemma GroupsOfPrefix(links: seq<GroupLink>, i: nat)
    requires i < |links| && GroupsOf(links[..i]).Some?
    ensures GroupOf(links[i]).NoTextNode? ==> GroupsOf(links).None?
    ensures !GroupOf(links[i]).NoTextNode? ==>
      GroupsOf(links[..i + 1]) == Some(GroupsOf(links[..i]).value + (if GroupOf(links[i]).Taken? then [GroupOf(links[i]).group] else []))
  {
    var seen := links[..i + 1];
    assert seen[..i] == links[..i] && seen[i] == links[i];
  }

  // ------------------------------------------------- group-name dictionary

  /** The group names, in list order. */
  function Names(groups: seq<MikanScript.Group>): (r: seq<string>)
    ensures |r| == |groups| && forall k :: 0 <= k < |groups| ==> r[k] == groups[k].name
  {
    seq(|groups|, k requires 0 <= k < |groups| => groups[k].name)
  }

  /** The keys of `{g["name"]: g["id"] for g in groups}` in the order the
      dictionary iterates them: a name's first occurrence fixes its place. */
  function NameOrder(groups: seq<MikanScript.Group>): (r: seq<string>)
    ensures forall n :: n in r <==> n in Names(groups)
    ensures forall i, j :: 0 <= i < j < |r| ==> r[i] != r[j]
  {
    if |groups| == 0 then []
    else
      var init := groups[..|groups| - 1];
      assert Names(groups) == Names(init) + [groups[|groups| - 1].name];
      var r0 := NameOrder(init);
      var n := groups[|groups| - 1].name;
      if n in r0 then r0 else r0 + [n]
  }

  /** The values of that dictionary: a later group of the same name
      overwrites the id of an earlier one. */
  function NameToId(groups: seq<MikanScript.Group>): (m: map<string, int>)
    ensures forall n :: n in m <==> n in Names(groups)
  {
    if |groups| == 0 then map[]
    else
      var init := groups[..|groups| - 1];
      var g := groups[|groups| - 1];
      assert Names(groups) == Names(init) + [g.name];
      NameToId(init)[g.name := g.id]
  }

  /** A group whose name no later group repeats gives the dictionary its id. */
  lemma {:induction false} NameToIdLast(groups: seq<MikanScript.Group>, k: nat)
    requires k < |groups| && groups[k].name !in Names(groups[k + 1..])
    ensures groups[k].name in NameToId(groups) && NameToId(groups)[groups[k].name] == groups[k].id
    decreases |groups|
  {
    var last := |groups| - 1;
    assert Names(groups)[k] == groups[k].name;
    if k < last {
      LaterNames(groups, k);
      assert groups[..last][k] == groups[k];
      NameToIdLast(groups[..last], k);
    }
  }

  /** The names after position `k` are those after it in all but the last
      group, followed by the last group's name. */
  lemma LaterNames(groups: seq<MikanScript.Group>, k: nat)
    requires k < |groups| - 1
    ensures Names(groups[k + 1..]) == Names(groups[..|groups| - 1][k + 1..]) + [groups[|groups| - 1].name]
  {
    var a := Names(groups[k + 1..]);
    var b := Names(groups[..|groups| - 1][k + 1..]) + [groups[|groups| - 1].name];
    assert |a| == |b|;
    forall i | 0 <= i < |a| ensures a[i] == b[i] {
      if i < |a| - 1 {
        assert groups[..|groups| - 1][k + 1..][i] == groups[k + 1 + i];
      }
    }
  }

  /** The first key, in dictionary order, that occurs in the table's parent text. */
  function TableGroup(order: seq<string>, parentText: string): (r: Option<nat>)
    ensures r.Some? ==> r.value < |order| && Contains(parentText, order[r.value])
    ensures r.Some? ==> forall j :: 0 <= j < r.value ==> !Contains(parentText, order[j])
    ensures r.None? <==> forall j :: 0 <= j < |order| ==> !Contains(parentText, order[j])
  {
    if |order| == 0 then None
    else if Contains(parentText, order[0]) then Some(0)
    else match TableGroup(order[1..], parentText)
      case None => None
      case Some(i) => Some(i + 1)
  }

  // ------------------------------------------------- resource rows

  datatype Resource = Resource(mikanId: int, groupId: int, episode: nat, title: string, fileSize: string,
                               magnetUrl: Option<string>, torrentUrl: Option<string>, playUrl: Option<string>,
                               magnetHash: Option<string>, releaseDate: string)

  /** The torrent link of the fourth cell, joined to the site, only when it mentions "Download". */
  function TorrentOf(c: MikanRows.Col, join: string -> string): (r: Option<string>)
    ensures r.Some? <==> Given(c.href) && Contains(c.href.value, "Download")
  {
    if Given(c.href) && Contains(c.href.value, "Download") then Some(join(c.href.value)) else None
  }

  /** `_parse_resource_row` on a row of at least five cells. The row fails
      (the `except` branch) exactly when the size or date cell has no text,
      since `.get().strip()` is then called on `None`. The title is the
      wrapped link text or else the cell's text; the episode is its first
      number, or 1; the hash keeps its case and is taken from any link. */
  function ParseRow(cols: seq<MikanRows.Col>, mikanId: int, groupId: int, join: string -> string): (r: Option<Resource>)
    requires |cols| >= 5
    ensures r.Some? <==> cols[1].text.Some? && cols[2].text.Some?
    ensures r.Some? ==> r.value.mikanId == mikanId && r.value.groupId == groupId
    ensures r.Some? ==> r.value.title == (if Given(MikanRows.TitleOf(cols[0])) then Strip(MikanRows.TitleOf(cols[0]).value) else "")
    ensures r.Some? ==> r.value.episode == (if Given(MikanRows.TitleOf(cols[0])) then EpisodeOrOne(MikanRows.TitleOf(cols[0]).value) else 1)
    ensures r.Some? ==> r.value.magnetUrl == cols[0].magnet && r.value.magnetHash == MagnetHash(cols[0].magnet)
    ensures r.Some? ==> r.value.torrentUrl == TorrentOf(cols[3], join) && r.value.playUrl == cols[4].href
    ensures r.Some? ==> r.value.fileSize == Strip(cols[1].text.value) && r.value.releaseDate == Strip(cols[2].text.value)
  {
    if cols[1].text.None? || cols[2].text.None? then None
    else
      var title := MikanRows.TitleOf(cols[0]);
      Some(Resource(mikanId, groupId,
                    if Given(title) then EpisodeOrOne(title.value) else 1,
                    if Given(title) then Strip(title.value) else "",
                    Strip(cols[1].text.value), cols[0].magnet, TorrentOf(cols[3], join), cols[4].href,
                    MagnetHash(cols[0].magnet), Strip(cols[2].text.value)))
  }

  /** A table: its parent's joined text and its `tbody tr` rows. */
  datatype Table = Table(parentText: string, rows: seq<seq<MikanRows.Col>>)

  /** The resources of one table's rows: rows of fewer than five cells and
      rows that fail are skipped. */
  function RowsOf(rows: seq<seq<MikanRows.Col>>, mikanId: int, groupId: int, join: string -> string): (r: seq<Resource>)
    ensures |r| <= |rows|
    ensures forall k :: 0 <= k < |r| ==> r[k].mikanId == mikanId && r[k].groupId == groupId
  {
    if |rows| == 0 then []
    else
      var cols := rows[|rows| - 1];
      var res := if |cols| >= 5 then ParseRow(cols, mikanId, groupId, join) else None;
      RowsOf(rows[..|rows| - 1], mikanId, groupId, join) + (if res.Some? then [res.value] else [])
  }

  /** Rows of four cells or fewer never give a resource. */
  lemma {:induction false} NarrowRowsSkipped(rows: seq<seq<MikanRows.Col>>, mikanId: int, groupId: int, join: string -> string)
    requires forall k :: 0 <= k < |rows| ==> |rows[k]| < 5
    ensures RowsOf(rows, mikanId, groupId, join) == []
  {
    if |rows| > 0 {
      NarrowRowsSkipped(rows[..|rows| - 1], mikanId, groupId, join);
    }
  }

  /** The id a table's rows are filed under, when some group name occurs in its parent text. */
  function TableGroupId(groups: seq<MikanScript.Group>, t: Table): (r: Option<int>)
    ensures r.Some? <==> exists n :: n in Names(groups) && Contains(t.parentText, n)
    ensures r.Some? ==> exists k :: 0 <= k < |groups| && groups[k].id == r.value && Contains(t.parentText, groups[k].name)
  {
    var order := NameOrder(groups);
    var m := NameToId(groups);
    match TableGroup(order, t.parentText)
    case None =>
      assert forall n :: n in Names(groups) ==> !Contains(t.parentText, n) by {
        forall n | n in Names(groups) ensures !Contains(t.parentText, n) {
          assert n in order;
        }
      }
      None
    case Some(i) =>
      var n := order[i];
      assert n in Names(groups);
      var k := LastWithName(groups, n);
      NameToIdLast(groups, k);
      Some(m[n])
  }

  /** The last group carrying a name that some group carries. */
  function LastWithName(groups: seq<MikanScript.Group>, n: string): (k: nat)
    requires n in Names(groups)
    ensures k < |groups| && groups[k].name == n && n !in Names(groups[k + 1..])
  {
    var init := groups[..|groups| - 1];
    assert Names(groups) == Names(init) + [groups[|groups| - 1].name];
    if groups[|groups| - 1].name == n then |groups| - 1
    else
      var k := LastWithName(init, n);
      LaterNames(groups, k);
      k
  }

  function TablesOf(tables: seq<Table>, mikanId: int, groups: seq<MikanScript.Group>, join: string -> string): (r: seq<Resource>)
    ensures forall k :: 0 <= k < |r| ==> r[k].mikanId == mikanId
  {
    if |tables| == 0 then []
    else
      var t := tables[|tables| - 1];
      var gid := TableGroupId(groups, t);
      TablesOf(tables[..|tables| - 1], mikanId, groups, join) + (if gid.Some? then RowsOf(t.rows, mikanId, gid.value, join) else [])
  }

  method CollectRows(rows: seq<seq<MikanRows.Col>>, mikanId: int, groupId: int, join: string -> string) returns (rs: seq<Resource>)
    ensures rs == RowsOf(rows, mikanId, groupId, join)
  {
    rs := [];
    for j := 0 to |rows|
      invariant rs == RowsOf(rows[..j], mikanId, groupId, join)
    {
      var cols := rows[j];
      if |cols| >= 5 {
        var res := ParseRow(cols, mikanId, groupId, join);
        if res.Some? {
          rs := rs + [res.value];
        }
      }
      assert rows[..j + 1][..j] == rows[..j];
    }
    assert rows[..|rows|] == rows;
  }

  /** `_extract_resources`: each table is filed under the first group
      name (in dictionary order) found in its parent text, with that name's
      id; tables matching no name are skipped. */
  method ExtractResources(tables: seq<Table>, mikanId: int, groups: seq<MikanScript.Group>, join: string -> string)
    returns (resources: seq<Resource>)
    ensures resources == TablesOf(tables, mikanId, groups, join)
  {
    resources := [];
    for i := 0 to |tables|
      invariant resources == TablesOf(tables[..i], mikanId, groups, join)
    {
      var gid := TableGroupId(groups, tables[i]);
      if gid.Some? {
        var rs := CollectRows(tables[i].rows, mikanId, gid.value, join);
        resources := resources + rs;
      }
      assert tables[..i + 1][..i] == tables[..i];
    }
    assert tables[..|tables|] == tables;
  }

  // ------------------------------------------------- crawl log

  datatype CrawlLog = CrawlLog(status: string, itemsCount: int, mikanId: Option<int>)

  class Spider {
    const limit: int
    var log: CrawlLog

    /** `__init__` with the limit `LimitOf` computed from the argument. */
    constructor(limit: int)
      ensures this.limit == limit && log == CrawlLog("running", 0, None)
    {
      this.limit := limit;
      log := CrawlLog("running", 0, None);
    }

    /** `parse_anime_detail` after the AnimeItem is yielded: the page's
        groups and resources are emitted and `items_count` grows by the
        number of resources; when a subgroup link raises, the generator ends
        there, so nothing more is emitted and the log is not touched. */
    method ParseAnimeDetail(mikanId: int, links: seq<GroupLink>, tables: seq<Table>, join: string -> string)
      returns (raised: bool, groups: seq<MikanScript.Group>, resources: seq<Resource>)
      modifies this
      ensures raised <==> GroupsOf(links).None?
      ensures raised ==> groups == [] && resources == [] && log == old(log)
      ensures !raised ==> groups == GroupsOf(links).value && resources == TablesOf(tables, mikanId, groups, join)
      ensures !raised ==> log == old(log).(itemsCount := old(log).itemsCount + |resources|, mikanId := Some(mikanId))
    {
      var found := ExtractSubtitleGroups(links);
      if found.None? {
        return true, [], [];
      }
      raised, groups := false, found.value;
      resources := ExtractResources(tables, mikanId, groups, join);
      log := log.(itemsCount := log.itemsCount + |resources|, mikanId := Some(mikanId));
    }

    /** `closed`: "success" exactly for the reason "finished", else "error". */
    method Closed(reason: string)
      modifies this
      ensures log == old(log).(status := if reason == "finished" then "success" else "error")
      ensures log.status == "success" <==> reason == "finished"
    {
      log := log.(status := if reason == "finished" then "success" else "error");
    }
  }
}

=== FILE: search_store.dfy ===
/** The library search store of frontend/src/stores/searchStore.ts: the
    query, its results and pagination, saved to and restored from session
    storage. The two API calls of a search, the navigation check and
    `JSON.parse` of the saved text are inputs. */
module SearchStore {
  import opened Wrappers
  import opened PyValue
  import opened Js

  /** The pagination the search API reports. */
  datatype Pagination = Pagination(currentPage: int, perPage: int, total: int, totalPages: int,
                                   hasNext: bool, hasPrev: bool)

  const InitialPagination := Pagination(1, 12, 0, 0, false, false)

  /** What session storage holds under 'ikuyo_search_state': a snapshot the
      store saved, or text that no longer parses. */
  datatype Saved =
    | Snapshot(searchQuery: string, searchResults: seq<Value>, pagination: Pagination, hasSearched: bool)
    | Garbled

  /** The outcome of one search: the library search fails, or gives the
      pagination and the ids, and then the batch subject fetch (made only
      for a non-empty id list) fails or gives the cards. */
  datatype SearchOutcome =
    | SearchFailed
    | Found(pagination: Pagination, ids: seq<int>, cards: Option<seq<Value>>)

  const SearchError := "搜索失败，请检查网络连接"

  /** The ascending page numbers from `max(1, current - 2)` to
      `min(total, current + 2)`. */
  function Window(current: int, total: int): (pages: seq<int>)
    ensures var start := if current - 2 > 1 then current - 2 else 1;
      var end := if total < current + 2 then total else current + 2;
      |pages| == (if end >= start then end - start + 1 else 0)
      && forall k :: 0 <= k < |pages| ==> pages[k] == start + k
  {
    var start := if current - 2 > 1 then current - 2 else 1;
    var end := if total < current + 2 then total else current + 2;
    if end < start then [] else seq(end - start + 1, k => start + k)
  }

  /** The window shows at most five pages, all of them real pages, in
      increasing order; it includes the current page whenever that page
      exists, and is empty when there are no pages. */
  lemma WindowFacts(current: int, total: int)
    ensures |Window(current, total)| <= 5
    ensures forall k :: 0 <= k < |Window(current, total)| ==> 1 <= Window(current, total)[k] <= total
    ensures forall j, k :: 0 <= j < k < |Window(current, total)| ==> Window(current, total)[j] < Window(current, total)[k]
    ensures 1 <= current <= total ==> current in Window(current, total)
    ensures total <= 0 ==> Window(current, total) == []
  {
    var pages := Window(current, total);
    if 1 <= current <= total {
      var start := if current - 2 > 1 then current - 2 else 1;
      assert pages[current - start] == current;
    }
  }

  class SearchStore {
    var searchQuery: string
    var searchResults: seq<Value>
    var loading: bool
    var error: Option<string>
    var hasSearched: bool
    var pagination: Pagination
    /** Session storage's entry for the store. */
    var stored: Option<Saved>

    /** A fresh store over the session storage's current entry. */
    constructor(stored: Option<Saved>)
      ensures searchQuery == "" && searchResults == [] && !loading && error.None? && !hasSearched
      ensures pagination == InitialPagination && this.stored == stored
    {
      searchQuery := "";
      searchResults := [];
      loading := false;
      error := None;
      hasSearched := false;
      pagination := InitialPagination;
      this.stored := stored;
    }

    /** The state as it stands, as `saveToStorage` writes it. */
    function Snap(): Saved
      reads this
    {
      Snapshot(searchQuery, searchResults, pagination, hasSearched)
    }

    /** The fields `clearSearchState` resets, in their reset values. */
    predicate Cleared()
      reads this
    {
      searchQuery == "" && searchResults == [] && !hasSearched && !loading && error.None?
      && pagination == InitialPagination && stored.None?
    }

    /** `clearSearchState`: the query, results, flags and pagination go
        back to their initial values and the saved entry is removed. */
    method ClearSearchState()
      modifies this
      ensures Cleared()
    {
      searchQuery := "";
      searchResults := [];
      hasSearched := false;
      loading := false;
      error := None;
      pagination := InitialPagination;
      stored := None;
    }

    /** `saveToStorage`, taken as writing at once. */
    method SaveToStorage()
      modifies this
      ensures stored == Some(old(Snap()))
      ensures searchQuery == old(searchQuery) && searchResults == old(searchResults) && pagination == old(pagination)
      ensures hasSearched == old(hasSearched) && loading == old(loading) && error == old(error)
    {
      stored := Some(Snap());
    }

    /** `restoreFromStorage`: a saved snapshot with a non-empty query is
        restored when the user is returning from a detail page; in every
        other case (nothing saved, unreadable text, another route, an
        empty query) the state is cleared. */
    method RestoreFromStorage(returningFromDetail: bool) returns (restored: bool)
      modifies this
      ensures restored <==> old(stored).Some? && old(stored).value.Snapshot? && returningFromDetail
                            && |old(stored).value.searchQuery| > 0
      ensures restored ==> Snap() == old(stored).value && stored == old(stored)
                           && loading == old(loading) && error == old(error)
      ensures !restored ==> Cleared()
    {
      if stored.Some? && stored.value.Snapshot? {
        var state := stored.value;
        if returningFromDetail && |state.searchQuery| > 0 {
          searchQuery := state.searchQuery;
          searchResults := state.searchResults;
          hasSearched := state.hasSearched;
          pagination := state.pagination;
          return true;
        }
      }
      ClearSearchState();
      restored := false;
    }

    method SetSearchQuery(query: string)
      modifies this
      ensures searchQuery == query
      ensures searchResults == old(searchResults) && pagination == old(pagination) && stored == old(stored)
      ensures hasSearched == old(hasSearched) && loading == old(loading) && error == old(error)
    {
      searchQuery := query;
    }

    /** `performSearch`: nothing happens for a blank query. Otherwise the
        search is marked as made; on success the pagination is taken over,
        the results become the cards (none for an empty id list) and the
        state is saved; on failure the error message is set. Loading is off
        afterwards either way. */
    method PerformSearch(outcome: SearchOutcome)
      modifies this
      ensures |Trim(old(searchQuery))| == 0 ==>
        Snap() == old(Snap()) && stored == old(stored) && loading == old(loading) && error == old(error)
      ensures |Trim(old(searchQuery))| > 0 ==> hasSearched && !loading && searchQuery == old(searchQuery)
      ensures |Trim(old(searchQuery))| > 0 && outcome.SearchFailed? ==>
        error == Some(SearchError) && pagination == old(pagination) && searchResults == old(searchResults)
        && stored == old(stored)
      ensures |Trim(old(searchQuery))| > 0 && outcome.Found? ==> pagination == outcome.pagination
      ensures |Trim(old(searchQuery))| > 0 && outcome.Found? && |outcome.ids| == 0 ==>
        searchResults == [] && error.None? && stored == Some(Snap())
      ensures |Trim(old(searchQuery))| > 0 && outcome.Found? && |outcome.ids| > 0 && outcome.cards.Some? ==>
        searchResults == outcome.cards.value && error.None? && stored == Some(Snap())
      ensures |Trim(old(searchQuery))| > 0 && outcome.Found? && |outcome.ids| > 0 && outcome.cards.None? ==>
        searchResults == old(searchResults) && error == Some(SearchError) && stored == old(stored)
    {
      if |Trim(searchQuery)| == 0 {
        return;
      }
      loading := true;
      error := None;
      hasSearched := true;
      if outcome.SearchFailed? {
        error := Some(SearchError);
        loading := false;
        return;
      }
      pagination := outcome.pagination;
      if |outcome.ids| > 0 {
        if outcome.cards.None? {
          error := Some(SearchError);
          loading := false;
          return;
        }
        searchResults := outcome.cards.value;
      } else {
        searchResults := [];
      }
      loading := false;
      SaveToStorage();
    }

    /** `goToPage`: a search runs only for a page between 1 and the number
        of pages, and then has every effect of `performSearch`. `outcome` is
        the server's answer for the requested page; the current page is the
        one that answer reports, which is the requested page whenever the
        server echoes it (the library search route does). */
    method GoToPage(page: int, outcome: SearchOutcome) returns (searched: bool)
      modifies this
      ensures searched <==> 1 <= page <= old(pagination.totalPages)
      ensures !searched ==> Snap() == old(Snap()) && stored == old(stored) && loading == old(loading)
                            && error == old(error)
      ensures searched && |Trim(old(searchQuery))| == 0 ==>
        Snap() == old(Snap()) && stored == old(stored) && loading == old(loading) && error == old(error)
      ensures searched && |Trim(old(searchQuery))| > 0 ==> hasSearched && !loading && searchQuery == old(searchQuery)
      ensures searched && |Trim(old(searchQuery))| > 0 && outcome.SearchFailed? ==>
        error == Some(SearchError) && pagination == old(pagination) && searchResults == old(searchResults)
        && stored == old(stored)
      ensures searched && |Trim(old(searchQuery))| > 0 && outcome.Found? ==> pagination == outcome.pagination
      ensures searched && |Trim(old(searchQuery))| > 0 && outcome.Found? && outcome.pagination.currentPage == page ==>
        pagination.currentPage == page
      ensures searched && |Trim(old(searchQuery))| > 0 && outcome.Found? && |outcome.ids| == 0 ==>
        searchResults == [] && error.None? && stored == Some(Snap())
      ensures searched && |Trim(old(searchQuery))| > 0 && outcome.Found? && |outcome.ids| > 0 && outcome.cards.Some? ==>
        searchResults == outcome.cards.value && error.None? && stored == Some(Snap())
      ensures searched && |Trim(old(searchQuery))| > 0 && outcome.Found? && |outcome.ids| > 0 && outcome.cards.None? ==>
        searchResults == old(searchResults) && error == Some(SearchError) && stored == old(stored)
    {
      searched := 1 <= page <= pagination.totalPages;
      if searched {
        PerformSearch(outcome);
      }
    }

    /** `getVisiblePages`: the page-number window around the current page. */
    method GetVisiblePages() returns (pages: seq<int>)
      ensures pages == Window(pagination.currentPage, pagination.totalPages)
    {
      pages := [];
      var current := pagination.currentPage;
      var total := pagination.totalPages;
      var start := if current - 2 > 1 then current - 2 else 1;
      var end := if total < current + 2 then total else current + 2;
      var i := start;
      while i <= end
        invariant end < start ==> i == start
        invariant end >= start ==> start <= i <= end + 1
        invariant |pages| == i - start && forall k :: 0 <= k < |pages| ==> pages[k] == start + k
      {
        pages := pages + [i];
        i := i + 1;
      }
    }
  }
}

=== FILE: spider_runner.dfy ===
/** The process-safe spider runner (ikuyo/core/crawler/spider_runner.py):
    the result dictionary of `execute_in_process`, the success/error
    dictionary of `run`, the defaults of `_parse_config` and the keyword
    arguments `_run_scrapy` hands to the spider. The Scrapy crawl itself is
    the oracle `crawl`, which maps the spider's keyword arguments to the text
    of the exception it raised, if any. */
module SpiderRunner {
  import opened Wrappers
  import opened PyValue

  /** `SpiderConfig` as `_parse_config` fills it; fields hold whatever the
      parameters dictionary held, since the dataclass does not check types. */
  datatype SpiderConfig = SpiderConfig(
    mode: Value, year: Value, season: Value, startUrl: Value, limit: Value, logLevel: Value)

  /** `_parse_config`: `mode` defaults to "homepage" and `log_level` to "INFO"
      when absent; the other fields are `None` when absent. Parameters that are
      not a dictionary have no `get`, which raises. */
  function ParseConfig(config: Value): (r: Result<SpiderConfig, string>)
    ensures r.Ok? <==> config.Dict?
    ensures !config.Dict? ==> r == Err(NoAttribute(config, "get"))
    ensures r.Ok? && "mode" !in config.entries ==> r.value.mode == Str("homepage")
    ensures r.Ok? && "log_level" !in config.entries ==> r.value.logLevel == Str("INFO")
    ensures r.Ok? && "year" !in config.entries ==> r.value.year == Null
    ensures r.Ok? && "limit" !in config.entries ==> r.value.limit == Null
    ensures r.Ok? ==> forall k :: k in config.entries && k in {"mode", "year", "season", "start_url", "limit", "log_level"}
                        ==> config.entries[k] in {r.value.mode, r.value.year, r.value.season, r.value.startUrl, r.value.limit, r.value.logLevel}
  {
    if !config.Dict? then Err(NoAttribute(config, "get"))
    else
      var d := config.entries;
      Ok(SpiderConfig(DictGet(d, "mode", Str("homepage")), DictGet(d, "year", Null), DictGet(d, "season", Null),
                      DictGet(d, "start_url", Null), DictGet(d, "limit", Null), DictGet(d, "log_level", Str("INFO"))))
  }

  /** The spider's keyword arguments: `config` and `mode` always; `year`,
      `season` and `start_url` only when truthy; `limit` whenever it is not
      `None`, so a limit of 0 is passed on. */
  function Kwargs(c: SpiderConfig, projectConfig: Value): (kw: map<string, Value>)
    ensures "config" in kw && kw["config"] == projectConfig
    ensures "mode" in kw && kw["mode"] == c.mode
    ensures "year" in kw <==> Truthy(c.year)
    ensures "season" in kw <==> Truthy(c.season)
    ensures "start_url" in kw <==> Truthy(c.startUrl)
    ensures "limit" in kw <==> !c.limit.Null?
    ensures forall k :: k in kw ==> k in {"config", "mode", "year", "season", "start_url", "limit"}
    ensures "year" in kw ==> kw["year"] == c.year
    ensures "season" in kw ==> kw["season"] == c.season
    ensures "start_url" in kw ==> kw["start_url"] == c.startUrl
    ensures "limit" in kw ==> kw["limit"] == c.limit
  {
    var kw0 := map["config" := projectConfig, "mode" := c.mode];
    var kw1 := if Truthy(c.year) then kw0["year" := c.year] else kw0;
    var kw2 := if Truthy(c.season) then kw1["season" := c.season] else kw1;
    var kw3 := if Truthy(c.startUrl) then kw2["start_url" := c.startUrl] else kw2;
    if !c.limit.Null? then kw3["limit" := c.limit] else kw3
  }

  /** The conditional inserts of `_run_scrapy`, one statement at a time. */
  method BuildSpiderKwargs(c: SpiderConfig, projectConfig: Value) returns (kw: map<string, Value>)
    ensures kw == Kwargs(c, projectConfig)
  {
    kw := map["config" := projectConfig, "mode" := c.mode];
    if Truthy(c.year) {
      kw := kw["year" := c.year];
    }
    if Truthy(c.season) {
      kw := kw["season" := c.season];
    }
    if Truthy(c.startUrl) {
      kw := kw["start_url" := c.startUrl];
    }
    if !c.limit.Null? {
      kw := kw["limit" := c.limit];
    }
  }

  /** A limit of 0 reaches the spider while a year of 0 does not. */
  lemma ZeroLimitKept(c: SpiderConfig, projectConfig: Value)
    requires c.limit == Int(0) && c.year == Int(0)
    ensures "limit" in Kwargs(c, projectConfig) && "year" !in Kwargs(c, projectConfig)
  {
  }

  const SuccessPrefix := "爬虫任务 "
  const SuccessSuffix := " 执行成功"

  /** The text of a successful run: the task id's text between a fixed prefix and suffix. */
  function SuccessText(taskId: Value, render: Value -> string): (r: string)
    ensures |r| == |SuccessPrefix| + |StrOf(taskId, render)| + |SuccessSuffix|
    ensures r[..|SuccessPrefix|] == SuccessPrefix
    ensures r[|r| - |SuccessSuffix|..] == SuccessSuffix
    ensures r[|SuccessPrefix|..|r| - |SuccessSuffix|] == StrOf(taskId, render)
  {
    SuccessPrefix + StrOf(taskId, render) + SuccessSuffix
  }

  /** The failure dictionary of `run`: a false flag and the message, no traceback. */
  function RunFailure(e: string): (r: map<string, Value>)
    ensures r.Keys == {"success", "error"}
    ensures r["success"] == Bool(false) && r["error"] == Str(e)
  {
    map["success" := Bool(false), "error" := Str(e)]
  }

  /** `run`: parse the configuration, set the log level (`log_level.upper()`
      raises for a non-string), crawl; every exception becomes a failure dictionary. */
  function Run(taskId: Value, config: Value, projectConfig: Value,
               crawl: map<string, Value> -> Option<string>, render: Value -> string): (r: map<string, Value>)
    ensures "success" in r && r["success"].Bool?
    ensures r["success"].b ==> r == map["success" := Bool(true), "result" := Str(SuccessText(taskId, render))]
    ensures !r["success"].b ==> r.Keys == {"success", "error"} && r["error"].Str?
  {
    match ParseConfig(config)
    case Err(e) => RunFailure(e)
    case Ok(c) =>
      if !c.logLevel.Str? then RunFailure(NoAttribute(c.logLevel, "upper"))
      else
        match crawl(Kwargs(c, projectConfig))
        case Some(e) => RunFailure(e)
        case None => map["success" := Bool(true), "result" := Str(SuccessText(taskId, render))]
  }

  /** `run` succeeds exactly when the parameters are a dictionary, the log
      level is a string and the crawl raises nothing. */
  lemma RunSucceedsIff(taskId: Value, config: Value, projectConfig: Value,
                       crawl: map<string, Value> -> Option<string>, render: Value -> string)
    ensures Run(taskId, config, projectConfig, crawl, render)["success"] == Bool(true)
        <==> config.Dict? && ParseConfig(config).value.logLevel.Str?
             && crawl(Kwargs(ParseConfig(config).value, projectConfig)).None?
  {
  }

  const MissingTaskId := "Missing task_id in task_data"

  /** `execute_in_process`. A missing or `None` task id gives the fixed
      failure; otherwise the status is "completed" exactly when `run`
      succeeds, `result` is `run`'s whole dictionary and `error` its error
      text on failure and `None` on success. The `except` around `run` can
      never fire, since `run` catches everything itself. */
  function ExecuteInProcess(taskData: map<string, Value>, projectConfig: Value,
                            crawl: map<string, Value> -> Option<string>, render: Value -> string): (r: map<string, Value>)
    ensures r.Keys == {"task_id", "status", "result", "error"}
    ensures r["task_id"] == DictGet(taskData, "task_id", Null)
    ensures r["status"] == Str("completed") || r["status"] == Str("failed")
    ensures r["status"] == Str("completed") <==> r["error"] == Null
    ensures DictGet(taskData, "task_id", Null) == Null ==>
      r == map["task_id" := Null, "status" := Str("failed"), "result" := Null, "error" := Str(MissingTaskId)]
    ensures DictGet(taskData, "task_id", Null) != Null ==>
      var run := Run(DictGet(taskData, "task_id", Null), DictGet(taskData, "parameters", Dict(map[])), projectConfig, crawl, render);
      r["result"] == Dict(run) && (r["status"] == Str("completed") <==> run["success"] == Bool(true))
  {
    var taskId := DictGet(taskData, "task_id", Null);
    if taskId == Null then
      map["task_id" := Null, "status" := Str("failed"), "result" := Null, "error" := Str(MissingTaskId)]
    else
      var result := Run(taskId, DictGet(taskData, "parameters", Dict(map[])), projectConfig, crawl, render);
      var ok := result["success"].b;
      map["task_id" := taskId,
          "status" := Str(if ok then "completed" else "failed"),
          "result" := Dict(result),
          "error" := if !ok then DictGet(result, "error", Null) else Null]
  }

  /** Parameters that are not a dictionary (`None` included) fail with the
      AttributeError of `config.get`, whatever the crawl would have done. */
  lemma NonDictParametersFail(taskData: map<string, Value>, projectConfig: Value,
                              crawl: map<string, Value> -> Option<string>, render: Value -> string)
    requires DictGet(taskData, "task_id", Null) != Null
    requires "parameters" in taskData && !taskData["parameters"].Dict?
    ensures ExecuteInProcess(taskData, projectConfig, crawl, render)["error"]
         == Str(NoAttribute(taskData["parameters"], "get"))
  {
  }

  /** Absent parameters are an empty dictionary, which runs a "homepage" crawl. */
  lemma AbsentParametersCrawlHomepage(taskData: map<string, Value>, projectConfig: Value,
                                      crawl: map<string, Value> -> Option<string>, render: Value -> string)
    requires DictGet(taskData, "task_id", Null) != Null && "parameters" !in taskData
    requires crawl(map["config" := projectConfig, "mode" := Str("homepage")]).None?
    ensures ExecuteInProcess(taskData, projectConfig, crawl, render)["status"] == Str("completed")
  {
    var c := ParseConfig(Dict(map[])).value;
    assert Kwargs(c, projectConfig) == map["config" := projectConfig, "mode" := Str("homepage")];
  }
}

=== FILE: src_spider.dfy ===
/** The earlier Scrapy spider, src/crawler/spiders/mikan.py: arguments with
    configuration fallbacks, mode routing (including "incremental"), the
    shallow `_contains_bangumi_data`, the cover-flow HTML extraction, the
    detail page's resources and `closed`. Its resource rows are the shared
    ones of MikanRows; its page title is MikanScan.CleanPageTitle. */
module SrcSpider {
  import opened Wrappers
  import opened Strings
  import opened MikanScan
  import opened MikanRows
  import opened PyValue

  /** The settings `__init__` falls back on (`getattr(config, …, None)`). */
  datatype Config = Config(limit: Option<int>, crawlMode: Option<string>, mode: Option<string>,
                           year: Option<int>, season: Option<string>)

  /** Python's truthiness of an optional integer. */
  predicate GivenInt(v: Option<int>) {
    v.Some? && v.value != 0
  }

  /** The five keys that mark a dictionary as anime data. */
  const BangumiFields: seq<string> := ["bangumi", "anime", "title", "mikan_id", "bangumi_id"]

  predicate HasBangumiField(m: map<string, Value>) {
    exists f :: f in BangumiFields && f in m
  }

  /** The `for item in data` loop of `_contains_bangumi_data` over a list. */
  function AnyDictWithField(xs: seq<Value>): (r: bool)
    ensures r <==> exists k :: 0 <= k < |xs| && xs[k].Dict? && HasBangumiField(xs[k].entries)
  {
    if |xs| == 0 then false
    else if xs[0].Dict? && HasBangumiField(xs[0].entries) then true
    else
      assert forall k :: 1 <= k < |xs| ==> xs[k] == xs[1..][k - 1];
      AnyDictWithField(xs[1..])
  }

  /** `_contains_bangumi_data`: a dictionary with one of the five keys, or a
      list with such a dictionary as an element; nothing nested deeper is
      looked at. */
  function ContainsBangumiData(v: Value): (r: bool)
    ensures v.Dict? ==> (r <==> HasBangumiField(v.entries))
    ensures v.List? ==> (r <==> exists k :: 0 <= k < |v.items| && v.items[k].Dict? && HasBangumiField(v.items[k].entries))
    ensures !v.Dict? && !v.List? ==> !r
  {
    match v
    case Dict(m) => HasBangumiField(m)
    case List(xs) => AnyDictWithField(xs)
    case _ => false
  }

  /** A dictionary that holds the anime data one level down is not recognised. */
  lemma NestedDataMissed()
    ensures !ContainsBangumiData(Dict(map["data" := Dict(map["title" := Str("x")])]))
  {
    var m := map["data" := Dict(map["title" := Str("x")])];
    forall f | f in BangumiFields ensures f !in m {
      assert f != "data";
    }
  }

  /** A request for a detail page found in cover-flow HTML; the id is the digit text. */
  datatype HtmlRequest = HtmlRequest(url: string, mikanId: string, title: string)

  /** How an f-string shows an optional value: `None` shows as "None". */
  function YearText(year: Option<int>): string {
    if year.Some? then IntToString(year.value) else "None"
  }

  function SeasonText(season: Option<string>): string {
    if season.Some? then season.value else "None"
  }

  /** The fallback title `f"{year}年{season}季动画"`. */
  function DefaultTitle(year: Option<int>, season: Option<string>): string {
    YearText(year) + "年" + SeasonText(season) + "季动画"
  }

  /** `_extract_bangumi_from_html`: every `/Home/Bangumi/<digits>` of the
      text (duplicates kept), cut to `limit` when it is truthy; request `i`
      takes the `i`-th title found, else the fallback title. The title list
      is the result of the title pattern, an input here. */
  function ExtractBangumiFromHtml(html: string, titles: seq<string>, year: Option<int>, season: Option<string>,
                                 limit: Option<int>, join: string -> string): (r: seq<HtmlRequest>)
    ensures |r| == |LimitIfSet(AllIdsFrom(html, 0), limit)| <= |AllIdsFrom(html, 0)|
    ensures GivenInt(limit) && limit.value > 0 ==> |r| <= limit.value
    ensures forall i :: 0 <= i < |r| ==> r[i].mikanId == AllIdsFrom(html, 0)[i] && AllDigits(r[i].mikanId)
    ensures forall i :: 0 <= i < |r| ==> r[i].url == join(BangumiPath + r[i].mikanId)
    ensures forall i :: 0 <= i < |r| && i < |titles| ==> r[i].title == titles[i]
    ensures forall i :: |titles| <= i < |r| ==> r[i].title == DefaultTitle(year, season)
  {
    var all := AllIdsFrom(html, 0);
    var ids := LimitIfSet(all, limit);
    assert ids <= all;
    assert forall i :: 0 <= i < |ids| ==> ids[i] == all[i] && AllDigits(ids[i]);
    assert GivenInt(limit) && limit.value > 0 ==> ids == PyTake(all, limit) && |ids| <= limit.value;
    var r := Requests(ids, titles, DefaultTitle(year, season), join);
    assert |r| == |ids|;
    r
  }

  /** One request per id, in order, paired with the title at the same
      position or else the fallback title. */
  function Requests(ids: seq<string>, titles: seq<string>, fallback: string, join: string -> string): (r: seq<HtmlRequest>)
    ensures |r| == |ids|
    ensures forall i :: 0 <= i < |r| ==> r[i].mikanId == ids[i] && r[i].url == join(BangumiPath + ids[i])
    ensures forall i :: 0 <= i < |r| ==> r[i].title == if i < |titles| then titles[i] else fallback
  {
    seq(|ids|, i requires 0 <= i < |ids| =>
      HtmlRequest(join(BangumiPath + ids[i]), ids[i], if i < |titles| then titles[i] else fallback))
  }

  /** The fields of `crawl_log` this model follows. */
  datatype CrawlLog = CrawlLog(status: string, itemsCount: int, crawlMode: Option<string>,
                               mikanId: Option<int>, reason: Option<string>)

  class Spider {
    const limit: Option<int>
    const startUrl: Option<string>
    const mode: Option<string>
    const year: Option<int>
    const season: Option<string>
    var log: CrawlLog

    /** `__init__`: an argument wins over the configuration; `limit` falls
        back only when it is `None`, the others whenever they are falsy, and
        the mode tries `crawl_mode` before `mode`. */
    constructor(limit: Option<int>, startUrl: Option<string>, mode: Option<string>,
                year: Option<int>, season: Option<string>, config: Config)
      ensures this.limit == (if limit.Some? then limit else config.limit)
      ensures Given(mode) ==> this.mode == mode
      ensures !Given(mode) && Given(config.crawlMode) ==> this.mode == config.crawlMode
      ensures !Given(mode) && !Given(config.crawlMode) ==> this.mode == config.mode
      ensures this.year == (if GivenInt(year) then year else config.year)
      ensures this.season == (if Given(season) then season else config.season)
      ensures this.startUrl == startUrl
      ensures log == CrawlLog("running", 0, this.mode, None, None)
    {
      this.limit := if limit.Some? then limit else config.limit;
      this.startUrl := startUrl;
      var m := OrElse(mode, OrElse(config.crawlMode, config.mode));
      this.mode := m;
      this.year := if GivenInt(year) then year else config.year;
      this.season := OrElse(season, config.season);
      log := CrawlLog("running", 0, m, None, None);
    }

    /** `parse`: the start page when `start_url` names one; season pages for
        "year", "season" and "full" (only when the API is enabled, since the
        dynamic fallback yields nothing; in "season" mode with no season,
        `quote(None)` raises TypeError before anything is yielded); and for "homepage", "incremental"
        (both of its branches), any other mode and no mode at all, the
        homepage's detail requests. */
    function Requests(links: seq<ListLink>, seasons: seq<string>, firstYear: int, lastYear: int,
                      apiEnabled: bool, join: string -> string): (r: seq<Request>)
      reads this
      ensures NamesDetailPage(startUrl) ==> r == StartRequests(startUrl)
      ensures !NamesDetailPage(startUrl) && mode !in {Some("year"), Some("season"), Some("full")} ==>
        r == LinkRequests(LimitIfSet(links, limit), join)
      ensures !NamesDetailPage(startUrl) && mode in {Some("year"), Some("season"), Some("full")} ==>
        forall k :: 0 <= k < |r| ==> r[k].SeasonPage?
      ensures !apiEnabled && !NamesDetailPage(startUrl) && mode in {Some("year"), Some("season"), Some("full")} ==> r == []
      ensures !NamesDetailPage(startUrl) && mode == Some("season") ==> (r != [] <==> apiEnabled && season.Some?)
    {
      if NamesDetailPage(startUrl) then StartRequests(startUrl)
      else if mode == Some("year") then (if apiEnabled then YearRequests(year, seasons) else [])
      else if mode == Some("season") then (if apiEnabled && season.Some? then [SeasonPage(year, season)] else [])
      else if mode == Some("full") then
        (if apiEnabled then RangeRequests(firstYear, lastYear, seasons) else [])
      else LinkRequests(LimitIfSet(links, limit), join)
    }

    /** `parse_anime_detail`: the page's resources are emitted and
        `items_count` grows by their number. */
    method ParseAnimeDetail(mikanId: int, blocks: seq<Block>, join: string -> string)
      returns (resources: seq<Row>)
      modifies this
      ensures resources == BlocksRows(blocks, join)
      ensures log == old(log).(itemsCount := old(log).itemsCount + |resources|, mikanId := Some(mikanId))
    {
      resources := MikanRows.ExtractResources(blocks, join);
      log := log.(itemsCount := log.itemsCount + |resources|, mikanId := Some(mikanId));
    }

    /** `closed`: "completed" exactly for the reason "finished", else
        "failed", and the reason is recorded. */
    method Closed(reason: string)
      modifies this
      ensures log == old(log).(status := if reason == "finished" then "completed" else "failed", reason := Some(reason))
      ensures log.status == "completed" <==> reason == "finished"
    {
      log := log.(status := if reason == "finished" then "completed" else "failed", reason := Some(reason));
    }
  }
}

=== FILE: strings.dfy ===
/** Python string primitives used across the crawler and the services, written
    out as explicit scanners: substring search, `replace`, `strip`, `split`,
    `join`, decimal digits and `int(...)` parsing. Characters are Unicode code
    points; digit classes are ASCII only. */
module Strings {
  import opened Wrappers

  /** `sub in s`. */
  predicate Contains(s: string, sub: string)
    decreases |s|
  {
    sub <= s || (|s| > 0 && Contains(s[1..], sub))
  }

  /** Python's truthiness of an optional string: present and non-empty. */
  predicate Given(v: Option<string>) {
    v.Some? && v.value != ""
  }

  /** `sub` occurs in `s` at index `i`. */
  predicate OccursAt(s: string, sub: string, i: int) {
    0 <= i && i + |sub| <= |s| && s[i..i + |sub|] == sub
  }

  /** `s.find(sub)`: the leftmost index at which `sub` occurs, if any. */
  function Find(s: string, sub: string): (r: Option<nat>)
    ensures r.Some? ==> OccursAt(s, sub, r.value)
    ensures r.Some? ==> forall j :: 0 <= j < r.value ==> !OccursAt(s, sub, j)
    ensures r.None? <==> !Contains(s, sub)
    decreases |s|
  {
    if sub <= s then
      assert s[0..|sub|] == sub;
      Some(0)
    else if |s| == 0 then None
    else
      match Find(s[1..], sub)
      case None => None
      case Some(i) =>
        assert s[1..][i..i + |sub|] == s[i + 1..i + 1 + |sub|];
        assert forall j :: 1 <= j < i + 1 ==> (OccursAt(s, sub, j) <==> OccursAt(s[1..], sub, j - 1)) by {
          forall j | 1 <= j < i + 1 ensures OccursAt(s, sub, j) <==> OccursAt(s[1..], sub, j - 1) {
            if j + |sub| <= |s| { assert s[1..][j - 1..j - 1 + |sub|] == s[j..j + |sub|]; }
          }
        }
        assert !OccursAt(s, sub, 0) by { if |sub| <= |s| { assert s[0..|sub|] == s[..|sub|]; } }
        Some(i + 1)
  }

  /** An occurrence anywhere means `sub in s`. */
  lemma {:induction false} OccursContains(s: string, sub: string, i: nat)
    requires OccursAt(s, sub, i)
    ensures Contains(s, sub)
    decreases i
  {
    if i == 0 {
      assert s[..|sub|] == sub;
    } else {
      assert s[1..][i - 1..i - 1 + |sub|] == s[i..i + |sub|];
      OccursContains(s[1..], sub, i - 1);
    }
  }

  /** An occurrence inside an occurrence is an occurrence. */
  lemma OccursTrans(a: string, b: string, c: string, i: nat, j: nat)
    requires OccursAt(a, b, i) && OccursAt(b, c, j)
    ensures OccursAt(a, c, i + j)
  {
    assert a[i..i + |b|] == b && b[j..j + |c|] == c;
    forall k | 0 <= k < |c| ensures a[i + j + k] == c[k] {
      assert a[i..i + |b|][j + k] == b[j + k];
      assert b[j..j + |c|][k] == b[j + k];
    }
    assert a[i + j..i + j + |c|] == c;
  }

  /** A substring of a substring is a substring. */
  lemma ContainsTrans(a: string, b: string, c: string)
    requires Contains(a, b) && Contains(b, c)
    ensures Contains(a, c)
  {
    var i := Find(a, b).value;
    var j := Find(b, c).value;
    OccursTrans(a, b, c, i, j);
    OccursContains(a, c, i + j);
  }

  /** `find` returns the first occurrence. */
  lemma FindFirst(s: string, sub: string, i: nat)
    requires OccursAt(s, sub, i) && forall j :: 0 <= j < i ==> !OccursAt(s, sub, j)
    ensures Find(s, sub) == Some(i)
  {
    OccursContains(s, sub, i);
  }

  /** A string none of whose characters is `c` does not contain `[c]`. */
  lemma {:induction false} NoCharNoContains(s: string, c: char)
    requires forall i :: 0 <= i < |s| ==> s[i] != c
    ensures !Contains(s, [c])
    decreases |s|
  {
    if |s| > 0 {
      assert s[..1] == [s[0]];
      NoCharNoContains(s[1..], c);
    }
  }

  /** Splitting `head + [c] + rest` on `c`, where neither part contains `c`, gives the two parts. */
  lemma SplitOnce(head: string, c: char, rest: string)
    requires forall i :: 0 <= i < |head| ==> head[i] != c
    requires forall i :: 0 <= i < |rest| ==> rest[i] != c
    ensures SplitOn(head + [c] + rest, [c]) == [head, rest]
  {
    var s := head + [c] + rest;
    assert OccursAt(s, [c], |head|) by { assert s[|head|..|head| + 1] == [c]; }
    forall j | 0 <= j < |head| ensures !OccursAt(s, [c], j) {
      assert s[j..j + 1] == [head[j]];
    }
    FindFirst(s, [c], |head|);
    assert s[..|head|] == head;
    assert s[|head| + 1..] == rest;
    NoCharNoContains(rest, c);
  }

  /** `s.startswith(p)`. */
  predicate StartsWith(s: string, p: string) {
    p <= s
  }

  /** `s.endswith(p)`. */
  predicate EndsWith(s: string, p: string) {
    |p| <= |s| && s[|s| - |p|..] == p
  }

  /** `s.replace(pat, rep)` for a non-empty pattern: every non-overlapping
      occurrence, scanned left to right, is replaced. */
  function ReplaceAll(s: string, pat: string, rep: string): string
    requires |pat| > 0
    decreases |s|
  {
    if |s| == 0 then s
    else if pat <= s then rep + ReplaceAll(s[|pat|..], pat, rep)
    else [s[0]] + ReplaceAll(s[1..], pat, rep)
  }

  /** Replacing a pattern that does not occur changes nothing. */
  lemma {:induction false} ReplaceAbsent(s: string, pat: string, rep: string)
    requires |pat| > 0 && !Contains(s, pat)
    ensures ReplaceAll(s, pat, rep) == s
    decreases |s|
  {
    if |s| > 0 {
      ReplaceAbsent(s[1..], pat, rep);
      assert [s[0]] + s[1..] == s;
    }
  }

  /** Python's `str.isspace()` character class, which is also what `\s`
      matches in a `str` pattern and what `strip()`/`split()` remove. */
  predicate IsSpace(c: char) {
    c == ' ' || ('\t' <= c <= '\r') || ('\U{1C}' <= c <= '\U{1F}') || c == '\U{85}' || c == '\U{A0}'
    || c == '\U{1680}' || ('\U{2000}' <= c <= '\U{200A}') || c == '\U{2028}' || c == '\U{2029}'
    || c == '\U{202F}' || c == '\U{205F}' || c == '\U{3000}'
  }

  /** `s.lstrip()`. */
  function TrimStart(s: string): (r: string)
    ensures |r| <= |s| && r == s[|s| - |r|..]
    ensures |r| > 0 ==> !IsSpace(r[0])
    ensures forall i :: 0 <= i < |s| - |r| ==> IsSpace(s[i])
    decreases |s|
  {
    if |s| > 0 && IsSpace(s[0]) then TrimStart(s[1..]) else s
  }

  /** `s.rstrip()`. */
  function TrimEnd(s: string): (r: string)
    ensures |r| <= |s| && r == s[..|r|]
    ensures |r| > 0 ==> !IsSpace(r[|r| - 1])
    ensures forall i :: |r| <= i < |s| ==> IsSpace(s[i])
    decreases |s|
  {
    if |s| > 0 && IsSpace(s[|s| - 1]) then TrimEnd(s[..|s| - 1]) else s
  }

  /** `s.strip()`. */
  function Strip(s: string): (r: string)
    ensures |r| <= |s|
    ensures |r| > 0 ==> !IsSpace(r[0]) && !IsSpace(r[|r| - 1])
  {
    TrimEnd(TrimStart(s))
  }

  /** The leading run of non-space characters. */
  function Word(s: string): (r: string)
    ensures r <= s
    ensures forall i :: 0 <= i < |r| ==> !IsSpace(r[i])
    ensures |r| < |s| ==> IsSpace(s[|r|])
    decreases |s|
  {
    if |s| == 0 || IsSpace(s[0]) then [] else [s[0]] + Word(s[1..])
  }

  /** `s.split()`: the maximal runs of non-space characters, in order. */
  function Words(s: string): (r: seq<string>)
    ensures forall k :: 0 <= k < |r| ==> |r[k]| > 0
    decreases |s|
  {
    var t := TrimStart(s);
    if |t| == 0 then []
    else
      var w := Word(t);
      [w] + Words(t[|w|..])
  }

  /** A string without whitespace. */
  predicate NoSpace(w: string) {
    forall i :: 0 <= i < |w| ==> !IsSpace(w[i])
  }

  /** The leading word of `w + rest` is `w` when `rest` starts at a space or is empty. */
  lemma {:induction false} WordBeforeSpace(w: string, rest: string)
    requires NoSpace(w) && (|rest| == 0 || IsSpace(rest[0]))
    ensures Word(w + rest) == w
    decreases |w|
  {
    if |w| == 0 {
      assert w + rest == rest;
    } else {
      assert (w + rest)[1..] == w[1..] + rest;
      WordBeforeSpace(w[1..], rest);
      assert [w[0]] + w[1..] == w;
    }
  }

  /** Splitting a word, a space and a rest gives the word and then the rest's words. */
  lemma WordsSpaced(w: string, rest: string)
    requires |w| > 0 && NoSpace(w)
    ensures Words(w + " " + rest) == [w] + Words(rest)
  {
    var s := w + " " + rest;
    assert s == w + (" " + rest);
    assert s[0] == w[0];
    WordBeforeSpace(w, " " + rest);
    assert s[|w|..] == " " + rest;
    assert (" " + rest)[1..] == rest;
  }

  /** A single word splits into itself. */
  lemma WordsSingle(w: string)
    requires |w| > 0 && NoSpace(w)
    ensures Words(w) == [w]
  {
    assert w + "" == w;
    WordBeforeSpace(w, "");
    assert w[|w|..] == "";
  }

  /** Non-empty, blank-free words joined by single spaces split back into those words. */
  lemma {:induction false} WordsOfJoin(ws: seq<string>)
    requires forall k :: 0 <= k < |ws| ==> |ws[k]| > 0 && NoSpace(ws[k])
    ensures Words(Join(ws, " ")) == ws
    decreases |ws|
  {
    if |ws| == 1 {
      WordsSingle(ws[0]);
    } else if |ws| > 1 {
      WordsOfJoin(ws[1..]);
      WordsSpaced(ws[0], Join(ws[1..], " "));
      assert ws == [ws[0]] + ws[1..];
    }
  }

  /** `s.split(sep)` for a non-empty separator. */
  function SplitOn(s: string, sep: string): (r: seq<string>)
    requires |sep| > 0
    ensures |r| >= 1
    decreases |s|
  {
    match Find(s, sep)
    case None => [s]
    case Some(i) => [s[..i]] + SplitOn(s[i + |sep|..], sep)
  }

  /** `sep.join(xs)`. */
  function Join(xs: seq<string>, sep: string): string
  {
    if |xs| == 0 then ""
    else if |xs| == 1 then xs[0]
    else xs[0] + sep + Join(xs[1..], sep)
  }

  /** An ASCII decimal digit. */
  predicate IsDigit(c: char) {
    '0' <= c <= '9'
  }

  /** A non-empty string of ASCII digits. */
  predicate AllDigits(s: string) {
    |s| > 0 && forall i :: 0 <= i < |s| ==> IsDigit(s[i])
  }

  /** The value of one digit. */
  function DigitValue(c: char): (d: nat)
    requires IsDigit(c)
    ensures d < 10
  {
    (c as int - '0' as int) as nat
  }

  /** The digit character for a value below ten. */
  function DigitChar(d: nat): (c: char)
    requires d < 10
    ensures IsDigit(c) && DigitValue(c) == d
  {
    ('0' as int + d) as char
  }

  /** The number a digit string denotes (leading zeros allowed, as `int("007")`). */
  function NumberOf(s: string): nat
    requires forall i :: 0 <= i < |s| ==> IsDigit(s[i])
    decreases |s|
  {
    if |s| == 0 then 0 else NumberOf(s[..|s| - 1]) * 10 + DigitValue(s[|s| - 1])
  }

  /** `str(n)` for a natural number: its shortest decimal spelling. */
  function NatToString(n: nat): (r: string)
    ensures AllDigits(r)
    ensures |r| > 1 ==> r[0] != '0'
    decreases n
  {
    if n < 10 then [DigitChar(n)] else NatToString(n / 10) + [DigitChar(n % 10)]
  }

  /** Reading back the decimal spelling of a number gives the number. */
  lemma {:induction false} NumberOfNatToString(n: nat)
    ensures NumberOf(NatToString(n)) == n
    decreases n
  {
    if n >= 10 {
      NumberOfNatToString(n / 10);
      var r := NatToString(n);
      assert r[..|r| - 1] == NatToString(n / 10);
    }
  }

  /** `str(i)` for any integer. */
  function IntToString(i: int): string {
    if i < 0 then "-" + NatToString(-i) else NatToString(i)
  }

  /** The body of a Python integer literal as `int()` accepts it: digits,
      with single underscores allowed between two digits. */
  predicate DigitGroups(u: string) {
    |u| > 0 && IsDigit(u[0]) && IsDigit(u[|u| - 1])
    && (forall i :: 0 <= i < |u| ==> IsDigit(u[i]) || u[i] == '_')
    && (forall i :: 0 <= i < |u| - 1 && u[i] == '_' ==> u[i + 1] != '_')
  }

  /** The string with its underscores removed. */
  function DropUnderscores(u: string): (r: string)
    requires forall i :: 0 <= i < |u| ==> IsDigit(u[i]) || u[i] == '_'
    ensures forall i :: 0 <= i < |r| ==> IsDigit(r[i])
    ensures |r| <= |u|
    decreases |u|
  {
    if |u| == 0 then "" else if u[0] == '_' then DropUnderscores(u[1..]) else [u[0]] + DropUnderscores(u[1..])
  }

  /** `int(s)` for a `str` argument in base 10: surrounding whitespace is
      ignored, one optional sign is accepted, and anything else is a
      ValueError (`None`). Digits are ASCII only: the other Unicode decimal
      digits Python also accepts read here as not a number. */
  function PyInt(s: string): (r: Option<int>)
    ensures r.Some? ==> |Strip(s)| > 0
  {
    var t := Strip(s);
    if |t| > 0 && (t[0] == '+' || t[0] == '-') then
      var u := t[1..];
      if DigitGroups(u) then
        var n: int := NumberOf(DropUnderscores(u));
        Some(if t[0] == '-' then -n else n)
      else None
    else if DigitGroups(t) then Some(NumberOf(DropUnderscores(t)))
    else None
  }

  /** A plain digit string parses to the number it spells. */
  lemma {:induction false} DropUnderscoresOfDigits(u: string)
    requires forall i :: 0 <= i < |u| ==> IsDigit(u[i])
    ensures DropUnderscores(u) == u
    decreases |u|
  {
    if |u| > 0 {
      DropUnderscoresOfDigits(u[1..]);
      assert [u[0]] + u[1..] == u;
    }
  }

  /** `int(str(n)) == n` for every natural number. */
  lemma PyIntOfNatToString(n: nat)
    ensures PyInt(NatToString(n)) == Some(n)
  {
    PyIntOfDigits(NatToString(n));
    NumberOfNatToString(n);
  }

  /** A plain digit string parses to the number it spells. */
  lemma PyIntOfDigits(r: string)
    requires AllDigits(r)
    ensures PyInt(r) == Some(NumberOf(r))
  {
    assert !IsSpace(r[0]) && !IsSpace(r[|r| - 1]);
    assert TrimStart(r) == r;
    assert TrimEnd(r) == r;
    assert Strip(r) == r;
    assert r[0] != '+' && r[0] != '-';
    assert DigitGroups(r);
    DropUnderscoresOfDigits(r);
  }

  /** ASCII lower-casing (`str.lower()` on ASCII letters; other characters kept). */
  function Lower(s: string): (r: string)
    ensures |r| == |s|
    ensures forall i :: 0 <= i < |s| ==> r[i] == LowerChar(s[i])
  {
    seq(|s|, i requires 0 <= i < |s| => LowerChar(s[i]))
  }

  /** ASCII upper-casing (`str.upper()` on ASCII letters; other characters kept). */
  function Upper(s: string): (r: string)
    ensures |r| == |s|
    ensures forall i :: 0 <= i < |s| ==> r[i] == UpperChar(s[i])
  {
    seq(|s|, i requires 0 <= i < |s| => UpperChar(s[i]))
  }

  function LowerChar(c: char): char {
    if 'A' <= c <= 'Z' then (c as int + 32) as char else c
  }

  function UpperChar(c: char): char {
    if 'a' <= c <= 'z' then (c as int - 32) as char else c
  }
}

=== FILE: task_dispatcher.dfy ===
/** The polling task dispatcher (ikuyo/core/worker/task_dispatcher.py): one
    cycle of `_dispatch_loop`, the result drain, and the start/stop flags.
    Threads, sleeps and the process pool are replaced by oracle inputs: the
    idle counts the pool reports, whether each write commits and whether each
    submission is accepted. */
module TaskDispatcher {
  import opened Wrappers
  import opened PyValue
  import opened TaskModel

  /** `json.loads` as a total function: `None` where it raises. These are the
      few facts of RFC 8259 decoding the model relies on. */
  predicate DecodesJson(loads: string -> Option<Value>) {
    loads("").None? && loads("{}") == Some(Dict(map[])) && loads("null") == Some(Null)
  }

  /** `_prepare_task_data`: the payload for a task whose parameters decode to
      a truthy value; `None` when they are absent, undecodable or decode to an
      empty or false value. */
  function PrepareTaskData(t: TaskRecord, loads: string -> Option<Value>): (r: Option<map<string, Value>>)
    ensures r.Some? <==> t.parameters.Some? && loads(t.parameters.value).Some? && Truthy(loads(t.parameters.value).value)
    ensures r.Some? ==> r.value.Keys == {"task_id", "task_type", "parameters", "created_at"}
    ensures r.Some? ==> r.value["task_id"] == (if t.id.Some? then Int(t.id.value) else Null)
    ensures r.Some? ==> Truthy(r.value["parameters"])
  {
    if t.parameters.None? then None
    else
      match loads(t.parameters.value)
      case None => None
      case Some(params) => if !Truthy(params) then None else Some(Payload(t, params))
  }

  /** Tasks whose parameters are missing, empty text, `{}` or `null` are never prepared. */
  lemma EmptyParametersNotPrepared(t: TaskRecord, loads: string -> Option<Value>)
    requires DecodesJson(loads)
    requires t.parameters.None? || t.parameters == Some("") || t.parameters == Some("{}") || t.parameters == Some("null")
    ensures PrepareTaskData(t, loads).None?
  {
  }

  /** What the outside world answers while one pending task is handled: whether
      the loop is still running, the idle count the pool reports, whether the
      "running" write commits, whether the pool accepts the payload, and whether
      the rollback write commits. */
  datatype Probe = Probe(running: bool, idle: nat, claimOk: bool, submitOk: bool, rollbackOk: bool)

  /** The row as claimed: running, started now. */
  function Claimed(t: TaskRecord, now: Time): (r: TaskRecord)
    ensures r.status == "running" && r.startedAt == Some(now) && r.id == t.id
  {
    t.(status := "running", startedAt := Some(now))
  }

  /** The row after a refused submission: pending again, with no start time. */
  function RolledBack(t: TaskRecord): (r: TaskRecord)
    ensures r.status == "pending" && r.startedAt.None? && r.id == t.id
  {
    t.(status := "pending", startedAt := None)
  }

  /** The rows after one cycle and the payloads handed to the pool, in order. */
  datatype CycleOutcome = CycleOutcome(rows: map<int, TaskRecord>, submitted: seq<map<string, Value>>)

  predicate HasIds(fetched: seq<TaskRecord>) {
    forall k :: 0 <= k < |fetched| ==> fetched[k].id.Some?
  }

  /** The body of the `for task in pending_tasks` loop, applied to the fetched
      rows in order: stop when the loop is no longer running or no worker is
      idle; skip a task whose data cannot be prepared or whose claim does not
      commit; otherwise claim it, submit it, and roll it back when the pool
      refuses. A rollback that does not commit abandons the rest of the batch. */
  function Cycle(rows: map<int, TaskRecord>, fetched: seq<TaskRecord>, probes: seq<Probe>,
                 loads: string -> Option<Value>, now: Time): (r: CycleOutcome)
    requires |probes| == |fetched| && HasIds(fetched)
    ensures rows.Keys <= r.rows.Keys
    decreases |fetched|
  {
    if |fetched| == 0 then CycleOutcome(rows, [])
    else
      var t, p := fetched[0], probes[0];
      if !p.running || p.idle == 0 then CycleOutcome(rows, [])
      else
        match PrepareTaskData(t, loads)
        case None => Cycle(rows, fetched[1..], probes[1..], loads, now)
        case Some(data) =>
          if !p.claimOk then Cycle(rows, fetched[1..], probes[1..], loads, now)
          else
            var claimedRows := Store(rows, Claimed(t, now));
            if p.submitOk then
              var rest := Cycle(claimedRows, fetched[1..], probes[1..], loads, now);
              CycleOutcome(rest.rows, [data] + rest.submitted)
            else if p.rollbackOk then
              Cycle(Store(claimedRows, RolledBack(Claimed(t, now))), fetched[1..], probes[1..], loads, now)
            else CycleOutcome(claimedRows, [])
  }

  /** The row a fetched task ends with when the loop reaches it. */
  function Fate(t: TaskRecord, p: Probe, loads: string -> Option<Value>, now: Time): TaskRecord {
    if !p.running || p.idle == 0 || PrepareTaskData(t, loads).None? || !p.claimOk then t
    else if p.submitOk then Claimed(t, now)
    else if p.rollbackOk then RolledBack(t)
    else Claimed(t, now)
  }

  /** Whether the loop goes on to the next fetched task after this one. */
  predicate Continues(t: TaskRecord, p: Probe, loads: string -> Option<Value>) {
    p.running && p.idle > 0
    && (PrepareTaskData(t, loads).None? || !p.claimOk || p.submitOk || p.rollbackOk)
  }

  /** The loop reaches the `j`-th fetched task. */
  predicate Reached(fetched: seq<TaskRecord>, probes: seq<Probe>, loads: string -> Option<Value>, j: int)
    requires |probes| == |fetched|
  {
    forall i :: 0 <= i < j && i < |fetched| ==> Continues(fetched[i], probes[i], loads)
  }

  /** The fetched batch is a snapshot of distinct rows of the table. */
  predicate Snapshot(rows: map<int, TaskRecord>, fetched: seq<TaskRecord>) {
    HasIds(fetched)
    && (forall k :: 0 <= k < |fetched| ==> fetched[k].id.value in rows && rows[fetched[k].id.value] == fetched[k])
    && (forall i, j :: 0 <= i < j < |fetched| ==> fetched[i].id != fetched[j].id)
  }

  function IdsOf(fetched: seq<TaskRecord>): set<int>
    requires HasIds(fetched)
  {
    set k | 0 <= k < |fetched| :: fetched[k].id.value
  }

  /** Dropping the first fetched task shifts reachability by one. */
  lemma ReachedShift(fetched: seq<TaskRecord>, probes: seq<Probe>, loads: string -> Option<Value>, j: int)
    requires |probes| == |fetched| && 1 <= j <= |fetched|
    ensures Reached(fetched, probes, loads, j)
            <==> Continues(fetched[0], probes[0], loads) && Reached(fetched[1..], probes[1..], loads, j - 1)
  {
    var tailF, tailP := fetched[1..], probes[1..];
    if Continues(fetched[0], probes[0], loads) && Reached(tailF, tailP, loads, j - 1) {
      forall i | 0 <= i < j && i < |fetched| ensures Continues(fetched[i], probes[i], loads) {
        if i > 0 { assert fetched[i] == tailF[i - 1] && probes[i] == tailP[i - 1]; }
      }
    }
    if Reached(fetched, probes, loads, j) {
      forall i | 0 <= i < j - 1 && i < |tailF| ensures Continues(tailF[i], tailP[i], loads) {
        assert fetched[i + 1] == tailF[i] && probes[i + 1] == tailP[i];
      }
    }
  }

  /** The ids of a snapshot: the first one and, apart from it, those of the rest. */
  lemma SnapshotTail(rows: map<int, TaskRecord>, fetched: seq<TaskRecord>, t: TaskRecord)
    requires Snapshot(rows, fetched) && |fetched| > 0 && t.id == fetched[0].id
    ensures IdsOf(fetched) == {fetched[0].id.value} + IdsOf(fetched[1..])
    ensures fetched[0].id.value !in IdsOf(fetched[1..])
    ensures Snapshot(Store(rows, t), fetched[1..])
  {
    var id, tailF := fetched[0].id.value, fetched[1..];
    forall x | x in IdsOf(fetched) ensures x in {id} + IdsOf(tailF) {
      var k :| 0 <= k < |fetched| && fetched[k].id.value == x;
      if k > 0 { assert tailF[k - 1] == fetched[k]; }
    }
    forall x | x in IdsOf(tailF) ensures x in IdsOf(fetched) && x != id {
      var k :| 0 <= k < |tailF| && tailF[k].id.value == x;
      assert fetched[k + 1] == tailF[k];
    }
    forall k | 0 <= k < |tailF| ensures tailF[k].id.value in Store(rows, t) && Store(rows, t)[tailF[k].id.value] == tailF[k] {
      assert tailF[k] == fetched[k + 1];
    }
    forall i, j | 0 <= i < j < |tailF| ensures tailF[i].id != tailF[j].id {
      assert tailF[i] == fetched[i + 1] && tailF[j] == fetched[j + 1];
    }
  }

  /** One step of `Cycle` in terms of `Fate` and `Continues`. */
  lemma CycleUnfold(rows: map<int, TaskRecord>, fetched: seq<TaskRecord>, probes: seq<Probe>,
                    loads: string -> Option<Value>, now: Time)
    requires |probes| == |fetched| && Snapshot(rows, fetched) && |fetched| > 0
    ensures var t, p := fetched[0], probes[0];
      var rows1 := Store(rows, Fate(t, p, loads, now));
      Cycle(rows, fetched, probes, loads, now)
      == if !Continues(t, p, loads) then CycleOutcome(rows1, [])
         else
           var rest := Cycle(rows1, fetched[1..], probes[1..], loads, now);
           CycleOutcome(rest.rows, (if p.running && p.idle > 0 && PrepareTaskData(t, loads).Some? && p.claimOk && p.submitOk
                                    then [PrepareTaskData(t, loads).value] else []) + rest.submitted)
  {
    var t := fetched[0];
    assert Store(rows, t) == rows;
    assert Store(Store(rows, Claimed(t, now)), RolledBack(Claimed(t, now))) == Store(rows, RolledBack(t));
  }

  /** The cycle over the fetched tasks from the `i`-th on, by what happens to the `i`-th. */
  lemma CycleAt(rows: map<int, TaskRecord>, fetched: seq<TaskRecord>, probes: seq<Probe>,
                loads: string -> Option<Value>, now: Time, i: nat)
    requires |probes| == |fetched| && HasIds(fetched) && i < |fetched|
    ensures var t, p := fetched[i], probes[i];
      var ready := p.running && p.idle > 0;
      var claimed := Store(rows, Claimed(t, now));
      && (!ready ==> Cycle(rows, fetched[i..], probes[i..], loads, now) == CycleOutcome(rows, []))
      && (ready && (PrepareTaskData(t, loads).None? || !p.claimOk) ==>
            Cycle(rows, fetched[i..], probes[i..], loads, now) == Cycle(rows, fetched[i + 1..], probes[i + 1..], loads, now))
      && (ready && PrepareTaskData(t, loads).Some? && p.claimOk && p.submitOk ==>
            var rest := Cycle(claimed, fetched[i + 1..], probes[i + 1..], loads, now);
            Cycle(rows, fetched[i..], probes[i..], loads, now)
            == CycleOutcome(rest.rows, [PrepareTaskData(t, loads).value] + rest.submitted))
      && (ready && PrepareTaskData(t, loads).Some? && p.claimOk && !p.submitOk && p.rollbackOk ==>
            Cycle(rows, fetched[i..], probes[i..], loads, now)
            == Cycle(Store(claimed, RolledBack(Claimed(t, now))), fetched[i + 1..], probes[i + 1..], loads, now))
      && (ready && PrepareTaskData(t, loads).Some? && p.claimOk && !p.submitOk && !p.rollbackOk ==>
            Cycle(rows, fetched[i..], probes[i..], loads, now) == CycleOutcome(claimed, []))
  {
    assert fetched[i..][0] == fetched[i] && probes[i..][0] == probes[i];
    assert fetched[i..][1..] == fetched[i + 1..] && probes[i..][1..] == probes[i + 1..];
  }

  /** What one cycle does to the table: rows outside the batch are untouched,
      and each fetched task ends with its `Fate` if the loop reaches it and is
      untouched otherwise. */
  lemma {:induction false} CycleRows(rows: map<int, TaskRecord>, fetched: seq<TaskRecord>, probes: seq<Probe>,
                                     loads: string -> Option<Value>, now: Time)
    requires |probes| == |fetched| && Snapshot(rows, fetched)
    ensures var out := Cycle(rows, fetched, probes, loads, now);
      out.rows.Keys == rows.Keys
      && (forall k :: k in rows && k !in IdsOf(fetched) ==> out.rows[k] == rows[k])
      && (forall j :: 0 <= j < |fetched| ==>
            out.rows[fetched[j].id.value]
            == if Reached(fetched, probes, loads, j) then Fate(fetched[j], probes[j], loads, now) else fetched[j])
    decreases |fetched|
  {
    if |fetched| > 0 {
      var t, p := fetched[0], probes[0];
      SnapshotTail(rows, fetched, Fate(t, p, loads, now));
      if Continues(t, p, loads) {
        CycleRows(Store(rows, Fate(t, p, loads, now)), fetched[1..], probes[1..], loads, now);
      }
      CycleRowsStep(rows, fetched, probes, loads, now);
    }
  }

  /** The table a cycle leaves, as `CycleRows` states it. */
  ghost predicate RowsAfter(rows: map<int, TaskRecord>, fetched: seq<TaskRecord>, probes: seq<Probe>,
                            loads: string -> Option<Value>, now: Time, out: map<int, TaskRecord>)
    requires |probes| == |fetched| && HasIds(fetched)
  {
    out.Keys == rows.Keys
    && (forall k :: k in rows && k !in IdsOf(fetched) ==> out[k] == rows[k])
    && (forall j :: 0 <= j < |fetched| ==>
          fetched[j].id.value in out
          && out[fetched[j].id.value]
          == if Reached(fetched, probes, loads, j) then Fate(fetched[j], probes[j], loads, now) else fetched[j])
  }

  /** The first fetched task's step, given what the rest of the cycle does. */
  lemma CycleRowsStep(rows: map<int, TaskRecord>, fetched: seq<TaskRecord>, probes: seq<Probe>,
                      loads: string -> Option<Value>, now: Time)
    requires |probes| == |fetched| && Snapshot(rows, fetched) && |fetched| > 0
    requires var rows1 := Store(rows, Fate(fetched[0], probes[0], loads, now));
      Continues(fetched[0], probes[0], loads) ==>
        RowsAfter(rows1, fetched[1..], probes[1..], loads, now, Cycle(rows1, fetched[1..], probes[1..], loads, now).rows)
    ensures RowsAfter(rows, fetched, probes, loads, now, Cycle(rows, fetched, probes, loads, now).rows)
  {
    var t, p := fetched[0], probes[0];
    CycleUnfold(rows, fetched, probes, loads, now);
    SnapshotTail(rows, fetched, Fate(t, p, loads, now));
    var out := Cycle(rows, fetched, probes, loads, now);
    assert Reached(fetched, probes, loads, 0);
    forall j | 1 <= j < |fetched| {
      ReachedShift(fetched, probes, loads, j);
    }
    if Continues(t, p, loads) {
      forall j | 1 <= j < |fetched|
        ensures out.rows[fetched[j].id.value]
                == if Reached(fetched, probes, loads, j) then Fate(fetched[j], probes[j], loads, now) else fetched[j]
      {
        assert fetched[j] == fetched[1..][j - 1] && probes[j] == probes[1..][j - 1];
      }
    } else {
      forall j | 1 <= j < |fetched| ensures out.rows[fetched[j].id.value] == fetched[j] {
        assert fetched[j] == fetched[1..][j - 1];
      }
    }
  }

  /** Every payload a cycle hands to the pool belongs to a fetched task whose
      row now says running since `now`; at most one payload per fetched task. */
  lemma {:induction false} CycleSubmitted(rows: map<int, TaskRecord>, fetched: seq<TaskRecord>, probes: seq<Probe>,
                                          loads: string -> Option<Value>, now: Time)
    requires |probes| == |fetched| && Snapshot(rows, fetched)
    ensures var out := Cycle(rows, fetched, probes, loads, now);
      |out.submitted| <= |fetched|
      && (forall d: map<string, Value> :: d in out.submitted ==>
            "task_id" in d && d["task_id"].Int? && d["task_id"].i in IdsOf(fetched)
            && out.rows[d["task_id"].i] == Claimed(rows[d["task_id"].i], now))
    decreases |fetched|
  {
    if |fetched| == 0 {
      return;
    }
    var t, p := fetched[0], probes[0];
    var id := t.id.value;
    var rows1 := Store(rows, Fate(t, p, loads, now));
    CycleUnfold(rows, fetched, probes, loads, now);
    SnapshotTail(rows, fetched, Fate(t, p, loads, now));
    if Continues(t, p, loads) {
      CycleSubmitted(rows1, fetched[1..], probes[1..], loads, now);
      CycleRows(rows1, fetched[1..], probes[1..], loads, now);
    }
  }

  /** A cycle stops claiming at the first task for which the pool reports no
      idle worker: that task and every later one keep their rows. */
  lemma NoClaimAfterIdleZero(rows: map<int, TaskRecord>, fetched: seq<TaskRecord>, probes: seq<Probe>,
                             loads: string -> Option<Value>, now: Time, k: nat)
    requires |probes| == |fetched| && Snapshot(rows, fetched)
    requires k < |fetched| && probes[k].idle == 0
    ensures forall j :: k <= j < |fetched| ==>
      Cycle(rows, fetched, probes, loads, now).rows[fetched[j].id.value] == rows[fetched[j].id.value]
  {
    CycleRows(rows, fetched, probes, loads, now);
    forall j | k < j < |fetched| ensures !Reached(fetched, probes, loads, j) {
      assert !Continues(fetched[k], probes[k], loads);
    }
  }

  /** A task whose data cannot be prepared keeps its row, `started_at` included. */
  lemma UnpreparedTaskUntouched(rows: map<int, TaskRecord>, fetched: seq<TaskRecord>, probes: seq<Probe>,
                                loads: string -> Option<Value>, now: Time, j: nat)
    requires |probes| == |fetched| && Snapshot(rows, fetched)
    requires j < |fetched| && PrepareTaskData(fetched[j], loads).None?
    ensures Cycle(rows, fetched, probes, loads, now).rows[fetched[j].id.value] == rows[fetched[j].id.value]
  {
    CycleRows(rows, fetched, probes, loads, now);
  }

  /** A reached task whose submission is refused and whose rollback commits is
      pending again with no start time. */
  lemma RefusedTaskRolledBack(rows: map<int, TaskRecord>, fetched: seq<TaskRecord>, probes: seq<Probe>,
                              loads: string -> Option<Value>, now: Time, j: nat)
    requires |probes| == |fetched| && Snapshot(rows, fetched)
    requires j < |fetched| && Reached(fetched, probes, loads, j)
    requires probes[j].running && probes[j].idle > 0 && PrepareTaskData(fetched[j], loads).Some?
    requires probes[j].claimOk && !probes[j].submitOk && probes[j].rollbackOk
    ensures var r := Cycle(rows, fetched, probes, loads, now).rows[fetched[j].id.value];
      r.status == "pending" && r.startedAt.None?
  {
    CycleRows(rows, fetched, probes, loads, now);
  }

  /** The pending batch `list_by_status("pending", limit=10)` returns: up to ten
      distinct pending rows (SQL gives no order, so any such batch is possible). */
  predicate PendingBatch(rows: map<int, TaskRecord>, fetched: seq<TaskRecord>) {
    Snapshot(rows, fetched)
    && (forall k :: 0 <= k < |fetched| ==> fetched[k].status == "pending")
    && |fetched| == if |PendingIds(rows)| < 10 then |PendingIds(rows)| else 10
  }

  /** A result taken from the pool's result queue, and whether the session's
      read and write of the task succeed. */
  datatype Delivery = Delivery(result: map<string, Value>, dbOk: bool)

  /** The task key a result names: only integer ids are looked up. */
  function ResultKey(result: map<string, Value>): Option<int> {
    var v := DictGet(result, "task_id", Null);
    if Truthy(v) && v.Int? then Some(v.i) else None
  }

  /** The text an `error` value leaves in the `error_message` column: a
      null clears it, a text is kept as it is, anything else is its `str`. */
  function ErrorText(v: Value, render: Value -> string): (r: Option<string>)
    ensures r.None? <==> v.Null?
    ensures v.Str? ==> r == Some(v.s)
  {
    if v.Null? then None else Some(StrOf(v, render))
  }

  /** `_process_task_result`: a "completed" or "failed" result is written
      over whatever status the row had; anything else changes nothing. */
  function ApplyResult(rows: map<int, TaskRecord>, d: Delivery, now: Time,
                       dumps: Value -> string, render: Value -> string): (r: map<int, TaskRecord>)
    ensures r.Keys == rows.Keys
    ensures forall k :: k in rows && Some(k) != ResultKey(d.result) ==> r[k] == rows[k]
  {
    var key := ResultKey(d.result);
    var status := DictGet(d.result, "status", Null);
    if key.None? || key.value !in rows || !d.dbOk then rows
    else
      var t := rows[key.value];
      if status == Str("completed") then
        var data := DictGet(d.result, "result", Str(""));
        var summary := if data.Dict? then dumps(data) else StrOf(data, render);
        rows[key.value := t.(status := "completed", completedAt := Some(now), resultSummary := Some(summary))]
      else if status == Str("failed") then
        var err := DictGet(d.result, "error", Str("未知错误"));
        rows[key.value := t.(status := "failed", completedAt := Some(now), errorMessage := ErrorText(err, render))]
      else rows
  }

  /** The terminal writes: "completed" sets completion time and summary (JSON
      text for a dict, `str` otherwise); "failed" sets completion time and the
      error, "未知错误" when the result has no `error` key. No earlier status,
      not even "cancelled", prevents either write, and no other field of the
      row changes. */
  lemma ResultWrites(rows: map<int, TaskRecord>, d: Delivery, now: Time,
                     dumps: Value -> string, render: Value -> string, id: int)
    requires ResultKey(d.result) == Some(id) && id in rows && d.dbOk
    ensures var r := ApplyResult(rows, d, now, dumps, render)[id];
      var data := DictGet(d.result, "result", Str(""));
      (DictGet(d.result, "status", Null) == Str("completed") ==>
         r.status == "completed" && r.completedAt == Some(now)
         && r.resultSummary == Some(if data.Dict? then dumps(data) else StrOf(data, render))
         && r.errorMessage == rows[id].errorMessage)
      && (DictGet(d.result, "status", Null) == Str("failed") ==>
         r.status == "failed" && r.completedAt == Some(now)
         && ("error" !in d.result ==> r.errorMessage == Some("未知错误"))
         && ("error" in d.result ==> r.errorMessage == ErrorText(d.result["error"], render))
         && r.resultSummary == rows[id].resultSummary)
      && r.(status := rows[id].status, completedAt := rows[id].completedAt,
            resultSummary := rows[id].resultSummary, errorMessage := rows[id].errorMessage) == rows[id]
      && (DictGet(d.result, "status", Null) != Str("completed") && DictGet(d.result, "status", Null) != Str("failed")
          ==> r == rows[id])
  {
  }

  /** A result without a usable task id, for a missing task, or whose session fails, changes nothing. */
  lemma ResultIgnored(rows: map<int, TaskRecord>, d: Delivery, now: Time,
                      dumps: Value -> string, render: Value -> string)
    requires ResultKey(d.result).None? || ResultKey(d.result).value !in rows || !d.dbOk
    ensures ApplyResult(rows, d, now, dumps, render) == rows
  {
  }

  /** The results applied in arrival order: no row appears or disappears,
      and a row that no result names is left as it was. */
  function ApplyAll(rows: map<int, TaskRecord>, ds: seq<Delivery>, now: Time,
                    dumps: Value -> string, render: Value -> string): (r: map<int, TaskRecord>)
    ensures r.Keys == rows.Keys
    ensures forall k :: k in rows && (forall j :: 0 <= j < |ds| ==> ResultKey(ds[j].result) != Some(k)) ==> r[k] == rows[k]
    decreases |ds|
  {
    if |ds| == 0 then rows
    else ApplyAll(ApplyResult(rows, ds[0], now, dumps, render), ds[1..], now, dumps, render)
  }

  /** The dispatcher's running flag and the threads it has launched. */
  class Dispatcher {
    var isRunning: bool
    var threadsStarted: nat
    const pollInterval: int

    constructor (pollInterval: int)
      ensures !isRunning && threadsStarted == 0 && this.pollInterval == pollInterval
    {
      isRunning := false;
      threadsStarted := 0;
      this.pollInterval := pollInterval;
    }

    /** `start`: a running dispatcher answers true and launches nothing;
        otherwise it sets the flag and launches the dispatch and result threads. */
    method Start() returns (ok: bool)
      modifies this
      ensures ok && isRunning
      ensures old(isRunning) ==> threadsStarted == old(threadsStarted)
      ensures !old(isRunning) ==> threadsStarted == old(threadsStarted) + 2
    {
      if isRunning {
        return true;
      }
      isRunning := true;
      threadsStarted := threadsStarted + 2;
      ok := true;
    }

    /** `stop`: the flag is cleared; the loops exit at their next check. */
    method Stop() returns (ok: bool)
      modifies this`isRunning
      ensures ok && !isRunning
    {
      isRunning := false;
      ok := true;
    }

    /** One pass of `_dispatch_loop`. With no idle worker, or when the pending
        query fails, nothing is fetched or written. Otherwise the batch is
        handled as `Cycle` describes. */
    method DispatchCycle(db: TaskDb, idle: nat, fetchOk: bool, fetched: seq<TaskRecord>, probes: seq<Probe>,
                         loads: string -> Option<Value>, now: Time) returns (submitted: seq<map<string, Value>>)
      requires db.Valid() && |probes| == |fetched| && PendingBatch(db.rows, fetched)
      modifies db`rows
      ensures db.Valid()
      ensures idle == 0 || !fetchOk ==> db.rows == old(db.rows) && submitted == []
      ensures idle > 0 && fetchOk ==> CycleOutcome(db.rows, submitted) == Cycle(old(db.rows), fetched, probes, loads, now)
    {
      submitted := [];
      if idle == 0 || !fetchOk {
        return;
      }
      ghost var rows0 := db.rows;
      var i := 0;
      var abandoned := false;
      while i < |fetched| && !abandoned
        invariant 0 <= i <= |fetched|
        invariant db.Valid()
        invariant forall k :: i <= k < |fetched| ==> fetched[k].id.value in db.rows
        invariant abandoned ==> CycleOutcome(db.rows, submitted) == Cycle(rows0, fetched, probes, loads, now)
        invariant !abandoned ==>
          var rest := Cycle(db.rows, fetched[i..], probes[i..], loads, now);
          Cycle(rows0, fetched, probes, loads, now) == CycleOutcome(rest.rows, submitted + rest.submitted)
        decreases |fetched| - i, !abandoned
      {
        var t, p := fetched[i], probes[i];
        CycleAt(db.rows, fetched, probes, loads, now, i);
        if !p.running || p.idle == 0 {
          abandoned := true;
        } else {
          var data := PrepareTaskData(t, loads);
          if data.Some? && p.claimOk {
            var claimed := Claimed(t, now);
            db.Update(claimed);
            if p.submitOk {
              submitted := submitted + [data.value];
            } else if p.rollbackOk {
              db.Update(RolledBack(claimed));
            } else {
              abandoned := true;
            }
          }
          i := i + 1;
        }
      }
      if !abandoned {
        assert fetched[i..] == [] && probes[i..] == [];
      }
    }

    /** `_result_processing_loop` over the results that arrive while it runs:
        each is applied in turn, and the table ends as `ApplyAll` says. */
    method DrainResults(db: TaskDb, ds: seq<Delivery>, now: Time,
                        dumps: Value -> string, render: Value -> string)
      requires db.Valid()
      modifies db`rows
      ensures db.Valid()
      ensures db.rows == ApplyAll(old(db.rows), ds, now, dumps, render)
    {
      var i := 0;
      while i < |ds|
        invariant 0 <= i <= |ds|
        invariant db.Valid()
        invariant ApplyAll(old(db.rows), ds, now, dumps, render) == ApplyAll(db.rows, ds[i..], now, dumps, render)
      {
        assert ds[i..][1..] == ds[i + 1..];
        var key := ResultKey(ds[i].result);
        var status := DictGet(ds[i].result, "status", Null);
        if key.Some? && key.value in db.rows && ds[i].dbOk {
          var t := db.rows[key.value];
          if status == Str("completed") {
            var data := DictGet(ds[i].result, "result", Str(""));
            var summary := if data.Dict? then dumps(data) else StrOf(data, render);
            db.Update(t.(status := "completed", completedAt := Some(now), resultSummary := Some(summary)));
          } else if status == Str("failed") {
            var err := DictGet(ds[i].result, "error", Str("未知错误"));
            db.Update(t.(status := "failed", completedAt := Some(now), errorMessage := ErrorText(err, render)));
          }
        }
        i := i + 1;
      }
      assert ds[i..] == [];
    }
  }
}

=== FILE: task_executor.dfy ===
/** The task-execution coordinator (ikuyo/core/tasks/task_executor.py):
    it submits a task to the process pool when the pool runs and has an idle
    worker, and otherwise runs the spider in the current process and reports
    the outcome through a progress reporter. The class-level singleton and
    pool reference are the fields of `TaskExecutorClass`. */
module TaskExecution {
  import opened Wrappers
  import opened PyValue
  import opened TaskModel
  import opened ProcessPool
  import opened SpiderRunner
  import opened ProgressReporting

  /** The payload built by both paths: `task_id`, `task_type`, `parameters`. */
  function TaskData(taskId: int, taskType: string, parameters: Value): (d: map<string, Value>)
    ensures d.Keys == {"task_id", "task_type", "parameters"}
    ensures d["task_id"] == Int(taskId) && d["task_type"] == Str(taskType) && d["parameters"] == parameters
  {
    map["task_id" := Int(taskId), "task_type" := Str(taskType), "parameters" := parameters]
  }

  /** The error message `report_status` receives: the runner's `error` entry, if any. */
  function ErrorArg(result: map<string, Value>, render: Value -> string): (e: Option<string>)
    ensures DictGet(result, "error", Null) == Null ==> e.None?
    ensures "error" in result && result["error"].Str? ==> e == Some(result["error"].s)
  {
    var v := DictGet(result, "error", Null);
    if v == Null then None else Some(StrOf(v, render))
  }

  /** The rows after the in-process path has reported `result` for `taskId`:
      "completed" with the result text when there is a truthy result, or
      "failed" with the runner's error. A missing task or a failing session
      (`statusOk`, `resultOk`) leaves the rows of that report as they were. */
  function ReportOutcome(rows: map<int, TaskRecord>, taskId: int, result: map<string, Value>,
                         statusOk: bool, resultOk: bool, render: Value -> string, now: Time): (r: map<int, TaskRecord>)
    requires WellKeyed(rows)
    ensures WellKeyed(r) && r.Keys == rows.Keys
    ensures forall k :: k in rows && k != taskId ==> r[k] == rows[k]
    ensures taskId !in rows || !statusOk ==>
      (DictGet(result, "status", Null) != Str("completed") ==> r == rows)
    ensures taskId in rows && statusOk && DictGet(result, "status", Null) == Str("completed") ==>
      r[taskId].status == "completed" && r[taskId].completedAt == Some(now)
    ensures taskId in rows && statusOk && DictGet(result, "status", Null) != Str("completed") ==>
      r[taskId] == WithStatus(rows[taskId], "failed", ErrorArg(result, render), now)
    ensures taskId in rows && resultOk && DictGet(result, "status", Null) == Str("completed")
            && Truthy(DictGet(result, "result", Null)) ==>
      r[taskId].resultSummary == Some(StrOf(result["result"], render))
  {
    if DictGet(result, "status", Null) == Str("completed") then
      var rows1 := if taskId in rows && statusOk then Store(rows, WithStatus(rows[taskId], "completed", None, now)) else rows;
      if Truthy(DictGet(result, "result", Null)) && taskId in rows1 && resultOk
      then Store(rows1, rows1[taskId].(resultSummary := Some(StrOf(result["result"], render))))
      else rows1
    else if taskId in rows && statusOk then Store(rows, WithStatus(rows[taskId], "failed", ErrorArg(result, render), now))
    else rows
  }

  /** What `get_execution_status` reports. */
  datatype ExecutionStatus = ExecutionStatus(poolAvailable: bool, poolRunning: bool, pool: Option<PoolStatus>)

  /** The class attributes `_instance` and `_process_pool`. */
  class TaskExecutorClass {
    var instance: Option<TaskExecutor>
    var processPool: Option<Pool>

    ghost predicate Valid()
      reads this
    {
      instance.Some? ==> instance.value.cls == this
    }

    constructor ()
      ensures Valid() && instance.None? && processPool.None?
    {
      instance := None;
      processPool := None;
    }

    /** The pool, as a frame. */
    function PoolFrame(): set<object>
      reads this
    {
      if processPool.Some? then {processPool.value} else {}
    }

    /** `get_instance`: the first call creates the instance, every later call returns it. */
    method GetInstance() returns (e: TaskExecutor)
      requires Valid()
      modifies this`instance
      ensures Valid() && instance == Some(e) && e.cls == this
      ensures old(instance).Some? ==> e == old(instance).value
      ensures old(instance).None? ==> fresh(e)
    {
      if instance.None? {
        var created := new TaskExecutor(this);
        instance := Some(created);
      }
      e := instance.value;
    }

    /** `set_process_pool`: shared by every instance. */
    method SetProcessPool(pool: Pool)
      modifies this`processPool
      ensures processPool == Some(pool)
    {
      processPool := Some(pool);
    }
  }

  /** Two calls of `get_instance` give the same object. */
  method GetInstanceTwice(cls: TaskExecutorClass) returns (a: TaskExecutor, b: TaskExecutor)
    requires cls.Valid()
    modifies cls`instance
    ensures a == b
  {
    a := cls.GetInstance();
    b := cls.GetInstance();
  }

  class TaskExecutor {
    const cls: TaskExecutorClass

    constructor (cls: TaskExecutorClass)
      ensures this.cls == cls
    {
      this.cls := cls;
    }

    /** `_execute_in_current_process`: only "crawler" tasks run; the spider
        outcome is reported and the answer is whether it completed. */
    method ExecuteInCurrentProcess(db: TaskDb, taskId: int, taskType: string, parameters: Value,
                                   projectConfig: Value, crawl: map<string, Value> -> Option<string>,
                                   render: Value -> string, statusOk: bool, resultOk: bool, now: Time)
      returns (ok: bool)
      requires db.Valid()
      modifies db`rows
      ensures db.Valid()
      ensures taskType != "crawler" ==> !ok && db.rows == old(db.rows)
      ensures taskType == "crawler" ==>
        var result := ExecuteInProcess(TaskData(taskId, taskType, parameters), projectConfig, crawl, render);
        (ok <==> result["status"] == Str("completed"))
        && db.rows == ReportOutcome(old(db.rows), taskId, result, statusOk, resultOk, render, now)
    {
      if taskType != "crawler" {
        return false;
      }
      var result := ExecuteInProcess(TaskData(taskId, taskType, parameters), projectConfig, crawl, render);
      ghost var rows0 := db.rows;
      var reporter := new ProgressReporter(taskId);
      if DictGet(result, "status", Null) == Str("completed") {
        var _ := reporter.ReportStatus(db, "completed", None, statusOk, now);
        ghost var rows1 := db.rows;
        assert rows1 == if taskId in rows0 && statusOk then Store(rows0, WithStatus(rows0[taskId], "completed", None, now)) else rows0;
        if Truthy(DictGet(result, "result", Null)) {
          var _ := reporter.ReportResult(db, StrOf(result["result"], render), resultOk);
        }
      } else {
        var _ := reporter.ReportStatus(db, "failed", ErrorArg(result, render), statusOk, now);
      }
      ok := DictGet(result, "status", Null) == Str("completed");
    }

    /** `execute_task`. Without a running pool the task runs in this
        process; with no idle worker the answer is false and nothing is
        queued; otherwise the answer is `submit_task`'s. */
    method ExecuteTask(db: TaskDb, taskId: int, taskType: string, parameters: Value, queueFull: bool,
                       projectConfig: Value, crawl: map<string, Value> -> Option<string>,
                       render: Value -> string, statusOk: bool, resultOk: bool, now: Time)
      returns (ok: bool)
      requires db.Valid()
      modifies db`rows, cls.PoolFrame()
      ensures db.Valid()
      ensures cls.processPool == old(cls.processPool)
      ensures cls.processPool.None? || !cls.processPool.value.isRunning ==>
        ok == (taskType == "crawler"
               && ExecuteInProcess(TaskData(taskId, taskType, parameters), projectConfig, crawl, render)["status"] == Str("completed"))
        && db.rows == (if taskType == "crawler"
                       then ReportOutcome(old(db.rows), taskId, ExecuteInProcess(TaskData(taskId, taskType, parameters), projectConfig, crawl, render),
                                          statusOk, resultOk, render, now)
                       else old(db.rows))
      ensures cls.processPool.Some? && cls.processPool.value.isRunning ==>
        var pool := cls.processPool.value;
        db.rows == old(db.rows)
        && (old(pool.IdleWorkers()) == 0 ==> !ok && pool.taskQueue == old(pool.taskQueue))
        && (old(pool.IdleWorkers()) > 0 ==>
              (ok <==> !queueFull)
              && pool.taskQueue == (if ok then old(pool.taskQueue) + [TaskData(taskId, taskType, parameters)] else old(pool.taskQueue)))
    {
      if cls.processPool.None? || !cls.processPool.value.isRunning {
        ok := ExecuteInCurrentProcess(db, taskId, taskType, parameters, projectConfig, crawl, render, statusOk, resultOk, now);
        return;
      }
      var pool := cls.processPool.value;
      if pool.IdleWorkers() == 0 {
        return false;
      }
      ok := pool.SubmitTask(TaskData(taskId, taskType, parameters), queueFull);
    }

    /** `get_execution_status`: the pool's own status is included exactly when a pool is set. */
    method GetExecutionStatus(queueSize: nat) returns (s: ExecutionStatus)
      requires cls.processPool.Some? ==> cls.processPool.value.Valid()
      ensures s.poolAvailable <==> cls.processPool.Some?
      ensures s.poolRunning <==> cls.processPool.Some? && cls.processPool.value.isRunning
      ensures s.pool.Some? <==> cls.processPool.Some?
      ensures s.pool.Some? ==> s.pool.value.totalWorkers == |cls.processPool.value.processes|
    {
      if cls.processPool.None? {
        return ExecutionStatus(false, false, None);
      }
      var ps := cls.processPool.value.GetPoolStatus(queueSize);
      s := ExecutionStatus(true, cls.processPool.value.isRunning, Some(ps));
    }
  }
}

=== FILE: task_factory.dfy ===
/** `TaskFactory.create_task` (ikuyo/core/tasks/task_factory.py). The crawler
    branch calls the `CrawlerTask` constructor with four positional
    arguments, while it takes three (repository, record, spider runner), so
    as written the call always raises a TypeError. */
module TaskFactory {
  import opened Wrappers
  import opened TaskModel

  /** The task object the crawler branch is meant to build. */
  datatype TaskSpec = CrawlerSpec(repository: TaskDb, record: Option<TaskRecord>)

  const RepositoryRequired := "TaskFactory.create_task: repository参数必须传递且非None"
  const ArityError := "CrawlerTask.__init__() takes 4 positional arguments but 5 were given"

  const UnknownTypePrefix := "未知的任务类型: "

  /** The message of the unknown-type ValueError: the type follows the prefix verbatim. */
  function UnknownType(taskType: string): (r: string)
    ensures |r| == |UnknownTypePrefix| + |taskType|
    ensures r[..|UnknownTypePrefix|] == UnknownTypePrefix && r[|UnknownTypePrefix|..] == taskType
  {
    UnknownTypePrefix + taskType
  }

  /** The call as written: the repository check and the type check raise
      their ValueErrors, and the crawler branch raises the TypeError of the
      constructor call. `task_type_db` defaults to "manual" at every call site. */
  function CreateTask(taskType: string, parameters: Option<string>, repository: Option<TaskDb>,
                      taskTypeDb: string, record: Option<TaskRecord>): (r: Result<TaskSpec, string>)
    ensures taskType != "crawler" ==> r == Err(UnknownType(taskType))
    ensures taskType == "crawler" && repository.None? ==> r == Err(RepositoryRequired)
    ensures taskType == "crawler" && repository.Some? ==> r == Err(ArityError)
  {
    if taskType == "crawler" then
      if repository.None? then Err(RepositoryRequired)
      else Err(ArityError)
    else Err(UnknownType(taskType))
  }

  /** As written, no input at all yields a task. */
  lemma CreateTaskNeverSucceeds(taskType: string, parameters: Option<string>, repository: Option<TaskDb>,
                                taskTypeDb: string, record: Option<TaskRecord>)
    ensures CreateTask(taskType, parameters, repository, taskTypeDb, record).Err?
  {
  }

  /** The evidently intended factory: the crawler branch constructs the task
      from the repository and the record. */
  function CreateTaskIntended(taskType: string, parameters: Option<string>, repository: Option<TaskDb>,
                              taskTypeDb: string, record: Option<TaskRecord>): (r: Result<TaskSpec, string>)
    ensures r.Ok? <==> taskType == "crawler" && repository.Some?
    ensures r.Ok? ==> r.value == CrawlerSpec(repository.value, record)
    ensures taskType != "crawler" ==> r == Err(UnknownType(taskType))
    ensures taskType == "crawler" && repository.None? ==> r == Err(RepositoryRequired)
  {
    if taskType == "crawler" then
      if repository.None? then Err(RepositoryRequired)
      else Ok(CrawlerSpec(repository.value, record))
    else Err(UnknownType(taskType))
  }

  /** The intended factory and the written one agree on every other input;
      on a crawler request with a repository the written one raises where the
      intended one builds the task. */
  lemma IntendedDiffersOnlyOnArity(taskType: string, parameters: Option<string>, repository: Option<TaskDb>,
                                   taskTypeDb: string, record: Option<TaskRecord>)
    ensures !(taskType == "crawler" && repository.Some?) ==>
      CreateTask(taskType, parameters, repository, taskTypeDb, record)
      == CreateTaskIntended(taskType, parameters, repository, taskTypeDb, record)
    ensures taskType == "crawler" && repository.Some? ==>
      CreateTask(taskType, parameters, repository, taskTypeDb, record) == Err(ArityError)
      && CreateTaskIntended(taskType, parameters, repository, taskTypeDb, record).Ok?
  {
  }
}

=== FILE: task_model.dfy ===
/** The `CrawlerTask` table row (ikuyo/core/models/crawler_task.py) and the
    task repository, held as an in-memory map from primary key to row. */
module TaskModel {
  import opened Wrappers
  import opened PyValue

  /** A UTC instant; only its identity and order matter to the model. */
  type Time = int

  /** One row of the `crawlertask` table. Float columns hold reals. */
  datatype TaskRecord = TaskRecord(
    id: Option<int>,
    taskType: string,
    status: string,
    parameters: Option<string>,
    resultSummary: Option<string>,
    createdAt: Option<Time>,
    startedAt: Option<Time>,
    completedAt: Option<Time>,
    errorMessage: Option<string>,
    workerPid: Option<int>,
    percentage: Option<real>,
    processedItems: Option<int>,
    totalItems: Option<int>,
    processingSpeed: Option<real>,
    estimatedRemaining: Option<real>)

  /** The statuses after which a task has finished. */
  predicate IsTerminal(status: string) {
    status == "completed" || status == "failed" || status == "cancelled"
  }

  /** `CrawlerTask(task_type=..., status=...)`: every optional column starts
      empty except `created_at`, which is stamped with the current time. */
  function NewRecord(taskType: string, status: string, now: Time): (t: TaskRecord)
    ensures t.id.None? && t.parameters.None? && t.resultSummary.None?
    ensures t.startedAt.None? && t.completedAt.None? && t.errorMessage.None? && t.workerPid.None?
    ensures NoProgress(t)
    ensures t.createdAt == Some(now) && t.taskType == taskType && t.status == status
  {
    TaskRecord(None, taskType, status, None, None, Some(now), None, None, None, None,
               None, None, None, None, None)
  }

  /** None of the five progress columns is set. */
  predicate NoProgress(t: TaskRecord) {
    t.percentage.None? && t.processedItems.None? && t.totalItems.None?
    && t.processingSpeed.None? && t.estimatedRemaining.None?
  }

  /** The five optional arguments of `update_progress`. */
  datatype ProgressArgs = ProgressArgs(
    percentage: Option<real>,
    processedItems: Option<int>,
    totalItems: Option<int>,
    processingSpeed: Option<real>,
    estimatedRemaining: Option<real>)

  /** `round(x, 2)` is applied through `round2`; only the three float columns are rounded. */
  function SetRounded(old_: Option<real>, arg: Option<real>, round2: real -> real): Option<real> {
    if arg.Some? then Some(round2(arg.value)) else old_
  }

  /** `CrawlerTask.update_progress`: each column whose argument is given is
      overwritten (floats rounded, counts copied verbatim); every other column keeps its value. */
  function UpdateProgress(t: TaskRecord, a: ProgressArgs, round2: real -> real): (r: TaskRecord)
    ensures a.percentage.None? ==> r.percentage == t.percentage
    ensures a.percentage.Some? ==> r.percentage == Some(round2(a.percentage.value))
    ensures a.processedItems.None? ==> r.processedItems == t.processedItems
    ensures a.processedItems.Some? ==> r.processedItems == a.processedItems
    ensures a.totalItems.None? ==> r.totalItems == t.totalItems
    ensures a.totalItems.Some? ==> r.totalItems == a.totalItems
    ensures a.processingSpeed.None? ==> r.processingSpeed == t.processingSpeed
    ensures a.processingSpeed.Some? ==> r.processingSpeed == Some(round2(a.processingSpeed.value))
    ensures a.estimatedRemaining.None? ==> r.estimatedRemaining == t.estimatedRemaining
    ensures a.estimatedRemaining.Some? ==> r.estimatedRemaining == Some(round2(a.estimatedRemaining.value))
    ensures SameExceptProgress(r, t)
  {
    t.(percentage := SetRounded(t.percentage, a.percentage, round2),
       processedItems := if a.processedItems.Some? then a.processedItems else t.processedItems,
       totalItems := if a.totalItems.Some? then a.totalItems else t.totalItems,
       processingSpeed := SetRounded(t.processingSpeed, a.processingSpeed, round2),
       estimatedRemaining := SetRounded(t.estimatedRemaining, a.estimatedRemaining, round2))
  }

  /** Two rows that agree on everything but the progress columns. */
  predicate SameExceptProgress(a: TaskRecord, b: TaskRecord) {
    a.(percentage := None, processedItems := None, totalItems := None,
       processingSpeed := None, estimatedRemaining := None)
    == b.(percentage := None, processedItems := None, totalItems := None,
          processingSpeed := None, estimatedRemaining := None)
  }

  /** Applying the same progress update twice is the same as applying it
      once, given that rounding to two places is idempotent. */
  lemma UpdateProgressIdempotent(t: TaskRecord, a: ProgressArgs, round2: real -> real)
    requires forall x :: round2(round2(x)) == round2(x)
    ensures UpdateProgress(UpdateProgress(t, a, round2), a, round2) == UpdateProgress(t, a, round2)
  {
  }

  /** Rows keyed by their own primary key. */
  predicate WellKeyed(rows: map<int, TaskRecord>) {
    forall k :: k in rows ==> rows[k].id == Some(k)
  }

  /** The keys of the rows whose status is "pending". */
  function PendingIds(rows: map<int, TaskRecord>): (ids: set<int>)
    ensures forall k :: k in ids <==> k in rows && rows[k].status == "pending"
  {
    set k | k in rows && rows[k].status == "pending"
  }

  /** `repo.update(task)` for a row that carries its key: the row is written back under its id. */
  function Store(rows: map<int, TaskRecord>, t: TaskRecord): (r: map<int, TaskRecord>)
    requires t.id.Some?
    ensures r.Keys == rows.Keys + {t.id.value}
    ensures r[t.id.value] == t
    ensures forall k :: k in rows && k != t.id.value ==> r[k] == rows[k]
    ensures WellKeyed(rows) ==> WellKeyed(r)
  {
    rows[t.id.value := t]
  }

  /** The task table: the rows committed so far and the next autoincrement key. */
  class TaskDb {
    var rows: map<int, TaskRecord>
    var nextId: int

    ghost predicate Valid()
      reads this
    {
      WellKeyed(rows) && forall k :: k in rows ==> k < nextId
    }

    constructor ()
      ensures Valid() && rows == map[] && nextId == 1
    {
      rows := map[];
      nextId := 1;
    }

    /** `repo.get_by_id(id)`. */
    function Get(id: int): (r: Option<TaskRecord>)
      reads this
      ensures r.Some? <==> id in rows
      ensures r.Some? ==> r.value == rows[id]
    {
      if id in rows then Some(rows[id]) else None
    }

    /** `repo.create(task)`: the row is inserted under a fresh key, which it then carries. */
    method Create(t: TaskRecord) returns (saved: TaskRecord)
      requires Valid()
      modifies this
      ensures Valid()
      ensures saved == t.(id := Some(old(nextId)))
      ensures old(nextId) !in old(rows)
      ensures rows == old(rows)[old(nextId) := saved]
    {
      saved := t.(id := Some(nextId));
      rows := rows[nextId := saved];
      nextId := nextId + 1;
    }

    /** `repo.update(task)` for a task read from this table. */
    method Update(t: TaskRecord)
      requires Valid() && t.id.Some? && t.id.value in rows
      modifies this`rows
      ensures Valid()
      ensures rows == Store(old(rows), t)
    {
      rows := Store(rows, t);
    }
  }

  /** The status write shared by `report_status` and the status relay: the
      status is written whatever it was before, the error message is replaced
      only by a non-empty one, and `completed_at` is stamped exactly for the
      terminal statuses. */
  function WithStatus(t: TaskRecord, status: string, err: Option<string>, now: Time): (r: TaskRecord)
    ensures r.status == status
    ensures r.errorMessage == if err.Some? && |err.value| > 0 then err else t.errorMessage
    ensures r.completedAt == if IsTerminal(status) then Some(now) else t.completedAt
    ensures r.(status := t.status, errorMessage := t.errorMessage, completedAt := t.completedAt) == t
  {
    t.(status := status,
       errorMessage := if err.Some? && |err.value| > 0 then err else t.errorMessage,
       completedAt := if IsTerminal(status) then Some(now) else t.completedAt)
  }

  /** The task payload handed to a worker process: `task_id`, `task_type`,
      the decoded `parameters` and `created_at` (its ISO text is represented by the instant itself). */
  function Payload(t: TaskRecord, params: Value): (d: map<string, Value>)
    ensures d.Keys == {"task_id", "task_type", "parameters", "created_at"}
    ensures d["task_id"] == (if t.id.Some? then Int(t.id.value) else Null)
    ensures d["parameters"] == params
  {
    map["task_id" := (if t.id.Some? then Int(t.id.value) else Null),
        "task_type" := Str(t.taskType),
        "parameters" := params,
        "created_at" := (if t.createdAt.Some? then Int(t.createdAt.value) else Null)]
  }
}

=== FILE: task_store.dfy ===
/** The crawler-task store of frontend/src/stores/taskStore.ts: the task list
    shown on the task page and the progress websockets, at most one per
    task. API calls are inputs (their result, or the error that propagates
    out of the store unchanged); a websocket is a connection number, and
    its events are the store's methods `OnMessage`, `OnError` and `OnClose`. */
module TaskStore {
  import opened Wrappers
  import opened PyValue
  import opened Js

  /** A task as the API returns it. */
  type Task = map<string, Value>

  /** `tasks.findIndex(t => t.id === taskId)`: the first task with that id, or -1. */
  function FindIndex(tasks: seq<Task>, taskId: int): (i: int)
    ensures -1 <= i < |tasks|
    ensures i == -1 <==> forall k :: 0 <= k < |tasks| ==> DictGet(tasks[k], "id", Null) != Int(taskId)
    ensures i >= 0 ==> DictGet(tasks[i], "id", Null) == Int(taskId)
                       && forall k :: 0 <= k < i ==> DictGet(tasks[k], "id", Null) != Int(taskId)
    decreases |tasks|
  {
    if |tasks| == 0 then -1
    else if DictGet(tasks[0], "id", Null) == Int(taskId) then 0
    else
      var j := FindIndex(tasks[1..], taskId);
      if j == -1 then -1 else j + 1
  }

  /** The own properties `{...data}` spreads: an object's entries, none for
      anything else. */
  function Spread(data: Value): map<string, Value> {
    if data.Dict? then data.entries else map[]
  }

  /** `{...task, ...data}`: the message's fields override the task's. */
  function Merge(task: Task, data: Value): (merged: Task)
    ensures forall k :: k in merged <==> k in task || k in Spread(data)
    ensures forall k :: k in Spread(data) ==> merged[k] == Spread(data)[k]
    ensures forall k :: k in task && k !in Spread(data) ==> merged[k] == task[k]
  {
    task + Spread(data)
  }

  /** Statuses after which a task's progress stream is closed. */
  predicate Finished(status: Value) {
    status in [Str("completed"), Str("failed"), Str("cancelled")]
  }

  /** An open progress websocket: the task it follows and its connection number. */
  datatype Socket = Socket(taskId: int, serial: nat)

  /** The connection numbers of the sockets of the keys `ks`, in `m`. */
  function Serials(m: map<int, Socket>, ks: seq<int>): (r: set<nat>)
    ensures forall k :: 0 <= k < |ks| && ks[k] in m ==> m[ks[k]].serial in r
    ensures forall n :: n in r ==> exists id :: id in m && m[id].serial == n
  {
    if |ks| == 0 then {}
    else
      var rest := Serials(m, ks[..|ks| - 1]);
      assert forall k :: 0 <= k < |ks| - 1 ==> ks[..|ks| - 1][k] == ks[k];
      var last := ks[|ks| - 1];
      if last in m then
        assert forall n :: n in rest + {m[last].serial} ==> n in rest || (last in m && m[last].serial == n);
        rest + {m[last].serial}
      else rest
  }

  /** `xs` without `x`. */
  function Without(xs: seq<int>, x: int): (r: seq<int>)
    ensures forall y :: y in r <==> y in xs && y != x
  {
    if |xs| == 0 then []
    else if xs[0] == x then Without(xs[1..], x)
    else [xs[0]] + Without(xs[1..], x)
  }

  /** Removing a key keeps a list of distinct keys distinct. */
  lemma {:induction false} WithoutDistinct(xs: seq<int>, x: int)
    requires forall i, j :: 0 <= i < j < |xs| ==> xs[i] != xs[j]
    ensures forall i, j :: 0 <= i < j < |Without(xs, x)| ==> Without(xs, x)[i] != Without(xs, x)[j]
    decreases |xs|
  {
    if |xs| > 0 {
      WithoutDistinct(xs[1..], x);
      assert xs[0] !in xs[1..];
    }
  }

  class TaskStore {
    var tasks: seq<Task>
    var sockets: map<int, Socket>
    /** The map's keys in insertion order, the order a JavaScript `Map` iterates in. */
    var order: seq<int>
    /** The number of connections made so far. */
    var connections: nat
    /** The connection numbers closed so far. */
    var closed: set<nat>

    /** Each map entry is the socket of its own task, was opened by the
        store and is still open, and no two entries share a connection. */
    predicate Valid()
      reads this
    {
      (forall id :: id in sockets ==> sockets[id].taskId == id && sockets[id].serial < connections
                                      && sockets[id].serial !in closed)
      && (forall i, j :: i in sockets && j in sockets && i != j ==> sockets[i].serial != sockets[j].serial)
      && (forall n :: n in closed ==> n < connections)
      && (forall id :: id in sockets ==> id in order) && (forall id :: id in order ==> id in sockets)
      && (forall i, j :: 0 <= i < j < |order| ==> order[i] != order[j])
    }

    constructor()
      ensures Valid() && tasks == [] && sockets == map[] && connections == 0 && closed == {}
    {
      tasks := [];
      sockets := map[];
      order := [];
      connections := 0;
      closed := {};
    }

    /** `fetchTasks`: the list becomes the fetched one; a failed fetch
        changes nothing. */
    method FetchTasks(fetched: Result<seq<Task>, string>)
      modifies this
      requires Valid()
      ensures Valid()
      ensures fetched.Ok? ==> tasks == fetched.value
      ensures fetched.Err? ==> tasks == old(tasks)
      ensures sockets == old(sockets) && connections == old(connections) && closed == old(closed)
    {
      if fetched.Ok? {
        tasks := fetched.value;
      }
    }

    /** `cancelTask`: the API's answer replaces the listed task with that
        id in place; nothing is added or removed. */
    method CancelTask(taskId: int, result: Result<Task, string>)
      modifies this
      requires Valid()
      ensures Valid()
      ensures |tasks| == |old(tasks)|
      ensures result.Ok? && FindIndex(old(tasks), taskId) >= 0 ==>
        tasks == old(tasks)[FindIndex(old(tasks), taskId) := result.value]
      ensures result.Err? || FindIndex(old(tasks), taskId) == -1 ==> tasks == old(tasks)
      ensures sockets == old(sockets) && connections == old(connections) && closed == old(closed)
    {
      if result.Ok? {
        var index := FindIndex(tasks, taskId);
        if index != -1 {
          tasks := tasks[index := result.value];
        }
      }
    }

    /** `startTaskProgressWs`: a task that already has a socket gets no
        second one; otherwise a new connection is opened and recorded. */
    method StartTaskProgressWs(taskId: int)
      modifies this
      requires Valid()
      ensures Valid()
      ensures old(taskId in sockets) ==> sockets == old(sockets) && connections == old(connections)
      ensures old(taskId !in sockets) ==> sockets == old(sockets)[taskId := Socket(taskId, old(connections))]
                                          && connections == old(connections) + 1
      ensures tasks == old(tasks) && closed == old(closed)
    {
      if taskId in sockets {
        return;
      }
      sockets := sockets[taskId := Socket(taskId, connections)];
      order := order + [taskId];
      connections := connections + 1;
    }

    /** `stopTaskProgressWs`: closes and forgets that task's socket only. */
    method StopTaskProgressWs(taskId: int)
      modifies this
      requires Valid()
      ensures Valid()
      ensures sockets == old(sockets) - {taskId}
      ensures closed == if taskId in old(sockets) then old(closed) + {old(sockets)[taskId].serial} else old(closed)
      ensures tasks == old(tasks) && connections == old(connections)
    {
      if taskId in sockets {
        closed := closed + {sockets[taskId].serial};
        sockets := sockets - {taskId};
        WithoutDistinct(order, taskId);
        order := Without(order, taskId);
      } else {
        assert sockets - {taskId} == sockets;
      }
    }

    /** `stopAllTaskProgressWs`: closes every socket, in the order they
        were opened, and empties the map. */
    method StopAllTaskProgressWs()
      modifies this
      requires Valid()
      ensures Valid()
      ensures sockets == map[]
      ensures closed == old(closed) + Serials(old(sockets), old(order))
      ensures forall id :: id in old(sockets) ==> old(sockets)[id].serial in closed
      ensures tasks == old(tasks) && connections == old(connections)
    {
      for i := 0 to |order|
        invariant sockets == old(sockets) && order == old(order) && tasks == old(tasks) && connections == old(connections)
        invariant forall id :: id in order ==> id in sockets
        invariant closed == old(closed) + Serials(sockets, order[..i])
      {
        var seen := order[..i + 1];
        assert seen[..i] == order[..i] && seen[i] == order[i];
        closed := closed + {sockets[order[i]].serial};
      }
      assert order[..|order|] == order;
      sockets := map[];
      order := [];
    }

    /** A message on a task's socket (`data`, or `None` when it does not
        parse): merged into the listed task with that id, and a finished
        status closes the stream. Other tasks are untouched. */
    method OnMessage(taskId: int, data: Option<Value>)
      modifies this
      requires Valid()
      ensures Valid()
      ensures |tasks| == |old(tasks)| && connections == old(connections)
      ensures data.None? || FindIndex(old(tasks), taskId) == -1 ==>
        tasks == old(tasks) && sockets == old(sockets) && closed == old(closed)
      ensures data.Some? && FindIndex(old(tasks), taskId) >= 0 ==>
        tasks == old(tasks)[FindIndex(old(tasks), taskId) := Merge(old(tasks)[FindIndex(old(tasks), taskId)], data.value)]
      ensures data.Some? && FindIndex(old(tasks), taskId) >= 0 && Finished(Prop(data.value, "status")) ==>
        sockets == old(sockets) - {taskId}
      ensures !(data.Some? && Finished(Prop(data.value, "status"))) ==> sockets == old(sockets)
    {
      if data.None? {
        return;
      }
      var index := FindIndex(tasks, taskId);
      if index != -1 {
        tasks := tasks[index := Merge(tasks[index], data.value)];
        if Finished(Prop(data.value, "status")) {
          StopTaskProgressWs(taskId);
        }
      }
    }

    /** An error on a task's socket closes it and reloads the task list. */
    method OnError(taskId: int, fetched: Result<seq<Task>, string>)
      modifies this
      requires Valid()
      ensures Valid()
      ensures sockets == old(sockets) - {taskId}
      ensures fetched.Ok? ==> tasks == fetched.value
      ensures fetched.Err? ==> tasks == old(tasks)
    {
      StopTaskProgressWs(taskId);
      FetchTasks(fetched);
    }

    /** The socket closing forgets it. */
    method OnClose(taskId: int)
      modifies this
      requires Valid()
      ensures Valid()
      ensures sockets == old(sockets) - {taskId} && tasks == old(tasks)
    {
      StopTaskProgressWs(taskId);
    }
  }
}

=== FILE: task_utils.dfy ===
/** The task formatting helpers of frontend/src/utils/taskUtils.ts. `JSON.parse`
    and the locale's date rendering are parameters. */
module TaskUtils {
  import opened Wrappers
  import opened Strings
  import opened PyValue
  import opened Js

  /** `${v}` for the values a task parameter holds: integers and strings
      spelt out, anything else by `render`. */
  function Interpolate(v: Value, render: Value -> string): (r: string)
    ensures v.Str? ==> r == v.s
    ensures v.Int? ==> r == IntToString(v.i)
  {
    match v
    case Int(i) => IntToString(i)
    case Str(s) => s
    case _ => render(v)
  }

  /** `getParameter(parameters, key)`: '-' for missing or empty parameters,
      text that does not parse, or parsed `null` (reading a property of it
      throws); a truthy `bangumi_id` wins for the key 'mode'; otherwise the
      stored value if truthy, else '-'. */
  function GetParameter(parameters: Option<string>, key: string, parse: string -> Option<Value>,
                        render: Value -> string): (r: Value)
    ensures JsTruthy(r)
    ensures !Given(parameters) ==> r == Str("-")
    ensures Given(parameters) && (parse(parameters.value).None? || parse(parameters.value) == Some(Null)) ==> r == Str("-")
    ensures Given(parameters) && parse(parameters.value).Some? && key == "mode"
            && JsTruthy(Prop(parse(parameters.value).value, "bangumi_id")) ==>
      r == Str("bangumi_id: " + Interpolate(Prop(parse(parameters.value).value, "bangumi_id"), render))
    ensures r != Str("-") ==>
      (Given(parameters) && parse(parameters.value).Some?
       && (r == Prop(parse(parameters.value).value, key)
           || (key == "mode" && JsTruthy(Prop(parse(parameters.value).value, "bangumi_id")))))
  {
    if !Given(parameters) then Str("-")
    else match parse(parameters.value)
      case None => Str("-")
      case Some(params) =>
        if params == Null then Str("-")
        else if key == "mode" && JsTruthy(Prop(params, "bangumi_id")) then
          Str("bangumi_id: " + Interpolate(Prop(params, "bangumi_id"), render))
        else if JsTruthy(Prop(params, key)) then Prop(params, key)
        else Str("-")
  }

  /** For the key 'mode' a truthy `bangumi_id` is shown whatever the mode is. */
  lemma BangumiIdShadowsMode(parameters: string, parse: string -> Option<Value>, render: Value -> string,
                             mode: Value, id: int)
    requires id != 0
    requires |parameters| > 0 && parse(parameters) == Some(Dict(map["mode" := mode, "bangumi_id" := Int(id)]))
    ensures GetParameter(Some(parameters), "mode", parse, render) == Str("bangumi_id: " + IntToString(id))
  {
  }

  /** `formatDateTime(s)`: '-' for a missing or empty string, else the
      locale rendering of the date. */
  function FormatDateTime(dateTime: Option<string>, localize: string -> string): (r: string)
    ensures !Given(dateTime) ==> r == "-"
    ensures Given(dateTime) ==> r == localize(dateTime.value)
  {
    if Given(dateTime) then localize(dateTime.value) else "-"
  }

  /** Whole minutes and the remaining whole seconds of a non-negative
      duration: `Math.floor(s / 60)` and `Math.floor(s % 60)`. */
  function MinutesSeconds(seconds: real): (p: (nat, nat))
    requires seconds >= 0.0
    ensures p.1 < 60 && 60 * p.0 + p.1 == seconds.Floor
  {
    var m := (seconds / 60.0).Floor;
    assert m as real <= seconds / 60.0 < m as real + 1.0;
    assert 60.0 * m as real <= seconds < 60.0 * m as real + 60.0;
    var rest := seconds - 60.0 * m as real;
    var k := rest.Floor;
    assert (60 * m + k) as real <= seconds < (60 * m + k) as real + 1.0;
    (m as nat, k as nat)
  }

  /** A `number | undefined` argument as JavaScript can receive it: also
      `null`, which the type does not exclude at run time. */
  datatype JsNumber = JsUndefined | JsNull | Number(value: real)

  /** `formatTime(seconds)`: '-' for an undefined or negative duration, else
      "<minutes>m <seconds>s". `null` passes the `=== undefined` test and is
      not below zero, and arithmetic reads it as 0, so it shows "0m 0s". */
  function FormatTime(seconds: JsNumber): (r: string)
    ensures r == "-" <==> seconds.JsUndefined? || (seconds.Number? && seconds.value < 0.0)
    ensures seconds.JsNull? ==> r == "0m 0s"
    ensures seconds.Number? && seconds.value >= 0.0 ==>
      r == NatToString(MinutesSeconds(seconds.value).0) + "m " + NatToString(MinutesSeconds(seconds.value).1) + "s"
  {
    if seconds.JsUndefined? || (seconds.Number? && seconds.value < 0.0) then "-"
    else
      var x := if seconds.JsNull? then 0.0 else seconds.value;
      var p := MinutesSeconds(x);
      var r := NatToString(p.0) + "m " + NatToString(p.1) + "s";
      assert |r| > 1;
      r
  }

  /** For a whole number of seconds the two parts are its quotient and
      remainder by 60, so the seconds part is below a minute. */
  lemma FormatTimeWhole(s: nat)
    ensures FormatTime(Number(s as real)) == NatToString(s / 60) + "m " + NatToString(s % 60) + "s"
  {
    var p := MinutesSeconds(s as real);
    assert (s as real).Floor == s;
    assert 60 * p.0 + p.1 == s && p.1 < 60;
  }
}

=== FILE: text_parser.dfy ===
/** Title parsing for anime resources (ikuyo/utils/text_parser.py): episode
    number, resolution, subtitle type and its normalisation. The regular
    expressions are written out as scanners over the title; `\d` is an ASCII
    digit and the case-insensitive match folds ASCII letters only. */
module TextParser {
  import opened Wrappers
  import opened Strings

  /** The length of the run of digits starting at `i` (none past the end). */
  function DigitRun(s: string, i: nat): (n: nat)
    ensures n == 0 || i + n <= |s|
    ensures i <= |s| ==> i + n <= |s|
    ensures forall k :: i <= k < i + n ==> k < |s| && IsDigit(s[k])
    ensures i + n < |s| ==> !IsDigit(s[i + n])
    decreases |s| - i
  {
    if i < |s| && IsDigit(s[i]) then 1 + DigitRun(s, i + 1) else 0
  }

  /** `lit` occurs at `i`, ignoring the case of ASCII letters. */
  predicate LitAt(s: string, lit: string, i: nat) {
    i + |lit| <= |s| && Lower(s[i..i + |lit|]) == Lower(lit)
  }

  /** What an episode pattern requires right after its digits. `Open` has no
      requirement, so the digits are taken greedily up to the width. */
  datatype Tail =
    | Open
    | Close(lit: string)    // a literal such as `话` or `]`
    | Version               // `v\d+`
    | VersionBracket        // `v\d+\]`
    | Blank                 // `\s`
    | TextEnd               // `$`: the end, or a final newline

  /** `lead` (then `\s*` when `blanks`), a group of 1 to `width` digits, then the tail. */
  datatype EpisodePattern = EpisodePattern(lead: string, blanks: bool, width: nat, tail: Tail)

  /** The fourteen patterns of `extract_episode_number`, in priority order. */
  const EpisodePatterns: seq<EpisodePattern> := [
    EpisodePattern("第", false, 4, Close("话")),
    EpisodePattern("第", false, 4, Close("集")),
    EpisodePattern("EP", false, 3, Open),
    EpisodePattern("E", false, 3, Open),
    EpisodePattern("Episode", true, 3, Open),
    EpisodePattern("- ", false, 3, Version),
    EpisodePattern("- ", false, 3, Blank),
    EpisodePattern("- ", false, 3, Close("[")),
    EpisodePattern("- ", false, 3, Close("(")),
    EpisodePattern("- ", false, 3, TextEnd),
    EpisodePattern("[", false, 3, VersionBracket),
    EpisodePattern("", false, 3, Close("话")),
    EpisodePattern("", false, 3, Close("集")),
    EpisodePattern("[", false, 3, Close("]"))
  ]

  /** The index after the whitespace starting at `i`. */
  function SkipBlanks(s: string, i: nat): (j: nat)
    requires i <= |s|
    ensures i <= j <= |s|
    decreases |s| - i
  {
    if i < |s| && IsSpace(s[i]) then SkipBlanks(s, i + 1) else i
  }

  /** Where the tail ends when it matches at `j`. */
  function TailAt(s: string, t: Tail, j: nat): (r: Option<nat>)
    requires j <= |s|
    ensures r.Some? ==> j <= r.value <= |s|
  {
    match t
    case Open => Some(j)
    case Close(lit) => if LitAt(s, lit, j) then Some(j + |lit|) else None
    case Version =>
      if j < |s| && LowerChar(s[j]) == 'v' && DigitRun(s, j + 1) > 0 then Some(j + 1 + DigitRun(s, j + 1)) else None
    case VersionBracket =>
      if j < |s| && LowerChar(s[j]) == 'v' && DigitRun(s, j + 1) > 0 && j + 1 + DigitRun(s, j + 1) < |s|
         && s[j + 1 + DigitRun(s, j + 1)] == ']'
      then Some(j + 2 + DigitRun(s, j + 1)) else None
    case Blank => if j < |s| && IsSpace(s[j]) then Some(j + 1) else None
    case TextEnd => if j == |s| || (j + 1 == |s| && s[j] == '\n') then Some(j) else None
  }

  /** One `findall` hit: the captured digits and where the match ends. */
  datatype Hit = Hit(digits: string, end: nat)

  /** The match of `p` starting exactly at `i`, if any. Every tail other than
      `Open` needs a non-digit after the group, so backtracking to a shorter
      group never helps, and a longer run of digits than the width fails. */
  function MatchAt(s: string, p: EpisodePattern, i: nat): (r: Option<Hit>)
    requires i <= |s|
    ensures r.Some? ==> i < r.value.end <= |s| && AllDigits(r.value.digits) && |r.value.digits| <= p.width
  {
    if !LitAt(s, p.lead, i) then None
    else
      var k := if p.blanks then SkipBlanks(s, i + |p.lead|) else i + |p.lead|;
      var run := DigitRun(s, k);
      if run == 0 || p.width == 0 then None
      else if p.tail.Open? then
        var n := if run < p.width then run else p.width;
        Some(Hit(s[k..k + n], k + n))
      else if run > p.width then None
      else match TailAt(s, p.tail, k + run)
        case None => None
        case Some(e) => Some(Hit(s[k..k + run], e))
  }

  /** `re.findall(p, s[i:])`: the non-overlapping hits, left to right. */
  function FindAll(s: string, p: EpisodePattern, i: nat): (r: seq<Hit>)
    requires i <= |s|
    ensures forall h :: h in r ==> AllDigits(h.digits) && |h.digits| <= p.width
    decreases |s| - i
  {
    if i >= |s| then []
    else match MatchAt(s, p, i)
      case Some(h) => [h] + FindAll(s, p, h.end)
      case None => FindAll(s, p, i + 1)
  }

  /** An ASCII hexadecimal digit. */
  predicate IsHex(c: char) {
    IsDigit(c) || ('a' <= c <= 'f') || ('A' <= c <= 'F')
  }

  /** `[` at `i`, `]` at `j` and one or more hex digits between them. */
  predicate HexBracket(s: string, i: nat, j: nat) {
    i + 1 < j < |s| && s[i] == '[' && s[j] == ']' && forall k :: i < k < j ==> IsHex(s[k])
  }

  /** The hit lies inside a bracket of at least six hex digits with a letter among them. */
  predicate InHash(s: string, m: string) {
    exists i: nat, j: nat :: i < j < |s| && HexBracket(s, i, j) && j - i - 1 >= 6
      && (exists k :: i < k < j && !IsDigit(s[k])) && Contains(s[i + 1..j], m)
  }

  /** `\[\d+-m\]` or `\[m-\d+\]` occurs in the title. */
  predicate InRange(s: string, m: string) {
    exists i: nat :: i < |s| && s[i] == '[' && (
      (DigitRun(s, i + 1) > 0 && OccursAt(s, "-" + m + "]", i + 1 + DigitRun(s, i + 1)))
      || (OccursAt(s, "[" + m + "-", i) && DigitRun(s, i + |m| + 2) > 0
          && i + |m| + 2 + DigitRun(s, i + |m| + 2) < |s| && s[i + |m| + 2 + DigitRun(s, i + |m| + 2)] == ']'))
  }

  /** `_is_valid_episode_number`: not a year 2000-2030, not part of a hash, not an end of a range. */
  predicate ValidEpisode(s: string, m: string, n: int) {
    !(2000 <= n <= 2030) && !InHash(s, m) && !InRange(s, m)
  }

  /** A hit whose value lies in 1..9999 and passes `_is_valid_episode_number`. */
  predicate Accepted(s: string, h: Hit)
    requires AllDigits(h.digits)
  {
    1 <= NumberOf(h.digits) <= 9999 && ValidEpisode(s, h.digits, NumberOf(h.digits))
  }

  /** The first hit whose value lies in 1..9999 and passes validation. */
  function FirstValid(s: string, hits: seq<Hit>): (r: Option<nat>)
    requires forall h :: h in hits ==> AllDigits(h.digits)
    ensures r.Some? ==> 1 <= r.value <= 9999 && !(2000 <= r.value <= 2030)
  {
    if |hits| == 0 then None
    else
      assert hits[0] in hits && AllDigits(hits[0].digits);
      var n := NumberOf(hits[0].digits);
      if 1 <= n <= 9999 && ValidEpisode(s, hits[0].digits, n) then Some(n) else FirstValid(s, hits[1..])
  }

  /** The position of the first accepted hit (`|hits|` when there is none). */
  function FirstValidIndex(s: string, hits: seq<Hit>): (k: nat)
    requires forall h :: h in hits ==> AllDigits(h.digits)
    ensures k <= |hits|
  {
    if |hits| == 0 then 0
    else
      assert hits[0] in hits;
      assert forall h :: h in hits[1..] ==> h in hits;
      if Accepted(s, hits[0]) then 0 else 1 + FirstValidIndex(s, hits[1..])
  }

  /** `FirstValid` reads the hit at the first accepted position, and no hit
      before it is accepted. */
  lemma {:induction false} FirstValidIndexOk(s: string, hits: seq<Hit>)
    requires forall h :: h in hits ==> AllDigits(h.digits)
    ensures forall j :: 0 <= j < FirstValidIndex(s, hits) ==> !Accepted(s, hits[j])
    ensures FirstValidIndex(s, hits) < |hits| ==>
      Accepted(s, hits[FirstValidIndex(s, hits)])
      && FirstValid(s, hits) == Some(NumberOf(hits[FirstValidIndex(s, hits)].digits))
    ensures FirstValidIndex(s, hits) == |hits| ==> FirstValid(s, hits).None?
  {
    if |hits| > 0 {
      assert hits[0] in hits;
      var tail := hits[1..];
      assert forall h :: h in tail ==> h in hits;
      if !Accepted(s, hits[0]) {
        FirstValidIndexOk(s, tail);
        var k := FirstValidIndex(s, tail);
        assert FirstValidIndex(s, hits) == k + 1;
        assert FirstValid(s, hits) == FirstValid(s, tail);
        if k < |tail| { assert hits[k + 1] == tail[k]; }
        forall j | 0 <= j < k + 1 ensures !Accepted(s, hits[j]) {
          if j > 0 { assert hits[j] == tail[j - 1]; }
        }
      } else {
        assert FirstValidIndex(s, hits) == 0;
        assert FirstValid(s, hits) == Some(NumberOf(hits[0].digits));
      }
    }
  }

  /** The hit chosen is the first one accepted, and there is none exactly
      when no hit is accepted. */
  lemma FirstValidIsFirst(s: string, hits: seq<Hit>)
    requires forall h :: h in hits ==> AllDigits(h.digits)
    ensures FirstValid(s, hits).Some? ==>
      exists k :: 0 <= k < |hits| && Accepted(s, hits[k]) && FirstValid(s, hits).value == NumberOf(hits[k].digits)
                  && forall j :: 0 <= j < k ==> !Accepted(s, hits[j])
    ensures FirstValid(s, hits).None? <==> forall k :: 0 <= k < |hits| ==> !Accepted(s, hits[k])
  {
    FirstValidIndexOk(s, hits);
    var k := FirstValidIndex(s, hits);
    if k < |hits| {
      assert hits[k] in hits;
    }
  }

  /** What pattern `k` alone yields for the title. */
  function PatternResult(s: string, k: nat): (r: Option<nat>)
    requires k < |EpisodePatterns|
  {
    FirstValid(s, FindAll(s, EpisodePatterns[k], 0))
  }

  /** The patterns from `k` on, in order; the first that yields a valid hit decides. */
  function FirstPattern(s: string, k: nat): (r: Option<nat>)
    ensures r.Some? ==> 1 <= r.value <= 9999 && !(2000 <= r.value <= 2030)
    decreases |EpisodePatterns| - k
  {
    if k >= |EpisodePatterns| then None
    else match PatternResult(s, k)
      case Some(n) => Some(n)
      case None => FirstPattern(s, k + 1)
  }

  /** `extract_episode_number`: `None` for an empty title; any number found
      lies in 1..9999 and is never a year between 2000 and 2030. Which
      number it is, `EarliestPatternWins` and `NoPatternNoEpisode` state. */
  function ExtractEpisodeNumber(title: string): (r: Option<nat>)
    ensures |title| == 0 ==> r.None?
    ensures r.Some? ==> 1 <= r.value <= 9999 && !(2000 <= r.value <= 2030)
  {
    if |title| == 0 then None else FirstPattern(title, 0)
  }

  /** Patterns are tried in order: the first pattern with a valid hit gives
      the number, which is that pattern's first valid hit. */
  lemma {:induction false} EarliestPatternWins(title: string, k: nat, j: nat, n: nat)
    requires j <= k < |EpisodePatterns|
    requires forall i :: j <= i < k ==> PatternResult(title, i).None?
    requires PatternResult(title, k) == Some(n)
    ensures FirstPattern(title, j) == Some(n)
    ensures j == 0 && |title| > 0 ==> ExtractEpisodeNumber(title) == Some(n)
    decreases k - j
  {
    if j < k {
      EarliestPatternWins(title, k, j + 1, n);
    }
  }

  /** When no pattern has a valid hit, no episode number is found. */
  lemma {:induction false} NoPatternNoEpisode(title: string, j: nat)
    requires j <= |EpisodePatterns|
    requires forall i :: j <= i < |EpisodePatterns| ==> PatternResult(title, i).None?
    ensures FirstPattern(title, j).None?
    ensures j == 0 ==> ExtractEpisodeNumber(title).None?
    decreases |EpisodePatterns| - j
  {
    if j < |EpisodePatterns| {
      NoPatternNoEpisode(title, j + 1);
    }
  }

  /** A hit that is a year, part of a hash or the end of a range is passed over. */
  lemma InvalidHitSkipped(s: string, h: Hit, rest: seq<Hit>)
    requires AllDigits(h.digits) && forall g :: g in rest ==> AllDigits(g.digits)
    requires !ValidEpisode(s, h.digits, NumberOf(h.digits))
    ensures FirstValid(s, [h] + rest) == FirstValid(s, rest)
  {
    assert ([h] + rest)[1..] == rest;
  }

  /** The digits of a digit string run to its end. */
  lemma {:induction false} DigitRunOf(pre: string, d: string, post: string)
    requires forall k :: 0 <= k < |d| ==> IsDigit(d[k])
    requires |post| == 0 || !IsDigit(post[0])
    ensures DigitRun(pre + d + post, |pre|) == |d|
    decreases |d|
  {
    var s := pre + d + post;
    if |d| == 0 {
      assert |post| > 0 ==> s[|pre|] == post[0];
    } else {
      assert s[|pre|] == d[0];
      assert pre + d + post == (pre + [d[0]]) + d[1..] + post;
      DigitRunOf(pre + [d[0]], d[1..], post);
    }
  }

  /** A title without `[` has no hash and no range bracket, so every hit in it passes those checks. */
  lemma NoBracketNoHashOrRange(s: string, m: string)
    requires forall i :: 0 <= i < |s| ==> s[i] != '['
    ensures !InHash(s, m) && !InRange(s, m)
  {
  }

  /** The hit of `第N话` at the start of the title. */
  lemma ChapterMarkerHit(d: string)
    requires AllDigits(d) && |d| <= 4
    ensures MatchAt("第" + d + "话", EpisodePatterns[0], 0) == Some(Hit(d, |d| + 2))
  {
    var s := "第" + d + "话";
    var p := EpisodePatterns[0];
    assert p.lead == "第" && !p.blanks && p.width == 4 && p.tail == Close("话");
    assert s[0..1] == "第";
    assert LitAt(s, p.lead, 0);
    DigitRunOf("第", d, "话");
    assert s[1 + |d|..1 + |d| + 1] == "话";
    assert TailAt(s, p.tail, 1 + |d|) == Some(|s|);
    assert s[1..1 + |d|] == d;
  }

  /** At most four digits spell at most 9999. */
  lemma {:induction false} NumberOfShort(d: string)
    requires forall i :: 0 <= i < |d| ==> IsDigit(d[i])
    requires |d| <= 4
    ensures NumberOf(d) < if |d| <= 1 then 10 else if |d| == 2 then 100 else if |d| == 3 then 1000 else 10000
    decreases |d|
  {
    if |d| > 0 {
      NumberOfShort(d[..|d| - 1]);
    }
  }

  /** A match running to the end of the title is the only hit. */
  lemma OnlyHit(s: string, p: EpisodePattern, h: Hit)
    requires |s| > 0 && MatchAt(s, p, 0) == Some(h) && h.end == |s|
    ensures FindAll(s, p, 0) == [h]
  {
    assert FindAll(s, p, |s|) == [];
  }

  /** `第N话` with one to four digits is episode N, when N is a valid episode. */
  lemma ChapterMarkerEpisode(d: string)
    requires AllDigits(d) && |d| <= 4
    requires 1 <= NumberOf(d) && !(2000 <= NumberOf(d) <= 2030)
    ensures ExtractEpisodeNumber("第" + d + "话") == Some(NumberOf(d))
  {
    var s := "第" + d + "话";
    ChapterMarkerValid(d);
    EarliestPatternWins(s, 0, 0, NumberOf(d));
  }

  /** The chapter marker's only hit is valid. */
  lemma ChapterMarkerValid(d: string)
    requires AllDigits(d) && |d| <= 4
    requires 1 <= NumberOf(d) && !(2000 <= NumberOf(d) <= 2030)
    ensures FirstValid("第" + d + "话", FindAll("第" + d + "话", EpisodePatterns[0], 0)) == Some(NumberOf(d))
  {
    var s := "第" + d + "话";
    ChapterMarkerFound(d);
    ChapterMarkerPlain(d);
    NumberOfShort(d);
    assert [Hit(d, |s|)][1..] == [];
  }

  lemma ChapterMarkerFound(d: string)
    requires AllDigits(d) && |d| <= 4
    ensures FindAll("第" + d + "话", EpisodePatterns[0], 0) == [Hit(d, |d| + 2)]
  {
    ChapterMarkerHit(d);
    OnlyHit("第" + d + "话", EpisodePatterns[0], Hit(d, |d| + 2));
  }

  lemma ChapterMarkerPlain(d: string)
    requires AllDigits(d)
    ensures !InHash("第" + d + "话", d) && !InRange("第" + d + "话", d)
  {
    var s := "第" + d + "话";
    forall i | 0 <= i < |s| ensures s[i] != '[' {
      if 0 < i < |s| - 1 { assert s[i] == d[i - 1]; }
    }
    NoBracketNoHashOrRange(s, d);
  }

  // ------------------------------------------------------ documented episodes

  /** A pattern whose first lead character the title lacks finds nothing. */
  lemma {:induction false} LeadAbsent(s: string, p: EpisodePattern, i: nat)
    requires i <= |s| && |p.lead| > 0
    requires forall k :: 0 <= k < |s| ==> LowerChar(s[k]) != LowerChar(p.lead[0])
    ensures FindAll(s, p, i) == []
    decreases |s| - i
  {
    if i < |s| {
      assert !LitAt(s, p.lead, i) by {
        if i + |p.lead| <= |s| {
          assert Lower(s[i..i + |p.lead|])[0] == LowerChar(s[i]);
          assert Lower(p.lead)[0] == LowerChar(p.lead[0]);
        }
      }
      LeadAbsent(s, p, i + 1);
    }
  }

  /** A pattern closed by a literal whose first character the title lacks finds nothing. */
  lemma {:induction false} CloseAbsent(s: string, p: EpisodePattern, i: nat)
    requires i <= |s| && p.tail.Close? && |p.tail.lit| > 0
    requires forall k :: 0 <= k < |s| ==> LowerChar(s[k]) != LowerChar(p.tail.lit[0])
    ensures FindAll(s, p, i) == []
    decreases |s| - i
  {
    if i < |s| {
      CloseMissAt(s, p, i);
      assert FindAll(s, p, i) == FindAll(s, p, i + 1);
      CloseAbsent(s, p, i + 1);
    }
  }

  /** No match of a pattern closed by a literal whose first character the title lacks starts at `i`. */
  lemma CloseMissAt(s: string, p: EpisodePattern, i: nat)
    requires i <= |s| && p.tail.Close? && |p.tail.lit| > 0
    requires forall k :: 0 <= k < |s| ==> LowerChar(s[k]) != LowerChar(p.tail.lit[0])
    ensures MatchAt(s, p, i).None?
  {
    if LitAt(s, p.lead, i) {
      var k := if p.blanks then SkipBlanks(s, i + |p.lead|) else i + |p.lead|;
      var j := k + DigitRun(s, k);
      if j <= |s| {
        assert !LitAt(s, p.tail.lit, j) by {
          if j + |p.tail.lit| <= |s| {
            assert Lower(s[j..j + |p.tail.lit|])[0] == LowerChar(s[j]);
            assert Lower(p.tail.lit)[0] == LowerChar(p.tail.lit[0]);
          }
        }
        assert TailAt(s, p.tail, j).None?;
      }
    }
  }

  /** Neither form of `第N话`/`第N集` finds anything in a title without `第`. */
  lemma NoChapterMarker(s: string)
    requires forall k :: 0 <= k < |s| ==> s[k] != '第'
    ensures PatternResult(s, 0).None? && PatternResult(s, 1).None?
  {
    assert EpisodePatterns[0].lead == "第" && EpisodePatterns[1].lead == "第";
    LeadAbsent(s, EpisodePatterns[0], 0);
    LeadAbsent(s, EpisodePatterns[1], 0);
  }

  /** None of `EP`, `E` and `Episode` finds anything in a title without an `e`. */
  lemma NoEpisodeMarker(s: string)
    requires forall k :: 0 <= k < |s| ==> LowerChar(s[k]) != 'e'
    ensures PatternResult(s, 2).None? && PatternResult(s, 3).None? && PatternResult(s, 4).None?
  {
    assert EpisodePatterns[2].lead == "EP" && EpisodePatterns[3].lead == "E" && EpisodePatterns[4].lead == "Episode";
    LeadAbsent(s, EpisodePatterns[2], 0);
    LeadAbsent(s, EpisodePatterns[3], 0);
    LeadAbsent(s, EpisodePatterns[4], 0);
  }

  /** None of the five `- N` forms finds anything in a title without `-`. */
  lemma NoDashMarker(s: string)
    requires forall k :: 0 <= k < |s| ==> s[k] != '-'
    ensures PatternResult(s, 5).None? && PatternResult(s, 6).None? && PatternResult(s, 7).None?
    ensures PatternResult(s, 8).None? && PatternResult(s, 9).None?
  {
    forall i | 5 <= i < 10 ensures PatternResult(s, i).None? {
      assert EpisodePatterns[i].lead == "- ";
      LeadAbsent(s, EpisodePatterns[i], 0);
    }
  }

  /** Neither `N话` nor `N集` finds anything in a title without those characters. */
  lemma NoCountWord(s: string)
    requires forall k :: 0 <= k < |s| ==> s[k] != '话' && s[k] != '集'
    ensures PatternResult(s, 11).None? && PatternResult(s, 12).None?
  {
    assert EpisodePatterns[11].tail == Close("话") && EpisodePatterns[12].tail == Close("集");
    CloseAbsent(s, EpisodePatterns[11], 0);
    CloseAbsent(s, EpisodePatterns[12], 0);
  }

  /** `EP05` has one `EP` hit, the digits `05`. */
  lemma Ep05Hit(s: string)
    requires |s| == 4 && s[0] == 'E' && s[1] == 'P' && s[2] == '0' && s[3] == '5'
    ensures FindAll(s, EpisodePatterns[2], 0) == [Hit("05", 4)]
  {
    var p := EpisodePatterns[2];
    assert p == EpisodePattern("EP", false, 3, Open);
    assert s[0..2] == "EP" && LitAt(s, "EP", 0);
    assert DigitRun(s, 4) == 0;
    assert DigitRun(s, 2) == 2;
    assert s[2..4] == "05";
    OnlyHit(s, p, Hit("05", 4));
  }

  /** The `EP` pattern alone reads `EP05` as 5. */
  lemma Ep05HitResult(s: string)
    requires |s| == 4 && s[0] == 'E' && s[1] == 'P' && s[2] == '0' && s[3] == '5'
    ensures PatternResult(s, 2) == Some(5)
  {
    Ep05Hit(s);
    NoBracketNoHashOrRange(s, "05");
    assert NumberOf("05") == 5;
    assert [Hit("05", 4)][1..] == [];
  }

  /** A title without `第` whose `EPN` form finds `n` is episode `n`. */
  lemma EpFound(s: string, n: nat)
    requires |s| > 0
    requires forall k :: 0 <= k < |s| ==> s[k] != '第'
    requires PatternResult(s, 2) == Some(n)
    ensures ExtractEpisodeNumber(s) == Some(n)
  {
    NoChapterMarker(s);
    FoundByPattern2(s, n);
  }

  /** `EP05`, character by character, is episode 5. */
  lemma Ep05(s: string)
    requires |s| == 4 && s[0] == 'E' && s[1] == 'P' && s[2] == '0' && s[3] == '5'
    ensures ExtractEpisodeNumber(s) == Some(5)
  {
    Ep05HitResult(s);
    EpFound(s, 5);
  }



  /** A pattern ending in a version tag finds nothing in a title without a `v`. */
  lemma {:induction false} VersionAbsent(s: string, p: EpisodePattern, i: nat)
    requires i <= |s| && (p.tail.Version? || p.tail.VersionBracket?)
    requires forall k :: 0 <= k < |s| ==> LowerChar(s[k]) != 'v'
    ensures FindAll(s, p, i) == []
    decreases |s| - i
  {
    if i < |s| {
      VersionAbsent(s, p, i + 1);
    }
  }

  /** `- 02v2` has one `- Nv` hit, the digits `02`. */
  lemma DashVersionHit(s: string)
    requires |s| == 6 && s[0] == '-' && s[1] == ' ' && s[2] == '0' && s[3] == '2' && s[4] == 'v' && s[5] == '2'
    ensures FindAll(s, EpisodePatterns[5], 0) == [Hit("02", 6)]
  {
    var p := EpisodePatterns[5];
    assert p == EpisodePattern("- ", false, 3, Version);
    assert s[0..2] == "- " && LitAt(s, "- ", 0);
    assert DigitRun(s, 4) == 0 && DigitRun(s, 2) == 2;
    assert DigitRun(s, 6) == 0 && DigitRun(s, 5) == 1;
    assert TailAt(s, Version, 4) == Some(6);
    assert s[2..4] == "02";
    OnlyHit(s, p, Hit("02", 6));
  }

  /** The `- Nv` pattern alone reads `- 02v2` as 2. */
  lemma DashVersionHitResult(s: string)
    requires |s| == 6 && s[0] == '-' && s[1] == ' ' && s[2] == '0' && s[3] == '2' && s[4] == 'v' && s[5] == '2'
    ensures PatternResult(s, 5) == Some(2)
  {
    DashVersionHit(s);
    NoBracketNoHashOrRange(s, "02");
    assert NumberOf("02") == 2;
    assert [Hit("02", 6)][1..] == [];
  }

  /** A title without `第` or an `e` whose `- Nv2` form finds `n` is episode `n`. */
  lemma DashVersionFound(s: string, n: nat)
    requires |s| > 0
    requires forall k :: 0 <= k < |s| ==> s[k] != '第' && LowerChar(s[k]) != 'e'
    requires PatternResult(s, 5) == Some(n)
    ensures ExtractEpisodeNumber(s) == Some(n)
  {
    NoChapterMarker(s);
    NoEpisodeMarker(s);
    FoundByPattern5(s, n);
  }

  /** `- 02v2`, character by character, is episode 2. */
  lemma DashVersion(s: string)
    requires |s| == 6 && s[0] == '-' && s[1] == ' ' && s[2] == '0' && s[3] == '2' && s[4] == 'v' && s[5] == '2'
    ensures ExtractEpisodeNumber(s) == Some(2)
  {
    DashVersionHitResult(s);
    DashVersionMarkers(s);
    DashVersionFound(s, 2);
  }

  /** `- 02v2` holds neither `第` nor an `e`. */
  lemma DashVersionMarkers(s: string)
    requires |s| == 6 && s[0] == '-' && s[1] == ' ' && s[2] == '0' && s[3] == '2' && s[4] == 'v' && s[5] == '2'
    ensures forall k :: 0 <= k < |s| ==> s[k] != '第' && LowerChar(s[k]) != 'e'
  {
    forall k | 0 <= k < |s|
      ensures s[k] != '第' && LowerChar(s[k]) != 'e'
    {
      assert s[k] in "- 02v";
    }
  }



  /** `[07v2]` has one `[Nv]` hit, the digits `07`. */
  lemma BracketVersionHit(s: string)
    requires |s| == 6 && s[0] == '[' && s[1] == '0' && s[2] == '7' && s[3] == 'v' && s[4] == '2' && s[5] == ']'
    ensures FindAll(s, EpisodePatterns[10], 0) == [Hit("07", 6)]
  {
    var p := EpisodePatterns[10];
    assert p == EpisodePattern("[", false, 3, VersionBracket);
    assert s[0..1] == "[" && LitAt(s, "[", 0);
    assert DigitRun(s, 3) == 0 && DigitRun(s, 1) == 2;
    assert DigitRun(s, 5) == 0 && DigitRun(s, 4) == 1;
    assert TailAt(s, VersionBracket, 3) == Some(6);
    assert s[1..3] == "07";
    OnlyHit(s, p, Hit("07", 6));
  }

  /** `[07v2]` is neither a hash nor a range. */
  lemma BracketVersionValid(s: string)
    requires |s| == 6 && s[0] == '[' && s[1] == '0' && s[2] == '7' && s[3] == 'v' && s[4] == '2' && s[5] == ']'
    ensures !InHash(s, "07") && !InRange(s, "07")
  {
    forall i: nat, j: nat | i < j < |s| && s[i] == '[' && s[j] == ']' ensures !HexBracket(s, i, j) {
      assert i == 0 && j == 5;
      assert !IsHex(s[3]);
    }
    forall i: nat | i < |s| && s[i] == '['
      ensures !(DigitRun(s, i + 1) > 0 && OccursAt(s, "-" + "07" + "]", i + 1 + DigitRun(s, i + 1)))
      ensures !OccursAt(s, "[" + "07" + "-", i)
    {
      assert i == 0;
      assert DigitRun(s, 3) == 0 && DigitRun(s, 1) == 2;
      assert s[3] != '-';
    }
  }

  /** The `[Nv]` pattern alone reads `[07v2]` as 7. */
  lemma BracketVersionHitResult(s: string)
    requires |s| == 6 && s[0] == '[' && s[1] == '0' && s[2] == '7' && s[3] == 'v' && s[4] == '2' && s[5] == ']'
    ensures PatternResult(s, 10) == Some(7)
  {
    BracketVersionHit(s);
    BracketVersionValid(s);
    assert NumberOf("07") == 7;
    assert [Hit("07", 6)][1..] == [];
  }

  /** A title without `第`, an `e` or a `-` whose `[Nv2]` form finds `n` is episode `n`. */
  lemma BracketVersionFound(s: string, n: nat)
    requires |s| > 0
    requires forall k :: 0 <= k < |s| ==> s[k] != '第' && LowerChar(s[k]) != 'e' && s[k] != '-'
    requires PatternResult(s, 10) == Some(n)
    ensures ExtractEpisodeNumber(s) == Some(n)
  {
    NoChapterMarker(s);
    NoEpisodeMarker(s);
    NoDashMarker(s);
    FoundByPattern10(s, n);
  }

  /** `[07v2]`, character by character, is episode 7. */
  lemma BracketVersion(s: string)
    requires |s| == 6 && s[0] == '[' && s[1] == '0' && s[2] == '7' && s[3] == 'v' && s[4] == '2' && s[5] == ']'
    ensures ExtractEpisodeNumber(s) == Some(7)
  {
    BracketVersionHitResult(s);
    BracketVersionFound(s, 7);
  }



  /** `[06]` has one `[N]` hit, the digits `06`. */
  lemma BracketedHit(s: string)
    requires |s| == 4 && s[0] == '[' && s[1] == '0' && s[2] == '6' && s[3] == ']'
    ensures FindAll(s, EpisodePatterns[13], 0) == [Hit("06", 4)]
  {
    var p := EpisodePatterns[13];
    assert p == EpisodePattern("[", false, 3, Close("]"));
    assert s[0..1] == "[" && LitAt(s, "[", 0);
    assert DigitRun(s, 3) == 0 && DigitRun(s, 1) == 2;
    assert s[3..4] == "]" && LitAt(s, "]", 3);
    assert s[1..3] == "06";
    OnlyHit(s, p, Hit("06", 4));
  }

  /** `[06]` is too short for a hash and is not a range. */
  lemma BracketedValid(s: string)
    requires |s| == 4 && s[0] == '[' && s[1] == '0' && s[2] == '6' && s[3] == ']'
    ensures !InHash(s, "06") && !InRange(s, "06")
  {
    forall i: nat, j: nat | i < j < |s| && s[i] == '[' && s[j] == ']' ensures j - i - 1 < 6 {
    }
    forall i: nat | i < |s| && s[i] == '['
      ensures !(DigitRun(s, i + 1) > 0 && OccursAt(s, "-" + "06" + "]", i + 1 + DigitRun(s, i + 1)))
      ensures !OccursAt(s, "[" + "06" + "-", i)
    {
      assert i == 0;
      assert DigitRun(s, 3) == 0 && DigitRun(s, 1) == 2;
      assert s[3] != '-';
    }
  }

  /** The `[N]` pattern alone reads `[06]` as 6. */
  lemma BracketedHitResult(s: string)
    requires |s| == 4 && s[0] == '[' && s[1] == '0' && s[2] == '6' && s[3] == ']'
    ensures PatternResult(s, 13) == Some(6)
  {
    BracketedHit(s);
    BracketedValid(s);
    assert NumberOf("06") == 6;
    assert [Hit("06", 4)][1..] == [];
  }

  /** A title without `第`, an `e`, a `-`, a `v`, `话` or `集` whose `[N]` form finds `n` is episode `n`. */
  lemma BracketedFound(s: string, n: nat)
    requires |s| > 0
    requires forall k :: 0 <= k < |s| ==> s[k] != '第' && LowerChar(s[k]) != 'e' && s[k] != '-' && LowerChar(s[k]) != 'v' && s[k] != '话' && s[k] != '集'
    requires PatternResult(s, 13) == Some(n)
    ensures ExtractEpisodeNumber(s) == Some(n)
  {
    NoChapterMarker(s);
    NoEpisodeMarker(s);
    NoDashMarker(s);
    VersionAbsent(s, EpisodePatterns[10], 0);
    NoCountWord(s);
    FoundByPattern13(s, n);
  }

  /** `[06]`, character by character, is episode 6. */
  lemma Bracketed(s: string)
    requires |s| == 4 && s[0] == '[' && s[1] == '0' && s[2] == '6' && s[3] == ']'
    ensures ExtractEpisodeNumber(s) == Some(6)
  {
    BracketedHitResult(s);
    BracketedFound(s, 6);
  }


  /** The first 2 patterns find nothing and pattern 2 finds `n`: the title is episode `n`. */
  lemma FoundByPattern2(s: string, n: nat)
    requires |s| > 0
    requires PatternResult(s, 0).None? && PatternResult(s, 1).None?
    requires PatternResult(s, 2) == Some(n)
    ensures ExtractEpisodeNumber(s) == Some(n)
  {
    assert FirstPattern(s, 2) == Some(n);
    assert FirstPattern(s, 1) == Some(n);
  }

  /** The first 5 patterns find nothing and pattern 5 finds `n`: the title is episode `n`. */
  lemma FoundByPattern5(s: string, n: nat)
    requires |s| > 0
    requires PatternResult(s, 0).None? && PatternResult(s, 1).None? && PatternResult(s, 2).None? && PatternResult(s, 3).None?
    requires PatternResult(s, 4).None?
    requires PatternResult(s, 5) == Some(n)
    ensures ExtractEpisodeNumber(s) == Some(n)
  {
    assert FirstPattern(s, 5) == Some(n);
    assert FirstPattern(s, 4) == Some(n);
    assert FirstPattern(s, 3) == Some(n);
    assert FirstPattern(s, 2) == Some(n);
    assert FirstPattern(s, 1) == Some(n);
  }

  /** The first 10 patterns find nothing and pattern 10 finds `n`: the title is episode `n`. */
  lemma FoundByPattern10(s: string, n: nat)
    requires |s| > 0
    requires PatternResult(s, 0).None? && PatternResult(s, 1).None? && PatternResult(s, 2).None? && PatternResult(s, 3).None?
    requires PatternResult(s, 4).None? && PatternResult(s, 5).None? && PatternResult(s, 6).None? && PatternResult(s, 7).None?
    requires PatternResult(s, 8).None? && PatternResult(s, 9).None?
    requires PatternResult(s, 10) == Some(n)
    ensures ExtractEpisodeNumber(s) == Some(n)
  {
    assert FirstPattern(s, 10) == Some(n);
    assert FirstPattern(s, 9) == Some(n);
    assert FirstPattern(s, 8) == Some(n);
    assert FirstPattern(s, 7) == Some(n);
    assert FirstPattern(s, 6) == Some(n);
    assert FirstPattern(s, 5) == Some(n);
    assert FirstPattern(s, 4) == Some(n);
    assert FirstPattern(s, 3) == Some(n);
    assert FirstPattern(s, 2) == Some(n);
    assert FirstPattern(s, 1) == Some(n);
  }

  /** The first 13 patterns find nothing and pattern 13 finds `n`: the title is episode `n`. */
  lemma FoundByPattern13(s: string, n: nat)
    requires |s| > 0
    requires PatternResult(s, 0).None? && PatternResult(s, 1).None? && PatternResult(s, 2).None? && PatternResult(s, 3).None?
    requires PatternResult(s, 4).None? && PatternResult(s, 5).None? && PatternResult(s, 6).None? && PatternResult(s, 7).None?
    requires PatternResult(s, 8).None? && PatternResult(s, 9).None? && PatternResult(s, 10).None? && PatternResult(s, 11).None?
    requires PatternResult(s, 12).None?
    requires PatternResult(s, 13) == Some(n)
    ensures ExtractEpisodeNumber(s) == Some(n)
  {
    assert FirstPattern(s, 13) == Some(n);
    assert FirstPattern(s, 12) == Some(n);
    assert FirstPattern(s, 11) == Some(n);
    assert FirstPattern(s, 10) == Some(n);
    assert FirstPattern(s, 9) == Some(n);
    assert FirstPattern(s, 8) == Some(n);
    assert FirstPattern(s, 7) == Some(n);
    assert FirstPattern(s, 6) == Some(n);
    assert FirstPattern(s, 5) == Some(n);
    assert FirstPattern(s, 4) == Some(n);
    assert FirstPattern(s, 3) == Some(n);
    assert FirstPattern(s, 2) == Some(n);
    assert FirstPattern(s, 1) == Some(n);
  }


  /** The documented `EP05` is episode 5. */
  lemma DocumentedEp05()
    ensures ExtractEpisodeNumber("EP05") == Some(5)
  {
    Ep05("EP05");
  }

  /** The documented `- 02v2` is episode 2: the version suffix is not part of the number. */
  lemma DocumentedDashVersion()
    ensures ExtractEpisodeNumber("- 02v2") == Some(2)
  {
    DashVersion("- 02v2");
  }

  /** The documented `[07v2]` is episode 7. */
  lemma DocumentedBracketVersion()
    ensures ExtractEpisodeNumber("[07v2]") == Some(7)
  {
    BracketVersion("[07v2]");
  }

  /** The documented `[06]` is episode 6: the bracket form, tried last, finds it. */
  lemma DocumentedBracketed()
    ensures ExtractEpisodeNumber("[06]") == Some(6)
  {
    Bracketed("[06]");
  }

  // ---------------------------------------------------------------- resolution

  /** `_resolution_from_dimensions` after its table: by height alone. */
  function ByHeight(h: int): (r: string)
    ensures r in {"2160p", "1440p", "1080p", "720p", "480p", "240p"}
  {
    if h >= 2100 then "2160p"
    else if h >= 1400 then "1440p"
    else if h >= 1070 then "1080p"
    else if h >= 700 then "720p"
    else if h >= 470 then "480p"
    else "240p"
  }

  /** `_resolution_from_dimensions`: the exact table first, then the height
      thresholds; always one of the six standard resolutions. */
  function FromDimensions(w: int, h: int): (r: string)
    ensures r in {"2160p", "1440p", "1080p", "720p", "480p", "240p"}
  {
    if (w, h) == (3840, 2160) then "2160p"
    else if (w, h) == (2560, 1440) then "1440p"
    else if (w, h) == (1920, 1080) then "1080p"
    else if (w, h) == (1280, 720) then "720p"
    else if (w, h) == (854, 480) || (w, h) == (640, 480) then "480p"
    else if (w, h) == (426, 240) then "240p"
    else ByHeight(h)
  }

  /** Every entry of the exact table agrees with the thresholds, so the
      result depends on the height only. */
  lemma DimensionsByHeightOnly(w: int, h: int)
    ensures FromDimensions(w, h) == ByHeight(h)
  {
  }

  /** The four resolution patterns of `extract_resolution`, in order. */
  datatype ResolutionForm = PForm | DimensionForm | IForm | KForm

  /** `(\d{3,4}[pP])`, `(\d{3,4})[xX](\d{3,4})`, `(\d{3,4}[iI])` or `(\d{1,2}K)` matches at `i`. */
  predicate FormAt(s: string, f: ResolutionForm, i: nat)
    requires i <= |s|
  {
    var run := DigitRun(s, i);
    match f
    case PForm => 3 <= run <= 4 && i + run < |s| && (s[i + run] == 'p' || s[i + run] == 'P')
    case IForm => 3 <= run <= 4 && i + run < |s| && (s[i + run] == 'i' || s[i + run] == 'I')
    case KForm => 1 <= run <= 2 && i + run < |s| && s[i + run] == 'K'
    case DimensionForm =>
      3 <= run <= 4 && i + run < |s| && (s[i + run] == 'x' || s[i + run] == 'X') && DigitRun(s, i + run + 1) >= 3
  }

  /** `re.search`: the leftmost position from `i` on where the form matches. */
  function Search(s: string, f: ResolutionForm, i: nat): (r: Option<nat>)
    requires i <= |s|
    ensures r.Some? ==> i <= r.value <= |s| && FormAt(s, f, r.value)
    ensures r.Some? ==> forall j :: i <= j < r.value ==> !FormAt(s, f, j)
    ensures r.None? ==> forall j :: i <= j <= |s| ==> !FormAt(s, f, j)
    decreases |s| - i
  {
    if FormAt(s, f, i) then Some(i)
    else if i == |s| then None
    else Search(s, f, i + 1)
  }

  /** The converter applied to the match at `i`. */
  function Convert(s: string, f: ResolutionForm, i: nat): (r: string)
    requires i <= |s| && FormAt(s, f, i)
    ensures |r| > 0
  {
    var run := DigitRun(s, i);
    match f
    case PForm => Lower(s[i..i + run + 1])
    case IForm => Lower(s[i..i + run + 1])
    case KForm => Upper(s[i..i + run + 1])
    case DimensionForm =>
      var run2 := DigitRun(s, i + run + 1);
      var hl := if run2 < 4 then run2 else 4;
      FromDimensions(NumberOf(s[i..i + run]), NumberOf(s[i + run + 1..i + run + 1 + hl]))
  }

  /** The forms from `k` on; every converter gives a non-empty text, so the first form found decides. */
  function FirstForm(s: string, forms: seq<ResolutionForm>): (r: Option<string>)
    ensures r.Some? ==> |r.value| > 0
    ensures |forms| > 0 && Search(s, forms[0], 0).Some? ==> r == Some(Convert(s, forms[0], Search(s, forms[0], 0).value))
    ensures r.None? <==> forall k :: 0 <= k < |forms| ==> Search(s, forms[k], 0).None?
  {
    if |forms| == 0 then None
    else match Search(s, forms[0], 0)
      case Some(i) => Some(Convert(s, forms[0], i))
      case None =>
        assert forall k :: 1 <= k < |forms| ==> forms[k] == forms[1..][k - 1];
        FirstForm(s, forms[1..])
  }

  /** The position of the first form that finds something (`|forms|` when none does). */
  function FirstFormIndex(s: string, forms: seq<ResolutionForm>): (k: nat)
    ensures k <= |forms|
  {
    if |forms| == 0 || Search(s, forms[0], 0).Some? then 0 else 1 + FirstFormIndex(s, forms[1..])
  }

  /** The first form that finds something is the one `FirstForm` converts
      with, and every earlier form finds nothing. */
  lemma {:induction false} FirstFormIndexOk(s: string, forms: seq<ResolutionForm>)
    requires FirstForm(s, forms).Some?
    ensures FirstFormIndex(s, forms) < |forms|
    ensures Search(s, forms[FirstFormIndex(s, forms)], 0).Some?
    ensures FirstForm(s, forms).value
            == Convert(s, forms[FirstFormIndex(s, forms)], Search(s, forms[FirstFormIndex(s, forms)], 0).value)
    ensures forall j :: 0 <= j < FirstFormIndex(s, forms) ==> Search(s, forms[j], 0).None?
    decreases |forms|
  {
    if Search(s, forms[0], 0).None? {
      var rest := forms[1..];
      assert FirstForm(s, forms) == FirstForm(s, rest);
      FirstFormIndexOk(s, rest);
      var k := FirstFormIndex(s, rest);
      assert FirstFormIndex(s, forms) == k + 1;
      assert forms[k + 1] == rest[k];
      forall j | 0 <= j < k + 1
        ensures Search(s, forms[j], 0).None?
      {
        if j > 0 { assert forms[j] == rest[j - 1]; }
      }
    }
  }

  /** The forms found by the first form that matches, in list order: the
      earlier forms all find nothing. */
  lemma FirstFormIsFirst(s: string, forms: seq<ResolutionForm>)
    requires FirstForm(s, forms).Some?
    ensures exists k :: 0 <= k < |forms| && Search(s, forms[k], 0).Some?
                        && FirstForm(s, forms).value == Convert(s, forms[k], Search(s, forms[k], 0).value)
                        && forall j :: 0 <= j < k ==> Search(s, forms[j], 0).None?
  {
    FirstFormIndexOk(s, forms);
    var k := FirstFormIndex(s, forms);
    assert 0 <= k < |forms| && Search(s, forms[k], 0).Some?;
  }

  /** The resolution patterns in the order `extract_resolution` tries them. */
  const ResolutionForms: seq<ResolutionForm> := [PForm, DimensionForm, IForm, KForm]

  /** `extract_resolution`: `None` for an empty title, else the first
      pattern found (see `FirstFormIsFirst`), else the inference from
      source and codec. */
  function ExtractResolution(title: string): (r: Option<string>)
    ensures |title| == 0 ==> r.None?
    ensures |title| > 0 && FirstForm(title, ResolutionForms).Some? ==> r == FirstForm(title, ResolutionForms)
    ensures |title| > 0 && Search(title, PForm, 0).Some? ==> r == Some(Convert(title, PForm, Search(title, PForm, 0).value))
    ensures (|title| > 0 && Search(title, PForm, 0).None? && Search(title, DimensionForm, 0).None?
             && Search(title, IForm, 0).None? && Search(title, KForm, 0).None?) ==> r == InferResolution(title)
  {
    if |title| == 0 then None
    else match FirstForm(title, ResolutionForms)
      case Some(res) => Some(res)
      case None => InferResolution(title)
  }

  /** A `[NNNP]` tag of three or four digits reads as the lower-case `NNNp`. */
  lemma BracketedProgressive(d: string)
    requires AllDigits(d) && 3 <= |d| <= 4
    ensures ExtractResolution("[" + d + "P]") == Some(d + "p")
  {
    var s := "[" + d + "P]";
    DigitRunOf("[", d, "P]");
    assert s[1 + |d|] == 'P';
    assert !FormAt(s, PForm, 0) by { assert !IsDigit(s[0]); }
    assert FormAt(s, PForm, 1);
    assert Search(s, PForm, 0) == Some(1);
    assert s[1..1 + |d| + 1] == d + "P";
    assert Lower(d + "P") == d + "p" by {
      forall k | 0 <= k < |d| ensures LowerChar(d[k]) == d[k] { assert IsDigit(d[k]); }
    }
  }

  /** A `W x H` size maps to the standard resolution of its height. */
  lemma DimensionsReadByHeight(s: string, i: nat)
    requires i <= |s| && FormAt(s, DimensionForm, i)
    ensures Convert(s, DimensionForm, i) in {"2160p", "1440p", "1080p", "720p", "480p", "240p"}
  {
  }

  /** The video sources, in the order they are tried. */
  const Sources: seq<(string, string)> := [
    ("BDRIP", "1080p"), ("BLURAY", "1080p"), ("BD", "1080p"), ("WEBRIP", "1080p"),
    ("WEB-DL", "1080p"), ("WEBDL", "1080p"), ("HDTV", "720p"), ("HDTVRIP", "720p"),
    ("DVDRIP", "480p"), ("DVD", "480p"), ("TVRIP", "480p"), ("SDTV", "480p")
  ]

  /** The resolution of the first source named in the (upper-cased) title. */
  function FirstSource(u: string, sources: seq<(string, string)>): (r: Option<string>)
    ensures r.Some? ==> exists k :: 0 <= k < |sources| && r.value == sources[k].1 && Contains(u, sources[k].0)
                               && forall j :: 0 <= j < k ==> !Contains(u, sources[j].0)
    ensures r.None? ==> forall k :: 0 <= k < |sources| ==> !Contains(u, sources[k].0)
  {
    if |sources| == 0 then None
    else if Contains(u, sources[0].0) then Some(sources[0].1)
    else
      var r := FirstSource(u, sources[1..]);
      assert forall k :: 1 <= k < |sources| ==> sources[k] == sources[1..][k - 1];
      assert r.Some? ==> exists k :: 1 <= k < |sources| && r.value == sources[k].1 && Contains(u, sources[k].0)
                                     && forall j :: 0 <= j < k ==> !Contains(u, sources[j].0) by {
        if r.Some? {
          var k :| 0 <= k < |sources[1..]| && r.value == sources[1..][k].1 && Contains(u, sources[1..][k].0)
                   && forall j :: 0 <= j < k ==> !Contains(u, sources[1..][j].0);
          assert forall j :: 1 <= j < k + 1 ==> !Contains(u, sources[j].0) by {
            forall j | 1 <= j < k + 1 ensures !Contains(u, sources[j].0) { assert sources[j] == sources[1..][j - 1]; }
          }
        }
      }
      r
  }

  predicate Hevc(u: string) {
    Contains(u, "HEVC") || Contains(u, "H.265")
  }

  predicate Avc(u: string) {
    Contains(u, "H.264") || Contains(u, "X264") || Contains(u, "AVC")
  }

  /** `_infer_resolution_from_source_and_codec`: the first source named
      decides, a 720p source with HEVC/H.265 becoming 1080p; without a
      source, HEVC gives 1080p and H.264/X264/AVC 720p; otherwise nothing. */
  function InferResolution(title: string): (r: Option<string>)
    ensures r.None? || r.value in {"1080p", "720p", "480p"}
    ensures FirstSource(Upper(title), Sources) == Some("720p") && Hevc(Upper(title)) ==> r == Some("1080p")
    ensures FirstSource(Upper(title), Sources).Some? && !(FirstSource(Upper(title), Sources) == Some("720p") && Hevc(Upper(title)))
            ==> r == FirstSource(Upper(title), Sources)
    ensures FirstSource(Upper(title), Sources).None? ==>
      r == (if Hevc(Upper(title)) then Some("1080p") else if Avc(Upper(title)) then Some("720p") else None)
  {
    var u := Upper(title);
    match FirstSource(u, Sources)
    case Some(res) => if res == "720p" && Hevc(u) then Some("1080p") else Some(res)
    case None =>
      if Hevc(u) then Some("1080p")
      else if Avc(u) then Some("720p")
      else None
  }

  /** The character that closes form `f` after its digits. */
  predicate Marks(f: ResolutionForm, c: char) {
    match f
    case PForm => c == 'p' || c == 'P'
    case IForm => c == 'i' || c == 'I'
    case KForm => c == 'K'
    case DimensionForm => c == 'x' || c == 'X'
  }

  /** A form whose closing character never follows a digit is not found. */
  lemma FormAbsent(s: string, f: ResolutionForm)
    requires forall k :: 0 < k < |s| && IsDigit(s[k - 1]) ==> !Marks(f, s[k])
    ensures Search(s, f, 0).None?
  {
    forall j | 0 <= j <= |s| ensures !FormAt(s, f, j) {
      var run := DigitRun(s, j);
      if run >= 1 && j + run < |s| {
        assert IsDigit(s[j + run - 1]);
      }
    }
  }

  /** No form starts at a character that is not a digit. */
  lemma NoDigitNoForm(s: string, j: nat)
    requires j < |s| && !IsDigit(s[j])
    ensures forall f :: !FormAt(s, f, j)
  {
  }

  /** Without an `NNNp` form, a `W x H` form decides the resolution. */
  lemma SecondFormDecides(s: string)
    requires |s| > 0 && Search(s, PForm, 0).None? && Search(s, DimensionForm, 0).Some?
    ensures ExtractResolution(s) == Some(Convert(s, DimensionForm, Search(s, DimensionForm, 0).value))
  {
    assert ResolutionForms[1..][0] == DimensionForm;
  }

  /** A tag `W x H` of four-digit sizes, between digit-free texts, has no `NNNp` form. */
  lemma TagHasNoPForm(pre: string, w: string, h: string, post: string)
    requires forall k :: 0 <= k < |pre| ==> !IsDigit(pre[k])
    requires |w| == 4 && AllDigits(w) && |h| == 4 && AllDigits(h)
    requires |post| > 0 && !Marks(PForm, post[0])
    requires forall k :: 0 <= k < |post| ==> !IsDigit(post[k])
    ensures Search(pre + w + "x" + h + post, PForm, 0).None?
  {
    var s := pre + w + "x" + h + post;
    var i := |pre|;
    forall k | 0 < k < |s| ensures IsDigit(s[k - 1]) ==> !Marks(PForm, s[k]) {
      if k < i { assert s[k - 1] == pre[k - 1]; }
      else if k < i + 4 { assert s[k] == w[k - i]; }
      else if k == i + 4 { }
      else if k < i + 9 { assert s[k] == h[k - i - 5]; }
      else if k > i + 9 { assert s[k - 1] == post[k - 1 - i - 9]; }
    }
    FormAbsent(s, PForm);
  }

  /** In such a text both sizes are runs of four digits. */
  lemma TagRuns(pre: string, w: string, h: string, post: string)
    requires |w| == 4 && AllDigits(w) && |h| == 4 && AllDigits(h)
    requires |post| > 0 && !IsDigit(post[0])
    ensures DigitRun(pre + w + "x" + h + post, |pre|) == 4
    ensures DigitRun(pre + w + "x" + h + post, |pre| + 5) == 4
  {
    TagRunW(pre, w, "x" + h + post);
    TagAssoc(pre, w, h, post);
    TagRunW(pre + w + "x", h, post);
  }

  /** The tag text regrouped after its first size. */
  lemma TagAssoc(pre: string, w: string, h: string, post: string)
    ensures pre + w + "x" + h + post == pre + w + ("x" + h + post)
  {
  }

  /** Four digits followed by a non-digit are a run of four. */
  lemma TagRunW(pre: string, w: string, rest: string)
    requires |w| == 4 && AllDigits(w)
    requires |rest| > 0 && !IsDigit(rest[0])
    ensures DigitRun(pre + w + rest, |pre|) == 4
  {
    DigitRunOf(pre, w, rest);
  }

  /** Where the sizes and the `x` between them sit. */
  lemma TagParts(pre: string, w: string, h: string, post: string)
    requires |w| == 4 && |h| == 4
    ensures var s := pre + w + "x" + h + post;
            s[|pre| + 4] == 'x' && s[|pre|..|pre| + 4] == w && s[|pre| + 5..|pre| + 9] == h
  {
  }

  /** The leftmost match is at `i` when it matches there and nowhere before. */
  lemma SearchFindsAt(s: string, f: ResolutionForm, i: nat)
    requires i <= |s| && FormAt(s, f, i)
    requires forall j :: 0 <= j < i ==> !FormAt(s, f, j)
    ensures Search(s, f, 0) == Some(i)
  {
  }

  /** In such a text the size is the first `W x H` form, at the end of `pre`. */
  lemma TagDimensionAt(pre: string, w: string, h: string, post: string)
    requires forall k :: 0 <= k < |pre| ==> !IsDigit(pre[k])
    requires |w| == 4 && AllDigits(w) && |h| == 4 && AllDigits(h)
    requires |post| > 0 && !IsDigit(post[0])
    ensures Search(pre + w + "x" + h + post, DimensionForm, 0) == Some(|pre|)
  {
    var s := pre + w + "x" + h + post;
    TagRuns(pre, w, h, post);
    TagParts(pre, w, h, post);
    forall j | 0 <= j < |pre| ensures !FormAt(s, DimensionForm, j) {
      assert s[j] == pre[j];
      NoDigitNoForm(s, j);
    }
    SearchFindsAt(s, DimensionForm, |pre|);
  }

  /** Such a text reads as the standard resolution of its size. */
  lemma DimensionTag(pre: string, w: string, h: string, post: string)
    requires forall k :: 0 <= k < |pre| ==> !IsDigit(pre[k])
    requires |w| == 4 && AllDigits(w) && |h| == 4 && AllDigits(h)
    requires |post| > 0 && !IsDigit(post[0]) && !Marks(PForm, post[0])
    requires forall k :: 0 <= k < |post| ==> !IsDigit(post[k])
    ensures ExtractResolution(pre + w + "x" + h + post) == Some(FromDimensions(NumberOf(w), NumberOf(h)))
  {
    TagHasNoPForm(pre, w, h, post);
    TagDimensionAt(pre, w, h, post);
    TagRuns(pre, w, h, post);
    TagParts(pre, w, h, post);
    SecondFormDecides(pre + w + "x" + h + post);
  }

  /** A text with `x` at `i + 4` cut around a tag starting at `i`. */
  lemma TagPieces(s: string, i: nat)
    requires i + 9 <= |s| && s[i + 4] == 'x'
    ensures s == s[..i] + s[i..i + 4] + "x" + s[i + 5..i + 9] + s[i + 9..]
  {
  }

  /** The pieces of "(CR 1920x1080 AVC AAC MKV)" meet the conditions of `DimensionTag`. */
  lemma CrPiecesOk(s: string)
    requires |s| == 26 && s[0] == '(' && s[1] == 'C' && s[2] == 'R' && s[3] == ' ' && s[4] == '1' && s[5] == '9'
          && s[6] == '2' && s[7] == '0' && s[8] == 'x' && s[9] == '1' && s[10] == '0' && s[11] == '8' && s[12] == '0'
          && s[13] == ' ' && s[14] == 'A' && s[15] == 'V' && s[16] == 'C' && s[17] == ' ' && s[18] == 'A' && s[19] == 'A'
          && s[20] == 'C' && s[21] == ' ' && s[22] == 'M' && s[23] == 'K' && s[24] == 'V' && s[25] == ')'
    ensures forall k :: 0 <= k < |s[..4]| ==> !IsDigit(s[..4][k])
    ensures |s[4..8]| == 4 && AllDigits(s[4..8]) && |s[9..13]| == 4 && AllDigits(s[9..13])
    ensures |s[13..]| > 0 && !IsDigit(s[13..][0]) && !Marks(PForm, s[13..][0])
    ensures forall k :: 0 <= k < |s[13..]| ==> !IsDigit(s[13..][k])
  {
  }

  /** "(CR 1920x1080 AVC AAC MKV)", spelled out character by character,
      reads as 1080p through the size 1920x1080. */
  lemma CrDimensions(s: string)
    requires |s| == 26 && s[0] == '(' && s[1] == 'C' && s[2] == 'R' && s[3] == ' ' && s[4] == '1' && s[5] == '9'
          && s[6] == '2' && s[7] == '0' && s[8] == 'x' && s[9] == '1' && s[10] == '0' && s[11] == '8' && s[12] == '0'
          && s[13] == ' ' && s[14] == 'A' && s[15] == 'V' && s[16] == 'C' && s[17] == ' ' && s[18] == 'A' && s[19] == 'A'
          && s[20] == 'C' && s[21] == ' ' && s[22] == 'M' && s[23] == 'K' && s[24] == 'V' && s[25] == ')'
    ensures ExtractResolution(s) == Some("1080p")
  {
    CrPiecesOk(s);
    TagPieces(s, 4);
    var pre, w, h, post := s[..4], s[4..8], s[9..13], s[13..];
    DimensionTag(pre, w, h, post);
    CrNumbers(w, h);
  }

  /** The two numbers of "1920x1080", and the resolution they make. */
  lemma CrNumbers(w: string, h: string)
    requires |w| == 4 && w[0] == '1' && w[1] == '9' && w[2] == '2' && w[3] == '0'
    requires |h| == 4 && h[0] == '1' && h[1] == '0' && h[2] == '8' && h[3] == '0'
    ensures FromDimensions(NumberOf(w), NumberOf(h)) == "1080p"
  {
    FourDigits(w);
    FourDigits(h);
  }

  /** The value of four digits. */
  lemma FourDigits(d: string)
    requires |d| == 4 && AllDigits(d)
    ensures NumberOf(d) == 1000 * DigitValue(d[0]) + 100 * DigitValue(d[1]) + 10 * DigitValue(d[2]) + DigitValue(d[3])
  {
    assert d[..3][..2] == d[..2] && d[..2][..1] == d[..1] && d[..1][..0] == [];
    assert NumberOf(d[..1]) == DigitValue(d[0]);
    assert NumberOf(d[..2]) == 10 * DigitValue(d[0]) + DigitValue(d[1]);
    assert NumberOf(d[..3]) == 100 * DigitValue(d[0]) + 10 * DigitValue(d[1]) + DigitValue(d[2]);
  }

  /** No digit run of the title closes a resolution form. */
  lemma NoFormIn(s: string)
    requires forall k :: 0 < k < |s| ==> IsDigit(s[k - 1]) ==> IsDigit(s[k]) || s[k] == ' ' || s[k] == ']'
    ensures FirstForm(s, ResolutionForms).None?
  {
    NoFormOf(s, PForm);
    NoFormOf(s, DimensionForm);
    NoFormOf(s, IForm);
    NoFormOf(s, KForm);
    NoFormNone(s);
  }

  /** The same, one form at a time. */
  lemma NoFormOf(s: string, f: ResolutionForm)
    requires forall k :: 0 < k < |s| ==> IsDigit(s[k - 1]) ==> IsDigit(s[k]) || s[k] == ' ' || s[k] == ']'
    ensures Search(s, f, 0).None?
  {
    forall j | 0 <= j <= |s| ensures !FormAt(s, f, j) {
      var run := DigitRun(s, j);
      if run >= 1 && j + run < |s| {
        assert IsDigit(s[j + run - 1]);
      }
    }
  }

  /** When none of the four forms is found, no form decides. */
  lemma NoFormNone(s: string)
    requires Search(s, PForm, 0).None? && Search(s, DimensionForm, 0).None?
    requires Search(s, IForm, 0).None? && Search(s, KForm, 0).None?
    ensures FirstForm(s, ResolutionForms).None?
  {
    assert forall k :: 0 <= k < |ResolutionForms| ==> ResolutionForms[k] in {PForm, DimensionForm, IForm, KForm};
  }

  /** The source found first is the one at `k` when the earlier ones are absent. */
  lemma {:induction false} FirstSourceAt(u: string, sources: seq<(string, string)>, k: nat)
    requires k < |sources| && Contains(u, sources[k].0)
    requires forall j :: 0 <= j < k ==> !Contains(u, sources[j].0)
    ensures FirstSource(u, sources) == Some(sources[k].1)
    decreases k
  {
    if k > 0 {
      assert !Contains(u, sources[0].0);
      assert forall j :: 0 <= j < k - 1 ==> sources[1..][j] == sources[j + 1];
      FirstSourceAt(u, sources[1..], k - 1);
    }
  }

  /** A text without the character `sub[i]` does not contain `sub`. */
  lemma AbsentCharExcludes(u: string, c: char, sub: string, i: nat)
    requires !Contains(u, [c])
    requires i < |sub| && sub[i] == c
    ensures !Contains(u, sub)
  {
    assert sub[i..i + 1] == [c];
    OccursContains(sub, [c], i);
    if Contains(u, sub) {
      ContainsTrans(u, sub, [c]);
    }
  }

  /** The character facts of "[HDTV][x264 AAC]" that the reading needs. */
  lemma HdtvChars(s: string)
    requires |s| == 16 && s[0] == '[' && s[1] == 'H' && s[2] == 'D' && s[3] == 'T' && s[4] == 'V' && s[5] == ']'
          && s[6] == '[' && s[7] == 'x' && s[8] == '2' && s[9] == '6' && s[10] == '4' && s[11] == ' ' && s[12] == 'A'
          && s[13] == 'A' && s[14] == 'C' && s[15] == ']'
    ensures forall k :: 0 < k < |s| ==> IsDigit(s[k - 1]) ==> IsDigit(s[k]) || s[k] == ' ' || s[k] == ']'
    ensures forall k :: 0 <= k < |s| ==> UpperChar(s[k]) != 'B' && UpperChar(s[k]) != 'W' && UpperChar(s[k]) != 'E' && UpperChar(s[k]) != '.'
    ensures Upper(s)[1..5] == "HDTV"
  {
  }

  /** "[HDTV][x264 AAC]", spelled out: no form matches (x264 is followed by a
      space), HDTV is the first source and there is no HEVC, so 720p. */
  lemma HdtvX264(s: string)
    requires |s| == 16 && s[0] == '[' && s[1] == 'H' && s[2] == 'D' && s[3] == 'T' && s[4] == 'V' && s[5] == ']'
          && s[6] == '[' && s[7] == 'x' && s[8] == '2' && s[9] == '6' && s[10] == '4' && s[11] == ' ' && s[12] == 'A'
          && s[13] == 'A' && s[14] == 'C' && s[15] == ']'
    ensures ExtractResolution(s) == Some("720p")
  {
    HdtvChars(s);
    NoFormIn(s);
    var u := Upper(s);
    NoCharNoContains(u, 'B');
    NoCharNoContains(u, 'W');
    NoCharNoContains(u, 'E');
    NoCharNoContains(u, '.');
    OccursContains(u, "HDTV", 1);
    HdtvFirst(u);
  }

  /** An upper-cased text naming HDTV but no B, W, E or `.` has HDTV as its first source and no HEVC. */
  lemma HdtvFirst(u: string)
    requires !Contains(u, "B") && !Contains(u, "W") && !Contains(u, "E") && !Contains(u, ".")
    requires Contains(u, "HDTV")
    ensures FirstSource(u, Sources) == Some("720p") && !Hevc(u)
  {
    AbsentCharExcludes(u, 'B', "BDRIP", 0);
    AbsentCharExcludes(u, 'B', "BLURAY", 0);
    AbsentCharExcludes(u, 'B', "BD", 0);
    AbsentCharExcludes(u, 'W', "WEBRIP", 0);
    AbsentCharExcludes(u, 'W', "WEB-DL", 0);
    AbsentCharExcludes(u, 'W', "WEBDL", 0);
    FirstSourceAt(u, Sources, 6);
    AbsentCharExcludes(u, 'E', "HEVC", 1);
    AbsentCharExcludes(u, '.', "H.265", 1);
  }

  /** The character facts of "[WebRip][HEVC_AAC]" that the reading needs. */
  lemma WebRipChars(s: string)
    requires |s| == 18 && s[0] == '[' && s[1] == 'W' && s[2] == 'e' && s[3] == 'b' && s[4] == 'R' && s[5] == 'i'
          && s[6] == 'p' && s[7] == ']' && s[8] == '[' && s[9] == 'H' && s[10] == 'E' && s[11] == 'V' && s[12] == 'C'
          && s[13] == '_' && s[14] == 'A' && s[15] == 'A' && s[16] == 'C' && s[17] == ']'
    ensures forall k :: 0 < k < |s| ==> IsDigit(s[k - 1]) ==> IsDigit(s[k]) || s[k] == ' ' || s[k] == ']'
    ensures forall k :: 0 <= k < |s| ==> UpperChar(s[k]) != 'D' && UpperChar(s[k]) != 'L'
    ensures Upper(s)[1..7] == "WEBRIP"
  {
  }

  /** "[WebRip][HEVC_AAC]", spelled out: no digits, WEBRIP is the first source, so 1080p. */
  lemma WebRipHevc(s: string)
    requires |s| == 18 && s[0] == '[' && s[1] == 'W' && s[2] == 'e' && s[3] == 'b' && s[4] == 'R' && s[5] == 'i'
          && s[6] == 'p' && s[7] == ']' && s[8] == '[' && s[9] == 'H' && s[10] == 'E' && s[11] == 'V' && s[12] == 'C'
          && s[13] == '_' && s[14] == 'A' && s[15] == 'A' && s[16] == 'C' && s[17] == ']'
    ensures ExtractResolution(s) == Some("1080p")
  {
    WebRipChars(s);
    NoFormIn(s);
    var u := Upper(s);
    NoCharNoContains(u, 'D');
    NoCharNoContains(u, 'L');
    OccursContains(u, "WEBRIP", 1);
    WebRipFirst(u);
  }

  /** An upper-cased text naming WEBRIP but no D or L has WEBRIP as its first source. */
  lemma WebRipFirst(u: string)
    requires !Contains(u, "D") && !Contains(u, "L") && Contains(u, "WEBRIP")
    ensures FirstSource(u, Sources) == Some("1080p")
  {
    AbsentCharExcludes(u, 'D', "BDRIP", 1);
    AbsentCharExcludes(u, 'L', "BLURAY", 1);
    AbsentCharExcludes(u, 'D', "BD", 1);
    FirstSourceAt(u, Sources, 3);
  }

  // ------------------------------------------------------------- subtitle type

  /** The keywords of `extract_subtitle_type`, in the order they are tried,
      in four groups: combined tracks, five short pairs, embedded and external
      tracks, single-language tags. */
  const CombinedKeywords: seq<string> := [
    "简繁日内封", "简繁日内嵌", "简繁日多语", "简繁英", "简体日语双语", "繁体日语双语",
    "简日双语", "简日双字", "繁日双语", "繁日双字", "中日双语", "中日双字", "简繁双语", "简繁双字",
    "双语字幕"
  ]

  const ShortKeywords: seq<string> := ["简日", "繁日", "简英", "繁英", "简繁"]

  const TrackKeywords: seq<string> := [
    "简日内封", "繁日内封", "简日内嵌", "繁日内嵌", "简繁内封", "简繁内挂", "简繁内嵌",
    "简体内封", "简体内挂", "简体内嵌", "繁体内封", "繁体内挂", "繁体内嵌",
    "简体外挂", "繁体外挂", "简繁外挂", "外挂字幕"
  ]

  const LanguageKeywords: seq<string> := [
    "CHT", "CHS", "GB", "BIG5",
    "简体", "繁体", "简中", "繁中", "中字", "英语",
    "内嵌字幕", "内挂字幕", "中文字幕",
    "日语原声", "无字幕", "RAW"
  ]

  const SubtitleKeywords: seq<string> := CombinedKeywords + ShortKeywords + TrackKeywords + LanguageKeywords

  /** The first keyword of the list that occurs in the title. */
  function FirstKeyword(title: string, kws: seq<string>): (r: Option<string>)
    ensures r.Some? ==> r.value in kws && Contains(title, r.value)
    ensures r.Some? ==> exists i :: 0 <= i < |kws| && kws[i] == r.value && forall j :: 0 <= j < i ==> !Contains(title, kws[j])
    ensures r.None? <==> forall k :: 0 <= k < |kws| ==> !Contains(title, kws[k])
  {
    if |kws| == 0 then None
    else if Contains(title, kws[0]) then Some(kws[0])
    else
      var r := FirstKeyword(title, kws[1..]);
      assert forall k :: 1 <= k < |kws| ==> kws[k] == kws[1..][k - 1];
      assert r.Some? ==> exists i :: 1 <= i < |kws| && kws[i] == r.value && forall j :: 0 <= j < i ==> !Contains(title, kws[j]) by {
        if r.Some? {
          var i :| 0 <= i < |kws[1..]| && kws[1..][i] == r.value && forall j :: 0 <= j < i ==> !Contains(title, kws[1..][j]);
          assert forall j :: 1 <= j < i + 1 ==> !Contains(title, kws[j]) by {
            forall j | 1 <= j < i + 1 ensures !Contains(title, kws[j]) { assert kws[j] == kws[1..][j - 1]; }
          }
        }
      }
      r
  }

  /** The first keyword of two lists in a row: the first list's, else the second's. */
  lemma {:induction false} FirstKeywordAppend(title: string, xs: seq<string>, ys: seq<string>)
    ensures FirstKeyword(title, xs + ys)
         == if FirstKeyword(title, xs).Some? then FirstKeyword(title, xs) else FirstKeyword(title, ys)
    decreases |xs|
  {
    if |xs| == 0 {
      assert xs + ys == ys;
    } else {
      assert (xs + ys)[0] == xs[0];
      assert (xs + ys)[1..] == xs[1..] + ys;
      FirstKeywordAppend(title, xs[1..], ys);
    }
  }

  /** The fallback "其他" is none of the keywords, in either order. */
  lemma OtherIsNoKeyword()
    ensures "其他" !in SubtitleKeywords && "其他" !in IntendedKeywords
  {
    assert "其他" !in CombinedKeywords;
    assert "其他" !in ShortKeywords;
    assert "其他" !in TrackKeywords;
    assert "其他" !in LanguageKeywords;
  }

  /** `extract_subtitle_type` as written: `None` for an empty title, else
      the first listed keyword occurring in it, else "其他". */
  function ExtractSubtitleType(title: string): (r: Option<string>)
    ensures |title| == 0 <==> r.None?
    ensures r.Some? ==> r.value == "其他" || (r.value in SubtitleKeywords && Contains(title, r.value))
    ensures r.Some? && r.value != "其他" ==> exists i :: 0 <= i < |SubtitleKeywords| && SubtitleKeywords[i] == r.value
                                               && forall j :: 0 <= j < i ==> !Contains(title, SubtitleKeywords[j])
    ensures r == Some("其他") <==> |title| > 0 && forall k :: 0 <= k < |SubtitleKeywords| ==> !Contains(title, SubtitleKeywords[k])
  {
    if |title| == 0 then None
    else match FirstKeyword(title, SubtitleKeywords)
      case Some(k) => OtherIsNoKeyword(); Some(k)
      case None => Some("其他")
  }

  /** A keyword containing one of the short pairs, and listed neither among
      the combined keywords nor among the pairs, is never the one found: the
      pair it contains is tried first. */
  lemma ShortHidesLonger(title: string, s: nat, v: string)
    requires s < |ShortKeywords|
    requires Contains(v, ShortKeywords[s]) && v != ShortKeywords[s]
    requires v !in CombinedKeywords && v !in ShortKeywords
    ensures ExtractSubtitleType(title) != Some(v)
  {
    var pre := CombinedKeywords + ShortKeywords[..s];
    var rest := ShortKeywords[s + 1..] + TrackKeywords + LanguageKeywords;
    assert SubtitleKeywords == pre + ([ShortKeywords[s]] + rest) by {
      assert ShortKeywords == ShortKeywords[..s] + [ShortKeywords[s]] + ShortKeywords[s + 1..];
    }
    FirstKeywordAppend(title, pre, [ShortKeywords[s]] + rest);
    assert ([ShortKeywords[s]] + rest)[1..] == rest;
    if FirstKeyword(title, pre).None? && !Contains(title, ShortKeywords[s]) && FirstKeyword(title, rest) == Some(v) {
      ContainsTrans(title, v, ShortKeywords[s]);
    }
  }

  /** A four-character track keyword (ending in 内封, 内挂, 内嵌 or 外挂) is
      neither a combined keyword nor a short pair. */
  lemma TrackNotCombined(v: string)
    requires |v| == 4 && v[2..] in ["内封", "内挂", "内嵌", "外挂"]
    ensures v !in CombinedKeywords && v !in ShortKeywords
  {
    forall i | 0 <= i < |CombinedKeywords| ensures CombinedKeywords[i] != v {
      assert |CombinedKeywords[i]| != 4 || CombinedKeywords[i][2..] !in ["内封", "内挂", "内嵌", "外挂"];
    }
  }

  /** The pair a track keyword starts with is contained in it. */
  lemma PairPrefixContained(v: string, pair: string)
    requires |pair| <= |v| && v[..|pair|] == pair
    ensures Contains(v, pair)
  {
    OccursContains(v, pair, 0);
  }

  /** The eight keywords that the extraction as written can never return. */
  const ShadowedKeywords: seq<string> :=
    ["简日内封", "繁日内封", "简日内嵌", "繁日内嵌", "简繁内封", "简繁内挂", "简繁内嵌", "简繁外挂"]

  /** As written, "简日" and "繁日" come before "简日内封", "繁日内封",
      "简日内嵌" and "繁日内嵌", which are therefore never returned. */
  lemma JapanesePairShadows(title: string, k: nat)
    requires k < 4
    ensures ExtractSubtitleType(title) != Some(ShadowedKeywords[k])
  {
    var v := ShadowedKeywords[k];
    var s := if k % 2 == 0 then 0 else 1;
    assert |v| == 4 && v[..2] == ShortKeywords[s] && v[2..] in ["内封", "内挂", "内嵌", "外挂"];
    TrackNotCombined(v);
    PairPrefixContained(v, ShortKeywords[s]);
    ShortHidesLonger(title, s, v);
  }

  /** As written, "简繁" comes before "简繁内封", "简繁内挂", "简繁内嵌" and
      "简繁外挂", which are therefore never returned. */
  lemma TraditionalPairShadows(title: string, k: nat)
    requires 4 <= k < 8
    ensures ExtractSubtitleType(title) != Some(ShadowedKeywords[k])
  {
    var v := ShadowedKeywords[k];
    assert |v| == 4 && v[..2] == ShortKeywords[4] && v[2..] in ["内封", "内挂", "内嵌", "外挂"];
    TrackNotCombined(v);
    PairPrefixContained(v, ShortKeywords[4]);
    ShortHidesLonger(title, 4, v);
  }

  /** The documented example `[简繁内挂]` does not get "简繁内挂". */
  lemma DocumentedExampleFails()
    ensures ExtractSubtitleType("[简繁内挂]") != Some("简繁内挂")
  {
    ShortHidesLonger("[简繁内挂]", 4, "简繁内挂");
  }

  /** The evidently intended order: the five short pairs moved after the
      longer keywords that contain them, before the language tags. */
  const IntendedKeywords: seq<string> := CombinedKeywords + TrackKeywords + ShortKeywords + LanguageKeywords

  /** `extract_subtitle_type` with the intended keyword order. */
  function ExtractSubtitleTypeIntended(title: string): (r: Option<string>)
    ensures |title| == 0 <==> r.None?
    ensures r.Some? ==> r.value == "其他" || (r.value in IntendedKeywords && Contains(title, r.value))
    ensures r.Some? && r.value != "其他" ==> exists i :: 0 <= i < |IntendedKeywords| && IntendedKeywords[i] == r.value
                                               && forall j :: 0 <= j < i ==> !Contains(title, IntendedKeywords[j])
    ensures r == Some("其他") <==> |title| > 0 && forall k :: 0 <= k < |IntendedKeywords| ==> !Contains(title, IntendedKeywords[k])
  {
    if |title| == 0 then None
    else match FirstKeyword(title, IntendedKeywords)
      case Some(k) => OtherIsNoKeyword(); Some(k)
      case None => Some("其他")
  }

  /** A text no longer than the keyword contains it only when it is the keyword. */
  lemma {:induction false} ContainsNoShorter(s: string, sub: string)
    requires |sub| >= |s|
    ensures Contains(s, sub) <==> sub == s
    decreases |s|
  {
    if |s| > 0 {
      ContainsNoShorter(s[1..], sub);
    }
  }

  /** A keyword at most one character shorter than the text, and equal
      neither to it nor to the text less its first or last character, does not occur in it. */
  lemma NotInside(t: string, x: string)
    requires |t| > 0 && |x| + 1 >= |t| && x != t && x != t[..|t| - 1] && x != t[1..]
    ensures !Contains(t, x)
  {
    ContainsNoShorter(t[1..], x);
  }

  /** No keyword of a list that `NotInside` rules out is found. */
  lemma NoneInside(t: string, kws: seq<string>)
    requires |t| > 0
    requires t !in kws && t[..|t| - 1] !in kws && t[1..] !in kws
    requires forall x :: x in kws ==> |x| + 1 >= |t|
    ensures FirstKeyword(t, kws).None?
  {
    forall k | 0 <= k < |kws| ensures !Contains(t, kws[k]) {
      assert kws[k] in kws;
      NotInside(t, kws[k]);
    }
  }

  /** The intended list around "简繁内挂": the combined keywords, the four
      track keywords before it, then the keyword itself. */
  lemma IntendedAroundLongKeyword()
    ensures IntendedKeywords == CombinedKeywords + ["简日内封", "繁日内封", "简日内嵌", "繁日内嵌", "简繁内封"]
                                + (["简繁内挂"] + (TrackKeywords[6..] + ShortKeywords + LanguageKeywords))
  {
    assert TrackKeywords == TrackKeywords[..5] + [TrackKeywords[5]] + TrackKeywords[6..];
  }

  /** No combined keyword occurs in "简繁内挂". */
  lemma CombinedMissLongKeyword()
    ensures FirstKeyword("简繁内挂", CombinedKeywords).None?
  {
    assert "简繁内挂"[..3] == "简繁内" && "简繁内挂"[1..] == "繁内挂";
    NoneInside("简繁内挂", CombinedKeywords);
  }

  /** No track keyword listed before "简繁内挂" occurs in it. */
  lemma EarlierTracksMissLongKeyword()
    ensures FirstKeyword("简繁内挂", ["简日内封", "繁日内封", "简日内嵌", "繁日内嵌", "简繁内封"]).None?
  {
    assert "简繁内挂"[..3] == "简繁内" && "简繁内挂"[1..] == "繁内挂";
    NoneInside("简繁内挂", ["简日内封", "繁日内封", "简日内嵌", "繁日内嵌", "简繁内封"]);
  }

  /** With the intended order, no shorter keyword hides "简繁内挂": a title
      that is exactly that keyword gets it, as the documented example expects. */
  lemma IntendedFindsLongKeyword()
    ensures ExtractSubtitleTypeIntended("简繁内挂") == Some("简繁内挂")
  {
    var t := "简繁内挂";
    var before := ["简日内封", "繁日内封", "简日内嵌", "繁日内嵌", "简繁内封"];
    var rest := [t] + (TrackKeywords[6..] + ShortKeywords + LanguageKeywords);
    IntendedAroundLongKeyword();
    CombinedMissLongKeyword();
    EarlierTracksMissLongKeyword();
    FirstKeywordAppend(t, CombinedKeywords, before);
    FirstKeywordAppend(t, CombinedKeywords + before, rest);
  }

  /** The correction changes nothing for a title containing none of the five short pairs. */
  lemma IntendedAgreesWithoutShortKeywords(title: string)
    requires forall k :: 0 <= k < |ShortKeywords| ==> !Contains(title, ShortKeywords[k])
    ensures ExtractSubtitleTypeIntended(title) == ExtractSubtitleType(title)
  {
    var a, m, b, c := CombinedKeywords, ShortKeywords, TrackKeywords, LanguageKeywords;
    assert FirstKeyword(title, m).None?;
    FirstKeywordAppend(title, a + m + b, c);
    FirstKeywordAppend(title, a + m, b);
    FirstKeywordAppend(title, a, m);
    FirstKeywordAppend(title, a + b + m, c);
    FirstKeywordAppend(title, a + b, m);
    FirstKeywordAppend(title, a, b);
  }

  // ---------------------------------------------------------- normalisation

  /** The eleven normalised subtitle types. */
  const NormalTypes: set<string> := {"中日双语", "简繁双语", "简繁日", "简繁英", "简体中文", "繁体中文",
                                     "英语", "多语字幕", "中文字幕", "无字幕", "其他"}

  /** `normalization_map`, its 46 distinct keys grouped by the type they map to. */
  const NormalizationGroups: seq<(string, seq<string>)> := [
    ("中日双语", ["简日双语", "繁日双语", "中日双语", "简日双字", "繁日双字", "中日双字", "简日", "繁日",
                "简体日语双语", "繁体日语双语"]),
    ("简繁双语", ["简繁", "简繁双语", "简繁双字", "简繁外挂"]),
    ("简繁日", ["简繁日内封", "简繁日内嵌", "简繁日多语"]),
    ("简繁英", ["简繁英"]),
    ("简体中文", ["CHS", "简体", "简中", "GB", "简体内嵌", "简体内封", "简体内挂", "简体外挂", "简英"]),
    ("繁体中文", ["CHT", "繁体", "繁中", "BIG5", "繁体内嵌", "繁体内封", "繁体内挂", "繁体外挂", "繁英"]),
    ("英语", ["英语"]),
    ("多语字幕", ["双语字幕"]),
    ("中文字幕", ["中字", "中文字幕", "内嵌字幕", "内挂字幕", "外挂字幕"]),
    ("无字幕", ["无字幕", "RAW", "日语原声"])
  ]

  /** `normalization_map.get(t, "其他")`: the type of the first group listing `t`. */
  function Lookup(t: string, groups: seq<(string, seq<string>)>): (r: string)
    ensures (forall g :: g in groups ==> t !in g.1) ==> r == "其他"
    ensures (exists g :: g in groups && t in g.1) ==> exists g :: g in groups && r == g.0
  {
    if |groups| == 0 then "其他"
    else if t in groups[0].1 then groups[0].0
    else Lookup(t, groups[1..])
  }

  /** Every group maps to a normalised type other than "其他". */
  lemma GroupTypesNormal()
    ensures forall g :: g in NormalizationGroups ==> g.0 in NormalTypes && g.0 != "其他"
  {
  }

  /** `normalize_subtitle_type`: `None` for an empty text; otherwise one of
      the eleven normalised types, "其他" exactly for an unlisted text. */
  function NormalizeSubtitleType(t: string): (r: Option<string>)
    ensures |t| == 0 <==> r.None?
    ensures r.Some? ==> r.value in NormalTypes
    ensures r.Some? ==> (r.value == "其他" <==> forall g :: g in NormalizationGroups ==> t !in g.1)
  {
    GroupTypesNormal();
    if |t| == 0 then None else Some(Lookup(t, NormalizationGroups))
  }

  /** Every key of the map, group by group. */
  const NormalizationKeys: seq<string> :=
    NormalizationGroups[0].1 + NormalizationGroups[1].1 + NormalizationGroups[2].1 + NormalizationGroups[3].1
    + NormalizationGroups[4].1 + NormalizationGroups[5].1 + NormalizationGroups[6].1 + NormalizationGroups[7].1
    + NormalizationGroups[8].1 + NormalizationGroups[9].1

  /** A key of the map never normalises to "其他". */
  lemma KeyListed(v: string)
    requires v in NormalizationKeys
    ensures NormalizeSubtitleType(v) != Some("其他")
  {
    var G := NormalizationGroups;
    var i :| 0 <= i < 10 && v in G[i].1;
    assert G[i] in G;
  }

  /** Each of these keywords has an entry in the map. */
  lemma ListedKeywords(v: string)
    requires v in CombinedKeywords || v in ShortKeywords || v in TrackKeywords[7..] || v in LanguageKeywords
    ensures NormalizeSubtitleType(v) != Some("其他")
  {
    assert v in NormalizationKeys;
    KeyListed(v);
  }

  /** Every keyword the extraction as written can return is listed in the
      normalisation map, so only "其他" itself normalises to "其他". */
  lemma ExtractedTypesAreListed(title: string)
    requires ExtractSubtitleType(title).Some? && ExtractSubtitleType(title).value != "其他"
    ensures NormalizeSubtitleType(ExtractSubtitleType(title).value) != Some("其他")
  {
    var v := ExtractSubtitleType(title).value;
    assert v in SubtitleKeywords;
    if v in TrackKeywords[..7] {
      var k :| 0 <= k < 7 && TrackKeywords[k] == v;
      assert ShadowedKeywords[k] == TrackKeywords[k];
      if k < 4 { JapanesePairShadows(title, k); } else { TraditionalPairShadows(title, k); }
    } else {
      assert TrackKeywords == TrackKeywords[..7] + TrackKeywords[7..];
      ListedKeywords(v);
    }
  }

  /** The intended order makes "简繁内挂" reachable, but the map has no entry
      for it, so it would still normalise to "其他". */
  lemma IntendedTrackKeywordUnlisted()
    ensures NormalizeSubtitleType("简繁内挂") == Some("其他")
  {
    var G := NormalizationGroups;
    forall i | 0 <= i < |G| ensures "简繁内挂" !in G[i].1 {
      UnlistedInGroup(i);
    }
  }

  /** "简繁内挂" is in none of the groups, checked one group at a time. */
  lemma UnlistedInGroup(i: nat)
    requires i < |NormalizationGroups|
    ensures "简繁内挂" !in NormalizationGroups[i].1
  {
    var G := NormalizationGroups;
    var v := "简繁内挂";
    if i == 0 { assert v !in G[0].1; }
    else if i == 1 { assert v !in G[1].1; }
    else if i == 2 { assert v !in G[2].1; }
    else if i == 3 { assert v !in G[3].1; }
    else if i == 4 { assert v !in G[4].1; }
    else if i == 5 { assert v !in G[5].1; }
    else if i == 6 { assert v !in G[6].1; }
    else if i == 7 { assert v !in G[7].1; }
    else if i == 8 { assert v !in G[8].1; }
    else { assert v !in G[9].1; }
  }
}

=== FILE: worker_main.dfy ===
/** The worker manager (ikuyo/core/worker/main.py): it owns a process pool
    and a Redis task consumer, and its `start`/`stop` set their flags in a
    fixed order. Signal handlers, logging set-up, the Redis connection pool
    and the ten-second sleep are outside the model; one turn of the main loop
    is `Tick`. */
module WorkerMain {
  import opened Wrappers
  import opened ProcessPool
  import opened RedisConsumer

  /** What `get_status` reports. */
  datatype WorkerStatus = WorkerStatus(isRunning: bool, maxWorkers: int, processPool: Option<PoolStatus>)

  class WorkerManager {
    const maxWorkers: int
    var pool: Option<Pool>
    var consumer: Option<Consumer>
    var isRunning: bool

    constructor (maxWorkers: int)
      ensures this.maxWorkers == maxWorkers && pool.None? && consumer.None? && !isRunning
    {
      this.maxWorkers := maxWorkers;
      pool := None;
      consumer := None;
      isRunning := false;
    }

    /** The objects the manager owns. */
    function Parts(): set<object>
      reads this
    {
      (if pool.Some? then {pool.value} else {}) + (if consumer.Some? then {consumer.value} else {})
    }

    /** `start`. Already running: true, and nothing is created. Otherwise a
        new pool of `maxWorkers` is started (its `start` never answers false:
        spawn failures are caught per worker) and a new consumer is started;
        if the consumer cannot reach Redis the pool is stopped again and the
        answer is false. Only full success sets the flag. */
    method Start(spawn: int -> Option<int>, pingOk: bool, now: int) returns (ok: bool)
      modifies this`pool, this`consumer, this`isRunning
      ensures old(isRunning) ==> ok && isRunning && pool == old(pool) && consumer == old(consumer)
      ensures !old(isRunning) ==> pool.Some? && fresh(pool.value) && consumer.Some? && fresh(consumer.value)
      ensures !old(isRunning) ==> (ok <==> pingOk) && (isRunning <==> pingOk)
      ensures !old(isRunning) ==> pool.value.maxWorkers == maxWorkers && pool.value.Valid()
      ensures !old(isRunning) && pingOk ==> pool.value.isRunning && consumer.value.isRunning
      ensures !old(isRunning) && pingOk ==>
        forall k :: 0 <= k < maxWorkers && spawn(k).Some? ==> k in pool.value.processes
      ensures !old(isRunning) && !pingOk ==>
        !pool.value.isRunning && pool.value.processes == map[] && !consumer.value.isRunning
    {
      if isRunning {
        return true;
      }
      var p := new Pool(maxWorkers);
      pool := Some(p);
      var _ := p.Start(spawn, now);
      var c := new Consumer();
      consumer := Some(c);
      var consumerOk := c.Start(pingOk);
      if !consumerOk {
        var _ := p.Stop();
        return false;
      }
      isRunning := true;
      ok := true;
    }

    /** `stop`. Not running: true, with no effect. Otherwise the flag is
        cleared, then the consumer and the pool are stopped. */
    method Stop() returns (ok: bool)
      modifies this`isRunning, Parts()
      ensures ok && !isRunning
      ensures pool == old(pool) && consumer == old(consumer)
      ensures !old(isRunning) ==> pool.None? || (pool.value.isRunning == old(pool.value.isRunning)
                                                 && pool.value.processes == old(pool.value.processes))
      ensures !old(isRunning) ==> consumer.None? || consumer.value.isRunning == old(consumer.value.isRunning)
      ensures old(isRunning) && consumer.Some? ==> !consumer.value.isRunning
      ensures old(isRunning) && pool.Some? ==> !pool.value.isRunning && pool.value.processes == map[]
    {
      if !isRunning {
        return true;
      }
      isRunning := false;
      if consumer.Some? {
        var _ := consumer.value.Stop();
      }
      if pool.Some? {
        var _ := pool.value.Stop();
      }
      ok := true;
    }

    /** One turn of `run`'s loop: the pool, if any, restarts its dead workers. */
    method Tick(alive: int -> bool, spawn: int -> Option<int>, now: int)
      requires pool.Some? ==> pool.value.Valid()
      modifies Parts()
      ensures pool.Some? ==> pool.value.processes == Monitored(old(pool.value.processes), alive, spawn, now)
    {
      if pool.Some? {
        pool.value.MonitorProcesses(alive, spawn, now);
      }
    }

    /** `get_status`: the pool's status appears exactly when a pool exists. */
    method GetStatus(queueSize: nat) returns (s: WorkerStatus)
      requires pool.Some? ==> pool.value.Valid()
      ensures s.isRunning == isRunning && s.maxWorkers == maxWorkers
      ensures s.processPool.Some? <==> pool.Some?
      ensures s.processPool.Some? ==> s.processPool.value.totalWorkers == |pool.value.processes|
                                      && s.processPool.value.isRunning == pool.value.isRunning
    {
      if pool.None? {
        return WorkerStatus(isRunning, maxWorkers, None);
      }
      var ps := pool.value.GetPoolStatus(queueSize);
      s := WorkerStatus(isRunning, maxWorkers, Some(ps));
    }
  }
}

=== FILE: wrappers.dfy ===
/** Optional values and error-or-value results, used wherever the Python code
    returns `None` or raises. */
module Wrappers {

  /** A value that may be absent (Python's `None`). */
  datatype Option<+T> = None | Some(value: T) {
    /** The wrapped value, or `default` when absent. */
    function GetOr(default: T): T {
      match this
      case Some(v) => v
      case None => default
    }
  }

  /** The outcome of an operation that may raise: a value, or the error it raised. */
  datatype Result<+T, +E> = Ok(value: T) | Err(error: E)
}
